=== FILE: README.md ===
# GatorTools in Dafny

A model of the data-taking tools of the Gator germanium screening
facility. Three parts are modelled.

- **The processing daemon** (`GatorDaqProc`) walks the staging tree two levels deep. For every run directory with `.root` files it finds the one DAQ configuration and loads the per-directory state map. It then decides, file by file, whether to skip a run file, compute only its trigger rate, or process it fully. It archives finished files (copy, then size check, then unlink) and stores the processed table in its exported `Cols/Types/Arr` form.
- **The synchronisation daemon** (`GatorDaqSync`) walks the same tree. It decides for every `.root`, `.json` and `.txt` file whether the remote copy is out of date. It uploads through a `.part` file that is renamed into place, and it records each upload in the directory's `.sync_state`.
- **The waveform pipeline** (`processor/`):
  - the raw-file handler and its load/release state machine;
  - the processor registry and the channel map;
  - the fixed chain: raw extrema, then baseline subtraction, then the registered processors (raw pile-up flag, trapezoidal energy filter, Gaussian smoothing with pulse counting);
  - the file processor that assembles the feature table;
  - the dataset storage that labels and stacks the tables of many files.

Everything is modelled as immutable values and pure functions.

- The filesystem, the remote host and the raw file are snapshot values.
- Waveforms are `seq<real>`, 1-D or 2-D arrays are the `NdArray` datatype, and a pandas table is a `Table`: ordered column names with a typed column each.
- A Python exception is an `Err` carrying its kind.
- What comes from outside is a parameter:
  - ROOT reads, the clock, the SFTP session's answers and the size a copy ends up with;
  - the transcendental functions `exp` and `sqrt`;
  - the iteration order of a Python `set`.

Modules, one per source component:

- `Common`: Option/Result, exception kinds, Python `int()`, indexing and slicing.
- `Series`: sums, means, arg-extrema, sorting and the median.
- `NdArrays`: array shapes.
- `Tables`: columns, dtypes, filtering, concatenation, and the export/reload pair.
- `WfsLibs`: the numeric kernels.
- `WfsProc`: the registry, the channel map and the base processor.
- `RawStages`, `Bsln`, `TrapStage`, `GaussStage`: the stages.
- `RawFile`: the raw-file handler.
- `FileProc`: the file processor.
- `Storage`: the dataset storage.
- `Walk`: paths and the tree walk.
- `TrigRate`: the trigger rate.
- `DaqProc`: the processing daemon.
- `Sync`: the synchronisation daemon.

## Model

| member | source | states |
|---|---|---|
| `Common.Trunc` | GatorDaqProc.py:330 | Python's `int()` on a float truncates toward zero: for a non-negative value the result is the largest integer not above it, for a negative value the smallest not below it |
| `Common.PySliceHead` | processor/wfs_processors/GatorBslnSubtraction.py:26 | the slice `s[:k]` is a prefix of `s` whose length is `k` clipped to `|s|`, or `|s| + k` (at least 0) for a negative `k` |
| `Series.ArgMax` | processor/wfs_processors/GatorBslnSubtraction.py:51 | `np.argmax` of a non-empty row: an index holding the maximum, and the first one (every earlier sample is strictly smaller) |
| `Series.ArgMin` | processor/wfs_processors/GatorRawWfsProc.py:20 | `np.argmin` of a non-empty row: an index holding the minimum, and the first one |
| `Series.SortSeq` | processor/wfs_processors/GatorBslnSubtraction.py:29 | the sort under `np.median` returns a sorted permutation of its input (same multiset) |
| `Series.MedianBetweenMinAndMax` | processor/wfs_processors/GatorBslnSubtraction.py:29 | the median of a non-empty window (middle element, or mean of the two middle ones) lies between its minimum and maximum |
| `NdArrays.AsRows` | processor/wfs_processors/GatorBslnSubtraction.py:21-22 | `arr[None, :]` turns a 1-D waveform into a one-row batch of the same samples and leaves a 2-D batch as it is |
| `NdArrays.SingleEvent` | processor/wfs_processors/GatorBslnSubtraction.py:80-85 | a single waveform is accepted as 1-D, or 2-D with at most one row (flattened); more rows or a higher rank raise TypeError |
| `Common.PyIndex` | processor/data_managers/GatorDatasetsStorage.py:64-66 | Python list indexing: an index is accepted exactly when it lies in `[-len, len)`; a non-negative one is itself and a negative one counts from the end |
| `Common.U32` | processor/data_managers/GatorRawFileHandler.py:42-43 | `astype(np.uint32)` lands in `[0, 2^32)`, keeps values already in range, and otherwise wraps modulo `2^32` |
| `Bsln.ParseMethod` | processor/wfs_processors/GatorBslnSubtraction.py:34-40 | `"mean"` and `"median"` are the only baseline methods, each mapped to its own method; any other string raises ValueError |
| `Bsln.Corrected` | processor/wfs_processors/GatorBslnSubtraction.py:43-46 | every corrected sample is the raw sample minus the event's baseline, or the baseline minus the sample when `neg_pulse` is set; the length is kept |
| `Bsln.EventOf` | processor/wfs_processors/GatorBslnSubtraction.py:26-60 | for one event: mean, standard deviation, median and median absolute deviation of the window `row[:bslnsamps]`, the corrected waveform, the first position of its maximum, and the amplitude from that position |
| `Bsln.Events` | processor/wfs_processors/GatorBslnSubtraction.py:26-63 | one statistics record per event row, in event order |
| `Bsln.BslnColNames` | processor/wfs_processors/GatorBslnSubtraction.py:27-63 | the six column names written for a channel are pairwise distinct |
| `Bsln.StatCols` | processor/wfs_processors/GatorBslnSubtraction.py:27-63 | the six columns hold one value per event; mean, rms, median and MAD are float32 like the waveforms they reduce, `samp_max` is int64 and `ampl_max` float64 |
| `Bsln.BslnColumnsMeaning` | processor/wfs_processors/GatorBslnSubtraction.py:27-63 | once written, the six columns exist, have one value per event, and row `i` holds event `i`'s mean, rms, median, MAD, sample of the maximum and amplitude |
| `Bsln.BslnChannel` | processor/wfs_processors/GatorBslnSubtraction.py:14-63 | a missing `bslnsamps` or waveform raises KeyError and an unknown method ValueError; on success only the channel's six columns are added or replaced, the correction is the per-event baseline subtraction, and the columns hold the per-event statistics; every computable channel succeeds |
| `Bsln.WindowsNonEmpty` | processor/wfs_processors/GatorBslnSubtraction.py:21-26 | a 1-D or 2-D waveform array with a known method and a non-empty baseline window (or no events) can be processed |
| `Bsln.ComputeChannel` | processor/wfs_processors/GatorBslnSubtraction.py:21-63 | the channel's correction and six statistics columns, and nothing else of the table changes |
| `Bsln.WriteStats` | processor/wfs_processors/GatorBslnSubtraction.py:27-63 | only the six columns of the channel change, and they hold the given statistics |
| `Bsln.BslnChannels` | processor/wfs_processors/GatorBslnSubtraction.py:14-17 | the channels processed are exactly those whose configuration has a `bslnsubtr` block |
| `Bsln.BslnLoop` | processor/wfs_processors/GatorBslnSubtraction.py:14-64 | over the channels in order: only the baseline columns of configured channels change; the returned corrections are keyed by exactly those channels, each being that channel's baseline subtraction; for distinct channels the final table's six columns of every configured channel hold its per-event mean, rms, median, MAD, sample of the maximum and amplitude; a configured channel without waveforms makes the loop fail |
| `Bsln.BslnDoProc` | processor/wfs_processors/GatorBslnSubtraction.py:10-65 | `doProc` changes only the baseline columns and returns one correction per configured channel, each that channel's baseline subtraction, and every configured channel's six columns in the returned table hold its per-event statistics |
| `Bsln.SingleChannel` | processor/wfs_processors/GatorBslnSubtraction.py:76-98 | missing keys raise KeyError and anything but a single waveform TypeError; the result has one sample per raw sample |
| `Bsln.SingleLoop` | processor/wfs_processors/GatorBslnSubtraction.py:71-99 | the single-event result is keyed by exactly the configured channels, each entry a 1-D waveform equal to that channel's single-event correction |
| `Bsln.BslnSingleEvent` | processor/wfs_processors/GatorBslnSubtraction.py:68-100 | `procSingleEvent` returns 1-D corrections for exactly the configured channels |
| `Bsln.SingleEventMatchesDoProc` | processor/wfs_processors/GatorBslnSubtraction.py:85-98 | for an array holding one event, `procSingleEvent` returns the same corrected waveform `doProc` computes |
| `Bsln.MeanMethodCentresWindow` | processor/wfs_processors/GatorBslnSubtraction.py:35-36 | with the mean method, the corrected baseline window sums to zero |
| `Bsln.NegPulseFlips` | processor/wfs_processors/GatorBslnSubtraction.py:45-46 | `neg_pulse` turns the correction into exactly its negation |
| `Bsln.MeanMethodIgnoresOffset` | processor/wfs_processors/GatorBslnSubtraction.py:26-60 | with the mean method, adding a constant offset to the raw waveform changes neither the correction, the sample of the maximum, the amplitude nor the rms |
| `Bsln.AmplMaxAtMostPeak` | processor/wfs_processors/GatorBslnSubtraction.py:56-60 | the amplitude (mean of five samples around the peak, or the peak sample near the edges) is at most the peak value, and equals it when the peak is within two samples of an edge |
| `Bsln.EventAmplAtMostPeak` | processor/wfs_processors/GatorBslnSubtraction.py:51-63 | every event's amplitude is at most its corrected maximum |
| `Bsln.MedianStatsBounded` | processor/wfs_processors/GatorBslnSubtraction.py:29-31 | the median baseline lies within the window's range and the MAD is never negative |
| `RawStages.RawColNames` | processor/wfs_processors/GatorRawWfsProc.py:17-20 | the four column names of a channel are pairwise distinct |
| `RawStages.RawColumnsMeaning` | processor/wfs_processors/GatorRawWfsProc.py:17-20 | in every row the max/min value columns hold the extreme sample of the event and the position columns the first index where it occurs |
| `RawStages.RawChannel` | processor/wfs_processors/GatorRawWfsProc.py:14-20 | the channel fails (ValueError) exactly when its array is not 1-D/2-D, has no samples, or has a different number of events than the table; otherwise only its four columns are added or replaced, holding the per-event extrema |
| `RawStages.RawWfsLoop` | processor/wfs_processors/GatorRawWfsProc.py:13-21 | a channel without waveforms makes the loop fail; only raw columns change, and for distinct channels every channel's columns hold its extrema |
| `RawStages.Reshaped` | processor/wfs_processors/GatorRawWfsProc.py:14-15 | the stored arrays are the raw arrays with every processed channel turned into a batch of rows; other entries are untouched |
| `RawStages.RawWfsInit` | processor/wfs_processors/GatorRawWfsProc.py:6-7 | a new processor holds no waveforms |
| `RawStages.RawWfsDoProc` | processor/wfs_processors/GatorRawWfsProc.py:10-22 | `doProc` keeps and returns the reshaped raw arrays, changes only the raw columns, and every channel's columns hold its extrema |
| `RawStages.RawWfsSingleEvent` | processor/wfs_processors/GatorRawWfsProc.py:25-26 | `procSingleEvent` returns the arrays kept by the last `doProc`, whatever it is given |
| `RawStages.SingleEventReturnsLastDoProc` | processor/wfs_processors/GatorRawWfsProc.py:11-26 | after a `doProc`, `procSingleEvent` returns that call's reshaped arrays (all batches), ignoring its own arguments |
| `RawStages.SpreadFlags` | processor/wfs_processors/GatorRawPurProc.py:19 | flag `i` is whether max minus min of event `i` exceeds the threshold |
| `RawStages.RawPurChannel` | processor/wfs_processors/GatorRawPurProc.py:19 | without the max or min column the stage raises KeyError; otherwise only `<ch>_raw_pur` is added or replaced, a boolean column whose row `i` says whether the spread exceeds the threshold |
| `RawStages.PurStep` | processor/wfs_processors/GatorRawPurProc.py:14-19 | a channel without a `rawpur` threshold is skipped (table unchanged); otherwise only its flag column changes |
| `RawStages.RawPurLoop` | processor/wfs_processors/GatorRawPurProc.py:13-20 | only the flag columns of channels with a threshold change; for distinct channels, each such channel's final flag column is boolean with one row per event, row `i` being whether the max column minus the min column of the input table exceeds the threshold |
| `RawStages.RawPurDoProc` | processor/wfs_processors/GatorRawPurProc.py:12-22 | `doProc` returns no waveforms, changes only flag columns, and every thresholded channel's flag column holds, per event, whether its max minus min exceeds the threshold |
| `RawStages.RawPurSingleEvent` | processor/wfs_processors/GatorRawPurProc.py:25-26 | `procSingleEvent` returns no waveforms |
| `RawStages.PurFlagsSpread` | processor/wfs_processors/GatorRawPurProc.py:19 | after the raw stage, the flag of every event is whether the event's own samples spread by more than the threshold |
| `RawStages.PurFlagsFromColumns` | processor/wfs_processors/GatorRawPurProc.py:19 | on a table holding the extrema columns the flag stage succeeds and flags by max minus min of each event |
| `TrapStage.Settings` | processor/wfs_processors/TrapezoidProc.py:17-23 | a channel is filtered exactly when `processors.trapezoid` gives `shape_time`, `tau` and `flat_top`; a missing key skips it |
| `TrapStage.EnergyCol` | processor/wfs_processors/TrapezoidProc.py:30 | one float32 energy value per event |
| `TrapStage.PurCol` | processor/wfs_processors/TrapezoidProc.py:32 | one float32 pile-up value per event |
| `TrapStage.TrapColNames` | processor/wfs_processors/TrapezoidProc.py:30-32 | the energy and pile-up column names of a channel differ |
| `TrapStage.TrapChannel` | processor/wfs_processors/TrapezoidProc.py:26-34 | the channel succeeds exactly when the waveforms are a batch with samples and one row per event, `tau` is not zero, the taps stay inside (`shape_time >= 0`, `shape_time + flat_top >= 0`), and, when there are events, the shaping time is positive and the filter parameters are valid; the result is then the batch's trapezoid filter, and only the two columns change, holding each event's filter maximum and area over maximum; a batch without samples raises ValueError, a 1-D array AxisError (`axis=1`), and a filter error propagates |
| `WfsProc.ChannelsWhere` | processor/wfs_processors/TrapezoidProc.py:16-23 | a channel is processed exactly when it is listed and passes the stage's test; for the trapezoid stage the test is complete settings and a baseline-subtracted waveform, and the Gaussian stage (`WfsGaussianFilters.py:19-26`) uses its own filter settings |
| `TrapStage.TrapLoop` | processor/wfs_processors/TrapezoidProc.py:16-35 | only the trapezoid columns of filtered channels change; the returned filters are keyed by exactly those channels, each the filter of that channel's waveforms; for distinct channels every filtered channel's final energy column holds each event's filter maximum and its pile-up column the area over that maximum |
| `TrapStage.TrapDoProc` | processor/wfs_processors/TrapezoidProc.py:13-37 | `doProc` changes only trapezoid columns and returns one filter per filtered channel, each the filter of its waveforms, and every filtered channel's energy and pile-up columns hold each event's filter maximum and area over maximum |
| `TrapStage.TrapSingleChannel` | processor/wfs_processors/TrapezoidProc.py:54-61 | anything but a single waveform raises TypeError; otherwise the result has one sample per input sample and is the trapezoid of the flattened waveform |
| `TrapStage.TrapSingleLoop` | processor/wfs_processors/TrapezoidProc.py:43-62 | the single-event result is keyed by exactly the filtered channels, each a 1-D filter equal to that channel's single-event filter |
| `TrapStage.TrapSingleEvent` | processor/wfs_processors/TrapezoidProc.py:40-63 | `procSingleEvent` returns 1-D filters for exactly the filtered channels |
| `TrapStage.PurIgnoresAmplitude` | processor/wfs_processors/TrapezoidProc.py:30-32 | scaling a trapezoid by a positive factor scales its energy by that factor and leaves its pile-up value unchanged: `trap_pur` measures the shape, not the height |
| `TrapStage.StackedPulsesKeepPur` | processor/wfs_processors/TrapezoidProc.py:26-32 | a waveform that is `k` copies of a pulse added together has `k` times the pulse's energy and the same pile-up value |
| `TrapStage.SilentEventHasNoEnergy` | processor/wfs_processors/TrapezoidProc.py:30-32 | an all-zero waveform has zero energy and a pile-up value that is not a number (0/0) |
| `TrapStage.PileUpEnergyAtMostSum` | processor/wfs_processors/TrapezoidProc.py:26-30 | the energy of two overlapping pulses is at most the sum of their energies (the filter is linear) |
| `TrapStage.SingleEventMatchesDoProc` | processor/wfs_processors/TrapezoidProc.py:59-61 | for a batch of one event, `procSingleEvent` returns the filter `doProc` computes |
| `WfsLibs.Trapezoid` | processor/wfs_utils/GatorWfsLibs.py:66-85 | one output sample per input sample, sample `n` being `s[n]/tau/w` of the running sums `p` and `s` over the four-tap differences |
| `WfsLibs.TrapezoidalFiltRow` | processor/wfs_utils/GatorWfsLibs.py:59-85 | the sample loop that carries `pn` and `sn` from one sample to the next computes, at every sample, the closed-form recurrences `p[n]=p[n-1]+d[n]`, `s[n]=s[n-1]+p[n]+d[n]/a` scaled by `1/tau/w` |
| `WfsLibs.FourTap` | processor/wfs_utils/GatorWfsLibs.py:67-73 | the local difference starts from `x[n]` and subtracts `x[n-w]`, `x[n-w-g]` and adds `x[n-2w-g]`, each tap only when its index is not negative |
| `WfsLibs.TrapezoidalFilt` | processor/wfs_utils/GatorWfsLibs.py:45-90 | a 1-D waveform gives a 1-D trapezoid of the same length; a batch gives a batch of the same shape, row by row; an array of higher rank fails the two-value shape unpacking with ValueError |
| `WfsLibs.TrapFilter` | processor/wfs_utils/GatorWfsLibs.py:45-90 | higher rank raises ValueError; `tau == 0` raises ZeroDivisionError at `1./tau`; no samples returns the input unchanged; a negative shaping time or `w+g < 0` reads past the end (IndexError); a batch without events then comes back unchanged whatever the shaping time and `a`; the filter succeeds exactly in these unchanged cases or when the shaping time is positive and the parameters with `a = exp(1/tau) - 1` are valid, and any success on a waveform or a non-empty batch with samples equals the filter with that `a` |
| `WfsLibs.ZeroInputZeroTrapezoid` | processor/wfs_utils/GatorWfsLibs.py:66-85 | an all-zero waveform filters to an all-zero trapezoid |
| `WfsLibs.TrapezoidAdds` | processor/wfs_utils/GatorWfsLibs.py:66-85 | the filter is linear: the trapezoid of a sum of waveforms is the sum of their trapezoids |
| `WfsLibs.TrapezoidRepeats` | processor/wfs_utils/GatorWfsLibs.py:66-85 | the trapezoid of `k` stacked copies of a waveform is `k` copies of its trapezoid |
| `WfsLibs.ConstantInputDifferenceVanishes` | processor/wfs_utils/GatorWfsLibs.py:67-73 | on a constant waveform the four-tap difference is zero once all four taps lie inside the waveform |
| `WfsLibs.GaussWeights` | processor/wfs_utils/GatorWfsLibs.py:119-122 | the kernel has `2*kernel_half_width+1` weights, one per offset in `-h..h` |
| `WfsLibs.SmoothingKernel` | processor/wfs_utils/GatorWfsLibs.py:124-125 | the smoothing kernel sums to 1 and is proportional to the Gaussian weights |
| `WfsLibs.DerivativeKernel` | processor/wfs_utils/GatorWfsLibs.py:126-129 | the centred derivative kernel keeps the kernel length and has sum and mean exactly 0 |
| `WfsLibs.ConvolveFull` | processor/wfs_utils/GatorWfsLibs.py:133 | the full convolution has `|x|+|k|-1` samples |
| `WfsLibs.ConvolveSame` | processor/wfs_utils/GatorWfsLibs.py:133 | `mode='same'` keeps the waveform length and is the centred window of the full convolution |
| `WfsLibs.ConvolveImpulseIsIdentity` | processor/wfs_utils/GatorWfsLibs.py:133 | convolving with a centred unit impulse returns the waveform itself |
| `WfsLibs.FlatInterior` | processor/wfs_utils/GatorWfsLibs.py:133 | away from the edges, a flat waveform convolves to its level times the kernel sum (so the smoothing kernel keeps a flat level and the derivative kernel gives 0) |
| `WfsLibs.FilterArray` | processor/wfs_utils/GatorWfsLibs.py:111-137 | a 1-D waveform gives a 1-D result of the same length; a non-empty batch gives a batch of the same shape, each row convolved on its own; an empty batch gives an empty 1-D array; higher rank is a ValueError |
| `WfsLibs.GaussianFilter` | processor/wfs_utils/GatorWfsLibs.py:93-137 | smoothing convolves with the normalised kernel, `derivative=True` with the centred derivative kernel; it fails only for higher-rank input |
| `WfsLibs.GaussFilters` | processor/wfs_utils/GatorWfsLibs.py:140-144 | the pair is the smoothed and the derivative filtering of the same input, both of the input's shape |
| `WfsLibs.TransitionMask` | processor/wfs_utils/GatorWfsLibs.py:152-158 | sample `i` is marked exactly when the derivative's sign goes from positive to negative between `i` and `i+1` or between `i-1` and `i` |
| `WfsLibs.PileMask` | processor/wfs_utils/GatorWfsLibs.py:161-165 | a sample is in the pile mask exactly when the waveform exceeds the threshold there and the sample is marked as a transition |
| `WfsLibs.LabelIsSegmentLabelling` | processor/wfs_utils/GatorWfsLibs.py:167-168 | the labelling gives 0 exactly off the mask, one label per maximal run of marked samples, the runs numbered `1..n` from left to right, and `n` is the largest label |
| `WfsLibs.FindRelMaxima` | processor/wfs_utils/GatorWfsLibs.py:147-169 | `thr <= 0` raises ValueError, and so does an empty waveform (the maximum of no labels); otherwise the count and labels are the segment labelling of the pile mask |
| `WfsLibs.TwoSeparatedPulsesCountTwo` | processor/wfs_utils/GatorWfsLibs.py:147-169 | a worked example of `WfsLibs.LabelIsSegmentLabelling` (the all-inputs statement): two above-threshold positive-to-negative crossings separated by a quiet sample count as two pulses labelled 1 and 2 |
| `WfsProc.FromMembers` | processor/wfs_processors/GatorWfsProc.py:33 | loading a JSON object gives a channel list with no repeats that names exactly the map's channels |
| `WfsProc.FromMembersKeys` | processor/wfs_processors/GatorWfsProc.py:33 | a channel is in the map exactly when some member of the JSON object has that key |
| `WfsProc.FromMembersLastValue` | processor/wfs_processors/GatorWfsProc.py:33 | a repeated key takes the value of its last occurrence |
| `WfsProc.FromMembersFirstOccurrenceOrder` | processor/wfs_processors/GatorWfsProc.py:43 | `chs_lst` lists the channels in the order of their first occurrence in the JSON object |
| `WfsProc.ReplaceQuotes` | processor/wfs_processors/GatorWfsProc.py:32 | every single quote becomes a double quote and every other character is kept |
| `WfsProc.ReplaceQuotesNormalises` | processor/wfs_processors/GatorWfsProc.py:32 | the fixed string holds no single quote, and fixing it again changes nothing |
| `WfsProc.Parsed` | processor/wfs_processors/GatorWfsProc.py:33 | text the JSON parser accepts gives the map of its members; text it refuses raises ValueError (`JSONDecodeError`) |
| `WfsProc.LoadChsMap` | processor/wfs_processors/GatorWfsProc.py:25-43 | a non-empty `jsonstr` is parsed after the quote fix; otherwise a non-empty `jsonfile` is read, FileNotFoundError when it does not exist; neither raises ValueError |
| `WfsProc.JsonStrWins` | processor/wfs_processors/GatorWfsProc.py:28-33 | with a non-empty `jsonstr`, the `jsonfile` argument and the files on disk make no difference |
| `WfsProc.Register` | processor/wfs_processors/GatorWfsProc.py:14-21 | a name already registered raises RuntimeError and leaves the registry unchanged; a new name is added, mapped to the class, the class returned, and every other entry kept |
| `WfsProc.RegisterTwiceKeepsFirst` | processor/wfs_processors/GatorWfsProc.py:16-19 | registering a name twice fails the second time and the first class stays registered |
| `WfsProc.DefaultRegistry` | processor/wfs_processors/GatorRawPurProc.py:6 | the three processors register under `rawpur`, `trapezoid` and `gaussfilter` without a clash, and no other name is registered |
| `WfsProc.Construct` | processor/wfs_processors/GatorWfsProc.py:71-86 | given a data processor, the instance is appended to its callbacks before `_post_init` runs; the base class then raises NotImplementedError, every concrete processor is built |
| `WfsProc.BaseProcFailsAfterAppending` | processor/wfs_processors/GatorWfsProc.py:74-85 | the base class is appended to the callbacks and still fails; a concrete processor without a data processor is built |
| `GaussStage.GaussSettingsOf` | processor/wfs_processors/WfsGaussianFilters.py:21-26 | a channel is smoothed exactly when `processors.gaussfilter` gives `sigma` and `kernel_half_width`; `find_pulses` and `derivative` count only when they are `True` |
| `GaussStage.PeakCounts` | processor/wfs_processors/WfsGaussianFilters.py:37-39 | one count per event, each the number of labelled regions `find_rel_maxima` finds in that event with the threshold `ampl_min_thr` |
| `GaussStage.PeakCountLabel` | processor/wfs_processors/WfsGaussianFilters.py:38-39 | the first value `find_rel_maxima` returns is the number of maximal regions of its pile mask |
| `GaussStage.SmoothColNames` | processor/wfs_processors/WfsGaussianFilters.py:32-33 | the amplitude and position column names of a channel differ |
| `GaussStage.SmoothColumnsMeaning` | processor/wfs_processors/WfsGaussianFilters.py:32-33 | `smooth_pulse_ampl` is at least every sample of the smoothed row and `smooth_pulse_maxpos` indexes a sample equal to it, the first such |
| `GaussStage.GaussChannel` | processor/wfs_processors/WfsGaussianFilters.py:29-43 | the channel succeeds exactly when the waveforms are a batch with samples and one row per event (at least one), the kernels are finite, and, with `find_pulses`, `ampl_min_thr` is given and positive; higher rank raises ValueError; an empty batch or a 1-D array fails the `axis=1` reduction (AxisError); a negative half width raises ValueError; on success the smoothed batch has one row per event, only the two amplitude columns and, with `find_pulses`, `n_peaks` are added, and `n_peaks` holds the per-event counts over the derivative and smoothed rows |
| `GaussStage.SmoothChannel` | processor/wfs_processors/WfsGaussianFilters.py:29-43 | with finite kernels, only the pulse search can fail: `find_pulses` without `ampl_min_thr` raises KeyError, a non-positive threshold ValueError |
| `GaussStage.NoPulses` | processor/wfs_processors/WfsGaussianFilters.py:41-42 | without `find_pulses`, `swfd` is None and no `n_peaks` column is written |
| `GaussStage.PulseChannel` | processor/wfs_processors/WfsGaussianFilters.py:35-40 | with `find_pulses`, the derivative batch is stored as `swfd` and `n_peaks` is added, leaving the smoothed columns as they were |
| `GaussStage.WriteCounts` | processor/wfs_processors/WfsGaussianFilters.py:39 | only the `n_peaks` column is written and it holds the counts |
| `GaussStage.WritePeaks` | processor/wfs_processors/WfsGaussianFilters.py:32-33 | only the two amplitude columns are written, holding each row's maximum and its position |
| `GaussStage.GaussLoop` | processor/wfs_processors/WfsGaussianFilters.py:19-44 | on success the output holds exactly the processed channels, each the smoothing of its own waveforms, and only their columns change; for distinct channels every processed channel's final amplitude column holds each smoothed row's maximum, its position column the first index of it, and, with `find_pulses`, its `n_peaks` column the per-event pulse counts |
| `GaussStage.GaussLoopStep` | processor/wfs_processors/WfsGaussianFilters.py:30 | adding one channel's output keeps the output's key set equal to the channels processed so far |
| `GaussStage.GaussDoProc` | processor/wfs_processors/WfsGaussianFilters.py:16-45 | `doProc` over the channel list changes only the processed channels' columns, returns exactly their smoothing results, and every processed channel's amplitude, position and (with `find_pulses`) `n_peaks` columns hold the values computed from those results |
| `GaussStage.GaussSingleChannel` | processor/wfs_processors/WfsGaussianFilters.py:60-75 | more than one row or higher rank raises TypeError; a negative half width ValueError; otherwise the smoothed single waveform keeps its length, is the convolution with the normalised kernel, and `swfd` is present exactly when `derivative` (not `find_pulses`) is set, holding the convolution with the zero-mean derivative kernel |
| `GaussStage.GaussSingleLoop` | processor/wfs_processors/WfsGaussianFilters.py:51-78 | on success the result holds exactly the channels with settings and a waveform, each the single-channel result |
| `GaussStage.GaussSingleEvent` | processor/wfs_processors/WfsGaussianFilters.py:48-78 | `procSingleEvent` returns exactly the processed channels, each smoothed into a 1-D waveform |
| `GaussStage.SingleEventMatchesDoProc` | processor/wfs_processors/WfsGaussianFilters.py:62-69 | for a one-row batch, the single-event smoothing is the batch smoothing's only row |
| `GaussStage.SmoothingKeepsFlat` | processor/wfs_processors/WfsGaussianFilters.py:29 | away from the edges, smoothing leaves a flat waveform at its level |
| `GaussStage.DerivativeVanishesOnFlat` | processor/wfs_processors/WfsGaussianFilters.py:37 | away from the edges, the derivative filter of a flat waveform is 0 |
| `GaussStage.PeaksCountRegions` | processor/wfs_processors/WfsGaussianFilters.py:37-39 | every event's `n_peaks` entry is an integer equal to the number of regions of its pile mask |
| `RawFile.Dedup` | processor/data_managers/GatorRawFileHandler.py:22 | the waveform dict built from the channel list names every listed channel exactly once |
| `RawFile.Decimal` | processor/data_managers/GatorRawFileHandler.py:20 | `str(dig_id)` is a non-empty run of decimal digits |
| `RawFile.DecimalRoundTrip` | processor/data_managers/GatorRawFileHandler.py:20 | reading the digits back gives the digitizer number, so the tree name determines it |
| `RawFile.TreeNamesDiffer` | processor/data_managers/GatorRawFileHandler.py:20 | two digitizers never share a tree name `dig_<n>` |
| `RawFile.WaveSample` | processor/data_managers/GatorRawFileHandler.py:42-43 | a sample read as `uint32` lies in `[0, 2^32)` before it is widened to float |
| `RawFile.WaveRow` | processor/data_managers/GatorRawFileHandler.py:42-43 | every sample of a row goes through the `uint32` cast, and the length is kept |
| `RawFile.ReadBranch` | processor/data_managers/GatorRawFileHandler.py:42-43 | a branch of scalars gives a 1-D array; a fixed-length waveform branch gives a batch of the branch's width with one cast row per event, also when it has no events; a variable-length branch is refused (ValueError) exactly when it has an event |
| `RawFile.OpenTree` | processor/data_managers/GatorRawFileHandler.py:39-40 | a missing file raises FileNotFoundError, a file without the `dig_<n>` tree KeyError; otherwise that tree |
| `RawFile.ReadWfs` | processor/data_managers/GatorRawFileHandler.py:41-43 | succeeds exactly when every channel's branch exists and reads; then every channel maps to its branch's array and no other key appears |
| `RawFile.FreshWfs` | processor/data_managers/GatorRawFileHandler.py:89-94 | a fresh read yields one array per channel |
| `RawFile.FreshDf` | processor/data_managers/GatorRawFileHandler.py:39-55 | a fresh read of the table has the raw column layout |
| `RawFile.RawDfCols` | processor/data_managers/GatorRawFileHandler.py:50-53 | the table has three distinct columns, `RunTime`, `EvCounter`, `TimeTrigTag` |
| `Tables.Float32Col` | processor/data_managers/GatorRawFileHandler.py:46 | the run-time column is `float32` and holds the branch's values |
| `RawFile.UInt32Col` | processor/data_managers/GatorRawFileHandler.py:47-48 | a counter column is `uint32` and holds each value truncated and wrapped to 32 bits |
| `RawFile.ReadDf` | processor/data_managers/GatorRawFileHandler.py:46-55 | a missing `RunTime`, `EvCounter_<n>` or `TimeTrigTag_<n>` branch raises KeyError; branches that are not scalar or differ in length raise ValueError; otherwise a table with one row per run-time entry, the `float32` run-time column, and the event counters and trigger time tags truncated and wrapped to `uint32` |
| `RawFile.NoWfs` | processor/data_managers/GatorRawFileHandler.py:22 | every channel maps to None |
| `RawFile.AllWfs` | processor/data_managers/GatorRawFileHandler.py:41-43 | every channel maps to its array |
| `RawFile.NewHandler` | processor/data_managers/GatorRawFileHandler.py:8-28 | an empty channel list raises ValueError; otherwise a handler over those channels with neither flag set and every waveform None |
| `RawFile.Release` | processor/data_managers/GatorRawFileHandler.py:66-74 | a no-op before loading; afterwards every waveform is None and `wfs_on_memory` is false, with the table and the loaded flag kept |
| `RawFile.Call` | processor/data_managers/GatorRawFileHandler.py:33-63 | a no-op while the waveforms are in memory; otherwise a success sets `data_loaded`, stores the freshly read table, leaves `wfs_on_memory == keep_wf`, and keeps the fresh waveforms when asked; a missing file raises FileNotFoundError |
| `RawFile.LoadWfs` | processor/data_managers/GatorRawFileHandler.py:78-97 | a no-op before loading or when the waveforms are in memory; otherwise a success puts the freshly read waveforms in memory and changes nothing else |
| `RawFile.GetDf` | processor/data_managers/GatorRawFileHandler.py:100-101 | before the first call there is no table (`None.copy()`, AttributeError); afterwards the table itself |
| `RawFile.Contents` | processor/data_managers/GatorRawFileHandler.py:111 | the copies exist exactly when every channel holds an array, and then they are those arrays |
| `RawFile.GetWfs` | processor/data_managers/GatorRawFileHandler.py:104-116 | before loading it raises AttributeError; a success returns one array per channel and leaves `wfs_on_memory`, the loaded flag and the table as they were before the call |
| `RawFile.ContentsOfAllWfs` | processor/data_managers/GatorRawFileHandler.py:111 | copying a full waveform dict returns exactly its arrays |
| `RawFile.GetWfsInMemory` | processor/data_managers/GatorRawFileHandler.py:104-116 | with the waveforms in memory, `getWfs` returns them and leaves the handler unchanged |
| `RawFile.GetWfsFresh` | processor/data_managers/GatorRawFileHandler.py:106-116 | with the waveforms not in memory, `getWfs` returns a fresh read and releases them again |
| `RawFile.LoadedStaysLoaded` | processor/data_managers/GatorRawFileHandler.py:57 | once set, `data_loaded` is never cleared by any operation |
| `RawFile.GetWfsAfterReleasingCall` | processor/data_managers/GatorRawFileHandler.py:59-63 | after a call with `keep_wf=False`, `getWfs` still succeeds with the fresh waveforms and leaves them out of memory |
| `RawFile.KeepOrReleaseSameWfs` | processor/data_managers/GatorRawFileHandler.py:59-63 | `getWfs` returns the same waveforms whether the call kept them or released them |
| `FileProc.WithFilename` | processor/data_managers/GatorFileProcessor.py:22-26 | the table gets `filename` as its first column, repeating the file's name on every row, followed by the handler's columns in their original order with their values kept |
| `FileProc.CallbackNames` | processor/data_managers/GatorFileProcessor.py:40-51 | a name is a callback name exactly when some channel that has `processors` lists it; channels without `processors` contribute none |
| `FileProc.ParseCallbacks` | processor/data_managers/GatorFileProcessor.py:52-56 | succeeds exactly when every name is registered to a processor that can be built; then one callback per name, in the order the set is iterated, each the registered class; an unregistered name raises KeyError, the base class NotImplementedError |
| `FileProc.ParseWithoutBase` | processor/data_managers/GatorFileProcessor.py:51-56 | when no registered class is the base class, parsing succeeds exactly when every name is registered, and gives exactly one callback per distinct name; otherwise KeyError |
| `FileProc.DefaultCallbacks` | processor/data_managers/GatorFileProcessor.py:51-54 | with the three registered processors, construction succeeds exactly when the map mentions no other processor name, with one callback per distinct name |
| `FileProc.DistinctCard` | processor/data_managers/GatorFileProcessor.py:51 | iterating a set visits each of its names exactly once |
| `FileProc.NewFileProcessor` | processor/data_managers/GatorFileProcessor.py:11-37 | a map without channels raises ValueError (the handler); on success the table is the freshly read one with `filename` in front, the handler is loaded, keeps its own raw table, and holds the waveforms exactly when `keepwfs`, and the callbacks are the parsed ones |
| `FileProc.RunStage` | processor/data_managers/GatorFileProcessor.py:82-87 | a callback writes only its own stage's columns; the base class raises NotImplementedError |
| `FileProc.RunCallbacks` | processor/data_managers/GatorFileProcessor.py:82-88 | the callbacks run one after another on the same table, each exactly once, and only their columns change; a base-class callback makes the call fail |
| `FileProc.ZeroEventFilePassesRawStage` | processor/data_managers/GatorRawFileHandler.py:42-43 | a run file with no events reads each fixed-length waveform branch as an empty batch of the branch's width, which the raw stage accepts against the empty event table |
| `FileProc.CorrectionsWellShaped` | processor/data_managers/GatorFileProcessor.py:81 | the baseline-subtracted arrays handed to the callbacks are well-shaped batches |
| `FileProc.Run` | processor/data_managers/GatorFileProcessor.py:59-91 | only the raw, baseline and callback stages' columns change; the baseline-subtracted arrays are those of the channels with baseline settings; `wfs_on_memory` is as before, and an unloaded handler raises AttributeError |
| `FileProc.RunStageOrder` | processor/data_managers/GatorFileProcessor.py:59-91 | the raw stage reshapes the handler's waveforms into batches and its extrema columns hold in the table the baseline stage receives; every baseline-subtracted array is the correction of its reshaped batch; the callbacks run on the baseline stage's table with exactly those arrays |
| `Storage.DatasetNames` | processor/data_managers/GatorDatasetsStorage.py:21-27 | a string becomes a one-element list, a list is kept, anything else raises TypeError |
| `Storage.RootFiles` | processor/data_managers/GatorDatasetsStorage.py:35 | the glob keeps exactly the listed names that match `*.root`, in listing order |
| `Storage.DatasetPaths` | processor/data_managers/GatorDatasetsStorage.py:35 | a dataset directory that does not exist gives no files; otherwise one path per matching name, joined onto the directory |
| `Storage.Positions` | processor/data_managers/GatorDatasetsStorage.py:46 | `wfId` holds each row's index |
| `Storage.LabelValues` | processor/data_managers/GatorDatasetsStorage.py:41-46 | the five labels are the dataset name and number, the file name and number within the dataset, and the row index, one value per row |
| `Storage.LabelNamesDiffer` | processor/data_managers/GatorDatasetsStorage.py:41-48 | the five labels are new, distinct columns, and the selection lists the identifying columns before the raw ones |
| `Storage.Labelled` | processor/data_managers/GatorDatasetsStorage.py:39-46 | each label is appended after the raw columns, which keep their values |
| `Storage.LabelledDatasetId` | processor/data_managers/GatorDatasetsStorage.py:42 | every row of the labelled copy carries the dataset's number |
| `Storage.Stored` | processor/data_managers/GatorDatasetsStorage.py:48 | the stored table's columns are `filename, fileId, wfId` and then the raw columns, with the raw values kept |
| `Storage.StoredSelectsLabelled` | processor/data_managers/GatorDatasetsStorage.py:41-48 | the stored table agrees with the labelled copy on every column it has, and `dataset` and `datasetId` are dropped |
| `Storage.StoredIds` | processor/data_managers/GatorDatasetsStorage.py:43-46 | every row of a stored table names its file, the file's number within its dataset and the row's own index |
| `Storage.StoredIsLaidOut` | processor/data_managers/GatorDatasetsStorage.py:48 | every stored table has the same columns and dtypes |
| `Storage.LoadFile` | processor/data_managers/GatorDatasetsStorage.py:36-55 | an empty channel list raises ValueError and a missing file FileNotFoundError; on success the handler is loaded, keeps its raw table, holds the waveforms exactly when `keepwfs`, and the stored table is built from that raw table |
| `Storage.LoadFileGood` | processor/data_managers/GatorDatasetsStorage.py:37-50 | every loaded handler is consistent and loaded, and every stored table has the stored layout |
| `Storage.LoadFileIds` | processor/data_managers/GatorDatasetsStorage.py:37-44 | the handler reads the given path and the table's `fileId` is the file's number |
| `Storage.Collect` | processor/data_managers/GatorDatasetsStorage.py:36-50 | the file loop succeeds exactly when every file loads, and then holds one entry per file, in order |
| `Storage.CollectFails` | processor/data_managers/GatorDatasetsStorage.py:36-50 | a failing loop raises the error of its first failing file |
| `Storage.CollectConcat` | processor/data_managers/GatorDatasetsStorage.py:34-57 | the dataset loop succeeds exactly when every dataset's file loop does |
| `Storage.CollectConcatFails` | processor/data_managers/GatorDatasetsStorage.py:34-57 | a failing dataset loop raises the error of its first failing dataset |
| `Storage.CollectConcatAt` | processor/data_managers/GatorDatasetsStorage.py:45-50 | the entries of a dataset follow directly on those of the datasets before it |
| `Storage.CollectConcatFrom` | processor/data_managers/GatorDatasetsStorage.py:45-50 | every entry of the lists comes from some dataset's file loop |
| `Storage.StorageStepSound` | processor/data_managers/GatorDatasetsStorage.py:37-54 | every successful file step gives a consistent pair numbered by its position |
| `Storage.LoadDataset` | processor/data_managers/GatorDatasetsStorage.py:36-56 | one entry per file of the dataset |
| `Storage.LoadDatasetFiles` | processor/data_managers/GatorDatasetsStorage.py:36-56 | the dataset loads exactly when each of its files does, and entry `i` is file `i` loaded as number `i` |
| `Storage.LoadDatasetFacts` | processor/data_managers/GatorDatasetsStorage.py:36-50 | every entry of a dataset is good and carries its position within the dataset as `fileId` |
| `Storage.LoadAllOk` | processor/data_managers/GatorDatasetsStorage.py:34-57 | loading succeeds exactly when every dataset loads |
| `Storage.LoadAllSize` | processor/data_managers/GatorDatasetsStorage.py:45-50 | `files_handl_lst` and `dfs_lst` grow in lockstep: one pair per file over all datasets |
| `Storage.LoadAllAt` | processor/data_managers/GatorDatasetsStorage.py:34-50 | file `j` of dataset `d` sits right after the files of the earlier datasets, loaded as number `j` of dataset `d` |
| `Storage.LoadAllFails` | processor/data_managers/GatorDatasetsStorage.py:34-57 | a failed construction raises the error of some file's step |
| `Storage.LoadAllGood` | processor/data_managers/GatorDatasetsStorage.py:34-57 | every pair the storage holds is good |
| `Storage.NewStorage` | processor/data_managers/GatorDatasetsStorage.py:11-57 | a `chs_map` that is not a channel map or a `datasets` argument of another type raises TypeError; on success the pairs are the loaded files of every dataset in order and all are good |
| `Storage.StoredTablesOneLayout` | processor/data_managers/GatorDatasetsStorage.py:48-50 | all stored tables share one layout, so they can be concatenated |
| `Storage.StoredSameLayout` | processor/data_managers/GatorDatasetsStorage.py:48 | two stored tables have the same columns and dtypes |
| `Storage.MergedDf` | processor/data_managers/GatorDatasetsStorage.py:60-61 | `pd.concat` of no tables raises ValueError; otherwise the stored columns with the total number of rows |
| `Storage.MergedIsConcat` | processor/data_managers/GatorDatasetsStorage.py:60-61 | the merged table is the concatenation of the stored tables |
| `Storage.MergedRow` | processor/data_managers/GatorDatasetsStorage.py:60-61 | row `k` of file `g` is row `total rows before g + k` of the merged table, with a fresh index |
| `Storage.Pick` | processor/data_managers/GatorDatasetsStorage.py:66 | `wf[wfId]` with Python's negative indices: the row (or sample) at the resolved index, IndexError out of range |
| `Storage.PickAll` | processor/data_managers/GatorDatasetsStorage.py:66 | the selection holds every channel, each its own picked row, and fails when any channel's index is out of range |
| `Storage.GetSelWf` | processor/data_managers/GatorDatasetsStorage.py:64-66 | `fileId` indexes the global handler list (IndexError out of range); the result picks `wfId` from that handler's waveforms and only that handler's state changes |
| `Storage.FileIdIsLocal` | processor/data_managers/GatorDatasetsStorage.py:36-65 | the `fileId` in the table is the number within the dataset, while `getSelWf` reads the global list, so for a file after the first dataset the two positions differ |
| `Tables.DTypeName` | GatorDaqProc.py:354 | the dtype name written for a column parses back to the same dtype |
| `Tables.Cast` | GatorDaqProc.py:480 | a cast value conforms to the target dtype, and a value that already conforms is kept as it is |
| `Tables.CastAll` | GatorDaqProc.py:480 | casting a column casts each value in place, and a column whose values all conform comes back unchanged |
| `Tables.FilterRows` | GatorDaqProc.py:420 | a boolean row selection keeps the columns, their order and dtypes, and leaves at most as many rows as before |
| `Tables.RowMask` | GatorDaqProc.py:426 | `query` evaluates its predicate on each row as a whole |
| `Tables.RowsOfFilter` | GatorDaqProc.py:420 | the rows of `df[mask]` are the rows of `df` whose mask entry is true, in their order |
| `Tables.RowsOfQuery` | GatorDaqProc.py:426 | the rows `query` leaves are exactly the rows its predicate keeps, in their order |
| `Tables.Concat` | processor/data_managers/GatorDatasetsStorage.py:61 | `pd.concat` of no tables raises ValueError; otherwise the common columns, each holding the tables' values one after the other, and the total number of rows |
| `Tables.ConcatRow` | processor/data_managers/GatorDatasetsStorage.py:61 | row `k` of table `j` is row `rows before j + k` of the concatenation |
| `Tables.ExportTable` | GatorDaqProc.py:352-356 | the export lists the columns in order, records a dtype for every column, and has one row of one value per column for every event |
| `Tables.LoadColumn` | GatorDaqProc.py:477-481 | a column without a recorded dtype stays the object column of the matrix; an unknown dtype name raises TypeError and a refused cast ValueError |
| `Tables.LoadColumns` | GatorDaqProc.py:479-481 | on success every named column is loaded, and no other |
| `Tables.Reload` | GatorDaqProc.py:468-482 | a reloaded table has exactly the exported column names in order and one row per matrix row |
| `Tables.ExportReloadRoundTrip` | GatorDaqProc.py:348-356 | reloading an exported table gives back the same columns in the same order, with the same dtypes and values |
| `Tables.ExportIsWellFormed` | GatorDaqProc.py:352-356 | an export is rectangular, names no column twice and records dtypes only for its own columns |
| `Tables.ExportedColumnReloads` | GatorDaqProc.py:477-481 | each exported column reloads to itself |
| `TrigRate.EnergyMask` | GatorDaqProc.py:420 | row `i` is kept exactly when `wf1_energy_trap` lies in `[MinTrapEnergy, MaxTrapEnergy]`, both ends included; a NaN energy is never kept |
| `TrigRate.ApplyQueries` | GatorDaqProc.py:423-430 | the queries fail exactly when one of them is refused; otherwise each filters what the previous ones left, so no rows are added and the columns are kept |
| `TrigRate.Counts` | GatorDaqProc.py:418-433 | the count after the queries is at most the count before them, which is the number of rows in the energy window, itself at most the table's rows; a refused query gives no counts |
| `TrigRate.ProcTrigRate` | GatorDaqProc.py:406-447 | no `TrigRate` block gives nothing; a table without the energy column raises KeyError; a refused query gives no record; a zero sampling frequency or effective run time raises ZeroDivisionError; otherwise there is always a record, and a record is the rate of the passing events over the effective run time, stamped with the rounded clock and the rounded middle of the run |
| `TrigRate.Record` | GatorDaqProc.py:439-445 | `proc_timestamp` is `int(now + 0.5)` and `trig_timestamp` is `int((start + stop)/2 + 0.5)` |
| `TrigRate.ApplyQueriesRows` | GatorDaqProc.py:424-431 | the rows the query loop leaves are the rows every query keeps, each query seeing what the previous ones left |
| `TrigRate.WindowThenQueries` | GatorDaqProc.py:420-431 | the energy window followed by the query chain keeps exactly the rows whose energy lies in the window and that every query keeps, in their order |
| `TrigRate.CountsSurvivors` | GatorDaqProc.py:418-433 | `n_evs` is the number of events of the table whose energy lies in the window and that every query keeps |
| `TrigRate.RateCountsSurvivors` | GatorDaqProc.py:418-445 | a record's `trig_rate` times the effective run time (the file's run time less one waveform length per event in the window that the queries dropped) is the number of events in the window that every query keeps, and `trig_rate_err` times it is the square root of that number |
| `TrigRate.DeadTimeGrows` | GatorDaqProc.py:437 | each event the queries drop takes a waveform length of dead time off, so the effective run time shrinks as more are dropped |
| `TrigRate.TrigTimestampWithinRun` | GatorDaqProc.py:441-443 | the trigger timestamp lies between the run's start and stop |
| `Walk.Basename` | processor/data_managers/GatorFileProcessor.py:24 | `Path(fpath).name` is the part of the path after its last separator |
| `Walk.BasenameOfJoin` | processor/data_managers/GatorDatasetsStorage.py:43 | the base name of a joined path is the name that was joined |
| `Walk.Ext` | GatorDaqProc.py:168 | `os.path.splitext` gives an empty extension or a final suffix that starts with its only dot |
| `Walk.ExtOfStem` | GatorDaqProc.py:168 | a name with a non-dot stem and a final suffix `.e` has extension `.e` |
| `Walk.HiddenNameHasNoExt` | GatorDaqProc.py:168 | a name that is a single leading dot and a suffix (`.root`) has no extension, so it is never a candidate |
| `Walk.DepthOfRelPath` | GatorDaqProc.py:159-160 | the depth is 0 for the top directory `.` and otherwise the separator count plus one, which is the number of names on the path |
| `Walk.WalkFrom` | GatorDaqProc.py:158-165 | the walk yields a directory before anything below it |
| `Walk.WalkDepthBound` | GatorDaqProc.py:158-165 | no visited directory lies deeper than two levels, because subdirectories are pruned at depth 2 |
| `Walk.WalkComplete` | GatorDaqProc.py:158-165 | every directory at most two levels down is visited, with its files |
| `Walk.Candidates` | GatorDaqProc.py:168 | the candidates are exactly the files whose extension is one of the daemon's extensions, in listing order |
| `Walk.Selected` | GatorDaqProc.py:168-172 | a directory with no candidate is skipped; every directory with some candidate is kept with exactly its candidates; every kept entry comes from a visited directory |
| `Walk.DirsToProcess` | GatorDaqProc.py:155-172 | every directory handed on lies at most two levels down and has at least one candidate |
| `Walk.DirsToProcessComplete` | SyncDaqFiles.py:281-296 | every directory at most two levels down that holds a candidate is handed on with exactly its candidates, for either daemon's extensions |
| `DaqProc.LoadState` | GatorDaqProc.py:60-70 | a state file that is missing or does not parse reads as the empty map; otherwise its contents are the state |
| `DaqProc.EnsureDirs` | GatorDaqProc.py:112-138 | ensuring a directory changes nothing but the set of directories and adds at most that one; a check-only call changes nothing; success means the path is then a writable directory |
| `DaqProc.EnsureDirsSucceeds` | GatorDaqProc.py:112-138 | `_ensure_dirs` succeeds exactly for a writable directory, or for a missing path that may be created when not only checking |
| `DaqProc.EnsureDirsIdempotent` | GatorDaqProc.py:112-138 | once ensured, a second call of either kind succeeds and leaves the filesystem as it is |
| `DaqProc.ArchiveFile` | GatorDaqProc.py:500-523 | a missing source raises FileNotFoundError and changes nothing; success means the destination holds a file of the source's size and the source is gone exactly when moving; a size mismatch raises IOError and keeps the source; a destination that is an existing directory raises IOError and changes no file; no other file changes and no file appears except the destination |
| `DaqProc.ArchiveLosesNothing` | GatorDaqProc.py:500-523 | archiving loses no data: every file stays with its size, or is the source with a same-size copy at the destination, or is the overwritten destination |
| `DaqProc.WfsLen` | GatorDaqProc.py:351 | the waveform length is read exactly when the DAQ configuration was read and carries `boards[0]["WfsLen"]`, and it is that value |
| `DaqProc.RateStage` | GatorDaqProc.py:378-400 | without metadata there is no rate; without a `TrigRate` block there is none either; with metadata a DAQ configuration lacking the waveform length raises its error |
| `DaqProc.RateTable` | GatorDaqProc.py:383-390 | a full run always has the table its pipeline produced; a rate-only run has a table exactly when the processed file exists in the store and reloads; any table is well-formed |
| `DaqProc.ProcFile` | GatorDaqProc.py:303-403 | handling one run file removes no processed file and writes none but the file's own `.npy` export |
| `DaqProc.ProcFileOutcome` | GatorDaqProc.py:303-403 | a failed pipeline gives None and writes nothing; a full run stamps the result with the clock rounded half up and stores the export of the pipeline's table at the `.npy` path; a rate-only run writes nothing and has no stamp |
| `DaqProc.OffDiskFileGetsNoRate` | GatorDaqProc.py:360-380 | with a `TrigRate` block, a run file no longer on disk never gets a rate, because its metadata cannot be read |
| `DaqProc.RateOnlyAgreesWithFull` | GatorDaqProc.py:383-400 | a rate-only run over the processed file a full run wrote succeeds, writes nothing, and computes the same rate record as the full run |
| `DaqProc.Decide` | GatorDaqProc.py:236-251 | a file is skipped exactly when it is in the state, off disk, and needs no rate; handled for its rate only exactly when it is in the state and not skipped; processed fully exactly when it is new |
| `DaqProc.StoreResult` | GatorDaqProc.py:265-283 | the state gains exactly the file's key, other entries are unchanged, a full run's stamp is recorded while a rate-only run keeps the old one, and the rate is replaced exactly when one was computed |
| `DaqProc.ArchiveThis` | GatorDaqProc.py:286-290 | the archive lookup raises KeyError exactly when there is no `ArchiveFiles` block; otherwise a file is archived exactly when archiving is on and no required rate is missing |
| `DaqProc.SkipOrFailureChangesNothing` | GatorDaqProc.py:236-262 | a skipped file, and a new file whose pipeline fails, leave filesystem, processed files and state exactly as they were |
| `DaqProc.FileStepState` | GatorDaqProc.py:231-297 | one handled file adds at most its own entry, changes no other entry, keeps an existing stamp, and a new entry exists only after a successful pipeline and carries that run's rounded stamp |
| `DaqProc.FileStep` | GatorDaqProc.py:231-297 | a file the loop skips leaves the whole loop state (filesystem, processed files, state) as it was; any other handled file writes no processed file but its own |
| `DaqProc.UnconfiguredArchiveRaises` | GatorDaqProc.py:286-287 | without an `ArchiveFiles` block every file that is handled and gets past `ProcFile` ends the directory with an error |
| `DaqProc.NoRateNoArchive` | GatorDaqProc.py:288-296 | when archiving requires a rate and the file has none, the filesystem is unchanged |
| `DaqProc.OffDiskFileKeepsState` | GatorDaqProc.py:236-283 | with a `TrigRate` block, a recorded file no longer on disk never changes the state |
| `DaqProc.FileLoopState` | GatorDaqProc.py:231-297 | the file loop never drops an entry, adds entries only for its files, keeps every existing stamp, and leaves other files' entries alone |
| `DaqProc.FileLoop` | GatorDaqProc.py:231-297 | the file loop removes no processed file and writes only the `.npy` exports of its own files |
| `DaqProc.DaqConfNames` | GatorDaqProc.py:199-203 | the DAQ configuration candidates are exactly the listed names ending in `.json` that are not hidden |
| `DaqProc.StateFileIsNotDaqConf` | GatorDaqProc.py:195-203 | the hidden state file is never taken for the DAQ configuration |
| `DaqProc.AbandonedDirectory` | GatorDaqProc.py:199-209 | a directory without exactly one DAQ configuration, or whose processing directory cannot be ensured, processes nothing and saves no state |
| `DaqProc.SavedStateGrows` | GatorDaqProc.py:176-301 | the saved state keeps every loaded entry with its stamp, adds entries only for the directory's run files, and leaves other entries alone |
| `DaqProc.ProcDirectory` | GatorDaqProc.py:176-301 | a directory writes processed files only for its own run files and removes none; a directory that saves no state changes no processed file |
| `DaqProc.DirsLoopSnoc` | GatorDaqProc.py:159-172 | the pass over the directories followed by one more is the pass followed by that directory's `ProcDirectory` on the filesystem and processed files the earlier ones left: every directory works on its predecessors' disk and the outcome's disk is the last directory's |
| `DaqProc.DirsLoopKept` | GatorDaqProc.py:159-172 | when every directory writes processed files only under its own names, the pass writes none outside their union and removes none |
| `DaqProc.DirStep` | GatorDaqProc.py:172 | the per-directory step of the tree pass is `ProcDirectory` on the directory's relative path and run files, and writes processed files only for those run files |
| `DaqProc.ProcTree` | GatorDaqProc.py:155-173 | a pass over the staging tree removes no processed file and writes only the exports of the run files of the selected directories |
| `DaqProc.DirsLoopSaves` | GatorDaqProc.py:155-173 | a pass over the directories saves at most one state per directory, each into one of the directories' state files |
| `DaqProc.ProcTreeSaves` | GatorDaqProc.py:155-173 | a pass over the staging tree writes at most one state file per selected directory, and only the selected directories' own |
| `Sync.EnsureRemoteDirs` | SyncDaqFiles.py:111-156 | ensuring remote directories only ever adds directories; a check-only call changes nothing; on success from an existing base the directory the components lead to exists; it fails only with TypeError, and only when ERROR records are logged: the logging call for a component that exists but is not a directory passes `file=`, which the logger rejects |
| `Sync.EnsureRemoteDirsRaisesOnFile` | SyncDaqFiles.py:137-142 | the walk raises only when one of the directories on the way exists as a file |
| `Sync.FileInTheWayRaises` | SyncDaqFiles.py:137-142 | a directory on the way that exists as a file raises TypeError in both modes when ERROR records are logged (the default INFO level, `GatorUtils.py:20-23`); at a level above ERROR the call returns False and changes nothing |
| `Sync.EnsureRemoteDirsIdempotent` | SyncDaqFiles.py:111-156 | once ensured, a second call of either kind on any remote that still has those directories succeeds and changes nothing |
| `Sync.SplitRelPath` | SyncDaqFiles.py:127-129 | splitting the relative path of a walked directory on `/` gives back the names it was reached by, and `.` for the top |
| `Sync.TargetOfRelPath` | SyncDaqFiles.py:127-135 | walking the split components from the remote base reaches exactly `os.path.join(remote_base, relpath)` |
| `Sync.TargetSnoc` | SyncDaqFiles.py:131-135 | walking one more component steps into it from where the others led |
| `Sync.LastIndexOfJoin` | SyncDaqFiles.py:129 | the last separator of a joined path is the one the join inserted |
| `Sync.NeedsUpload` | SyncDaqFiles.py:158-208 | a file not in the state, or whose size or integer mtime changed, is uploaded; otherwise it is uploaded exactly when the remote directory lists it, its stat succeeds, and its integer mtime is older than the local one |
| `Sync.ArchivedFileNotUploaded` | SyncDaqFiles.py:185-202 | an unchanged recorded file whose remote copy cannot be listed or stat-ed (it was archived) is not uploaded |
| `Sync.Upload` | SyncDaqFiles.py:238-266 | a completed upload leaves the remote file with the local integer mtime and size; directories and failure marks are unchanged; no file other than the destination and its `.part` file changes |
| `Sync.FileInTheWayEndsSync` | SyncDaqFiles.py:225-232 | a remote directory on the way that exists as a file ends the pass with TypeError for a recorded or a new file when ERROR records are logged; otherwise the file is skipped and nothing changes |
| `Sync.RecordedFileWithoutRemoteDirSkipped` | SyncDaqFiles.py:225-228 | a recorded file whose remote directory is gone is skipped: nothing is created, uploaded or recorded |
| `Sync.SyncStepState` | SyncDaqFiles.py:220-277 | one file either leaves state and state file as they were, or records its own entry with the local size and integer mtime and saves exactly the new state |
| `Sync.SyncStep` | SyncDaqFiles.py:220-275 | synchronising one file creates remote directories at most, keeps the failure marks, and changes no remote file but that file's destination and its `.part` file |
| `Sync.UploadedFileSettled` | SyncDaqFiles.py:265-275 | after a successful upload, with the local file unchanged, the next decision is not to upload it again |
| `Sync.SyncStepIdempotent` | SyncDaqFiles.py:220-277 | synchronising a file that was just uploaded a second time does nothing |
| `Sync.SyncFilesState` | SyncDaqFiles.py:220-277 | after the file loop the state file holds the loop's state whenever it was written; without a write the state is as loaded; no entry is dropped, new entries are only for the loop's files, and other entries are unchanged |
| `Sync.SyncFiles` | SyncDaqFiles.py:220-277 | the file loop changes no remote file but its files' destinations and `.part` files, and removes no remote directory |
| `Sync.LoadSyncState` | SyncDaqFiles.py:73-81 | a missing or unreadable state file reads as the empty map; otherwise its contents are the state |
| `Sync.SyncDirectorySaves` | SyncDaqFiles.py:210-277 | a written state file holds the loaded state plus entries for the directory's files only, every old entry of another file intact |
| `Sync.SyncDirectory` | SyncDaqFiles.py:210-277 | synchronising a directory changes no remote file outside that directory's files' destinations under the remote base and their `.part` files |
| `Sync.SyncDirsSaves` | SyncDaqFiles.py:281-298 | a pass over the directories writes at most one state file per directory, each into one of the directories' state files |
| `Sync.SyncDirsSnoc` | SyncDaqFiles.py:285-298 | the pass over the directories followed by one more is the pass followed by that directory's `_sync_directory` on the remote the earlier ones left, and the outcome's remote is the last directory's |
| `Sync.SyncDirsKept` | SyncDaqFiles.py:285-298 | when every directory touches only its own remote files, the pass touches none outside their union and removes no remote directory |
| `Sync.DirStep` | SyncDaqFiles.py:298 | the per-directory step of the tree pass is `_sync_directory` on the directory's relative path and data files, and touches only those files' destinations and `.part` files |
| `Sync.SyncTreeSaves` | SyncDaqFiles.py:281-298 | a pass over the local tree writes at most one state file per selected directory, and only the selected directories' own |
| `Sync.SyncTree` | SyncDaqFiles.py:281-298 | a pass over the local tree changes no remote file but the destinations (and `.part` files) of the selected directories' data files |

## Left out

- I/O is not modelled; its results are inputs:
  - ROOT reads through uproot (`ReadMetadataFromRootFile`, tree and branch loading);
  - `np.save`/`np.load` and their pickling;
  - reading and writing the JSON configuration and state files;
  - logging.
- Finding and reading the processing configuration (the `config_fpath` argument or `_search_config_file`, `GatorDaqProc.py:23-32` and `GatorDaqProc.py:88-100`) and writing the DAQ configuration extended with it into the processing directory (`GatorDaqProc.py:216-226`) are left out. They are plain JSON I/O that no decision depends on; a failing write is logged and ignored.
- `WriteTrigRate` and the trigger-rate summary file are left out. They only write out the records the model computes.
- The paramiko SSH/SFTP session is left out: `connect`, and `put`, `chmod`, `utime`, `rename` and `remove` as calls. Their outcomes are inputs (`Sync.UploadWorld`).
- The polling loops `run` and `sync_loop`, sleeps and `KeyboardInterrupt` handling are left out; one pass of the tree is modelled.
- Floating point is left out:
  - arithmetic is exact `real`;
  - float32 casts are the identity;
  - the FFT rounding of `scipy.signal.convolve` is absent;
  - `exp` and `sqrt` are parameters.
- A NaN or inf that numpy would spread through a whole waveform is returned as `Err(NotFinite)`. This covers an empty baseline window, a zero Gaussian `sigma`, and a zero `shape_time` or pole-zero constant. A NaN in a single table cell is the value `NonFinite` (`trap_pur` of an all-zero trapezoid).
- Comparisons of a NaN cell are not modelled beyond "never in a window".
- pandas `query` strings are a `TrigRate.Query`: either pandas refuses the string, or it keeps the rows satisfying a predicate. The query language itself is not modelled.
- `float()` of a non-numeric `threshold`, `MinTrapEnergy` or `MaxTrapEnergy` would raise ValueError; configuration values are taken as already numeric. A `TrigRate` block without `MinTrapEnergy` or `MaxTrapEnergy` (KeyError) is not modelled.
- `GatorUtils.py` is logging setup only and is left out. The configured level enters the model only as the flag `errorLogged`: whether ERROR records pass the level set from `log_level` (`GatorUtils.py:20-23`).
- `processor/wfs_processors/__init__.py` is dynamic module import and is left out. The registry it fills is `WfsProc.DefaultRegistry`.
- `scripts/process_gator_trigrate.py` is an entry point only and is left out.
- `processor/data_managers/GatorDatasetsProcessor.py` is left out because it cannot run as written:
  - its baseline processor reads attributes that are never set;
  - `setCallbackList` calls a method that does not exist.
- `BslnCorr` in `processor/wfs_utils/GatorWfsLibs.py:18-42` is left out. Nothing calls it, and its `median` branch subtracts the mean column (lines 28-30).
- The base class's `doProc` and `procSingleEvent` are not modelled as operations. A base processor cannot be constructed (`WfsProc.BaseProcFailsAfterAppending`), so neither can be reached.
- `isLoaded`, `isWfsOnMem` and `getDf` are left out. The first two read a flag and `getDf` returns a copy; in a value model these are the fields themselves.
- `FileProc.RunCallbacks`: the callbacks run in the order given as a parameter. That order enumerates the set of names once each; CPython's set iteration order is not modelled.
- `Tables.Reload` refuses an export whose column names repeat, which pandas would accept. The daemon never writes such an export.
- `Storage.Pick` returns an error for an array of rank above two. numpy would index the first axis; the raw-file handler never produces such an array.
- `Sync.EnsureRemoteDirs` assumes the remote base directory exists, as the source comments require. The component `.` is resolved to the directory it is in, as `stat` on the server does.
- `Sync.Upload` assumes the local file's `stat` does not change during the upload. The entry records the `stat` taken before the transfer.
- `DaqProc.ArchiveFile` reports a copy whose destination is an existing directory as IOError. `shutil.copy2` would copy into that directory instead.
- `DaqProc.ProcDirectory` takes one clock reading per run file (`FileWorld.tDone`, `FileWorld.tRate`) as inputs, not calls.
- `RawFile.ReadBranch`: for a variable-length branch, numpy's conversion of one-sample entries to scalars is not modelled; the cast is taken to fail as soon as the branch has an entry.
- `Walk.Join`: base directories are taken without a trailing separator. `os.path.join` adds no second `/` after one that has it, so for such a configured base the model's paths would carry `//` where the source's do not.
- `RawFile.WaveSample` does not model the float32 rounding of `astype(np.float32)`; it states only the `uint32` range.
- DirsLoopSaves: states only which state files a pass over the directories writes. The filesystem and processed files the pass leaves are stated by `DaqProc.DirsLoopSnoc` (directory by directory) and `DaqProc.DirsLoopKept` (which processed files may change).
- ProcTreeSaves: states only which state files a pass over the staging tree writes. The processed files the pass may change are stated by `DaqProc.ProcTree`, and the disk each directory sees by `DaqProc.DirsLoopSnoc`.
- `DaqProc.DirsLoop` and `Sync.SyncDirs` carry no contract of their own. They run over any per-directory step, and what they promise is stated by the lemmas about them (`DirsLoopSnoc`, `DirsLoopKept`, `DirsLoopSaves`, and their `Sync` counterparts).
- `TrapStage.StackedPulsesKeepPur` and `WfsLibs.TrapezoidRepeats` state the filter's homogeneity for whole-number factors only, built from additivity. `TrapStage.PurIgnoresAmplitude` covers any positive factor for a trapezoid already computed.

=== FILE: bsln.dfy ===
/** `GatorBslnSubtraction`: for every channel configured under `bslnsubtr`,
    baseline statistics over the first `bslnsamps` samples of each event,
    the baseline-subtracted waveforms handed to the later stages, and the
    peak position and amplitude of every corrected waveform. */
module Bsln {
  import opened Common
  import opened Series
  import opened NdArrays
  import opened Tables
  import opened WfsProc

  const MeanSuffix := "_bslns_mean"
  const RmsSuffix := "_bslns_rms"
  const MedSuffix := "_bslns_med"
  const MadSuffix := "_bslns_mad"
  const SampMaxSuffix := "_samp_max"
  const AmplMaxSuffix := "_ampl_max"
  const BslnSuffixes := [MeanSuffix, RmsSuffix, MedSuffix, MadSuffix, SampMaxSuffix, AmplMaxSuffix]

  datatype Method = MeanMethod | MedianMethod

  /** `bsln_meth`: "mean" or "median"; any other string raises ValueError. */
  function ParseMethod(s: string): (r: Result<Method>)
    ensures r.Ok? <==> s == "mean" || s == "median"
    ensures r.Err? ==> r.error == ValueError
    ensures r == Ok(MeanMethod) <==> s == "mean"
    ensures r == Ok(MedianMethod) <==> s == "median"
  {
    if s == "mean" then Ok(MeanMethod)
    else if s == "median" then Ok(MedianMethod)
    else Err(ValueError)
  }

  /** The baseline of one event: the mean or the median of its window. */
  function Baseline(w: seq<real>, meth: Method): real
    requires |w| > 0
  {
    match meth
    case MeanMethod => Mean(w)
    case MedianMethod => Median(w)
  }

  /** `neg_pulse` is present and compares equal to True. */
  predicate Negative(bc: BslnConf) {
    bc.negPulse == Some(true)
  }

  /** `raw - bsln`, multiplied by -1 for negative pulses. */
  function Corrected(row: seq<real>, b: real, neg: bool): (r: seq<real>)
    ensures |r| == |row|
    ensures forall j :: 0 <= j < |row| ==> r[j] == if neg then b - row[j] else row[j] - b
  {
    if neg then Negate(Shift(row, b)) else Shift(row, b)
  }

  /** `ampl_max` of one event: the mean of the five samples centred on the
      peak when all five exist, otherwise the peak sample alone. */
  function AmplMax(corr: seq<real>, k: nat): real
    requires k < |corr|
  {
    if k >= 2 && k + 2 < |corr| then Mean(corr[k - 2..k + 3]) else corr[k]
  }

  /** Everything the stage computes for one event. */
  datatype EventStats = EventStats(
    mean: real, rms: real, med: real, mad: real,
    corr: seq<real>, sampMax: nat, ampl: real)

  /** The statistics of one event `row` whose window `row[:k]` is not
      empty; `sqrt` stands for the square root in `np.std`. */
  function EventOf(row: seq<real>, k: int, meth: Method, neg: bool, sqrt: real -> real): (e: EventStats)
    requires HeadLen(|row|, k) > 0
    ensures var w := PySliceHead(row, k);
      && e.mean == Mean(w) && e.rms == sqrt(Variance(w))
      && e.med == Median(w) && e.mad == Median(AbsDev(w, Median(w)))
      && e.corr == Corrected(row, Baseline(w, meth), neg)
    ensures e.sampMax < |row| == |e.corr|
    ensures forall j :: 0 <= j < |row| ==> e.corr[j] <= e.corr[e.sampMax]
    ensures forall j :: 0 <= j < e.sampMax ==> e.corr[j] < e.corr[e.sampMax]
    ensures e.ampl == AmplMax(e.corr, e.sampMax)
  {
    var w := PySliceHead(row, k);
    var med := Median(w);
    var corr := Corrected(row, Baseline(w, meth), neg);
    var kmax := ArgMax(corr);
    EventStats(Mean(w), sqrt(Variance(w)), med, Median(AbsDev(w, med)), corr, kmax, AmplMax(corr, kmax))
  }

  /** The events of a batch whose rows all have a non-empty window. */
  function Events(rows: seq<seq<real>>, k: int, meth: Method, neg: bool, sqrt: real -> real): (es: seq<EventStats>)
    requires forall i :: 0 <= i < |rows| ==> HeadLen(|rows[i]|, k) > 0
    ensures |es| == |rows|
    ensures forall i :: 0 <= i < |rows| ==> es[i] == EventOf(rows[i], k, meth, neg, sqrt)
  {
    seq(|rows|, i requires 0 <= i < |rows| && HeadLen(|rows[i]|, k) > 0 => EventOf(rows[i], k, meth, neg, sqrt))
  }

  /** The six columns of a channel, in the order the source writes them. */
  function BslnColNames(ch: string): (names: seq<string>)
    ensures |names| == 6 && Distinct(names)
    ensures forall i :: 0 <= i < 6 ==> names[i] == ch + BslnSuffixes[i]
  {
    SuffixesDiffer(ch, MeanSuffix, RmsSuffix);
    SuffixesDiffer(ch, MeanSuffix, MedSuffix);
    SuffixesDiffer(ch, MeanSuffix, MadSuffix);
    SuffixesDiffer(ch, MeanSuffix, SampMaxSuffix);
    SuffixesDiffer(ch, MeanSuffix, AmplMaxSuffix);
    SuffixesDiffer(ch, RmsSuffix, MedSuffix);
    SuffixesDiffer(ch, RmsSuffix, MadSuffix);
    SuffixesDiffer(ch, RmsSuffix, SampMaxSuffix);
    SuffixesDiffer(ch, RmsSuffix, AmplMaxSuffix);
    SuffixesDiffer(ch, MedSuffix, MadSuffix);
    SuffixesDiffer(ch, MedSuffix, SampMaxSuffix);
    SuffixesDiffer(ch, MedSuffix, AmplMaxSuffix);
    SuffixesDiffer(ch, MadSuffix, SampMaxSuffix);
    SuffixesDiffer(ch, MadSuffix, AmplMaxSuffix);
    SuffixesDiffer(ch, SampMaxSuffix, AmplMaxSuffix);
    [ch + MeanSuffix, ch + RmsSuffix, ch + MedSuffix, ch + MadSuffix, ch + SampMaxSuffix, ch + AmplMaxSuffix]
  }

  function BslnNames(ch: string): set<string> {
    NameSet(BslnColNames(ch))
  }

  /** No column of one channel is named like a column of another: the
      suffixes of equal length end alike, the others do not. */
  lemma BslnNamesApart(ch1: string, ch2: string)
    requires ch1 != ch2
    ensures BslnNames(ch1) !! BslnNames(ch2)
  {
    var sufs := BslnSuffixes;
    forall i, j | 0 <= i < 6 && 0 <= j < 6
      ensures ch1 + sufs[i] != ch2 + sufs[j]
    {
      NamesDiffer(ch1, sufs[i], ch2, sufs[j], 1);
    }
    forall x | x in BslnNames(ch1) && x in BslnNames(ch2)
      ensures false
    {
    }
  }

  /** The six columns computed from the events. The four statistics come
      out of numpy reductions over the float32 waveforms and stay float32;
      `samp_max` is the int64 of `argmax`; `ampl_max` is assigned from a
      Python list and becomes float64. */
  function StatCols(es: seq<EventStats>): (cols: seq<Column>)
    ensures |cols| == 6 && forall c :: 0 <= c < 6 ==> |cols[c].vals| == |es|
    ensures forall c :: 0 <= c < 4 ==> cols[c].dtype == Float32
    ensures cols[4].dtype == Int64 && cols[5].dtype == Float64
  {
    [ Float32Col(seq(|es|, i requires 0 <= i < |es| => es[i].mean)),
      Float32Col(seq(|es|, i requires 0 <= i < |es| => es[i].rms)),
      Float32Col(seq(|es|, i requires 0 <= i < |es| => es[i].med)),
      Float32Col(seq(|es|, i requires 0 <= i < |es| => es[i].mad)),
      IntCol(seq(|es|, i requires 0 <= i < |es| => es[i].sampMax)),
      RealCol(seq(|es|, i requires 0 <= i < |es| => es[i].ampl)) ]
  }

  /** The table holds the six columns of `ch` computed from `es`. */
  ghost predicate BslnColumnsHold(t: Table, ch: string, es: seq<EventStats>) {
    && BslnNames(ch) <= t.data.Keys
    && forall c :: 0 <= c < 6 ==> t.data[BslnColNames(ch)[c]] == StatCols(es)[c]
  }

  /** The statistics columns of `ch` in `t` are those the stage computes
      from the batch `a` under `bc`. */
  ghost predicate BslnHeld(t: Table, ch: string, bc: BslnConf, a: NdArray, sqrt: real -> real) {
    && Computable(bc, a)
    && BslnColumnsHold(t, ch,
         Events(AsRows(a).rows, bc.bslnsamps.value, ParseMethod(bc.bslnMeth.value).value, Negative(bc), sqrt))
  }

  /** What the six columns say: row `i` of each holds the corresponding
      statistic of event `i`. */
  lemma BslnColumnsMeaning(t: Table, ch: string, es: seq<EventStats>)
    requires BslnColumnsHold(t, ch, es)
    ensures && ch + MeanSuffix in t.data && ch + RmsSuffix in t.data && ch + MedSuffix in t.data
            && ch + MadSuffix in t.data && ch + SampMaxSuffix in t.data && ch + AmplMaxSuffix in t.data
    ensures && |t.data[ch + MeanSuffix].vals| == |es| && |t.data[ch + RmsSuffix].vals| == |es|
            && |t.data[ch + MedSuffix].vals| == |es| && |t.data[ch + MadSuffix].vals| == |es|
            && |t.data[ch + SampMaxSuffix].vals| == |es| && |t.data[ch + AmplMaxSuffix].vals| == |es|
    ensures forall i :: 0 <= i < |es| ==>
      && t.data[ch + MeanSuffix].vals[i] == Real(es[i].mean)
      && t.data[ch + RmsSuffix].vals[i] == Real(es[i].rms)
      && t.data[ch + MedSuffix].vals[i] == Real(es[i].med)
      && t.data[ch + MadSuffix].vals[i] == Real(es[i].mad)
      && t.data[ch + SampMaxSuffix].vals[i] == Int(es[i].sampMax)
      && t.data[ch + AmplMaxSuffix].vals[i] == Real(es[i].ampl)
  {
    var names, cols := BslnColNames(ch), StatCols(es);
    assert t.data[names[0]] == cols[0] && t.data[names[1]] == cols[1] && t.data[names[2]] == cols[2];
    assert t.data[names[3]] == cols[3] && t.data[names[4]] == cols[4] && t.data[names[5]] == cols[5];
  }

  /** The configuration and the raw array of a channel allow the stage to
      compute: the keys are there, the method is known, the array is at most
      2-D with samples in its rows, and every window is non-empty. */
  ghost predicate Computable(bc: BslnConf, a: NdArray) {
    && WellShaped(a) && !a.Higher?
    && bc.bslnsamps.Some? && bc.bslnMeth.Some? && ParseMethod(bc.bslnMeth.value).Ok?
    && AsRows(a).ncols > 0
    && (forall i :: 0 <= i < |AsRows(a).rows| ==> HeadLen(|AsRows(a).rows[i]|, bc.bslnsamps.value) > 0)
  }

  /** `out` is the baseline-subtracted form of `a` under `bc`: one corrected
      row per event, the same number of samples, each sample the raw sample
      minus the event's baseline (sign flipped for negative pulses). */
  ghost predicate IsCorrection(bc: BslnConf, a: NdArray, out: NdArray) {
    && Computable(bc, a)
    && var m := AsRows(a);
    && var k := bc.bslnsamps.value;
    && var meth := ParseMethod(bc.bslnMeth.value).value;
    && out.Mat? && out.ncols == m.ncols && |out.rows| == |m.rows|
    && forall i :: 0 <= i < |m.rows| ==>
         out.rows[i] == Corrected(m.rows[i], Baseline(PySliceHead(m.rows[i], k), meth), Negative(bc))
  }

  /** One channel of `doProc`. A missing `bslnsamps` or raw waveform raises
      KeyError; a rank above two or a number of events other than the
      table's raises ValueError when the first column is written; then a
      missing `bsln_meth` raises KeyError and an unknown method ValueError;
      waveforms without samples make `np.argmax` raise ValueError. An empty
      window over a non-empty batch gives NaN baselines (NotFinite here). */
  function BslnChannel(df: Table, ch: string, bc: BslnConf, raw: map<string, NdArray>, sqrt: real -> real)
    : (r: Result<(Table, NdArray)>)
    requires Valid(df) && AllWellShaped(raw)
    ensures bc.bslnsamps.None? ==> r == Err(KeyError)
    ensures bc.bslnsamps.Some? && ch !in raw ==> r == Err(KeyError)
    ensures (&& bc.bslnsamps.Some? && ch in raw && bc.bslnMeth.Some? && ParseMethod(bc.bslnMeth.value).Err?
             && !raw[ch].Higher? && |AsRows(raw[ch]).rows| == df.nrows) ==> r == Err(ValueError)
    ensures r.Ok? ==> ch in raw && Computable(bc, raw[ch]) && |AsRows(raw[ch]).rows| == df.nrows
    ensures r.Ok? ==> UpdatedOnly(df, r.value.0, BslnNames(ch)) && r.value.0.data.Keys == df.data.Keys + BslnNames(ch)
    ensures r.Ok? ==> IsCorrection(bc, raw[ch], r.value.1)
    ensures r.Ok? ==> BslnColumnsHold(r.value.0, ch,
      Events(AsRows(raw[ch]).rows, bc.bslnsamps.value, ParseMethod(bc.bslnMeth.value).value, Negative(bc), sqrt))
    ensures ch in raw && Computable(bc, raw[ch]) && |AsRows(raw[ch]).rows| == df.nrows ==> r.Ok?
  {
    var k :- if bc.bslnsamps.Some? then Ok(bc.bslnsamps.value) else Err(KeyError);
    var a :- if ch in raw then Ok(raw[ch]) else Err(KeyError);
    if a.Higher? then Err(ValueError)
    else
      var m := AsRows(a);
      if |m.rows| != df.nrows then Err(ValueError)
      else
        var name :- if bc.bslnMeth.Some? then Ok(bc.bslnMeth.value) else Err(KeyError);
        var meth :- ParseMethod(name);
        if m.ncols == 0 then Err(ValueError)
        else if HeadLen(m.ncols, k) == 0 && |m.rows| > 0 then
          assert |m.rows[0]| == m.ncols;
          Err(NotFinite)
        else
          WindowsNonEmpty(bc, a);
          Ok(ComputeChannel(df, ch, bc, a, sqrt))
  }

  /** Every row of a 2-D batch has the batch's width, so one window length
      serves all events. */
  lemma WindowsNonEmpty(bc: BslnConf, a: NdArray)
    requires WellShaped(a) && !a.Higher? && bc.bslnsamps.Some? && bc.bslnMeth.Some?
    requires ParseMethod(bc.bslnMeth.value).Ok? && AsRows(a).ncols > 0
    requires HeadLen(AsRows(a).ncols, bc.bslnsamps.value) > 0 || |AsRows(a).rows| == 0
    ensures Computable(bc, a)
  {
    var m := AsRows(a);
    assert forall i :: 0 <= i < |m.rows| ==> |m.rows[i]| == m.ncols;
  }

  /** The statistics columns and the corrected batch of a channel the stage
      can compute. */
  function ComputeChannel(df: Table, ch: string, bc: BslnConf, a: NdArray, sqrt: real -> real): (r: (Table, NdArray))
    requires Valid(df) && Computable(bc, a) && |AsRows(a).rows| == df.nrows
    ensures UpdatedOnly(df, r.0, BslnNames(ch)) && r.0.data.Keys == df.data.Keys + BslnNames(ch)
    ensures IsCorrection(bc, a, r.1)
    ensures BslnColumnsHold(r.0, ch,
      Events(AsRows(a).rows, bc.bslnsamps.value, ParseMethod(bc.bslnMeth.value).value, Negative(bc), sqrt))
  {
    var m := AsRows(a);
    var es := Events(m.rows, bc.bslnsamps.value, ParseMethod(bc.bslnMeth.value).value, Negative(bc), sqrt);
    (WriteStats(df, ch, es), Mat(m.ncols, seq(|es|, i requires 0 <= i < |es| => es[i].corr)))
  }

  /** Writes the six columns of `ch`. */
  function WriteStats(df: Table, ch: string, es: seq<EventStats>): (t: Table)
    requires Valid(df) && |es| == df.nrows
    ensures UpdatedOnly(df, t, BslnNames(ch)) && t.data.Keys == df.data.Keys + BslnNames(ch)
    ensures BslnColumnsHold(t, ch, es)
  {
    var names, cols := BslnColNames(ch), StatCols(es);
    SetCols(df, names, cols)
  }

  /** The channels of `chs` with a `bslnsubtr` entry. */
  function BslnChannels(m: ChsMap, chs: seq<string>): (s: set<string>)
    requires forall c :: c in chs ==> c in m.conf
    ensures forall c :: c in s <==> c in chs && m.conf[c].bsln.Some?
    decreases |chs|
  {
    if |chs| == 0 then {}
    else (if m.conf[chs[0]].bsln.Some? then {chs[0]} else {}) + BslnChannels(m, chs[1..])
  }

  /** The columns the loop writes. */
  function BslnNamesAll(m: ChsMap, chs: seq<string>): set<string>
    requires forall c :: c in chs ==> c in m.conf
    decreases |chs|
  {
    if |chs| == 0 then {}
    else (if m.conf[chs[0]].bsln.Some? then BslnNames(chs[0]) else {}) + BslnNamesAll(m, chs[1..])
  }

  /** A channel's columns are not named by any other channel. */
  lemma {:induction false} BslnNamesDisjoint(m: ChsMap, ch: string, chs: seq<string>)
    requires ch !in chs && forall c :: c in chs ==> c in m.conf
    ensures BslnNames(ch) !! BslnNamesAll(m, chs)
    decreases |chs|
  {
    if |chs| > 0 {
      BslnNamesDisjoint(m, ch, chs[1..]);
      BslnNamesApart(ch, chs[0]);
    }
  }

  /** Columns written under other names leave a channel's statistics as
      they were. */
  lemma BslnHeldKept(t1: Table, t2: Table, ch: string, bc: BslnConf, a: NdArray, sqrt: real -> real,
                     names: set<string>)
    requires BslnHeld(t1, ch, bc, a, sqrt) && UpdatedOnly(t1, t2, names) && BslnNames(ch) !! names
    ensures BslnHeld(t2, ch, bc, a, sqrt)
  {
    var ns := BslnColNames(ch);
    assert forall c :: 0 <= c < 6 ==> ns[c] in BslnNames(ch);
  }

  /** What the loop over `chs` promises of its output map `out` and its
      table `t`: one entry per configured channel, each the baseline
      subtraction of that channel's raw batch, and, when the channels are
      distinct, each channel's statistics columns computed from that batch. */
  ghost predicate BslnLoopOut(m: ChsMap, chs: seq<string>, raw: map<string, NdArray>, t: Table,
                          out: map<string, NdArray>, sqrt: real -> real)
    requires forall c :: c in chs ==> c in m.conf
  {
    && out.Keys == BslnChannels(m, chs)
    && (forall c :: c in out ==>
          c in raw && m.conf[c].bsln.Some? && IsCorrection(m.conf[c].bsln.value, raw[c], out[c]))
    && (Distinct(chs) ==> forall c :: c in out ==> BslnHeld(t, c, m.conf[c].bsln.value, raw[c], sqrt))
  }

  /** The channel loop of `doProc`: channels without `bslnsubtr` are skipped
      and get neither columns nor an output entry; the first failing channel
      ends the loop. */
  function BslnLoop(m: ChsMap, chs: seq<string>, raw: map<string, NdArray>, df: Table, sqrt: real -> real)
    : (r: Result<(Table, map<string, NdArray>)>)
    requires Valid(df) && AllWellShaped(raw) && forall c :: c in chs ==> c in m.conf
    ensures r.Ok? ==> UpdatedOnly(df, r.value.0, BslnNamesAll(m, chs))
    ensures r.Ok? ==> r.value.0.data.Keys == df.data.Keys + BslnNamesAll(m, chs)
    ensures r.Ok? ==> BslnLoopOut(m, chs, raw, r.value.0, r.value.1, sqrt)
    ensures (exists c :: c in chs && m.conf[c].bsln.Some? && c !in raw) ==> r.Err?
    decreases |chs|
  {
    if |chs| == 0 then
      UpdatedOnlyRefl(df);
      Ok((df, map[]))
    else
      var ch := chs[0];
      var bc := m.conf[ch].bsln;
      if bc.None? then
        var r := BslnLoop(m, chs[1..], raw, df, sqrt);
        if r.Ok? then
          BslnLoopSkip(m, chs, raw, r.value.0, r.value.1, sqrt);
          r
        else r
      else
        var (t1, a1) :- BslnChannel(df, ch, bc.value, raw, sqrt);
        var (t2, out) :- BslnLoop(m, chs[1..], raw, t1, sqrt);
        UpdatedExactlyTrans(df, t1, t2, BslnNames(ch), BslnNamesAll(m, chs[1..]));
        BslnLoopStep(m, chs, raw, t1, t2, a1, out, sqrt);
        Ok((t2, PutIfAbsent(out, ch, a1)))
  }

  /** A channel without `bslnsubtr` changes nothing the loop promises. */
  lemma BslnLoopSkip(m: ChsMap, chs: seq<string>, raw: map<string, NdArray>, t: Table,
                     out: map<string, NdArray>, sqrt: real -> real)
    requires |chs| > 0 && (forall c :: c in chs ==> c in m.conf) && m.conf[chs[0]].bsln.None?
    requires BslnLoopOut(m, chs[1..], raw, t, out, sqrt)
    ensures BslnLoopOut(m, chs, raw, t, out, sqrt)
  {
    assert Distinct(chs) ==> Distinct(chs[1..]);
  }

  /** One step of the loop: the output map grows by the first channel's
      correction, and its statistics survive the later channels when the
      channels are distinct. */
  lemma BslnLoopStep(m: ChsMap, chs: seq<string>, raw: map<string, NdArray>, t1: Table, t2: Table,
                     a1: NdArray, out: map<string, NdArray>, sqrt: real -> real)
    requires |chs| > 0 && (forall c :: c in chs ==> c in m.conf) && m.conf[chs[0]].bsln.Some? && chs[0] in raw
    requires IsCorrection(m.conf[chs[0]].bsln.value, raw[chs[0]], a1)
    requires BslnHeld(t1, chs[0], m.conf[chs[0]].bsln.value, raw[chs[0]], sqrt)
    requires UpdatedOnly(t1, t2, BslnNamesAll(m, chs[1..]))
    requires BslnLoopOut(m, chs[1..], raw, t2, out, sqrt)
    ensures BslnLoopOut(m, chs, raw, t2, PutIfAbsent(out, chs[0], a1), sqrt)
  {
    if Distinct(chs) {
      assert Distinct(chs[1..]);
      assert chs[0] !in chs[1..];
      BslnNamesDisjoint(m, chs[0], chs[1..]);
      BslnHeldKept(t1, t2, chs[0], m.conf[chs[0]].bsln.value, raw[chs[0]], sqrt, BslnNamesAll(m, chs[1..]));
    }
  }

  /** `GatorBslnSubtraction.doProc`: the table with the statistics columns
      and the map of corrected waveforms, which the stage also keeps. */
  function BslnDoProc(m: ChsMap, df: Table, raw: map<string, NdArray>, sqrt: real -> real)
    : (r: Result<(Table, map<string, NdArray>)>)
    requires ValidChsMap(m) && Valid(df) && AllWellShaped(raw)
    ensures r.Ok? ==> UpdatedOnly(df, r.value.0, BslnNamesAll(m, m.chs))
    ensures r.Ok? ==> r.value.1.Keys == BslnChannels(m, m.chs)
    ensures r.Ok? ==> forall c :: c in r.value.1 ==>
      c in raw && m.conf[c].bsln.Some? && IsCorrection(m.conf[c].bsln.value, raw[c], r.value.1[c])
    ensures r.Ok? ==> forall c :: c in r.value.1 ==> BslnHeld(r.value.0, c, m.conf[c].bsln.value, raw[c], sqrt)
  {
    BslnLoop(m, m.chs, raw, df, sqrt)
  }

  // ---------------------------------------------------------------------
  // procSingleEvent

  /** One channel of `procSingleEvent`: both configuration keys are read
      first (KeyError), then the raw waveform (KeyError), then the
      single-event check (TypeError), then the method (ValueError). The
      caller's array is not modified. An empty window gives a NaN baseline,
      which shows only when the waveform has samples. */
  function SingleChannel(bc: BslnConf, ch: string, raw: map<string, NdArray>): (r: Result<seq<real>>)
    requires AllWellShaped(raw)
    ensures bc.bslnsamps.None? || bc.bslnMeth.None? ==> r == Err(KeyError)
    ensures bc.bslnsamps.Some? && bc.bslnMeth.Some? && ch !in raw ==> r == Err(KeyError)
    ensures bc.bslnsamps.Some? && bc.bslnMeth.Some? && ch in raw && SingleEvent(raw[ch]).Err? ==> r == Err(TypeError)
    ensures r.Ok? ==> ch in raw && SingleEvent(raw[ch]).Ok? && |r.value| == |SingleEvent(raw[ch]).value|
  {
    var k :- if bc.bslnsamps.Some? then Ok(bc.bslnsamps.value) else Err(KeyError);
    var name :- if bc.bslnMeth.Some? then Ok(bc.bslnMeth.value) else Err(KeyError);
    var a :- if ch in raw then Ok(raw[ch]) else Err(KeyError);
    var wf :- SingleEvent(a);
    var meth :- ParseMethod(name);
    if |wf| == 0 then Ok([])
    else if HeadLen(|wf|, k) == 0 then Err(NotFinite)
    else Ok(Corrected(wf, Baseline(PySliceHead(wf, k), meth), Negative(bc)))
  }

  /** The channel loop of `procSingleEvent`: the corrected waveform of every
      channel with `bslnsubtr`, as a 1-D array. */
  function SingleLoop(m: ChsMap, chs: seq<string>, raw: map<string, NdArray>): (r: Result<map<string, NdArray>>)
    requires AllWellShaped(raw) && forall c :: c in chs ==> c in m.conf
    ensures r.Ok? ==> r.value.Keys == BslnChannels(m, chs)
    ensures r.Ok? ==> forall c :: c in r.value ==>
      r.value[c].Vec? && m.conf[c].bsln.Some? && SingleChannel(m.conf[c].bsln.value, c, raw) == Ok(r.value[c].v)
    decreases |chs|
  {
    if |chs| == 0 then Ok(map[])
    else
      var ch := chs[0];
      var bc := m.conf[ch].bsln;
      if bc.None? then SingleLoop(m, chs[1..], raw)
      else
        var wf :- SingleChannel(bc.value, ch, raw);
        var out :- SingleLoop(m, chs[1..], raw);
        Ok(PutIfAbsent(out, ch, Vec(wf)))
  }

  /** `GatorBslnSubtraction.procSingleEvent`. */
  function BslnSingleEvent(m: ChsMap, raw: map<string, NdArray>): (r: Result<map<string, NdArray>>)
    requires ValidChsMap(m) && AllWellShaped(raw)
    ensures r.Ok? ==> r.value.Keys == BslnChannels(m, m.chs)
    ensures r.Ok? ==> forall c :: c in r.value ==> r.value[c].Vec?
  {
    SingleLoop(m, m.chs, raw)
  }

  // ---------------------------------------------------------------------
  // Properties

  /** For a single event, `procSingleEvent` produces the same corrected
      waveform as `doProc` does for a one-event batch. */
  lemma SingleEventMatchesDoProc(bc: BslnConf, ch: string, raw: map<string, NdArray>, out: NdArray)
    requires AllWellShaped(raw) && ch in raw && |AsRowsOrEmpty(raw[ch])| == 1
    requires IsCorrection(bc, raw[ch], out)
    ensures SingleChannel(bc, ch, raw) == Ok(out.rows[0])
  {
    var a := raw[ch];
    var wf := SingleEvent(a).value;
    assert wf == AsRows(a).rows[0];
  }

  /** The number of events of an array the stages accept. */
  function AsRowsOrEmpty(a: NdArray): (rows: seq<seq<real>>)
    requires WellShaped(a)
    ensures !a.Higher? ==> rows == AsRows(a).rows
  {
    if a.Higher? then [] else AsRows(a).rows
  }

  /** With the mean method the corrected baseline window sums to zero. */
  lemma MeanMethodCentresWindow(row: seq<real>, k: int, neg: bool, sqrt: real -> real)
    requires HeadLen(|row|, k) > 0
    ensures Sum(PySliceHead(EventOf(row, k, MeanMethod, neg, sqrt).corr, k)) == 0.0
  {
    var w := PySliceHead(row, k);
    HeadOfCorrected(row, Mean(w), neg, k);
    CorrectedByMeanSumsToZero(w, neg);
  }

  /** Correcting commutes with taking the window. */
  lemma HeadOfCorrected(row: seq<real>, b: real, neg: bool, k: int)
    ensures PySliceHead(Corrected(row, b, neg), k) == Corrected(PySliceHead(row, k), b, neg)
  {
    var lhs, rhs := PySliceHead(Corrected(row, b, neg), k), Corrected(PySliceHead(row, k), b, neg);
    assert |lhs| == |rhs|;
    forall j | 0 <= j < |lhs|
      ensures lhs[j] == rhs[j]
    {
    }
  }

  /** A window corrected by its own mean sums to zero, whatever the sign. */
  lemma CorrectedByMeanSumsToZero(w: seq<real>, neg: bool)
    requires |w| > 0
    ensures Sum(Corrected(w, Mean(w), neg)) == 0.0
  {
    CenteredSumZero(w);
    if neg {
      SumNegate(Shift(w, Mean(w)));
    }
  }

  /** Negating every element negates the sum. */
  lemma {:induction false} SumNegate(s: seq<real>)
    ensures Sum(Negate(s)) == -Sum(s)
    decreases |s|
  {
    if |s| > 0 {
      SumNegate(s[..|s| - 1]);
      assert Negate(s)[..|s| - 1] == Negate(s[..|s| - 1]);
    }
  }

  /** `neg_pulse` flips the sign of the corrected waveform and nothing else
      about it. */
  lemma NegPulseFlips(row: seq<real>, k: int, meth: Method, sqrt: real -> real)
    requires HeadLen(|row|, k) > 0
    ensures EventOf(row, k, meth, true, sqrt).corr == Negate(EventOf(row, k, meth, false, sqrt).corr)
  {
  }

  /** The mean method is blind to a constant offset of the raw waveform:
      shifting every sample by `c` leaves the corrected waveform, the peak
      and the baseline spread unchanged. */
  lemma MeanMethodIgnoresOffset(row: seq<real>, c: real, k: int, neg: bool, sqrt: real -> real)
    requires HeadLen(|row|, k) > 0
    ensures var e1 := EventOf(Shift(row, c), k, MeanMethod, neg, sqrt);
      var e0 := EventOf(row, k, MeanMethod, neg, sqrt);
      e1.corr == e0.corr && e1.sampMax == e0.sampMax && e1.ampl == e0.ampl && e1.rms == e0.rms
  {
    var w := PySliceHead(row, k);
    var w1 := PySliceHead(Shift(row, c), k);
    HeadOfShift(row, c, k);
    MeanOfShift(w, c);
    VarianceOfShift(w, c);
    CorrectedOfShift(row, c, Mean(w), neg);
    assert Corrected(Shift(row, c), Baseline(w1, MeanMethod), neg) == Corrected(row, Baseline(w, MeanMethod), neg);
    SameCorrectionSameEvent(Shift(row, c), row, k, MeanMethod, neg, sqrt);
  }

  /** Two events with the same corrected waveform and the same window
      variance share their peak, amplitude and spread. */
  lemma SameCorrectionSameEvent(row1: seq<real>, row0: seq<real>, k: int, meth: Method, neg: bool, sqrt: real -> real)
    requires HeadLen(|row1|, k) > 0 && HeadLen(|row0|, k) > 0
    requires Variance(PySliceHead(row1, k)) == Variance(PySliceHead(row0, k))
    requires Corrected(row1, Baseline(PySliceHead(row1, k), meth), neg)
          == Corrected(row0, Baseline(PySliceHead(row0, k), meth), neg)
    ensures var e1, e0 := EventOf(row1, k, meth, neg, sqrt), EventOf(row0, k, meth, neg, sqrt);
      e1.corr == e0.corr && e1.sampMax == e0.sampMax && e1.ampl == e0.ampl && e1.rms == e0.rms
  {
  }

  /** Shifting commutes with taking the window. */
  lemma HeadOfShift(row: seq<real>, c: real, k: int)
    ensures PySliceHead(Shift(row, c), k) == Shift(PySliceHead(row, k), c)
  {
    var lhs, rhs := PySliceHead(Shift(row, c), k), Shift(PySliceHead(row, k), c);
    assert |lhs| == |rhs|;
    forall j | 0 <= j < |lhs|
      ensures lhs[j] == rhs[j]
    {
    }
  }

  /** Shifting both the waveform and its baseline by `c` changes nothing
      in the corrected waveform. */
  lemma CorrectedOfShift(row: seq<real>, c: real, b: real, neg: bool)
    ensures Corrected(Shift(row, c), b - c, neg) == Corrected(row, b, neg)
  {
    var lhs, rhs := Corrected(Shift(row, c), b - c, neg), Corrected(row, b, neg);
    forall j | 0 <= j < |lhs|
      ensures lhs[j] == rhs[j]
    {
    }
  }

  /** The variance is blind to a constant offset. */
  lemma VarianceOfShift(w: seq<real>, c: real)
    requires |w| > 0
    ensures Variance(Shift(w, c)) == Variance(w)
  {
    var w1 := Shift(w, c);
    MeanOfShift(w, c);
    var d1, d0 := SqDev(w1, Mean(w1)), SqDev(w, Mean(w));
    forall j | 0 <= j < |w|
      ensures d1[j] == d0[j]
    {
      assert w1[j] - Mean(w1) == w[j] - Mean(w);
    }
    assert d1 == d0;
  }

  /** Shifting by `c` moves the mean by `c`. */
  lemma MeanOfShift(s: seq<real>, c: real)
    requires |s| > 0
    ensures Mean(Shift(s, c)) == Mean(s) - c
  {
    SumShift(s, c);
    var n := |s| as real;
    assert (Sum(s) - n * c) / n == Sum(s) / n - c;
  }

  /** `ampl_max` never exceeds the peak sample, and equals it when the peak
      is within two samples of either end. */
  lemma AmplMaxAtMostPeak(corr: seq<real>, k: nat)
    requires k < |corr| && forall j :: 0 <= j < |corr| ==> corr[j] <= corr[k]
    ensures AmplMax(corr, k) <= corr[k]
    ensures k < 2 || k + 2 >= |corr| ==> AmplMax(corr, k) == corr[k]
  {
    if k >= 2 && k + 2 < |corr| {
      MeanAtMost(corr[k - 2..k + 3], corr[k]);
    }
  }

  /** For every event, `ampl_max` is at most the sample at `samp_max`. */
  lemma EventAmplAtMostPeak(row: seq<real>, k: int, meth: Method, neg: bool, sqrt: real -> real)
    requires HeadLen(|row|, k) > 0
    ensures var e := EventOf(row, k, meth, neg, sqrt); e.ampl <= e.corr[e.sampMax]
  {
    var e := EventOf(row, k, meth, neg, sqrt);
    AmplMaxAtMostPeak(e.corr, e.sampMax);
  }

  /** The median baseline lies within the window's range and the median
      absolute deviation is never negative. */
  lemma MedianStatsBounded(row: seq<real>, k: int, meth: Method, neg: bool, sqrt: real -> real)
    requires HeadLen(|row|, k) > 0
    ensures var w := PySliceHead(row, k);
      var e := EventOf(row, k, meth, neg, sqrt);
      Min(w) <= e.med <= Max(w) && 0.0 <= e.mad
  {
    var w := PySliceHead(row, k);
    MedianBetweenMinAndMax(w);
    var d := AbsDev(w, Median(w));
    MedianBetweenMinAndMax(d);
    assert 0.0 <= Min(d);
  }
}

=== FILE: common.dfy ===
/** Shared vocabulary of the model: optional values, results that carry the
    Python exception a call would raise, and the handful of Python scalar
    semantics (int() truncation, negative indexing, head slices) that the
    source relies on. */
module Common {

  datatype Option<+T> = None | Some(value: T)

  /** The exception kinds the modelled code raises or lets propagate.
      `NotFinite` stands for a numpy NaN/inf that would spread into a whole
      waveform; real arithmetic has no such value (see README, Left out). */
  datatype Error =
    | KeyError
    | ValueError
    | TypeError
    | RuntimeError
    | FileNotFound
    | IOError
    | ZeroDivision
    | AttributeError
    | NotImplemented
    | IndexError
    | AxisError
    | NotFinite

  datatype Result<+T> = Ok(value: T) | Err(error: Error) {
    predicate IsFailure() { Err? }

    function PropagateFailure<U>(): Result<U>
      requires Err?
    {
      Err(error)
    }

    function Extract(): T
      requires Ok?
    {
      value
    }
  }

  /** Transcendental functions are inputs of the model: `exp` for the Gaussian
      weights, `sqrt` for standard deviations and Poisson errors. */
  datatype Transcendentals = Transcendentals(exp: real -> real, sqrt: real -> real)

  /** Python's `int(x)` on a float: truncation toward zero. */
  function Trunc(x: real): (r: int)
    ensures 0.0 <= x ==> r as real <= x < r as real + 1.0
    ensures x < 0.0 ==> r as real - 1.0 < x <= r as real
  {
    if x >= 0.0 then x.Floor else -((-x).Floor)
  }

  /** Python list indexing `xs[i]`: negative indices count from the end;
      anything else raises IndexError (None here). */
  function PyIndex(len: nat, i: int): (r: Option<nat>)
    ensures r.Some? <==> -(len as int) <= i < len
    ensures r.Some? ==> r.value < len
    ensures r.Some? && i >= 0 ==> r.value == i
    ensures r.Some? && i < 0 ==> r.value + (-i) == len
  {
    if 0 <= i < len then Some(i)
    else if -(len as int) <= i < 0 then Some(len + i)
    else None
  }

  /** The length of the Python slice `s[:k]` of a sequence of length `n`. */
  function HeadLen(n: nat, k: int): (len: nat)
    ensures len <= n
  {
    if k >= 0 then (if k <= n then k else n)
    else if -k <= n then n + k
    else 0
  }

  /** Python slice `s[:k]`. */
  function PySliceHead<T>(s: seq<T>, k: int): (r: seq<T>)
    ensures r <= s && |r| == HeadLen(|s|, k)
    ensures k >= 0 ==> |r| == if k <= |s| then k else |s|
    ensures k < 0 ==> |r| == if -k <= |s| then |s| + k else 0
  {
    if k >= 0 then (if k <= |s| then s[..k] else s)
    else if -k <= |s| then s[..|s| + k]
    else []
  }

  /** Reinterpretation of an integer as numpy uint32 (`astype(np.uint32)`). */
  function U32(i: int): (r: int)
    ensures 0 <= r < 0x1_0000_0000
    ensures 0 <= i < 0x1_0000_0000 ==> r == i
    ensures (r - i) % 0x1_0000_0000 == 0
  {
    i % 0x1_0000_0000
  }

  /** Appending different suffixes to one channel name gives different
      column names. */
  lemma SuffixesDiffer(ch: string, s1: string, s2: string)
    requires s1 != s2
    ensures ch + s1 != ch + s2
  {
    assert (ch + s1)[|ch|..] == s1;
    assert (ch + s2)[|ch|..] == s2;
  }

  /** Column names built from two different channels differ when their
      suffixes have the same length or differ at the `k`-th character from
      the end. */
  lemma NamesDiffer(ch1: string, s1: string, ch2: string, s2: string, k: nat)
    requires ch1 != ch2
    requires |s1| == |s2| || (0 < k <= |s1| && k <= |s2| && s1[|s1| - k] != s2[|s2| - k])
    ensures ch1 + s1 != ch2 + s2
  {
    var x, y := ch1 + s1, ch2 + s2;
    if |s1| != |s2| && |x| == |y| {
      assert x[|x| - k] == s1[|s1| - k];
      assert y[|y| - k] == s2[|s2| - k];
    } else if |s1| == |s2| && |ch1| == |ch2| {
      var i :| 0 <= i < |ch1| && ch1[i] != ch2[i];
      assert x[i] == ch1[i] && y[i] == ch2[i];
    }
  }

  /** Pairwise distinct elements. */
  ghost predicate Distinct<T>(s: seq<T>) {
    forall i, j :: 0 <= i < j < |s| ==> s[i] != s[j]
  }

  /** Appending a new element keeps the elements distinct. */
  lemma DistinctAppend<T>(s: seq<T>, x: T)
    requires Distinct(s) && x !in s
    ensures Distinct(s + [x])
  {
    var t := s + [x];
    forall i, j | 0 <= i < j < |t|
      ensures t[i] != t[j]
    {
      if j == |s| {
        assert t[i] == s[i];
      }
    }
  }

  /** `prefix` is a prefix of `s`. */
  predicate IsPrefix<T(==)>(prefix: seq<T>, s: seq<T>) {
    |prefix| <= |s| && s[..|prefix|] == prefix
  }

  /** `m` with `k` bound to `v` unless `k` is already bound: a later
      repetition of a key leaves the earlier entry in place. */
  function PutIfAbsent<K, V>(m: map<K, V>, k: K, v: V): (r: map<K, V>)
    ensures r.Keys == m.Keys + {k}
    ensures forall c :: c in m ==> r[c] == m[c]
    ensures k !in m ==> r[k] == v
  {
    if k in m then m else m[k := v]
  }
}

=== FILE: daqproc.dfy ===
/** The processing daemon (`GatorDaqProc`): for every run directory of the
    staging tree it decides, file by file, whether to skip a run file,
    compute only its trigger rate, or process it fully; it keeps the
    per-directory state map, archives finished files, and stores the
    processed table in its exported form. The filesystem is a snapshot
    value; what the outside world answers (the waveform pipeline's outcome,
    the metadata tree, the clock, the size a copy ends up with) comes in as
    parameters. */
module DaqProc {
  import opened Common
  import opened Tables
  import opened TrigRate
  import Walk

  // ---------------------------------------------------------------------
  // Configuration, state and the local filesystem

  /** The `ArchiveFiles` block; a missing `TrigRateRequired` reads as false. */
  datatype ArchiveConf = ArchiveConf(baseDir: string, trigRateRequired: bool)

  /** The staging and processed base directories (written without a
      trailing separator, see `Walk.Join`), the archive block and the
      trigger-rate block. */
  datatype Config = Config(stagingBase: string, procBase: string,
                           archive: Option<ArchiveConf>, trigRate: Option<TrigRateConf>)

  /** One entry of the per-directory state file. Entries written by the
      daemon always carry `proc_timestamp`; the field is optional because
      the file is plain JSON. */
  datatype Entry = Entry(procTs: Option<int>, trigRate: Option<RateRecord>)

  type State = map<string, Entry>

  /** A state file that is missing or cannot be parsed reads as `{}`. */
  function LoadState(parsed: Option<State>): (s: State)
    ensures parsed.None? ==> s == map[]
    ensures parsed.Some? ==> s == parsed.value
  {
    match parsed
    case None => map[]
    case Some(s) => s
  }

  /** Regular files with their sizes, directories, directories the daemon
      may not write, and paths where `mkdir` fails. */
  datatype Fs = Fs(files: map<string, nat>, dirs: set<string>, readOnly: set<string>, mkdirFails: set<string>)

  predicate Exists(fs: Fs, p: string) {
    p in fs.files || p in fs.dirs
  }

  /** `Path(p).parent` for a joined path. */
  function Parent(p: string): string {
    match Walk.LastIndex(p, '/')
    case None => "."
    case Some(i) => p[..i]
  }

  // ---------------------------------------------------------------------
  // `_ensure_dirs` and `ArchiveFile`

  /** `_ensure_dirs`: a missing directory is an error when only checking,
      and is created otherwise (unless `mkdir` fails); the path must then be
      a directory and writable. */
  function EnsureDirs(fs: Fs, d: string, checkOnly: bool): (r: (bool, Fs))
    ensures r.1.files == fs.files && r.1.readOnly == fs.readOnly && r.1.mkdirFails == fs.mkdirFails
    ensures fs.dirs <= r.1.dirs <= fs.dirs + {d}
    ensures checkOnly ==> r.1 == fs
    ensures r.0 ==> d in r.1.dirs && d !in fs.readOnly
  {
    if !Exists(fs, d) && (checkOnly || d in fs.mkdirFails) then (false, fs)
    else
      var fs1 := if Exists(fs, d) then fs else fs.(dirs := fs.dirs + {d});
      if d !in fs1.dirs then (false, fs1)
      else if d in fs1.readOnly then (false, fs1)
      else (true, fs1)
  }

  /** When the directories are ensured they stay ensured: a second call
      succeeds and changes nothing, whether it only checks or not. */
  lemma EnsureDirsIdempotent(fs: Fs, d: string, checkOnly: bool, again: bool)
    requires EnsureDirs(fs, d, checkOnly).0
    ensures EnsureDirs(EnsureDirs(fs, d, checkOnly).1, d, again) == (true, EnsureDirs(fs, d, checkOnly).1)
  {
  }

  /** `_ensure_dirs` succeeds exactly for a writable directory, or for a
      missing path it may create in a writable place. */
  lemma EnsureDirsSucceeds(fs: Fs, d: string, checkOnly: bool)
    ensures EnsureDirs(fs, d, checkOnly).0 <==>
      && d !in fs.readOnly
      && (d in fs.dirs || (!Exists(fs, d) && !checkOnly && d !in fs.mkdirFails))
  {
  }

  /** `ArchiveFile`: a missing source raises FileNotFoundError and changes
      nothing. Otherwise the destination's parent is created, the source is
      copied (`copied` is the size the copy ends up with), and a size
      different from the source's raises IOError and keeps the source; only
      a verified copy lets `move` remove the source. A source that is a
      directory, the destination itself, a destination that is an existing
      directory, or a parent that cannot be created or written raises
      IOError (an OSError) before anything is copied. */
  function ArchiveFile(fs: Fs, src: string, dst: string, move: bool, copied: nat): (r: (Fs, Option<Error>))
    ensures !Exists(fs, src) ==> r == (fs, Some(FileNotFound))
    ensures r.1.None? ==>
      && src in fs.files && dst in r.0.files && r.0.files[dst] == fs.files[src]
      && (src in r.0.files <==> !move)
    ensures r.1 == Some(IOError) && src in fs.files ==> src in r.0.files && r.0.files[src] == fs.files[src]
    ensures r.1.None? || r.1 == Some(FileNotFound) || r.1 == Some(IOError)
    ensures Exists(fs, src) && dst in fs.dirs ==> r.1 == Some(IOError) && r.0.files == fs.files
    ensures forall p :: p in fs.files && p != src && p != dst ==> p in r.0.files && r.0.files[p] == fs.files[p]
    ensures forall p :: p in r.0.files ==> p in fs.files || p == dst
    ensures r.0.readOnly == fs.readOnly && r.0.mkdirFails == fs.mkdirFails && fs.dirs <= r.0.dirs
  {
    if !Exists(fs, src) then (fs, Some(FileNotFound))
    else
      var parent := Parent(dst);
      if parent in fs.files || (parent !in fs.dirs && parent in fs.mkdirFails) then (fs, Some(IOError))
      else
        var fs1 := fs.(dirs := fs.dirs + {parent});
        if src !in fs.files || src == dst || dst in fs.dirs || parent in fs.readOnly then (fs1, Some(IOError))
        else
          var fs2 := fs1.(files := fs1.files[dst := copied]);
          if fs.files[src] != copied then (fs2, Some(IOError))
          else if move then (fs2.(files := fs2.files - {src}), None)
          else (fs2, None)
  }

  /** Archiving never loses data: every file is afterwards where it was
      with the same size, or it is the source and a copy of the same size
      sits at the destination, or it was the destination and was
      overwritten. */
  lemma ArchiveLosesNothing(fs: Fs, src: string, dst: string, move: bool, copied: nat, p: string)
    requires p in fs.files
    ensures var fs' := ArchiveFile(fs, src, dst, move, copied).0;
      || (p in fs'.files && fs'.files[p] == fs.files[p])
      || (p == src && dst in fs'.files && fs'.files[dst] == fs.files[src])
      || p == dst
  {
  }

  // ---------------------------------------------------------------------
  // `ProcFile`

  /** How the DAQ configuration file of a run reads: unreadable (None), or
      a dictionary that may lack `boards[0]["WfsLen"]`. */
  datatype DaqConf = DaqUnreadable | DaqConf(wfsLen: Option<int>)

  /** `int(daq_conf_dict['boards'][0]["WfsLen"])`: subscripting None raises
      TypeError, a missing key KeyError. */
  function WfsLen(d: DaqConf): (r: Result<int>)
    ensures r.Ok? <==> d.DaqConf? && d.wfsLen.Some?
    ensures r.Ok? ==> r.value == d.wfsLen.value
  {
    match d
    case DaqUnreadable => Err(TypeError)
    case DaqConf(None) => Err(KeyError)
    case DaqConf(Some(w)) => Ok(w)
  }

  /** The tables the waveform pipeline produces are well formed. */
  type ValidTable = t: Table | Valid(t) witness Table(0, [], map[])

  /** What the outside world answers while one run file is handled: the
      outcome of building and running the waveform pipeline (an Err is any
      exception it raises), the raw file's metadata when it can be read,
      and the two clock readings. */
  datatype FileWorld = FileWorld(processed: Result<ValidTable>, meta: Option<Meta>, tDone: real, tRate: real)

  /** The result dictionary of `ProcFile`: `timestamp` after a full run,
      `TrigRate` when a rate was computed. */
  datatype ProcResult = ProcResult(timestamp: Option<int>, trigRate: Option<RateRecord>)

  /** The processed files of the processing tree: the `Data` triple each
      `.npy` file holds, by path. */
  type Store = map<string, Export>

  /** `Path(fpath).with_suffix(".npy").name` for a run file name. */
  function NpyName(fname: string): (r: string)
  {
    fname[..|fname| - |Walk.Ext(fname)|] + ".npy"
  }

  /** The rate step at the end of `ProcFile`: nothing without metadata;
      otherwise the waveform length is read from the DAQ configuration
      (raising when it is not there, even without a `TrigRate` block) and
      `ProcTrigRate` runs. */
  function RateStage(conf: Option<TrigRateConf>, df: Table, meta: Option<Meta>, daq: DaqConf, now: real, sqrt: real -> real)
    : (r: Result<Option<RateRecord>>)
    requires Valid(df)
    ensures meta.None? ==> r == Ok(None)
    ensures conf.None? && r.Ok? ==> r.value.None?
    ensures meta.Some? && WfsLen(daq).Err? ==> r == Err(WfsLen(daq).error)
  {
    if meta.None? then Ok(None)
    else
      var wl :- WfsLen(daq);
      ProcTrigRate(conf, df, meta.value, wl, now, sqrt)
  }

  /** The table a run of `ProcFile` computes the rate from: the pipeline's
      table after a full run; after a rate-only run, the table reloaded
      from the processed file, or none when that file is missing or does
      not reload. */
  function RateTable(rateOnly: bool, w: FileWorld, procPath: string, store: Store): (r: Option<Table>)
    requires !rateOnly ==> w.processed.Ok?
    ensures r.Some? ==> Valid(r.value)
    ensures !rateOnly ==> r.Some?
    ensures rateOnly ==> (r.Some? <==> procPath in store && Reload(store[procPath]).Ok?)
  {
    if !rateOnly then Some(w.processed.value)
    else if procPath !in store then None
    else
      match Reload(store[procPath])
      case Ok(t) => Some(t)
      case Err(_) => None
  }

  /** Between `store` and `store'` processed files were at most added or
      rewritten, and only at the paths in `own`. */
  ghost predicate StoreKept(store: Store, store': Store, own: set<string>) {
    && store.Keys <= store'.Keys
    && store'.Keys <= store.Keys + own
    && forall p :: p in store && p !in own ==> store'[p] == store[p]
  }

  lemma StoreKeptTrans(s1: Store, s2: Store, s3: Store, own1: set<string>, own2: set<string>)
    requires StoreKept(s1, s2, own1) && StoreKept(s2, s3, own2)
    ensures StoreKept(s1, s3, own1 + own2)
  {
  }

  /** The processed files of the run files `fnames` in `procDir`. */
  function NpyPaths(procDir: string, fnames: seq<string>): (ps: set<string>)
    decreases |fnames|
  {
    if |fnames| == 0 then {}
    else {Walk.Join(procDir, NpyName(fnames[0]))} + NpyPaths(procDir, fnames[1..])
  }

  /** `ProcFile`. A full run whose pipeline fails gives None. Otherwise a
      full run stamps the result, exports the table into the processed
      file, and computes the rate from the table; a rate-only run reads the
      table back from the processed file. Metadata are read from the raw
      file even in rate-only mode, so a file that is no longer on disk
      never gets a rate when a `TrigRate` block is configured. Errors the
      source does not catch (a DAQ configuration without the waveform
      length, a table without the energy column, a zero divisor) are
      returned as Err. */
  function ProcFile(cfg: Config, fname: string, procDir: string, daq: DaqConf, rateOnly: bool,
                    w: FileWorld, onDisk: bool, store: Store, sqrt: real -> real)
    : (r: Result<(Option<ProcResult>, Store)>)
    ensures r.Ok? ==> StoreKept(store, r.value.1, {Walk.Join(procDir, NpyName(fname))})
  {
    if !rateOnly && w.processed.Err? then Ok((None, store))
    else
      var procPath := Walk.Join(procDir, NpyName(fname));
      var exported :- if rateOnly then Ok(store) else
        var _ :- WfsLen(daq);
        Ok(store[procPath := ExportTable(w.processed.value)]);
      var meta := if onDisk then w.meta else None;
      var res := ProcResult(if rateOnly then None else Some(Trunc(w.tDone + 0.5)), None);
      if cfg.trigRate.Some? && meta.None? then Ok((Some(res), exported))
      else
        match RateTable(rateOnly, w, procPath, exported)
        case None => Ok((Some(res), exported))
        case Some(df) =>
          var rec :- RateStage(cfg.trigRate, df, meta, daq, w.tRate, sqrt);
          Ok((Some(res.(trigRate := rec)), exported))
  }

  /** What `ProcFile` promises its caller: a full run fails only through
      the pipeline and then touches nothing; a full run stamps the result
      with the rounded clock and stores the export of the pipeline's table;
      a rate-only run writes nothing and has no stamp. */
  lemma ProcFileOutcome(cfg: Config, fname: string, procDir: string, daq: DaqConf, rateOnly: bool,
                        w: FileWorld, onDisk: bool, store: Store, sqrt: real -> real)
    ensures var r := ProcFile(cfg, fname, procDir, daq, rateOnly, w, onDisk, store, sqrt);
      && (!rateOnly && w.processed.Err? ==> r == Ok((None, store)))
      && (r.Ok? && r.value.0.None? ==> !rateOnly && w.processed.Err? && r.value.1 == store)
      && (r.Ok? && rateOnly ==> r.value.1 == store && r.value.0.Some? && r.value.0.value.timestamp.None?)
      && (r.Ok? && !rateOnly && w.processed.Ok? ==>
            && r.value.0.Some? && r.value.0.value.timestamp == Some(Trunc(w.tDone + 0.5))
            && r.value.1 == store[Walk.Join(procDir, NpyName(fname)) := ExportTable(w.processed.value)])
  {
  }

  /** A file that is no longer on disk gets no rate when a `TrigRate` block
      is configured: its metadata cannot be read. */
  lemma OffDiskFileGetsNoRate(cfg: Config, fname: string, procDir: string, daq: DaqConf, rateOnly: bool,
                              w: FileWorld, store: Store, sqrt: real -> real)
    requires cfg.trigRate.Some?
    ensures var r := ProcFile(cfg, fname, procDir, daq, rateOnly, w, false, store, sqrt);
      r.Ok? && r.value.0.Some? ==> r.value.0.value.trigRate.None?
  {
  }

  /** The rate-only run computes the same rate as the full run that wrote
      the processed file: the export reloads to the very same table. */
  lemma RateOnlyAgreesWithFull(cfg: Config, fname: string, procDir: string, daq: DaqConf,
                               w: FileWorld, store: Store, sqrt: real -> real)
    requires w.processed.Ok? && Typed(w.processed.value)
    requires ProcFile(cfg, fname, procDir, daq, false, w, true, store, sqrt).Ok?
    ensures var full := ProcFile(cfg, fname, procDir, daq, false, w, true, store, sqrt).value;
      var again := ProcFile(cfg, fname, procDir, daq, true, w, true, full.1, sqrt);
      && again.Ok? && again.value.1 == full.1 && full.0.Some? && again.value.0.Some?
      && again.value.0.value.trigRate == full.0.value.trigRate
  {
    var t := w.processed.value;
    var procPath := Walk.Join(procDir, NpyName(fname));
    var full := ProcFile(cfg, fname, procDir, daq, false, w, true, store, sqrt).value;
    assert full.1 == store[procPath := ExportTable(t)];
    ExportReloadRoundTrip(t);
    assert RateTable(true, w, procPath, full.1) == Some(t);
  }

  // ---------------------------------------------------------------------
  // The per-file decision and the file loop of `ProcDirectory`

  datatype Mode = Skip | RateOnly | Full

  /** Lines 236-251 of the directory loop: a file already in the state map
      that is no longer on disk (archived) is skipped unless a rate is
      configured and it has none yet; a file in the state map is otherwise
      handled for its rate only; a new file is processed fully. */
  function Decide(cfg: Config, state: State, fname: string, onDisk: bool): (m: Mode)
    ensures m == Skip <==> fname in state && !onDisk && (cfg.trigRate.None? || state[fname].trigRate.Some?)
    ensures m == RateOnly <==> fname in state && !(!onDisk && (cfg.trigRate.None? || state[fname].trigRate.Some?))
    ensures m == Full <==> fname !in state
  {
    if fname in state && !onDisk && (cfg.trigRate.None? || state[fname].trigRate.Some?) then Skip
    else if fname in state then RateOnly
    else Full
  }

  /** What one directory's loop works with besides its state. */
  datatype DirCtx = DirCtx(dirpath: string, procDir: string, archiveDir: string, archiveFiles: bool,
                           daq: DaqConf, world: string -> FileWorld, copySize: string -> nat)

  datatype LoopState = LoopState(fs: Fs, store: Store, state: State)

  /** The state update after `ProcFile` (lines 265-284): a full run adds
      the entry `{proc_timestamp}`, replacing nothing; a rate record, when
      there is one, is stored in the file's entry. */
  function StoreResult(state: State, fname: string, rateOnly: bool, res: ProcResult): (r: State)
    requires rateOnly ==> fname in state
    ensures r.Keys == state.Keys + {fname}
    ensures forall g :: g in state && g != fname ==> r[g] == state[g]
    ensures r[fname].procTs == if rateOnly then state[fname].procTs else res.timestamp
    ensures r[fname].trigRate == if res.trigRate.Some? then res.trigRate
                                 else if rateOnly then state[fname].trigRate else None
  {
    var s1 := if rateOnly then state else state[fname := Entry(res.timestamp, None)];
    if res.trigRate.Some? then s1[fname := s1[fname].(trigRate := res.trigRate)] else s1
  }

  /** Whether a handled file is archived (lines 286-290). The configuration
      lookup on line 286 is unconditional, so without an `ArchiveFiles`
      block it raises KeyError. */
  function ArchiveThis(cfg: Config, c: DirCtx, res: ProcResult): (r: Result<bool>)
    ensures cfg.archive.None? <==> r == Err(KeyError)
    ensures r.Ok? ==> (r.value <==> c.archiveFiles && !(cfg.archive.value.trigRateRequired && res.trigRate.None?))
  {
    if cfg.archive.None? then Err(KeyError)
    else Ok(c.archiveFiles && !(cfg.archive.value.trigRateRequired && res.trigRate.None?))
  }

  /** One iteration of the file loop of `ProcDirectory`. A failed archive
      is only logged; its effect on the filesystem remains. */
  function FileStep(cfg: Config, c: DirCtx, fname: string, s: LoopState, sqrt: real -> real): (r: Result<LoopState>)
    ensures Decide(cfg, s.state, fname, Exists(s.fs, Walk.Join(c.dirpath, fname))) == Skip ==> r == Ok(s)
    ensures r.Ok? ==> StoreKept(s.store, r.value.store, {Walk.Join(c.procDir, NpyName(fname))})
  {
    var local := Walk.Join(c.dirpath, fname);
    var mode := Decide(cfg, s.state, fname, Exists(s.fs, local));
    if mode == Skip then Ok(s)
    else
      var rateOnly := mode == RateOnly;
      var (res, store1) :- ProcFile(cfg, fname, c.procDir, c.daq, rateOnly, c.world(fname),
                                    Exists(s.fs, local), s.store, sqrt);
      if res.None? then Ok(s.(store := store1))
      else
        var archive :- ArchiveThis(cfg, c, res.value);
        var dst := Walk.Join(c.archiveDir, fname);
        var fs1 := if archive then ArchiveFile(s.fs, local, dst, true, c.copySize(dst)).0 else s.fs;
        Ok(LoopState(fs1, store1, StoreResult(s.state, fname, rateOnly, res.value)))
  }

  /** A skipped file, and a new file whose pipeline fails, leave everything
      as it was: no state entry, no processed file, no archiving. */
  lemma SkipOrFailureChangesNothing(cfg: Config, c: DirCtx, fname: string, s: LoopState, sqrt: real -> real)
    requires var mode := Decide(cfg, s.state, fname, Exists(s.fs, Walk.Join(c.dirpath, fname)));
      mode == Skip || (mode == Full && c.world(fname).processed.Err?)
    ensures FileStep(cfg, c, fname, s, sqrt) == Ok(s)
  {
    var local := Walk.Join(c.dirpath, fname);
    if Decide(cfg, s.state, fname, Exists(s.fs, local)) == Full {
      ProcFileOutcome(cfg, fname, c.procDir, c.daq, false, c.world(fname), Exists(s.fs, local), s.store, sqrt);
    }
  }

  /** The entry a handled file gets: a new file is stamped with the rounded
      clock of its full run, a rate-only file keeps its stamp, the rate
      record is stored exactly when one was computed, and no other entry
      changes. */
  lemma FileStepState(cfg: Config, c: DirCtx, fname: string, s: LoopState, sqrt: real -> real)
    requires FileStep(cfg, c, fname, s, sqrt).Ok?
    ensures var s' := FileStep(cfg, c, fname, s, sqrt).value;
      && s'.state.Keys <= s.state.Keys + {fname}
      && (forall g :: g in s.state && g != fname ==> s'.state[g] == s.state[g])
      && (fname in s.state ==> fname in s'.state && s'.state[fname].procTs == s.state[fname].procTs)
      && (fname !in s.state && fname in s'.state ==>
            && c.world(fname).processed.Ok?
            && s'.state[fname].procTs == Some(Trunc(c.world(fname).tDone + 0.5)))
  {
    var local := Walk.Join(c.dirpath, fname);
    var onDisk := Exists(s.fs, local);
    var mode := Decide(cfg, s.state, fname, onDisk);
    if mode != Skip {
      ProcFileOutcome(cfg, fname, c.procDir, c.daq, mode == RateOnly, c.world(fname), onDisk, s.store, sqrt);
    }
  }

  /** Without an `ArchiveFiles` block every file that is not skipped and
      whose handling does not fail earlier ends the directory with
      KeyError (line 286), so its state is never saved. */
  lemma UnconfiguredArchiveRaises(cfg: Config, c: DirCtx, fname: string, s: LoopState, sqrt: real -> real)
    requires cfg.archive.None?
    requires var mode := Decide(cfg, s.state, fname, Exists(s.fs, Walk.Join(c.dirpath, fname)));
      mode == RateOnly || (mode == Full && c.world(fname).processed.Ok?)
    ensures FileStep(cfg, c, fname, s, sqrt).Err?
  {
    var local := Walk.Join(c.dirpath, fname);
    var onDisk := Exists(s.fs, local);
    var mode := Decide(cfg, s.state, fname, onDisk);
    ProcFileOutcome(cfg, fname, c.procDir, c.daq, mode == RateOnly, c.world(fname), onDisk, s.store, sqrt);
  }

  /** When archiving requires a rate and the file got none, the file stays
      where it is: the filesystem is unchanged. */
  lemma NoRateNoArchive(cfg: Config, c: DirCtx, fname: string, s: LoopState, sqrt: real -> real)
    requires cfg.archive.Some? && cfg.archive.value.trigRateRequired
    requires FileStep(cfg, c, fname, s, sqrt).Ok?
    requires var s' := FileStep(cfg, c, fname, s, sqrt).value;
      fname in s'.state ==> s'.state[fname].trigRate == (if fname in s.state then s.state[fname].trigRate else None)
    requires fname in s.state ==> s.state[fname].trigRate.None?
    ensures FileStep(cfg, c, fname, s, sqrt).value.fs == s.fs
  {
    var local := Walk.Join(c.dirpath, fname);
    var onDisk := Exists(s.fs, local);
    var mode := Decide(cfg, s.state, fname, onDisk);
    if mode != Skip {
      ProcFileOutcome(cfg, fname, c.procDir, c.daq, mode == RateOnly, c.world(fname), onDisk, s.store, sqrt);
    }
  }

  /** A file of the state map that is no longer on disk (archived) never
      changes the state when a `TrigRate` block is configured: it is either
      skipped, or retried for a rate it cannot get. */
  lemma OffDiskFileKeepsState(cfg: Config, c: DirCtx, fname: string, s: LoopState, sqrt: real -> real)
    requires cfg.trigRate.Some? && !Exists(s.fs, Walk.Join(c.dirpath, fname))
    requires fname in s.state
    requires FileStep(cfg, c, fname, s, sqrt).Ok?
    ensures FileStep(cfg, c, fname, s, sqrt).value.state == s.state
  {
    var local := Walk.Join(c.dirpath, fname);
    var mode := Decide(cfg, s.state, fname, false);
    if mode != Skip {
      OffDiskFileGetsNoRate(cfg, fname, c.procDir, c.daq, mode == RateOnly, c.world(fname), s.store, sqrt);
      ProcFileOutcome(cfg, fname, c.procDir, c.daq, mode == RateOnly, c.world(fname), false, s.store, sqrt);
      var s' := FileStep(cfg, c, fname, s, sqrt).value;
      assert s'.state == s.state;
    }
  }

  /** The file loop: each name in turn; an uncaught error ends the loop. */
  function FileLoop(cfg: Config, c: DirCtx, fnames: seq<string>, s: LoopState, sqrt: real -> real): (r: Result<LoopState>)
    ensures r.Ok? ==> StoreKept(s.store, r.value.store, NpyPaths(c.procDir, fnames))
    decreases |fnames|
  {
    if |fnames| == 0 then Ok(s)
    else
      var s1 :- FileStep(cfg, c, fnames[0], s, sqrt);
      var r := FileLoop(cfg, c, fnames[1..], s1, sqrt);
      if r.Ok? then
        StoreKeptTrans(s.store, s1.store, r.value.store, {Walk.Join(c.procDir, NpyName(fnames[0]))},
                       NpyPaths(c.procDir, fnames[1..]));
        r
      else r
  }

  /** Between `state` and `state'` entries were only added for the files
      `fnames`, none was dropped, every stamp was kept, and the entries of
      other files are unchanged. */
  ghost predicate StateKept(state: State, state': State, fnames: seq<string>) {
    && state.Keys <= state'.Keys
    && (forall g :: g in state' ==> g in state || g in fnames)
    && (forall g :: g in state && g !in fnames ==> state'[g] == state[g])
    && (forall g :: g in state ==> state'[g].procTs == state[g].procTs)
  }

  lemma StateKeptTrans(s1: State, s2: State, s3: State, f: string, fnames: seq<string>)
    requires StateKept(s1, s2, [f]) && StateKept(s2, s3, fnames)
    ensures StateKept(s1, s3, [f] + fnames)
  {
    forall g | g in s3
      ensures g in s1 || g in [f] + fnames
    {
      if g !in fnames {
        assert g in s2;
      }
    }
  }

  /** `FileStepState` as one step of `StateKept`. */
  lemma FileStepKept(cfg: Config, c: DirCtx, fname: string, s: LoopState, sqrt: real -> real)
    requires FileStep(cfg, c, fname, s, sqrt).Ok?
    ensures StateKept(s.state, FileStep(cfg, c, fname, s, sqrt).value.state, [fname])
  {
    var s' := FileStep(cfg, c, fname, s, sqrt).value;
    FileStepState(cfg, c, fname, s, sqrt);
    forall g | g in s'.state
      ensures g in s.state || g in [fname]
    {
    }
  }

  /** The loop only adds entries for the files it was given, never drops
      one, keeps every stamp it found, and leaves the entries of other
      files alone. */
  lemma {:induction false} FileLoopState(cfg: Config, c: DirCtx, fnames: seq<string>, s: LoopState, sqrt: real -> real)
    requires FileLoop(cfg, c, fnames, s, sqrt).Ok?
    ensures StateKept(s.state, FileLoop(cfg, c, fnames, s, sqrt).value.state, fnames)
    decreases |fnames|
  {
    if |fnames| > 0 {
      var s1 := FileStep(cfg, c, fnames[0], s, sqrt).value;
      FileStepKept(cfg, c, fnames[0], s, sqrt);
      FileLoopState(cfg, c, fnames[1..], s1, sqrt);
      assert FileLoop(cfg, c, fnames, s, sqrt) == FileLoop(cfg, c, fnames[1..], s1, sqrt);
      assert [fnames[0]] + fnames[1..] == fnames;
      StateKeptTrans(s.state, s1.state, FileLoop(cfg, c, fnames, s, sqrt).value.state, fnames[0], fnames[1..]);
    }
  }

  // ---------------------------------------------------------------------
  // `ProcDirectory` and `ProcTree`

  /** `glob(dirpath/'*.json')` over the directory's listing: the names
      ending in `.json` that are not hidden. */
  function DaqConfNames(listing: seq<string>): (r: seq<string>)
    ensures forall f :: f in r <==> f in listing && IsDaqConfName(f)
    decreases |listing|
  {
    if |listing| == 0 then []
    else (if IsDaqConfName(listing[0]) then [listing[0]] else []) + DaqConfNames(listing[1..])
  }

  predicate IsDaqConfName(f: string) {
    |f| > 0 && f[0] != '.' && |f| >= 5 && f[|f| - 5..] == ".json"
  }

  /** `.proc_state_<dir name>.json` in the run directory. */
  function StatePath(dirpath: string): string {
    Walk.Join(dirpath, ".proc_state_" + Walk.Basename(dirpath) + ".json")
  }

  /** The state file is hidden, so it never counts as the DAQ
      configuration even though it ends in `.json`. */
  lemma StateFileIsNotDaqConf(dirpath: string, listing: seq<string>)
    ensures ".proc_state_" + Walk.Basename(dirpath) + ".json" !in DaqConfNames(listing)
  {
    var n := ".proc_state_" + Walk.Basename(dirpath) + ".json";
    assert n[0] == '.';
  }

  /** What one run directory's processing reads besides the filesystem:
      the listing, the parsed state file, the DAQ configuration, and the
      outside world per file. */
  datatype DirEnv = DirEnv(listing: seq<string>, parsedState: Option<State>, daq: DaqConf,
                           world: string -> FileWorld, copySize: string -> nat)

  /** What a directory leaves behind: the filesystem, the processed files,
      and the state saved to the state file, if it was saved. */
  datatype DirOutcome = DirOutcome(fs: Fs, store: Store, saved: Option<State>)

  /** `ProcDirectory`. The archive directory is ensured first (failing
      only switches archiving off); then the directory is abandoned, with
      the state file untouched, unless it holds exactly one DAQ
      configuration and the processing directory can be ensured. The
      configuration is archived (copied) once; an error there is not
      caught. Then the file loop runs and the state is saved. */
  function ProcDirectory(cfg: Config, rel: string, fList: seq<string>, fs: Fs, store: Store, e: DirEnv, sqrt: real -> real)
    : (r: Result<DirOutcome>)
    ensures r.Ok? ==> StoreKept(store, r.value.store, NpyPaths(Walk.DirPath(cfg.procBase, rel), fList))
    ensures r.Ok? && r.value.saved.None? ==> r.value.store == store
  {
    var dirpath := Walk.DirPath(cfg.stagingBase, rel);
    var procDir := Walk.DirPath(cfg.procBase, rel);
    var archiveDir := if cfg.archive.Some? then Walk.DirPath(cfg.archive.value.baseDir, rel) else "";
    var (archiveFiles, fs1) := if cfg.archive.Some? then EnsureDirs(fs, archiveDir, false) else (false, fs);
    var state := LoadState(e.parsedState);
    var confs := DaqConfNames(e.listing);
    if |confs| != 1 then Ok(DirOutcome(fs1, store, None))
    else
      var (procOk, fs2) := EnsureDirs(fs1, procDir, false);
      if !procOk then Ok(DirOutcome(fs2, store, None))
      else
        var confDst := Walk.Join(archiveDir, confs[0]);
        var (fs3, err) := if cfg.archive.Some? && archiveFiles && !Exists(fs2, confDst)
                          then ArchiveFile(fs2, Walk.Join(dirpath, confs[0]), confDst, false, e.copySize(confDst))
                          else (fs2, None);
        if err.Some? then Err(err.value)
        else
          var c := DirCtx(dirpath, procDir, archiveDir, archiveFiles, e.daq, e.world, e.copySize);
          var s :- FileLoop(cfg, c, fList, LoopState(fs3, store, state), sqrt);
          Ok(DirOutcome(s.fs, s.store, Some(s.state)))
  }

  /** A directory without exactly one DAQ configuration, or whose
      processing directory cannot be ensured, is abandoned before any file
      is looked at: nothing is processed and the state file is not
      rewritten. */
  lemma AbandonedDirectory(cfg: Config, rel: string, fList: seq<string>, fs: Fs, store: Store, e: DirEnv, sqrt: real -> real)
    requires |DaqConfNames(e.listing)| != 1 ||
      !EnsureDirs(if cfg.archive.Some? then EnsureDirs(fs, Walk.DirPath(cfg.archive.value.baseDir, rel), false).1 else fs,
                  Walk.DirPath(cfg.procBase, rel), false).0
    ensures ProcDirectory(cfg, rel, fList, fs, store, e, sqrt).Ok?
    ensures ProcDirectory(cfg, rel, fList, fs, store, e, sqrt).value.saved.None?
    ensures ProcDirectory(cfg, rel, fList, fs, store, e, sqrt).value.store == store
  {
  }

  /** The saved state keeps every entry of the state file it started from,
      with its stamp, adds entries only for the directory's run files, and
      leaves the entries of other files alone. */
  lemma SavedStateGrows(cfg: Config, rel: string, fList: seq<string>, fs: Fs, store: Store, e: DirEnv, sqrt: real -> real)
    requires ProcDirectory(cfg, rel, fList, fs, store, e, sqrt).Ok?
    requires ProcDirectory(cfg, rel, fList, fs, store, e, sqrt).value.saved.Some?
    ensures var prev := LoadState(e.parsedState);
      var saved := ProcDirectory(cfg, rel, fList, fs, store, e, sqrt).value.saved.value;
      && prev.Keys <= saved.Keys
      && (forall g :: g in saved ==> g in prev || g in fList)
      && (forall g :: g in prev && g !in fList ==> saved[g] == prev[g])
      && (forall g :: g in prev ==> saved[g].procTs == prev[g].procTs)
  {
    var dirpath := Walk.DirPath(cfg.stagingBase, rel);
    var procDir := Walk.DirPath(cfg.procBase, rel);
    var archiveDir := if cfg.archive.Some? then Walk.DirPath(cfg.archive.value.baseDir, rel) else "";
    var (archiveFiles, fs1) := if cfg.archive.Some? then EnsureDirs(fs, archiveDir, false) else (false, fs);
    var confs := DaqConfNames(e.listing);
    var (procOk, fs2) := EnsureDirs(fs1, procDir, false);
    var confDst := Walk.Join(archiveDir, confs[0]);
    var (fs3, err) := if cfg.archive.Some? && archiveFiles && !Exists(fs2, confDst)
                      then ArchiveFile(fs2, Walk.Join(dirpath, confs[0]), confDst, false, e.copySize(confDst))
                      else (fs2, None);
    var c := DirCtx(dirpath, procDir, archiveDir, archiveFiles, e.daq, e.world, e.copySize);
    FileLoopState(cfg, c, fList, LoopState(fs3, store, LoadState(e.parsedState)), sqrt);
  }

  /** What the tree loop leaves behind: the filesystem, the processed
      files, and the states saved, by state-file path, in order. */
  datatype TreeOutcome = TreeOutcome(fs: Fs, store: Store, saves: seq<(string, State)>)

  /** The tree loop of `ProcTree`, over any per-directory step: each
      directory in turn, the first uncaught error ending the pass, and the
      state a directory saves recorded under its state file `path(v)`. */
  function DirsLoop(dirs: seq<Walk.Visit>, fs: Fs, store: Store,
                    step: (Walk.Visit, Fs, Store) -> Result<DirOutcome>, path: Walk.Visit -> string)
    : (r: Result<TreeOutcome>)
    decreases |dirs|
  {
    if |dirs| == 0 then Ok(TreeOutcome(fs, store, []))
    else
      var d :- step(dirs[0], fs, store);
      var rest :- DirsLoop(dirs[1..], d.fs, d.store, step, path);
      var here := SaveOf(dirs[0], d, path);
      Ok(TreeOutcome(rest.fs, rest.store, here + rest.saves))
  }

  /** What directory `v` saves, as the loop records it. */
  function SaveOf(v: Walk.Visit, d: DirOutcome, path: Walk.Visit -> string): seq<(string, State)> {
    if d.saved.Some? then [(path(v), d.saved.value)] else []
  }

  /** The pass over `dirs + [v]` is the pass over `dirs` followed by the
      step for `v` on the filesystem and store that pass left behind: every
      directory works on its predecessors' disk, and the outcome is the
      last directory's. */
  lemma {:induction false} DirsLoopSnoc(dirs: seq<Walk.Visit>, v: Walk.Visit, fs: Fs, store: Store,
                                        step: (Walk.Visit, Fs, Store) -> Result<DirOutcome>, path: Walk.Visit -> string)
    ensures DirsLoop(dirs + [v], fs, store, step, path) ==
      match DirsLoop(dirs, fs, store, step, path)
      case Err(e) => Err(e)
      case Ok(o) =>
        match step(v, o.fs, o.store)
        case Err(e) => Err(e)
        case Ok(d) => Ok(TreeOutcome(d.fs, d.store, o.saves + SaveOf(v, d, path)))
    decreases |dirs|
  {
    if |dirs| == 0 {
      assert dirs + [v] == [v] && [v][1..] == [];
      var dv := step(v, fs, store);
      if dv.Ok? {
        var here := SaveOf(v, dv.value, path);
        assert here + [] == [] + here;
      }
    } else {
      assert (dirs + [v])[0] == dirs[0];
      assert (dirs + [v])[1..] == dirs[1..] + [v];
      var d0 := step(dirs[0], fs, store);
      if d0.Ok? {
        var d := d0.value;
        DirsLoopSnoc(dirs[1..], v, d.fs, d.store, step, path);
        var rest := DirsLoop(dirs[1..], d.fs, d.store, step, path);
        if rest.Ok? && step(v, rest.value.fs, rest.value.store).Ok? {
          var here := SaveOf(dirs[0], d, path);
          var dv := step(v, rest.value.fs, rest.value.store).value;
          assert here + (rest.value.saves + SaveOf(v, dv, path)) == (here + rest.value.saves) + SaveOf(v, dv, path);
        }
      }
    }
  }

  /** `path` of every directory, in order. */
  function PathsOf(dirs: seq<Walk.Visit>, path: Walk.Visit -> string): (r: seq<string>)
    ensures |r| == |dirs|
  {
    seq(|dirs|, i requires 0 <= i < |dirs| => path(dirs[i]))
  }

  /** Each directory saves its state at most once, and only into its own
      state file. */
  lemma {:induction false} DirsLoopSaves(dirs: seq<Walk.Visit>, fs: Fs, store: Store,
                                         step: (Walk.Visit, Fs, Store) -> Result<DirOutcome>, path: Walk.Visit -> string)
    requires DirsLoop(dirs, fs, store, step, path).Ok?
    ensures var saves := DirsLoop(dirs, fs, store, step, path).value.saves;
      && |saves| <= |dirs|
      && forall k :: 0 <= k < |saves| ==> saves[k].0 in PathsOf(dirs, path)
    decreases |dirs|
  {
    if |dirs| > 0 {
      var d := step(dirs[0], fs, store).value;
      DirsLoopSaves(dirs[1..], d.fs, d.store, step, path);
      var rest := DirsLoop(dirs[1..], d.fs, d.store, step, path).value.saves;
      var here := if d.saved.Some? then [(path(dirs[0]), d.saved.value)] else [];
      var saves := DirsLoop(dirs, fs, store, step, path).value.saves;
      assert saves == here + rest;
      var paths := PathsOf(dirs, path);
      assert PathsOf(dirs[1..], path) == paths[1..];
      forall k | 0 <= k < |saves|
        ensures saves[k].0 in paths
      {
        if k < |here| {
          assert saves[k].0 == paths[0];
        } else {
          assert saves[k] == rest[k - |here|];
        }
      }
    }
  }

  /** When no directory's step writes processed files outside its own, the
      pass writes none outside the union and removes none. */
  lemma {:induction false} DirsLoopKept(dirs: seq<Walk.Visit>, fs: Fs, store: Store,
                                        step: (Walk.Visit, Fs, Store) -> Result<DirOutcome>,
                                        path: Walk.Visit -> string, own: Walk.Visit -> set<string>)
    requires forall v, f, st :: step(v, f, st).Ok? ==> StoreKept(st, step(v, f, st).value.store, own(v))
    ensures DirsLoop(dirs, fs, store, step, path).Ok? ==>
      StoreKept(store, DirsLoop(dirs, fs, store, step, path).value.store, Walk.OwnOf(dirs, own))
    decreases |dirs|
  {
    if |dirs| > 0 && DirsLoop(dirs, fs, store, step, path).Ok? {
      var d := step(dirs[0], fs, store).value;
      DirsLoopKept(dirs[1..], d.fs, d.store, step, path, own);
      StoreKeptTrans(store, d.store, DirsLoop(dirs, fs, store, step, path).value.store, own(dirs[0]), Walk.OwnOf(dirs[1..], own));
    }
  }

  /** The processed files of a selected directory's run files. */
  function NpyOfDir(cfg: Config): (own: Walk.Visit -> set<string>)
    ensures forall v :: own(v) == NpyPaths(Walk.DirPath(cfg.procBase, v.rel), v.files)
  {
    (v: Walk.Visit) => NpyPaths(Walk.DirPath(cfg.procBase, v.rel), v.files)
  }

  /** The state file of a selected directory. */
  function SavePath(cfg: Config): (path: Walk.Visit -> string)
    ensures forall v :: path(v) == StatePath(Walk.DirPath(cfg.stagingBase, v.rel))
  {
    (v: Walk.Visit) => StatePath(Walk.DirPath(cfg.stagingBase, v.rel))
  }

  /** `ProcDirectory` on a selected directory, with that directory's
      environment; it writes processed files only under its own names. */
  function DirStep(cfg: Config, envOf: string -> DirEnv, sqrt: real -> real): (step: (Walk.Visit, Fs, Store) -> Result<DirOutcome>)
    ensures forall v, f, st :: step(v, f, st) == ProcDirectory(cfg, v.rel, v.files, f, st, envOf(v.rel), sqrt)
    ensures forall v, f, st :: step(v, f, st).Ok? ==> StoreKept(st, step(v, f, st).value.store, NpyOfDir(cfg)(v))
  {
    (v: Walk.Visit, f: Fs, st: Store) => ProcDirectory(cfg, v.rel, v.files, f, st, envOf(v.rel), sqrt)
  }

  /** `ProcTree`: the walk of the staging tree, pruned below depth two,
      with the run files (`.root`) of each directory that has some, each
      handled by `ProcDirectory`. */
  function ProcTree(cfg: Config, root: Walk.Dir, fs: Fs, store: Store, envOf: string -> DirEnv, sqrt: real -> real)
    : (r: Result<TreeOutcome>)
    requires Walk.WellFormed(root)
    ensures r.Ok? ==> StoreKept(store, r.value.store, Walk.OwnOf(Walk.DirsToProcess(root, Walk.ProcExts), NpyOfDir(cfg)))
  {
    var dirs := Walk.DirsToProcess(root, Walk.ProcExts);
    var step := DirStep(cfg, envOf, sqrt);
    DirsLoopKept(dirs, fs, store, step, SavePath(cfg), NpyOfDir(cfg));
    DirsLoop(dirs, fs, store, step, SavePath(cfg))
  }

  /** A pass over the tree writes at most one state file per selected
      directory, and only the selected directories' own. */
  lemma ProcTreeSaves(cfg: Config, root: Walk.Dir, fs: Fs, store: Store, envOf: string -> DirEnv, sqrt: real -> real)
    requires Walk.WellFormed(root)
    ensures ProcTree(cfg, root, fs, store, envOf, sqrt).Ok? ==>
      var dirs := Walk.DirsToProcess(root, Walk.ProcExts);
      var saves := ProcTree(cfg, root, fs, store, envOf, sqrt).value.saves;
      && |saves| <= |dirs|
      && forall k :: 0 <= k < |saves| ==> saves[k].0 in PathsOf(dirs, SavePath(cfg))
  {
    if ProcTree(cfg, root, fs, store, envOf, sqrt).Ok? {
      var dirs := Walk.DirsToProcess(root, Walk.ProcExts);
      DirsLoopSaves(dirs, fs, store, DirStep(cfg, envOf, sqrt), SavePath(cfg));
    }
  }
}

=== FILE: fileproc.dfy ===
/** `GatorFileProcessor`: one raw file through the whole waveform pipeline.
    Construction loads the file, puts a `filename` column in front of a copy
    of the handler's table and builds one callback per distinct processor name the
    channel map mentions; a call runs the raw extrema, then the baseline
    subtraction, then every callback on the baseline-subtracted waveforms. */
module FileProc {
  import opened Common
  import opened NdArrays
  import opened Tables
  import opened WfsProc
  import opened RawFile
  import Walk
  import RawStages
  import Bsln
  import TrapStage
  import GaussStage

  const FilenameCol := "filename"

  /** The processor's state: the channel map, the file handler, the table,
      the callbacks in the order they run, the raw processor's stored
      waveforms and the last baseline-subtracted waveforms. */
  datatype FileProcessor = FileProcessor(
    m: ChsMap,
    handler: Handler,
    df: Table,
    callbacks: seq<StageKind>,
    rawState: RawStages.RawWfsState,
    bsln: map<string, NdArray>)

  /** A column repeating one string, as pandas broadcasts a scalar. */
  function ConstStrCol(n: nat, s: string): (c: Column)
    ensures c.dtype == ObjectT && |c.vals| == n && forall i :: 0 <= i < n ==> c.vals[i] == Str(s)
  {
    Column(ObjectT, Repeat(Str(s), n))
  }

  /** `df['filename'] = name; df = df[['filename'] + cols]`: the new column
      comes first, the others follow in their order, unchanged. */
  function WithFilename(t: Table, name: string): (r: Table)
    requires Valid(t) && FilenameCol !in t.data
    ensures Valid(r) && r.nrows == t.nrows && r.cols == [FilenameCol] + t.cols
    ensures r.data.Keys == t.data.Keys + {FilenameCol}
    ensures r.data[FilenameCol] == ConstStrCol(t.nrows, name)
    ensures forall c :: c in t.data ==> r.data[c] == t.data[c]
  {
    var r := Table(t.nrows, [FilenameCol] + t.cols, t.data[FilenameCol := ConstStrCol(t.nrows, name)]);
    assert forall i :: 1 <= i < |r.cols| ==> r.cols[i] == t.cols[i - 1];
    r
  }

  // ---------------------------------------------------------------------
  // Callbacks

  /** The processor names listed by the channels of `chs` that have a
      `processors` entry. */
  function CallbackNames(m: ChsMap, chs: seq<string>): (s: set<string>)
    requires forall c :: c in chs ==> c in m.conf
    ensures forall n :: n in s <==> exists c :: c in chs && m.conf[c].processors.Some? && n in m.conf[c].processors.value
    decreases |chs|
  {
    if |chs| == 0 then {}
    else
      var here := if m.conf[chs[0]].processors.Some? then m.conf[chs[0]].processors.value.Keys else {};
      var rest := CallbackNames(m, chs[1..]);
      assert forall c :: c in chs[1..] ==> c in chs;
      assert forall c :: c in chs ==> c == chs[0] || c in chs[1..];
      here + rest
  }

  /** `order` lists the set once each: the iteration order of a Python
      `set`, which the model takes as an input. */
  ghost predicate Enumerates(order: seq<string>, s: set<string>) {
    Distinct(order) && forall x :: x in order <==> x in s
  }

  /** The loop of `_parseCallbacks`: each name is looked up in the registry
      (KeyError when absent) and its class constructed (the base class
      raises NotImplementedError). */
  function ParseCallbacks(reg: Registry, order: seq<string>): (r: Result<seq<StageKind>>)
    ensures r.Ok? <==> forall i :: 0 <= i < |order| ==> order[i] in reg && reg[order[i]] != BaseProc
    ensures r.Ok? ==> |r.value| == |order| && forall i :: 0 <= i < |order| ==> r.value[i] == reg[order[i]]
    ensures r.Err? ==> r.error == KeyError || r.error == NotImplemented
    ensures r.Err? && (forall i :: 0 <= i < |order| ==> order[i] in reg) ==> r.error == NotImplemented
    ensures r.Err? && (forall i :: 0 <= i < |order| ==> order[i] in reg ==> reg[order[i]] != BaseProc) ==> r.error == KeyError
    decreases |order|
  {
    if |order| == 0 then Ok([])
    else if order[0] !in reg then Err(KeyError)
    else
      var k :- Construct(reg[order[0]], None).1;
      var rest :- ParseCallbacks(reg, order[1..]);
      Ok([k] + rest)
  }

  /** With a registry holding no base class, construction fails only on an
      unregistered name, and otherwise yields one callback per name. */
  lemma ParseWithoutBase(reg: Registry, order: seq<string>, s: set<string>)
    requires Enumerates(order, s) && forall k :: k in reg ==> reg[k] != BaseProc
    ensures var r := ParseCallbacks(reg, order);
      && (r.Ok? <==> s <= reg.Keys)
      && (r.Ok? ==> |r.value| == |s|)
      && (r.Err? ==> r.error == KeyError)
  {
    DistinctCard(order, s);
    assert (forall i :: 0 <= i < |order| ==> order[i] in reg) <==> s <= reg.Keys by {
      if s <= reg.Keys {
        forall i | 0 <= i < |order| ensures order[i] in reg {
          assert order[i] in s;
        }
      }
    }
  }

  /** With the registry the processor modules build, construction succeeds
      exactly when every name the channels list is registered, and then
      there is one callback per distinct name. */
  lemma DefaultCallbacks(m: ChsMap, order: seq<string>)
    requires ValidChsMap(m) && Enumerates(order, CallbackNames(m, m.chs))
    ensures var r := ParseCallbacks(DefaultRegistry().value, order);
      && (r.Ok? <==> CallbackNames(m, m.chs) <= {"gaussfilter", "rawpur", "trapezoid"})
      && (r.Ok? ==> |r.value| == |CallbackNames(m, m.chs)|)
      && (r.Err? ==> r.error == KeyError)
  {
    var reg := DefaultRegistry().value;
    assert forall k :: k in reg ==> reg[k] != BaseProc;
    ParseWithoutBase(reg, order, CallbackNames(m, m.chs));
  }

  /** A duplicate-free listing of a set is as long as the set is large. */
  lemma {:induction false} DistinctCard(order: seq<string>, s: set<string>)
    requires Enumerates(order, s)
    ensures |order| == |s|
    decreases |order|
  {
    if |order| > 0 {
      var x := order[0];
      assert Enumerates(order[1..], s - {x}) by {
        forall y | y in order[1..] ensures y != x {
          var j :| 0 <= j < |order[1..]| && order[1..][j] == y;
          assert order[j + 1] == y;
        }
      }
      DistinctCard(order[1..], s - {x});
    } else {
      assert forall y :: y !in s;
    }
  }

  // ---------------------------------------------------------------------
  // Construction

  /** The columns of a freshly loaded handler table. */
  lemma RawDfHasNoFilename(t: Table)
    requires Valid(t) && t.cols == RawDfCols()
    ensures FilenameCol !in t.data
  {
    assert FilenameCol !in t.cols;
  }

  /** `GatorFileProcessor(fpath, chs_map, keepwfs)`: the handler is built
      (ValueError for a map without channels) and called with the waveforms
      kept; a copy of its table gets the `filename` column in front; the waveforms are
      released unless `keepwfs`; then the callbacks are parsed. */
  function NewFileProcessor(disk: Disk, fpath: string, m: ChsMap, keepwfs: bool, reg: Registry, order: seq<string>)
    : (r: Result<FileProcessor>)
    requires ValidChsMap(m) && Enumerates(order, CallbackNames(m, m.chs))
    ensures |m.chs| == 0 ==> r == Err(ValueError)
    ensures r.Ok? ==> FreshDf(disk, fpath, 0).Ok?
    ensures r.Ok? ==> var raw := FreshDf(disk, fpath, 0).value;
      && r.value.df.data.Keys == raw.data.Keys + {FilenameCol}
      && r.value.df.cols == [FilenameCol] + RawDfCols()
      && r.value.df.nrows == raw.nrows
      && r.value.df.data[FilenameCol] == ConstStrCol(raw.nrows, Walk.Basename(fpath))
      && (forall c :: c in raw.data ==> r.value.df.data[c] == raw.data[c])
    ensures r.Ok? ==> Valid(r.value.df) && Inv(r.value.handler) && r.value.handler.dataLoaded
    ensures r.Ok? ==> r.value.handler.wfsOnMemory == keepwfs && NameSet(r.value.handler.names) == NameSet(m.chs)
    ensures r.Ok? ==> r.value.handler.df == Some(FreshDf(disk, fpath, 0).value)
    ensures r.Ok? ==> ParseCallbacks(reg, order) == Ok(r.value.callbacks)
    ensures r.Ok? ==> r.value.m == m && r.value.bsln == map[]
  {
    var h :- NewHandler(fpath, m.chs, 0);
    var h1 :- Call(h, disk, true);
    var df0 := GetDf(h1).value;  // a loaded handler always has its table
    RawDfHasNoFilename(df0);
    var name := Walk.Basename(fpath);
    // `getDf` hands out a copy: the handler's own table keeps its layout
    var df := WithFilename(df0, name);
    var h2 := if keepwfs then h1 else Release(h1);
    var cbs :- ParseCallbacks(reg, order);
    Ok(FileProcessor(m, h2, df, cbs, RawStages.RawWfsInit(), map[]))
  }

  // ---------------------------------------------------------------------
  // The call

  /** The columns a stage's `doProc` may write. */
  function StageNames(k: StageKind, m: ChsMap, bsln: map<string, NdArray>): set<string>
    requires ValidChsMap(m)
  {
    match k
    case BaseProc => {}
    case RawWfsProc => RawStages.RawNamesAll(m.chs)
    case BslnSubtraction => Bsln.BslnNamesAll(m, m.chs)
    case TrapezoidProc => TrapStage.TrapNamesAll(m, m.chs, bsln)
    case GaussFilters => GaussStage.GaussNamesAll(m, m.chs, bsln)
    case RawPurProc => RawStages.PurNamesAll(m, m.chs)
  }

  /** One callback's `doProc`, its waveform output discarded. */
  function RunStage(k: StageKind, m: ChsMap, t: Table, bsln: map<string, NdArray>,
                    raw: map<string, NdArray>, tr: Transcendentals): (r: Result<Table>)
    requires ValidChsMap(m) && Valid(t) && AllWellShaped(bsln) && AllWellShaped(raw)
    ensures k == BaseProc ==> r == Err(NotImplemented)
    ensures r.Ok? ==> UpdatedOnly(t, r.value, StageNames(k, m, bsln))
  {
    match k
    case BaseProc => Err(NotImplemented)
    case RawWfsProc =>
      var out :- RawStages.RawWfsDoProc(m, t, raw);
      Ok(out.1)
    case BslnSubtraction =>
      var out :- Bsln.BslnDoProc(m, t, raw, tr.sqrt);
      Ok(out.0)
    case TrapezoidProc =>
      var out :- TrapStage.TrapDoProc(m, t, bsln, tr.exp);
      Ok(out.0)
    case GaussFilters =>
      var out :- GaussStage.GaussDoProc(m, t, bsln, tr.exp);
      Ok(out.0)
    case RawPurProc =>
      var out :- RawStages.RawPurDoProc(m, t);
      Ok(out.0)
  }

  /** The columns the callbacks may write, together. */
  function CallbackColumns(cbs: seq<StageKind>, m: ChsMap, bsln: map<string, NdArray>): set<string>
    requires ValidChsMap(m)
    decreases |cbs|
  {
    if |cbs| == 0 then {} else StageNames(cbs[0], m, bsln) + CallbackColumns(cbs[1..], m, bsln)
  }

  /** The callbacks in order, each once, on the same baseline-subtracted
      waveforms; the first failure stops the call. */
  function RunCallbacks(cbs: seq<StageKind>, m: ChsMap, t: Table, bsln: map<string, NdArray>,
                        raw: map<string, NdArray>, tr: Transcendentals): (r: Result<Table>)
    requires ValidChsMap(m) && Valid(t) && AllWellShaped(bsln) && AllWellShaped(raw)
    ensures BaseProc in cbs ==> r.Err?
    ensures r.Ok? ==> UpdatedOnly(t, r.value, CallbackColumns(cbs, m, bsln))
    decreases |cbs|
  {
    if |cbs| == 0 then
      UpdatedOnlyRefl(t);
      Ok(t)
    else
      var t1 :- RunStage(cbs[0], m, t, bsln, raw, tr);
      var t2 :- RunCallbacks(cbs[1..], m, t1, bsln, raw, tr);
      UpdatedOnlyTrans(t, t1, t2, StageNames(cbs[0], m, bsln), CallbackColumns(cbs[1..], m, bsln));
      Ok(t2)
  }

  /** A digitiser file with no events: its fixed-length waveform branch
      reads as a batch of the branch's width with no rows, which the raw
      stage accepts against the empty event table. */
  lemma ZeroEventFilePassesRawStage(df: Table, ch: string, width: nat)
    requires Valid(df) && df.nrows == 0 && width > 0
    ensures ReadBranch(Waves(width, [])) == Ok(Mat(width, []))
    ensures RawStages.RawChannel(df, ch, ReadBranch(Waves(width, [])).value).Ok?
  {
  }

  /** Baseline-subtracted waveforms keep the shape of their input. */
  lemma CorrectionsWellShaped(m: ChsMap, raw: map<string, NdArray>, out: map<string, NdArray>)
    requires ValidChsMap(m) && AllWellShaped(raw)
    requires forall c :: c in out ==> c in raw && c in m.conf && m.conf[c].bsln.Some? && Bsln.IsCorrection(m.conf[c].bsln.value, raw[c], out[c])
    ensures AllWellShaped(out)
  {
    forall c | c in out ensures WellShaped(out[c]) {
      var a := AsRows(raw[c]);
      forall i | 0 <= i < |out[c].rows| ensures |out[c].rows[i]| == out[c].ncols {
        assert |a.rows[i]| == a.ncols;
      }
    }
  }

  /** `__call__`: the waveforms are fetched from the handler (loaded and
      released again if they were not in memory); the raw stage writes its
      columns and reshapes the waveform map in place; the baseline stage
      runs on that map; the callbacks get only the baseline-subtracted
      arrays. Only the stages' own columns change. */
  function Run(fp: FileProcessor, disk: Disk, tr: Transcendentals): (r: Result<FileProcessor>)
    requires ValidChsMap(fp.m) && Valid(fp.df) && Inv(fp.handler)
    ensures r.Ok? ==> r.value.m == fp.m && r.value.callbacks == fp.callbacks
    ensures r.Ok? ==> r.value.handler.wfsOnMemory == fp.handler.wfsOnMemory && Inv(r.value.handler)
    ensures r.Ok? ==> r.value.bsln.Keys == Bsln.BslnChannels(fp.m, fp.m.chs)
    ensures r.Ok? ==> UpdatedOnly(fp.df, r.value.df,
      RawStages.RawNamesAll(fp.m.chs) + Bsln.BslnNamesAll(fp.m, fp.m.chs) + CallbackColumns(fp.callbacks, fp.m, r.value.bsln))
    ensures !fp.handler.dataLoaded ==> r == Err(AttributeError)
  {
    var (h, raw) :- GetWfs(fp.handler, disk);
    var (st, t1, raw2) :- RawStages.RawWfsDoProc(fp.m, fp.df, raw);
    var (t2, bsln) :- Bsln.BslnDoProc(fp.m, t1, raw2, tr.sqrt);
    CorrectionsWellShaped(fp.m, raw2, bsln);
    var t3 :- RunCallbacks(fp.callbacks, fp.m, t2, bsln, raw2, tr);
    UpdatedOnlyTrans(fp.df, t1, t2, RawStages.RawNamesAll(fp.m.chs), Bsln.BslnNamesAll(fp.m, fp.m.chs));
    UpdatedOnlyTrans(fp.df, t2, t3, RawStages.RawNamesAll(fp.m.chs) + Bsln.BslnNamesAll(fp.m, fp.m.chs),
                     CallbackColumns(fp.callbacks, fp.m, bsln));
    Ok(fp.(handler := h, df := t3, rawState := st, bsln := bsln))
  }

  /** The waveforms of `__call__` went through the stages in order: the raw
      stage reshaped the handler's waveforms into the batches `rawWfs`, and
      every baseline-subtracted array of `bsln` corrects its batch. */
  ghost predicate WfsInOrder(fp: FileProcessor, disk: Disk, rawWfs: map<string, NdArray>, bsln: map<string, NdArray>)
    requires ValidChsMap(fp.m) && Inv(fp.handler)
  {
    && GetWfs(fp.handler, disk).Ok?
    && AllWellShaped(rawWfs) && AllWellShaped(bsln)
    && (var raw := GetWfs(fp.handler, disk).value.1;
        forall c :: c in fp.m.chs ==> c in raw && !raw[c].Higher? && c in rawWfs && rawWfs[c] == AsRows(raw[c]))
    && (forall c :: c in bsln ==>
          && c in rawWfs && c in fp.m.conf && fp.m.conf[c].bsln.Some?
          && Bsln.IsCorrection(fp.m.conf[c].bsln.value, rawWfs[c], bsln[c]))
  }

  /** The tables of `__call__` went through the stages in order: the raw
      stage left `t1` holding the extrema of the batches; the baseline
      stage turned it into `t2`; the callbacks ran on `t2` with exactly the
      arrays `bsln` and gave `df`. */
  ghost predicate TablesInOrder(fp: FileProcessor, tr: Transcendentals, t1: Table, t2: Table,
                                rawWfs: map<string, NdArray>, bsln: map<string, NdArray>, df: Table)
    requires ValidChsMap(fp.m)
  {
    && Valid(t1) && Valid(t2) && AllWellShaped(rawWfs) && AllWellShaped(bsln)
    && (forall c :: c in fp.m.chs ==> c in rawWfs && rawWfs[c].Mat? && RawStages.RawColumnsHold(t1, c, rawWfs[c].rows))
    && Bsln.BslnDoProc(fp.m, t1, rawWfs, tr.sqrt) == Ok((t2, bsln))
    && RunCallbacks(fp.callbacks, fp.m, t2, bsln, rawWfs, tr) == Ok(df)
  }

  lemma WfsChained(fp: FileProcessor, disk: Disk, tr: Transcendentals, h: Handler, raw: map<string, NdArray>,
                   st: RawStages.RawWfsState, t1: Table, t2: Table, bsln: map<string, NdArray>)
    requires ValidChsMap(fp.m) && Valid(fp.df) && Inv(fp.handler)
    requires GetWfs(fp.handler, disk) == Ok((h, raw))
    requires RawStages.RawWfsDoProc(fp.m, fp.df, raw) == Ok((st, t1, st.rawWfs))
    requires Bsln.BslnDoProc(fp.m, t1, st.rawWfs, tr.sqrt) == Ok((t2, bsln))
    requires AllWellShaped(bsln)
    ensures WfsInOrder(fp, disk, st.rawWfs, bsln)
  {
  }

  lemma TablesChained(fp: FileProcessor, tr: Transcendentals, raw: map<string, NdArray>,
                      st: RawStages.RawWfsState, t1: Table, t2: Table, bsln: map<string, NdArray>, t3: Table)
    requires ValidChsMap(fp.m) && Valid(fp.df) && AllWellShaped(raw)
    requires RawStages.RawWfsDoProc(fp.m, fp.df, raw) == Ok((st, t1, st.rawWfs))
    requires Bsln.BslnDoProc(fp.m, t1, st.rawWfs, tr.sqrt) == Ok((t2, bsln))
    requires AllWellShaped(st.rawWfs) && AllWellShaped(bsln)
    requires RunCallbacks(fp.callbacks, fp.m, t2, bsln, st.rawWfs, tr) == Ok(t3)
    ensures TablesInOrder(fp, tr, t1, t2, st.rawWfs, bsln, t3)
  {
  }

  /** `__call__` runs its stages in order. */
  lemma RunStageOrder(fp: FileProcessor, disk: Disk, tr: Transcendentals)
    requires ValidChsMap(fp.m) && Valid(fp.df) && Inv(fp.handler)
    ensures Run(fp, disk, tr).Ok? ==>
      && WfsInOrder(fp, disk, Run(fp, disk, tr).value.rawState.rawWfs, Run(fp, disk, tr).value.bsln)
      && exists t1, t2 :: TablesInOrder(fp, tr, t1, t2, Run(fp, disk, tr).value.rawState.rawWfs,
                                        Run(fp, disk, tr).value.bsln, Run(fp, disk, tr).value.df)
  {
    if Run(fp, disk, tr).Ok? {
      var (h, raw) := GetWfs(fp.handler, disk).value;
      var (st, t1, raw2) := RawStages.RawWfsDoProc(fp.m, fp.df, raw).value;
      var (t2, bsln) := Bsln.BslnDoProc(fp.m, t1, raw2, tr.sqrt).value;
      CorrectionsWellShaped(fp.m, raw2, bsln);
      var t3 := RunCallbacks(fp.callbacks, fp.m, t2, bsln, raw2, tr).value;
      assert Run(fp, disk, tr).value == fp.(handler := h, df := t3, rawState := st, bsln := bsln);
      WfsChained(fp, disk, tr, h, raw, st, t1, t2, bsln);
      TablesChained(fp, tr, raw, st, t1, t2, bsln, t3);
    }
  }
}

=== FILE: gaussstage.dfy ===
/** `WfsGaussianFilters` (registered as "gaussfilter"): Gaussian smoothing of
    every baseline-subtracted batch whose channel has `sigma` and
    `kernel_half_width`, the peak amplitude and position of each smoothed
    event, and, when `find_pulses` is set, the derivative-of-Gaussian
    filtered batch and the number of pulses of each event. */
module GaussStage {
  import opened Common
  import opened Series
  import opened NdArrays
  import opened Tables
  import opened WfsProc
  import opened WfsLibs
  import RawStages

  const SmoothAmplSuffix := "_smooth_pulse_ampl"
  const SmoothPosSuffix := "_smooth_pulse_maxpos"
  const PeaksSuffix := "_n_peaks"

  /** The `processors.gaussfilter` settings of a channel: the two filter
      settings, whether `find_pulses` and `derivative` compare equal to
      True, and `ampl_min_thr` when present. */
  datatype GaussSettings = GaussSettings(
    sigma: real, h: int, findPulses: bool, amplMinThr: Option<real>, derivative: bool)

  /** The settings, when the `processors` object, its `gaussfilter` entry,
      `sigma` and `kernel_half_width` are all present; otherwise the channel
      is skipped. */
  function GaussSettingsOf(conf: ChannelConf): (r: Option<GaussSettings>)
    ensures r.Some? <==> (&& conf.processors.Some? && "gaussfilter" in conf.processors.value
                          && conf.processors.value["gaussfilter"].sigma.Some?
                          && conf.processors.value["gaussfilter"].kernelHalfWidth.Some?)
    ensures r.Some? ==> var pp := conf.processors.value["gaussfilter"];
      && r.value.sigma == pp.sigma.value && r.value.h == pp.kernelHalfWidth.value
      && (r.value.findPulses <==> pp.findPulses == Some(true))
      && (r.value.derivative <==> pp.derivative == Some(true))
      && r.value.amplMinThr == pp.amplMinThr
  {
    if conf.processors.None? || "gaussfilter" !in conf.processors.value then None
    else
      var pp := conf.processors.value["gaussfilter"];
      if pp.sigma.None? || pp.kernelHalfWidth.None? then None
      else Some(GaussSettings(pp.sigma.value, pp.kernelHalfWidth.value,
                              pp.findPulses == Some(true), pp.amplMinThr, pp.derivative == Some(true)))
  }

  /** The Gaussian weights are finite and do not sum to zero, so both
      kernels are defined. */
  predicate Finite(st: GaussSettings, exp: real -> real) {
    st.h >= 0 && st.sigma != 0.0 && Sum(GaussWeights(exp, st.sigma, st.h)) != 0.0
  }

  /** What the stage keeps for one channel: the smoothed waveforms under
      `swf` and, when requested, the derivative-filtered ones under `swfd`. */
  datatype GaussOut = GaussOut(swf: NdArray, swfd: Option<NdArray>)

  /** Row maxima of the smoothed events and their first positions. */
  function AmplCol(rows: seq<seq<real>>): (c: Column)
    requires forall i :: 0 <= i < |rows| ==> |rows[i]| > 0
    ensures |c.vals| == |rows|
  {
    RealCol(seq(|rows|, i requires 0 <= i < |rows| && |rows[i]| > 0 => Max(rows[i])))
  }

  function PosCol(rows: seq<seq<real>>): (c: Column)
    requires forall i :: 0 <= i < |rows| ==> |rows[i]| > 0
    ensures |c.vals| == |rows|
  {
    IntCol(seq(|rows|, i requires 0 <= i < |rows| && |rows[i]| > 0 => ArgMax(rows[i])))
  }

  /** `n` is the number of connected regions where the waveform `w` is
      above `thr` around a positive-to-negative turn of its derivative `d`:
      some labelling of those samples into `n` runs exists. */
  ghost predicate CountsRegions(d: seq<real>, w: seq<real>, thr: real, n: nat)
    requires |d| == |w|
  {
    exists l :: SegmentLabelling(PileMask(d, w, thr), l, n)
  }

  /** The number of pulses of every event: the region count of
      `find_rel_maxima` over the event's derivative and smoothed waveform. */
  function PeakCounts(drows: seq<seq<real>>, rows: seq<seq<real>>, thr: real): (ns: seq<nat>)
    requires thr > 0.0 && |drows| == |rows|
    requires forall i :: 0 <= i < |rows| ==> |rows[i]| > 0 && |drows[i]| == |rows[i]|
    ensures |ns| == |rows|
    ensures forall i :: 0 <= i < |rows| ==> CountsRegions(drows[i], rows[i], thr, ns[i])
  {
    var counts := seq(|rows|, i requires 0 <= i < |rows| && thr > 0.0 && |drows| == |rows|
                                && |rows[i]| > 0 && |drows[i]| == |rows[i]| =>
      FindRelMaxima(drows[i], rows[i], thr).value.0);
    PeakCountsLabel(drows, rows, thr, counts);
    counts
  }

  lemma PeakCountsLabel(drows: seq<seq<real>>, rows: seq<seq<real>>, thr: real, counts: seq<nat>)
    requires thr > 0.0 && |drows| == |rows| == |counts|
    requires forall i :: 0 <= i < |rows| ==> |rows[i]| > 0 && |drows[i]| == |rows[i]|
    requires forall i :: 0 <= i < |rows| ==> counts[i] == FindRelMaxima(drows[i], rows[i], thr).value.0
    ensures forall i :: 0 <= i < |rows| ==> CountsRegions(drows[i], rows[i], thr, counts[i])
  {
    forall i | 0 <= i < |rows|
      ensures CountsRegions(drows[i], rows[i], thr, counts[i])
    {
      PeakCountLabel(drows[i], rows[i], thr, counts[i]);
    }
  }

  lemma PeakCountLabel(d: seq<real>, w: seq<real>, thr: real, c: nat)
    requires thr > 0.0 && |d| == |w| > 0 && c == FindRelMaxima(d, w, thr).value.0
    ensures CountsRegions(d, w, thr, c)
  {
    var r := FindRelMaxima(d, w, thr);
    assert SegmentLabelling(PileMask(d, w, thr), r.value.1, c);
  }

  function SmoothColNames(ch: string): (names: seq<string>)
    ensures |names| == 2 && Distinct(names)
  {
    SuffixesDiffer(ch, SmoothAmplSuffix, SmoothPosSuffix);
    [ch + SmoothAmplSuffix, ch + SmoothPosSuffix]
  }

  /** The columns written for a channel: the peak columns, and the pulse
      count when `find_pulses` is set. */
  function GaussNames(ch: string, st: GaussSettings): set<string> {
    NameSet(SmoothColNames(ch)) + (if st.findPulses then {ch + PeaksSuffix} else {})
  }

  /** No column of one channel is named like a column of another: the
      suffixes differ in their second-to-last character. */
  lemma GaussNamesApart(ch1: string, st1: GaussSettings, ch2: string, st2: GaussSettings)
    requires ch1 != ch2
    ensures GaussNames(ch1, st1) !! GaussNames(ch2, st2)
  {
    var sufs := [SmoothAmplSuffix, SmoothPosSuffix, PeaksSuffix];
    forall i, j | 0 <= i < 3 && 0 <= j < 3
      ensures ch1 + sufs[i] != ch2 + sufs[j]
    {
      NamesDiffer(ch1, sufs[i], ch2, sufs[j], 2);
    }
    assert GaussNames(ch1, st1) <= {ch1 + sufs[0], ch1 + sufs[1], ch1 + sufs[2]};
    assert GaussNames(ch2, st2) <= {ch2 + sufs[0], ch2 + sufs[1], ch2 + sufs[2]};
  }

  /** The table holds the peak columns of `ch` computed from `rows`. */
  ghost predicate SmoothColumnsHold(t: Table, ch: string, rows: seq<seq<real>>) {
    && (forall i :: 0 <= i < |rows| ==> |rows[i]| > 0)
    && ch + SmoothAmplSuffix in t.data && t.data[ch + SmoothAmplSuffix] == AmplCol(rows)
    && ch + SmoothPosSuffix in t.data && t.data[ch + SmoothPosSuffix] == PosCol(rows)
  }

  /** What the peak columns say: for every event the amplitude is the
      largest smoothed sample and the position the first index holding it. */
  lemma SmoothColumnsMeaning(t: Table, ch: string, rows: seq<seq<real>>)
    requires SmoothColumnsHold(t, ch, rows)
    ensures forall i :: 0 <= i < |rows| ==>
      RawStages.ExtremumAt(rows[i], t.data[ch + SmoothAmplSuffix].vals[i], t.data[ch + SmoothPosSuffix].vals[i], true)
  {
  }

  /** `smooth` and `deriv` are what `gaussian_filter` makes of `a` under
      `st`: the smoothed and, when requested, derivative-filtered batches. */
  ghost predicate IsSmoothingOf(st: GaussSettings, a: NdArray, out: GaussOut, exp: real -> real) {
    && WellShaped(a) && a.Mat? && |a.rows| > 0 && Finite(st, exp)
    && out.swf == GaussianFilter(a, exp, st.sigma, st.h, false).value
    && (out.swfd.Some? <==> st.findPulses)
    && (st.findPulses ==> out.swfd.value == GaussianFilter(a, exp, st.sigma, st.h, true).value)
  }

  /** With `find_pulses`, the `n_peaks` column of `ch` in `t` holds the
      per-event pulse counts of the output `o`. */
  ghost predicate PeaksHold(t: Table, ch: string, st: GaussSettings, o: GaussOut) {
    st.findPulses ==>
      && st.amplMinThr.Some? && st.amplMinThr.value > 0.0
      && o.swf.Mat? && o.swfd.Some? && o.swfd.value.Mat? && |o.swfd.value.rows| == |o.swf.rows|
      && (forall i :: 0 <= i < |o.swf.rows| ==> |o.swf.rows[i]| > 0 && |o.swfd.value.rows[i]| == |o.swf.rows[i]|)
      && ch + PeaksSuffix in t.data
      && t.data[ch + PeaksSuffix] == IntCol(PeakCounts(o.swfd.value.rows, o.swf.rows, st.amplMinThr.value))
  }

  /** One channel of `doProc`. An empty batch comes back from
      `gaussian_filter` as a 1-D array, on which `np.max(..., axis=1)`
      raises AxisError; a negative half width leaves an empty kernel, which
      `convolve` rejects (ValueError); a 1-D waveform raises AxisError;
      events without samples or a number of events other than the table's
      raise ValueError. A zero `sigma` or weights summing to zero give NaN
      kernels (NotFinite here). With `find_pulses`, a missing `ampl_min_thr`
      raises KeyError and a threshold that is not positive ValueError. */
  function GaussChannel(df: Table, ch: string, st: GaussSettings, a: NdArray, exp: real -> real)
    : (r: Result<(Table, GaussOut)>)
    requires Valid(df) && WellShaped(a)
    ensures a.Higher? ==> r == Err(ValueError)
    ensures a.Mat? && |a.rows| == 0 ==> r == Err(AxisError)
    ensures !a.Higher? && !(a.Mat? && |a.rows| == 0) && st.h < 0 ==> r == Err(ValueError)
    ensures a.Vec? && st.h >= 0 ==> r == Err(AxisError)
    ensures r.Err? && r.error == NotFinite ==> !Finite(st, exp)
    ensures r.Ok? ==> a.Mat? && |a.rows| == df.nrows && a.ncols > 0 && IsSmoothingOf(st, a, r.value.1, exp)
    ensures r.Ok? ==> UpdatedOnly(df, r.value.0, GaussNames(ch, st))
    ensures r.Ok? ==> r.value.0.data.Keys == df.data.Keys + GaussNames(ch, st)
    ensures r.Ok? ==> SmoothColumnsHold(r.value.0, ch, r.value.1.swf.rows)
    ensures r.Ok? && st.findPulses ==> st.amplMinThr.Some? && st.amplMinThr.value > 0.0
    ensures r.Ok? && st.findPulses ==> (
      && ch + PeaksSuffix in r.value.0.data
      && r.value.0.data[ch + PeaksSuffix]
         == IntCol(PeakCounts(r.value.1.swfd.value.rows, r.value.1.swf.rows, st.amplMinThr.value)))
    ensures r.Ok? ==> PeaksHold(r.value.0, ch, st, r.value.1)
    ensures r.Ok? <==> && a.Mat? && |a.rows| == df.nrows > 0 && a.ncols > 0 && Finite(st, exp)
                       && (st.findPulses ==> st.amplMinThr.Some? && st.amplMinThr.value > 0.0)
  {
    if a.Higher? then Err(ValueError)
    else if a.Mat? && |a.rows| == 0 then Err(AxisError)
    else if st.h < 0 then Err(ValueError)
    else if a.Vec? then Err(AxisError)
    else if a.ncols == 0 || |a.rows| != df.nrows then Err(ValueError)
    else if !Finite(st, exp) then Err(NotFinite)
    else SmoothChannel(df, ch, st, a, exp)
  }

  /** The part of `GaussChannel` after the shape checks: the smoothing, the
      peak columns and, with `find_pulses`, the pulse count. */
  function SmoothChannel(df: Table, ch: string, st: GaussSettings, a: NdArray, exp: real -> real)
    : (r: Result<(Table, GaussOut)>)
    requires Valid(df) && WellShaped(a) && a.Mat? && |a.rows| == df.nrows > 0 && a.ncols > 0 && Finite(st, exp)
    ensures r.Err? ==> st.findPulses && (st.amplMinThr.None? ==> r.error == KeyError)
    ensures r.Err? && st.amplMinThr.Some? ==> r.error == ValueError
    ensures r.Ok? ==> IsSmoothingOf(st, a, r.value.1, exp)
    ensures r.Ok? ==> UpdatedOnly(df, r.value.0, GaussNames(ch, st))
    ensures r.Ok? ==> r.value.0.data.Keys == df.data.Keys + GaussNames(ch, st)
    ensures r.Ok? ==> SmoothColumnsHold(r.value.0, ch, r.value.1.swf.rows)
    ensures r.Ok? && st.findPulses ==> st.amplMinThr.Some? && st.amplMinThr.value > 0.0
    ensures r.Ok? && st.findPulses ==> (
      && ch + PeaksSuffix in r.value.0.data
      && r.value.0.data[ch + PeaksSuffix]
         == IntCol(PeakCounts(r.value.1.swfd.value.rows, r.value.1.swf.rows, st.amplMinThr.value)))
  {
    var smooth := Smoothed(st, a, exp);
    var t1 := WritePeaks(df, ch, smooth.rows);
    if !st.findPulses then
      NoPulses(df, t1, ch, st, a, smooth, exp);
      Ok((t1, GaussOut(smooth, None)))
    else PulseChannel(df, t1, ch, st, a, smooth, exp)
  }

  /** Without `find_pulses`, the peak columns are all that is written. */
  lemma NoPulses(df: Table, t1: Table, ch: string, st: GaussSettings, a: NdArray,
                 smooth: NdArray, exp: real -> real)
    requires WellShaped(a) && a.Mat? && |a.rows| > 0 && Finite(st, exp) && !st.findPulses
    requires smooth == GaussianFilter(a, exp, st.sigma, st.h, false).value
    requires UpdatedOnly(df, t1, NameSet(SmoothColNames(ch)))
    requires t1.data.Keys == df.data.Keys + NameSet(SmoothColNames(ch))
    ensures IsSmoothingOf(st, a, GaussOut(smooth, None), exp)
    ensures UpdatedOnly(df, t1, GaussNames(ch, st)) && t1.data.Keys == df.data.Keys + GaussNames(ch, st)
  {
    assert GaussNames(ch, st) == NameSet(SmoothColNames(ch));
  }

  /** The smoothed batch of a non-empty batch with non-empty events. */
  function Smoothed(st: GaussSettings, a: NdArray, exp: real -> real): (s: NdArray)
    requires WellShaped(a) && a.Mat? && |a.rows| > 0 && a.ncols > 0 && Finite(st, exp)
    ensures s == GaussianFilter(a, exp, st.sigma, st.h, false).value
    ensures s.Mat? && |s.rows| == |a.rows| && forall i :: 0 <= i < |s.rows| ==> |s.rows[i]| > 0
  {
    GaussianFilter(a, exp, st.sigma, st.h, false).value
  }

  /** The `find_pulses` part of `GaussChannel`, once the peak columns are in `t1`. */
  function PulseChannel(df: Table, t1: Table, ch: string, st: GaussSettings, a: NdArray,
                        smooth: NdArray, exp: real -> real)
    : (r: Result<(Table, GaussOut)>)
    requires Valid(t1) && WellShaped(a) && a.Mat? && |a.rows| == t1.nrows > 0 && a.ncols > 0
    requires Finite(st, exp) && st.findPulses && smooth == GaussianFilter(a, exp, st.sigma, st.h, false).value
    requires UpdatedOnly(df, t1, NameSet(SmoothColNames(ch)))
    requires t1.data.Keys == df.data.Keys + NameSet(SmoothColNames(ch))
    requires SmoothColumnsHold(t1, ch, smooth.rows)
    ensures r.Err? ==> (st.amplMinThr.None? ==> r.error == KeyError)
    ensures r.Err? && st.amplMinThr.Some? ==> r.error == ValueError
    ensures r.Ok? ==> IsSmoothingOf(st, a, r.value.1, exp)
    ensures r.Ok? ==> UpdatedOnly(df, r.value.0, GaussNames(ch, st))
    ensures r.Ok? ==> r.value.0.data.Keys == df.data.Keys + GaussNames(ch, st)
    ensures r.Ok? ==> SmoothColumnsHold(r.value.0, ch, r.value.1.swf.rows)
    ensures r.Ok? ==> st.amplMinThr.Some? && st.amplMinThr.value > 0.0
    ensures r.Ok? ==> (
      && ch + PeaksSuffix in r.value.0.data
      && r.value.0.data[ch + PeaksSuffix]
         == IntCol(PeakCounts(r.value.1.swfd.value.rows, r.value.1.swf.rows, st.amplMinThr.value)))
  {
    if st.amplMinThr.None? then Err(KeyError)
    else if st.amplMinThr.value <= 0.0 then Err(ValueError)
    else
      var deriv := GaussianFilter(a, exp, st.sigma, st.h, true).value;
      var t2 := WriteCounts(t1, ch, PeakCounts(deriv.rows, smooth.rows, st.amplMinThr.value));
      UpdatedExactlyTrans(df, t1, t2, NameSet(SmoothColNames(ch)), {ch + PeaksSuffix});
      SmoothColumnsKept(t1, t2, ch, smooth.rows);
      Ok((t2, GaussOut(smooth, Some(deriv))))
  }

  /** Writes the `_n_peaks` column of `ch`. */
  function WriteCounts(t: Table, ch: string, ns: seq<nat>): (r: Table)
    requires Valid(t) && |ns| == t.nrows
    ensures UpdatedOnly(t, r, {ch + PeaksSuffix}) && r.data.Keys == t.data.Keys + {ch + PeaksSuffix}
    ensures ch + PeaksSuffix in r.data && r.data[ch + PeaksSuffix] == IntCol(ns)
  {
    SetCol(t, ch + PeaksSuffix, IntCol(ns))
  }

  /** Writes the two peak columns of `ch`. */
  function WritePeaks(df: Table, ch: string, rows: seq<seq<real>>): (t: Table)
    requires Valid(df) && |rows| == df.nrows && forall i :: 0 <= i < |rows| ==> |rows[i]| > 0
    ensures UpdatedOnly(df, t, NameSet(SmoothColNames(ch)))
    ensures t.data.Keys == df.data.Keys + NameSet(SmoothColNames(ch))
    ensures SmoothColumnsHold(t, ch, rows)
  {
    var names, cols := SmoothColNames(ch), [AmplCol(rows), PosCol(rows)];
    var t := SetCols(df, names, cols);
    assert t.data[names[0]] == cols[0] && t.data[names[1]] == cols[1];
    t
  }

  /** Writing the pulse count keeps the peak columns. */
  lemma SmoothColumnsKept(t1: Table, t2: Table, ch: string, rows: seq<seq<real>>)
    requires SmoothColumnsHold(t1, ch, rows) && UpdatedOnly(t1, t2, {ch + PeaksSuffix})
    ensures SmoothColumnsHold(t2, ch, rows)
  {
    SuffixesDiffer(ch, SmoothAmplSuffix, PeaksSuffix);
    SuffixesDiffer(ch, SmoothPosSuffix, PeaksSuffix);
  }

  /** The channels that take part: those with both filter settings and a
      baseline-subtracted waveform. */
  predicate Takes(m: ChsMap, bsln: map<string, NdArray>, c: string)
    requires c in m.conf
  {
    GaussSettingsOf(m.conf[c]).Some? && c in bsln
  }

  /** The channels of `chs` that take part, in the sense of `ChannelsWhere`. */
  function GaussChannels(m: ChsMap, chs: seq<string>, bsln: map<string, NdArray>): set<string>
    requires forall c :: c in chs ==> c in m.conf
  {
    ChannelsWhere(chs, c => c in m.conf && Takes(m, bsln, c))
  }

  function GaussNamesAll(m: ChsMap, chs: seq<string>, bsln: map<string, NdArray>): set<string>
    requires forall c :: c in chs ==> c in m.conf
    decreases |chs|
  {
    if |chs| == 0 then {}
    else
      var here := if Takes(m, bsln, chs[0]) then GaussNames(chs[0], GaussSettingsOf(m.conf[chs[0]]).value) else {};
      here + GaussNamesAll(m, chs[1..], bsln)
  }

  /** Every output entry is the smoothing of its channel's waveform. */
  ghost predicate OutputsHold(m: ChsMap, bsln: map<string, NdArray>, out: map<string, GaussOut>, exp: real -> real) {
    forall c :: c in out ==>
      c in m.conf && c in bsln && GaussSettingsOf(m.conf[c]).Some?
      && IsSmoothingOf(GaussSettingsOf(m.conf[c]).value, bsln[c], out[c], exp)
  }

  /** Every output entry's peak columns, and its pulse counts under
      `find_pulses`, are in `t`. */
  ghost predicate SmoothColumnsAll(m: ChsMap, t: Table, out: map<string, GaussOut>) {
    forall c :: c in out ==>
      && out[c].swf.Mat? && SmoothColumnsHold(t, c, out[c].swf.rows)
      && c in m.conf && GaussSettingsOf(m.conf[c]).Some?
      && PeaksHold(t, c, GaussSettingsOf(m.conf[c]).value, out[c])
  }

  /** What the loop over `chs` promises of its output map `out` and its
      table `t`: one entry per channel that takes part, each the smoothing
      of that channel's waveforms, and, when the channels are distinct,
      each channel's peak columns computed from its smoothed batch and its
      pulse counts from its derivative batch. */
  ghost predicate GaussLoopOut(m: ChsMap, chs: seq<string>, bsln: map<string, NdArray>, t: Table,
                               out: map<string, GaussOut>, exp: real -> real)
    requires forall c :: c in chs ==> c in m.conf
  {
    && out.Keys == GaussChannels(m, chs, bsln)
    && OutputsHold(m, bsln, out, exp)
    && (Distinct(chs) ==> SmoothColumnsAll(m, t, out))
  }

  /** The channel loop of `doProc`: channels without the settings or a
      baseline-subtracted waveform are skipped without columns or output. */
  function GaussLoop(m: ChsMap, chs: seq<string>, bsln: map<string, NdArray>, df: Table, exp: real -> real)
    : (r: Result<(Table, map<string, GaussOut>)>)
    requires Valid(df) && AllWellShaped(bsln) && forall c :: c in chs ==> c in m.conf
    ensures r.Ok? ==> UpdatedOnly(df, r.value.0, GaussNamesAll(m, chs, bsln))
    ensures r.Ok? ==> r.value.0.data.Keys == df.data.Keys + GaussNamesAll(m, chs, bsln)
    ensures r.Ok? ==> GaussLoopOut(m, chs, bsln, r.value.0, r.value.1, exp)
    decreases |chs|
  {
    if |chs| == 0 then
      UpdatedOnlyRefl(df);
      Ok((df, map[]))
    else
      var ch := chs[0];
      if !Takes(m, bsln, ch) then
        var r := GaussLoop(m, chs[1..], bsln, df, exp);
        if r.Ok? then
          GaussLoopSkip(m, chs, bsln, r.value.0, r.value.1, exp);
          r
        else r
      else
        var st := GaussSettingsOf(m.conf[ch]).value;
        var (t1, o) :- GaussChannel(df, ch, st, bsln[ch], exp);
        var (t2, out) :- GaussLoop(m, chs[1..], bsln, t1, exp);
        UpdatedExactlyTrans(df, t1, t2, GaussNames(ch, st), GaussNamesAll(m, chs[1..], bsln));
        GaussLoopStep(m, chs, bsln, t1, t2, o, out, exp);
        Ok((t2, PutIfAbsent(out, ch, o)))
  }

  /** A channel that does not take part changes nothing the loop promises. */
  lemma GaussLoopSkip(m: ChsMap, chs: seq<string>, bsln: map<string, NdArray>, t: Table,
                      out: map<string, GaussOut>, exp: real -> real)
    requires |chs| > 0 && (forall c :: c in chs ==> c in m.conf) && !Takes(m, bsln, chs[0])
    requires GaussLoopOut(m, chs[1..], bsln, t, out, exp)
    ensures GaussLoopOut(m, chs, bsln, t, out, exp)
  {
    assert Distinct(chs) ==> Distinct(chs[1..]);
  }

  /** One step of the loop: the output map grows by the first channel's
      entry, and its peak columns survive the later channels when the
      channels are distinct. */
  lemma GaussLoopStep(m: ChsMap, chs: seq<string>, bsln: map<string, NdArray>, t1: Table, t2: Table,
                      o: GaussOut, out: map<string, GaussOut>, exp: real -> real)
    requires |chs| > 0 && (forall c :: c in chs ==> c in m.conf) && Takes(m, bsln, chs[0])
    requires IsSmoothingOf(GaussSettingsOf(m.conf[chs[0]]).value, bsln[chs[0]], o, exp)
    requires o.swf.Mat? && SmoothColumnsHold(t1, chs[0], o.swf.rows)
    requires PeaksHold(t1, chs[0], GaussSettingsOf(m.conf[chs[0]]).value, o)
    requires UpdatedOnly(t1, t2, GaussNamesAll(m, chs[1..], bsln))
    requires GaussLoopOut(m, chs[1..], bsln, t2, out, exp)
    ensures GaussLoopOut(m, chs, bsln, t2, PutIfAbsent(out, chs[0], o), exp)
  {
    GaussOutputsStep(m, chs, bsln, o, out, exp);
    if Distinct(chs) {
      assert Distinct(chs[1..]);
      assert chs[0] !in chs[1..];
      var st := GaussSettingsOf(m.conf[chs[0]]).value;
      GaussNamesDisjoint(m, chs[0], st, chs[1..], bsln);
      SmoothColumnsSurvive(m, t1, t2, chs[0], st, o, out, GaussNamesAll(m, chs[1..], bsln));
    }
  }

  /** The output map grows by the first channel's entry. */
  lemma GaussOutputsStep(m: ChsMap, chs: seq<string>, bsln: map<string, NdArray>, o: GaussOut,
                         out: map<string, GaussOut>, exp: real -> real)
    requires |chs| > 0 && (forall c :: c in chs ==> c in m.conf) && Takes(m, bsln, chs[0])
    requires IsSmoothingOf(GaussSettingsOf(m.conf[chs[0]]).value, bsln[chs[0]], o, exp)
    requires out.Keys == GaussChannels(m, chs[1..], bsln) && OutputsHold(m, bsln, out, exp)
    ensures PutIfAbsent(out, chs[0], o).Keys == GaussChannels(m, chs, bsln)
    ensures OutputsHold(m, bsln, PutIfAbsent(out, chs[0], o), exp)
  {
  }

  /** Columns written under other names leave the first channel's peak
      and pulse-count columns as they were. */
  lemma SmoothColumnsSurvive(m: ChsMap, t1: Table, t2: Table, ch: string, st: GaussSettings, o: GaussOut,
                             out: map<string, GaussOut>, names: set<string>)
    requires ch in m.conf && GaussSettingsOf(m.conf[ch]) == Some(st)
    requires o.swf.Mat? && SmoothColumnsHold(t1, ch, o.swf.rows) && PeaksHold(t1, ch, st, o)
    requires SmoothColumnsAll(m, t2, out)
    requires UpdatedOnly(t1, t2, names) && GaussNames(ch, st) !! names
    ensures SmoothColumnsAll(m, t2, PutIfAbsent(out, ch, o))
  {
    var ns := SmoothColNames(ch);
    assert ns[0] in GaussNames(ch, st) && ns[1] in GaussNames(ch, st);
    assert SmoothColumnsHold(t2, ch, o.swf.rows);
    if st.findPulses {
      assert ch + PeaksSuffix in GaussNames(ch, st);
    }
    assert PeaksHold(t2, ch, st, o);
  }

  /** A channel's columns are not named by any other channel. */
  lemma {:induction false} GaussNamesDisjoint(m: ChsMap, ch: string, st: GaussSettings, chs: seq<string>,
                                              bsln: map<string, NdArray>)
    requires ch !in chs && forall c :: c in chs ==> c in m.conf
    ensures GaussNames(ch, st) !! GaussNamesAll(m, chs, bsln)
    decreases |chs|
  {
    if |chs| > 0 {
      GaussNamesDisjoint(m, ch, st, chs[1..], bsln);
      if Takes(m, bsln, chs[0]) {
        GaussNamesApart(ch, st, chs[0], GaussSettingsOf(m.conf[chs[0]]).value);
      }
    }
  }

  /** `WfsGaussianFilters.doProc`: the table with the new columns and the
      per-channel outputs, which the stage also keeps. */
  function GaussDoProc(m: ChsMap, df: Table, bsln: map<string, NdArray>, exp: real -> real)
    : (r: Result<(Table, map<string, GaussOut>)>)
    requires ValidChsMap(m) && Valid(df) && AllWellShaped(bsln)
    ensures r.Ok? ==> UpdatedOnly(df, r.value.0, GaussNamesAll(m, m.chs, bsln))
    ensures r.Ok? ==> r.value.1.Keys == GaussChannels(m, m.chs, bsln)
    ensures r.Ok? ==> OutputsHold(m, bsln, r.value.1, exp)
    ensures r.Ok? ==> forall c :: c in r.value.1 ==>
      r.value.1[c].swf.Mat? && SmoothColumnsHold(r.value.0, c, r.value.1[c].swf.rows)
    ensures r.Ok? ==> forall c :: c in r.value.1 ==>
      c in m.conf && GaussSettingsOf(m.conf[c]).Some? && PeaksHold(r.value.0, c, GaussSettingsOf(m.conf[c]).value, r.value.1[c])
  {
    GaussLoop(m, m.chs, bsln, df, exp)
  }

  // ---------------------------------------------------------------------
  // procSingleEvent

  /** One channel of `procSingleEvent`: the single-event check (TypeError),
      then the filters on the flattened copy; `swfd` is filled when
      `derivative` (not `find_pulses`) is set. An empty waveform stays
      empty; a NaN kernel shows only when there are samples. */
  function GaussSingleChannel(st: GaussSettings, a: NdArray, exp: real -> real): (r: Result<GaussOut>)
    requires WellShaped(a)
    ensures SingleEvent(a).Err? ==> r == Err(TypeError)
    ensures SingleEvent(a).Ok? && st.h < 0 ==> r == Err(ValueError)
    ensures r.Err? && r.error == NotFinite ==> !Finite(st, exp)
    ensures r.Ok? ==> SingleEvent(a).Ok? && r.value.swf.Vec? && |r.value.swf.v| == |SingleEvent(a).value|
    ensures r.Ok? ==> (r.value.swfd.Some? <==> st.derivative)
    ensures r.Ok? && Finite(st, exp) ==>
      r.value.swf.v == ConvolveSame(SingleEvent(a).value, SmoothingKernel(GaussWeights(exp, st.sigma, st.h)))
    ensures r.Ok? && Finite(st, exp) && st.derivative ==>
      r.value.swfd == Some(Vec(ConvolveSame(SingleEvent(a).value,
                                            DerivativeKernel(GaussWeights(exp, st.sigma, st.h), st.h, st.sigma))))
  {
    var wf :- SingleEvent(a);
    if st.h < 0 then Err(ValueError)
    else if !Finite(st, exp) then
      if |wf| == 0 then Ok(GaussOut(Vec([]), if st.derivative then Some(Vec([])) else None))
      else Err(NotFinite)
    else
      var gw := GaussWeights(exp, st.sigma, st.h);
      var swf := ConvolveSame(wf, SmoothingKernel(gw));
      var swfd := ConvolveSame(wf, DerivativeKernel(gw, st.h, st.sigma));
      Ok(GaussOut(Vec(swf), if st.derivative then Some(Vec(swfd)) else None))
  }

  function GaussSingleLoop(m: ChsMap, chs: seq<string>, bsln: map<string, NdArray>, exp: real -> real)
    : (r: Result<map<string, GaussOut>>)
    requires AllWellShaped(bsln) && forall c :: c in chs ==> c in m.conf
    ensures r.Ok? ==> r.value.Keys == GaussChannels(m, chs, bsln)
    ensures r.Ok? ==> forall c :: c in r.value ==>
      Takes(m, bsln, c) && GaussSingleChannel(GaussSettingsOf(m.conf[c]).value, bsln[c], exp) == Ok(r.value[c])
    decreases |chs|
  {
    if |chs| == 0 then Ok(map[])
    else
      var ch := chs[0];
      if !Takes(m, bsln, ch) then GaussSingleLoop(m, chs[1..], bsln, exp)
      else
        var o :- GaussSingleChannel(GaussSettingsOf(m.conf[ch]).value, bsln[ch], exp);
        var out :- GaussSingleLoop(m, chs[1..], bsln, exp);
        Ok(PutIfAbsent(out, ch, o))
  }

  /** `WfsGaussianFilters.procSingleEvent`. */
  function GaussSingleEvent(m: ChsMap, bsln: map<string, NdArray>, exp: real -> real)
    : (r: Result<map<string, GaussOut>>)
    requires ValidChsMap(m) && AllWellShaped(bsln)
    ensures r.Ok? ==> r.value.Keys == GaussChannels(m, m.chs, bsln)
    ensures r.Ok? ==> forall c :: c in r.value ==> r.value[c].swf.Vec?
  {
    GaussSingleLoop(m, m.chs, bsln, exp)
  }

  // ---------------------------------------------------------------------
  // Properties

  /** For a single event, `procSingleEvent` smooths it exactly as `doProc`
      smooths a one-event batch. */
  lemma SingleEventMatchesDoProc(st: GaussSettings, a: NdArray, o: GaussOut, exp: real -> real)
    requires IsSmoothingOf(st, a, o, exp) && |a.rows| == 1
    ensures GaussSingleChannel(st, a, exp).Ok?
    ensures GaussSingleChannel(st, a, exp).value.swf == Vec(o.swf.rows[0])
  {
  }

  /** Away from the edges, smoothing leaves a flat waveform unchanged: the
      kernel sums to one. */
  lemma SmoothingKeepsFlat(x: seq<real>, exp: real -> real, sigma: real, h: nat, c: real, n: int)
    requires sigma != 0.0 && Sum(GaussWeights(exp, sigma, h)) != 0.0
    requires h <= n < |x| - h && forall i :: 0 <= i < |x| ==> x[i] == c
    ensures ConvolveSame(x, SmoothingKernel(GaussWeights(exp, sigma, h)))[n] == c
  {
    FlatInterior(x, SmoothingKernel(GaussWeights(exp, sigma, h)), h, c, n, 1.0);
  }

  /** Away from the edges, the derivative filter of a flat waveform is
      zero: the kernel has zero mean. */
  lemma DerivativeVanishesOnFlat(x: seq<real>, exp: real -> real, sigma: real, h: nat, c: real, n: int)
    requires sigma != 0.0
    requires h <= n < |x| - h && forall i :: 0 <= i < |x| ==> x[i] == c
    ensures ConvolveSame(x, DerivativeKernel(GaussWeights(exp, sigma, h), h, sigma))[n] == 0.0
  {
    FlatInterior(x, DerivativeKernel(GaussWeights(exp, sigma, h), h, sigma), h, c, n, 0.0);
  }

  /** With `find_pulses`, the pulse count of an event is the number of
      connected regions where the smoothed waveform is above the threshold
      around a positive-to-negative turn of its derivative. */
  lemma PeaksCountRegions(df: Table, ch: string, st: GaussSettings, a: NdArray, exp: real -> real, i: int)
    requires Valid(df) && WellShaped(a)
    requires st.findPulses && 0 <= i < df.nrows
    ensures GaussChannel(df, ch, st, a, exp).Ok? ==>
      var (t, o) := GaussChannel(df, ch, st, a, exp).value;
      && ch + PeaksSuffix in t.data && i < |t.data[ch + PeaksSuffix].vals|
      && t.data[ch + PeaksSuffix].vals[i].Int?
      && CountsRegions(o.swfd.value.rows[i], o.swf.rows[i], st.amplMinThr.value, t.data[ch + PeaksSuffix].vals[i].i)
  {
    if GaussChannel(df, ch, st, a, exp).Ok? {
      var (t, o) := GaussChannel(df, ch, st, a, exp).value;
      var thr := st.amplMinThr.value;
      var drows, rows := o.swfd.value.rows, o.swf.rows;
      var ns := PeakCounts(drows, rows, thr);
      assert t.data[ch + PeaksSuffix].vals[i] == Int(ns[i]);
    }
  }
}

=== FILE: ndarray.dfy ===
/** The numpy array shapes the stages distinguish: a single waveform (1-D),
    a batch of waveforms, one per event (2-D, rectangular), and anything of
    higher rank, whose contents never matter because every stage rejects it. */
module NdArrays {
  import opened Common

  datatype NdArray =
    | Vec(v: seq<real>)
    | Mat(ncols: nat, rows: seq<seq<real>>)
    | Higher

  /** A 2-D array is rectangular: every row has `ncols` samples. */
  ghost predicate WellShaped(a: NdArray) {
    a.Mat? ==> forall i :: 0 <= i < |a.rows| ==> |a.rows[i]| == a.ncols
  }

  /** Every array of a channel map is well shaped. */
  ghost predicate AllWellShaped(raw: map<string, NdArray>) {
    forall c :: c in raw ==> WellShaped(raw[c])
  }

  /** A batch of `n` rows of `m` samples each. */
  ghost predicate IsBatch(a: NdArray, n: nat, m: nat) {
    a.Mat? && a.ncols == m && |a.rows| == n && WellShaped(a)
  }

  /** `arr[None, :]` for 1-D input, the array itself for 2-D input. */
  function AsRows(a: NdArray): (r: NdArray)
    requires WellShaped(a) && !a.Higher?
    ensures r.Mat? && WellShaped(r)
    ensures a.Vec? ==> r.rows == [a.v] && r.ncols == |a.v|
    ensures a.Mat? ==> r == a
  {
    match a
    case Vec(v) => Mat(|v|, [v])
    case Mat(_, _) => a
  }

  /** The single-event check of every `procSingleEvent`: a 2-D array with more
      than one row, or an array of rank above two, raises TypeError; anything
      else is flattened into one waveform. */
  function SingleEvent(a: NdArray): (r: Result<seq<real>>)
    requires WellShaped(a)
    ensures r.Err? <==> (a.Higher? || (a.Mat? && |a.rows| > 1))
    ensures r.Err? ==> r.error == TypeError
    ensures a.Vec? ==> r == Ok(a.v)
    ensures a.Mat? && |a.rows| == 1 ==> r == Ok(a.rows[0])
    ensures a.Mat? && |a.rows| == 0 ==> r == Ok([])
  {
    match a
    case Higher => Err(TypeError)
    case Vec(v) => Ok(v)
    case Mat(_, rows) =>
      if |rows| > 1 then Err(TypeError)
      else if |rows| == 1 then Ok(rows[0])
      else Ok([])
  }
}

=== FILE: rawfile.dfy ===
/** `GatorRawFileHandler`: the lazy reader of one digitiser ROOT file. The
    file's contents are an input (a map from path to trees of branches);
    the handler's state is the pair of flags `data_loaded` and
    `wfs_on_memory`, the per-channel waveform slots and the table of
    per-event counters. */
module RawFile {
  import opened Common
  import opened NdArrays
  import opened Tables

  /** A branch as stored in the tree: one number per event; a fixed-length
      array per event (a waveform of `width` samples, as the digitiser
      writes it); or a variable-length vector per event. */
  datatype BranchData =
    | Scalars(xs: seq<real>)
    | Waves(width: nat, rows: seq<seq<real>>)
    | Jagged(rows: seq<seq<real>>)

  /** Every waveform of a fixed-length branch has the branch's width. */
  predicate FixedWidth(b: BranchData) {
    b.Waves? ==> forall i :: 0 <= i < |b.rows| ==> |b.rows[i]| == b.width
  }

  type Branch = b: BranchData | FixedWidth(b) witness Scalars([])

  type Tree = map<string, Branch>
  /** A ROOT file: its trees by name. */
  type RootFile = map<string, Tree>
  /** The ROOT files that can be opened, by path. */
  type Disk = map<string, RootFile>

  /** The handler's state. `names` are the waveform slots in the order of the
      dict built from `chs_lst`; `wfs` holds each slot's array or None. */
  datatype Handler = Handler(
    fpath: string,
    names: seq<string>,
    dig: nat,
    wfs: map<string, Option<NdArray>>,
    df: Option<Table>,
    wfsOnMemory: bool,
    dataLoaded: bool)

  // ---------------------------------------------------------------------
  // Names

  /** The keys of `{x: None for x in xs}`, in order: first occurrences. */
  function Dedup(xs: seq<string>): (r: seq<string>)
    ensures Distinct(r)
    ensures forall x :: x in r <==> x in xs
    ensures |r| <= |xs|
    decreases |xs|
  {
    if |xs| == 0 then []
    else
      var r0 := Dedup(xs[..|xs| - 1]);
      var x := xs[|xs| - 1];
      if x in r0 then r0
      else
        DistinctAppend(r0, x);
        r0 + [x]
  }

  /** Decimal digits of a natural number, as `str()` writes them. */
  function Decimal(n: nat): (s: string)
    ensures |s| > 0 && forall i :: 0 <= i < |s| ==> '0' <= s[i] <= '9'
    decreases n
  {
    if n < 10 then [DigitChar(n)] else Decimal(n / 10) + [DigitChar(n % 10)]
  }

  function DigitChar(d: nat): (c: char)
    requires d < 10
    ensures '0' <= c <= '9' && (c as int) - ('0' as int) == d
  {
    (('0' as int) + d) as char
  }

  /** Reads back a string of decimal digits. */
  function ParseDecimal(s: string): (n: nat)
    requires forall i :: 0 <= i < |s| ==> '0' <= s[i] <= '9'
    decreases |s|
  {
    if |s| == 0 then 0
    else 10 * ParseDecimal(s[..|s| - 1]) + ((s[|s| - 1] as int) - ('0' as int))
  }

  /** `str(n)` reads back as `n`, so different digitisers name different trees. */
  lemma {:induction false} DecimalRoundTrip(n: nat)
    ensures ParseDecimal(Decimal(n)) == n
    decreases n
  {
    if n >= 10 {
      DecimalRoundTrip(n / 10);
      var s := Decimal(n);
      assert s[..|s| - 1] == Decimal(n / 10);
    }
  }

  /** `'dig_' + str(dig_id)`. */
  function TreeName(dig: nat): string {
    "dig_" + Decimal(dig)
  }

  /** Different digitisers read different trees. */
  lemma TreeNamesDiffer(d1: nat, d2: nat)
    requires d1 != d2
    ensures TreeName(d1) != TreeName(d2)
  {
    DecimalRoundTrip(d1);
    DecimalRoundTrip(d2);
    assert TreeName(d1)[4..] == Decimal(d1);
    assert TreeName(d2)[4..] == Decimal(d2);
  }

  // ---------------------------------------------------------------------
  // Reading

  /** `astype(np.uint32)` then `astype(np.float32)` of one sample; the float32
      rounding is not modelled. */
  function WaveSample(x: real): (r: real)
    ensures 0.0 <= r < 4294967296.0
  {
    U32(Trunc(x)) as real
  }

  function WaveRow(row: seq<real>): (r: seq<real>)
    ensures |r| == |row| && forall j :: 0 <= j < |row| ==> r[j] == WaveSample(row[j])
  {
    seq(|row|, j requires 0 <= j < |row| => WaveSample(row[j]))
  }

  /** `tree[wf].array(library="np").astype(uint32).astype(float32)`.
      uproot gives a scalar branch as a 1-D array and a fixed-length branch as
      a 2-D array of shape (entries, width), also when there are no entries.
      A variable-length branch comes as an object array of arrays, which the
      cast refuses (ValueError) as soon as it holds an entry. */
  function ReadBranch(b: Branch): (r: Result<NdArray>)
    ensures r.Err? <==> b.Jagged? && |b.rows| > 0
    ensures r.Err? ==> r.error == ValueError
    ensures r.Ok? ==> WellShaped(r.value) && !r.value.Higher?
    ensures r.Ok? && b.Scalars? ==> r.value == Vec(WaveRow(b.xs))
    ensures r.Ok? && b.Jagged? ==> r.value == Vec([])
    ensures r.Ok? && b.Waves? ==> r.value.Mat? && r.value.ncols == b.width && |r.value.rows| == |b.rows|
    ensures r.Ok? && b.Waves? ==> forall i :: 0 <= i < |b.rows| ==> r.value.rows[i] == WaveRow(b.rows[i])
  {
    match b
    case Scalars(xs) => Ok(Vec(WaveRow(xs)))
    case Waves(width, rows) =>
      Ok(Mat(width, seq(|rows|, i requires 0 <= i < |rows| => WaveRow(rows[i]))))
    case Jagged(rows) =>
      if |rows| == 0 then Ok(Vec([])) else Err(ValueError)
  }

  /** Opening a file and its tree: an unknown path raises FileNotFoundError,
      a missing tree KeyError. */
  function OpenTree(disk: Disk, fpath: string, dig: nat): (r: Result<Tree>)
    ensures r.Ok? <==> fpath in disk && TreeName(dig) in disk[fpath]
    ensures fpath !in disk ==> r == Err(FileNotFound)
    ensures fpath in disk && TreeName(dig) !in disk[fpath] ==> r == Err(KeyError)
    ensures r.Ok? ==> r.value == disk[fpath][TreeName(dig)]
  {
    if fpath !in disk then Err(FileNotFound)
    else if TreeName(dig) !in disk[fpath] then Err(KeyError)
    else Ok(disk[fpath][TreeName(dig)])
  }

  /** The waveform loop of `__call__` and `loadWfs`, slot by slot: a missing
      branch raises KeyError. */
  function ReadWfs(tree: Tree, names: seq<string>): (r: Result<map<string, NdArray>>)
    ensures r.Ok? <==> forall i :: 0 <= i < |names| ==> names[i] in tree && ReadBranch(tree[names[i]]).Ok?
    ensures r.Ok? ==> r.value.Keys == NameSet(names) && AllWellShaped(r.value)
    ensures r.Ok? ==> forall n :: n in r.value ==> r.value[n] == ReadBranch(tree[n]).value
    decreases |names|
  {
    if |names| == 0 then Ok(map[])
    else
      var n := names[|names| - 1];
      var front := names[..|names| - 1];
      assert forall i :: 0 <= i < |front| ==> front[i] == names[i];
      assert NameSet(names) == NameSet(front) + {n};
      var init :- ReadWfs(tree, front);
      if n !in tree then Err(KeyError)
      else
        var a :- ReadBranch(tree[n]);
        Ok(init[n := a])
  }

  /** Opening the file and reading every waveform slot. */
  function FreshWfs(disk: Disk, fpath: string, dig: nat, names: seq<string>): (r: Result<map<string, NdArray>>)
    ensures r.Ok? ==> r.value.Keys == NameSet(names) && AllWellShaped(r.value)
  {
    var tree :- OpenTree(disk, fpath, dig);
    ReadWfs(tree, names)
  }

  /** Opening the file and reading its per-event table. */
  function FreshDf(disk: Disk, fpath: string, dig: nat): (r: Result<Table>)
    ensures r.Ok? ==> RawLayout(r.value)
  {
    var tree :- OpenTree(disk, fpath, dig);
    ReadDf(tree, dig)
  }

  const RunTimeCol := "RunTime"
  const EvCounterCol := "EvCounter"
  const TimeTrigTagCol := "TimeTrigTag"

  /** The columns of the handler's table, in order. */
  function RawDfCols(): (cols: seq<string>)
    ensures Distinct(cols) && |cols| == 3
  {
    [RunTimeCol, EvCounterCol, TimeTrigTagCol]
  }

  /** The shape of the handler's table: its three columns, in order, with
      their dtypes. */
  ghost predicate RawLayout(t: Table) {
    && Valid(t) && Typed(t) && t.cols == RawDfCols()
    && t.data[RunTimeCol].dtype == Float32
    && t.data[EvCounterCol].dtype == UInt32
    && t.data[TimeTrigTagCol].dtype == UInt32
  }

  /** A uint32 column: `astype(np.uint32)`. */
  function UInt32Col(xs: seq<real>): (c: Column)
    ensures c.dtype == UInt32 && |c.vals| == |xs| && forall i :: 0 <= i < |xs| ==> c.vals[i] == Int(U32(Trunc(xs[i])))
  {
    Column(UInt32, seq(|xs|, i requires 0 <= i < |xs| => Int(U32(Trunc(xs[i])))))
  }

  /** The three counter branches exist, hold one number per event, and
      agree on the number of events. */
  predicate CounterBranchesFit(tree: Tree, dig: nat) {
    var ec, tt := "EvCounter_" + Decimal(dig), "TimeTrigTag_" + Decimal(dig);
    && RunTimeCol in tree && ec in tree && tt in tree
    && tree[RunTimeCol].Scalars? && tree[ec].Scalars? && tree[tt].Scalars?
    && |tree[ec].xs| == |tree[RunTimeCol].xs| == |tree[tt].xs|
  }

  /** The per-event table of `__call__`: `RunTime`, `EvCounter_<dig>` and
      `TimeTrigTag_<dig>` are read (a missing branch raises KeyError), then
      pandas refuses a waveform branch as a column or columns of different
      lengths (ValueError). */
  function ReadDf(tree: Tree, dig: nat): (r: Result<Table>)
    ensures r.Ok? ==> RawLayout(r.value)
    ensures (RunTimeCol !in tree || "EvCounter_" + Decimal(dig) !in tree || "TimeTrigTag_" + Decimal(dig) !in tree)
            ==> r == Err(KeyError)
    ensures r.Err? && r.error != KeyError ==> r.error == ValueError
    ensures r.Ok? <==> CounterBranchesFit(tree, dig)
    ensures r.Ok? ==> (var rt := tree[RunTimeCol];
      rt.Scalars? && r.value.nrows == |rt.xs| && r.value.data[RunTimeCol] == Float32Col(rt.xs))
    ensures r.Ok? ==> (var e, t := tree["EvCounter_" + Decimal(dig)], tree["TimeTrigTag_" + Decimal(dig)];
      && e.Scalars? && t.Scalars? && |e.xs| == |t.xs| == r.value.nrows
      && forall i :: 0 <= i < r.value.nrows ==>
           && r.value.data[EvCounterCol].vals[i] == Int(U32(Trunc(e.xs[i])))
           && r.value.data[TimeTrigTagCol].vals[i] == Int(U32(Trunc(t.xs[i]))))
  {
    var ec, tt := "EvCounter_" + Decimal(dig), "TimeTrigTag_" + Decimal(dig);
    if RunTimeCol !in tree || ec !in tree || tt !in tree then Err(KeyError)
    else
      var rt, e, t := tree[RunTimeCol], tree[ec], tree[tt];
      if !rt.Scalars? || !e.Scalars? || !t.Scalars? then Err(ValueError)
      else if |e.xs| != |rt.xs| || |t.xs| != |rt.xs| then Err(ValueError)
      else
        var c1, c2, c3 := Float32Col(rt.xs), UInt32Col(e.xs), UInt32Col(t.xs);
        assert ColumnTyped(c1) && ColumnTyped(c2) && ColumnTyped(c3);
        Ok(Table(|rt.xs|, RawDfCols(), map[RunTimeCol := c1, EvCounterCol := c2, TimeTrigTagCol := c3]))
  }

  // ---------------------------------------------------------------------
  // The handler

  /** The handler's invariant: one slot per name; the waveforms are either
      all in memory or all released, and only after a load; the table exists
      exactly when the data is loaded. */
  ghost predicate Inv(h: Handler) {
    && |h.names| > 0 && Distinct(h.names)
    && h.wfs.Keys == NameSet(h.names)
    && (h.wfsOnMemory ==> h.dataLoaded)
    && (h.dataLoaded <==> h.df.Some?)
    && (forall n :: n in h.wfs ==> (h.wfs[n].Some? <==> h.wfsOnMemory))
    && (forall n :: n in h.wfs && h.wfs[n].Some? ==> WellShaped(h.wfs[n].value))
  }

  /** Every slot empty. */
  function NoWfs(names: seq<string>): (m: map<string, Option<NdArray>>)
    ensures m.Keys == NameSet(names) && forall n :: n in m ==> m[n] == None
  {
    map n | n in NameSet(names) :: None
  }

  /** Every slot filled from `wfs`. */
  function AllWfs(wfs: map<string, NdArray>): (m: map<string, Option<NdArray>>)
    ensures m.Keys == wfs.Keys && forall n :: n in m ==> m[n] == Some(wfs[n])
  {
    map n | n in wfs :: Some(wfs[n])
  }

  /** `GatorRawFileHandler(fpath, chs_lst, dig_id)`: an empty channel list
      raises ValueError; otherwise nothing is read yet. */
  function NewHandler(fpath: string, chs: seq<string>, dig: nat): (r: Result<Handler>)
    ensures r.Err? <==> |chs| == 0
    ensures r.Err? ==> r.error == ValueError
    ensures r.Ok? ==> Inv(r.value) && !r.value.dataLoaded && !r.value.wfsOnMemory
    ensures r.Ok? ==> NameSet(r.value.names) == NameSet(chs) && r.value.fpath == fpath
    ensures r.Ok? ==> forall n :: n in r.value.wfs ==> r.value.wfs[n].None?
  {
    if |chs| == 0 then Err(ValueError)
    else
      var names := Dedup(chs);
      Ok(Handler(fpath, names, dig, NoWfs(names), None, false, false))
  }

  /** `releaseWfs`: nothing before the first load; afterwards every slot is
      emptied and the waveforms are no longer in memory. */
  function Release(h: Handler): (r: Handler)
    ensures Inv(h) ==> Inv(r)
    ensures !h.dataLoaded ==> r == h
    ensures h.dataLoaded ==> !r.wfsOnMemory && r.wfs == NoWfs(h.names)
    ensures r.dataLoaded == h.dataLoaded && r.df == h.df && r.names == h.names && r.fpath == h.fpath && r.dig == h.dig
  {
    if !h.dataLoaded then h else h.(wfs := NoWfs(h.names), wfsOnMemory := false)
  }

  /** `__call__(keep_wf)`: nothing when the waveforms are in memory;
      otherwise every waveform and the counters are read, the data is marked
      loaded, and the waveforms are kept or released as `keep_wf` says. */
  function Call(h: Handler, disk: Disk, keepWf: bool): (r: Result<Handler>)
    requires Inv(h)
    ensures h.wfsOnMemory ==> r == Ok(h)
    ensures r.Ok? ==> Inv(r.value) && r.value.names == h.names && r.value.fpath == h.fpath && r.value.dig == h.dig
    ensures r.Ok? && !h.wfsOnMemory ==> r.value.dataLoaded && r.value.wfsOnMemory == keepWf
    ensures r.Ok? && !h.wfsOnMemory ==> FreshDf(disk, h.fpath, h.dig).Ok? && r.value.df == Some(FreshDf(disk, h.fpath, h.dig).value)
    ensures r.Ok? && !h.wfsOnMemory && keepWf ==>
      FreshWfs(disk, h.fpath, h.dig, h.names).Ok? && r.value.wfs == AllWfs(FreshWfs(disk, h.fpath, h.dig, h.names).value)
    ensures !h.wfsOnMemory && h.fpath !in disk ==> r == Err(FileNotFound)
  {
    if h.wfsOnMemory then Ok(h)
    else
      var wfs :- FreshWfs(disk, h.fpath, h.dig, h.names);
      var df :- FreshDf(disk, h.fpath, h.dig);
      var h1 := h.(wfs := AllWfs(wfs), df := Some(df), dataLoaded := true);
      if keepWf then Ok(h1.(wfsOnMemory := true)) else Ok(Release(h1))
  }

  /** `loadWfs`: nothing before the first load or when the waveforms are in
      memory; otherwise they are read again and kept. */
  function LoadWfs(h: Handler, disk: Disk): (r: Result<Handler>)
    requires Inv(h)
    ensures !h.dataLoaded || h.wfsOnMemory ==> r == Ok(h)
    ensures r.Ok? ==> Inv(r.value) && r.value.names == h.names && r.value.df == h.df && r.value.dataLoaded == h.dataLoaded
    ensures r.Ok? && h.dataLoaded ==> r.value.wfsOnMemory
    ensures r.Ok? && h.dataLoaded && !h.wfsOnMemory ==>
      FreshWfs(disk, h.fpath, h.dig, h.names).Ok? && r.value.wfs == AllWfs(FreshWfs(disk, h.fpath, h.dig, h.names).value)
  {
    if !h.dataLoaded || h.wfsOnMemory then Ok(h)
    else
      var wfs :- FreshWfs(disk, h.fpath, h.dig, h.names);
      Ok(h.(wfs := AllWfs(wfs), wfsOnMemory := true))
  }

  /** `getDf`: a copy of the table; before the first load the table is None
      and `.copy()` raises AttributeError. */
  function GetDf(h: Handler): (r: Result<Table>)
    ensures r.Ok? <==> h.df.Some?
    ensures r.Err? ==> r.error == AttributeError
    ensures r.Ok? ==> r.value == h.df.value
  {
    if h.df.None? then Err(AttributeError) else Ok(h.df.value)
  }

  /** The slot arrays, when all are filled. */
  function Contents(wfs: map<string, Option<NdArray>>): (r: Option<map<string, NdArray>>)
    ensures r.Some? <==> forall n :: n in wfs ==> wfs[n].Some?
    ensures r.Some? ==> r.value.Keys == wfs.Keys && forall n :: n in wfs ==> r.value[n] == wfs[n].value
  {
    if forall n :: n in wfs ==> wfs[n].Some? then Some(map n | n in wfs :: wfs[n].value) else None
  }

  /** `getWfs`: loads the waveforms when they are not in memory, copies
      them, and releases them again in that case; before the first load the
      slots are None and copying one raises AttributeError. */
  function GetWfs(h: Handler, disk: Disk): (r: Result<(Handler, map<string, NdArray>)>)
    requires Inv(h)
    ensures !h.dataLoaded ==> r == Err(AttributeError)
    ensures r.Ok? ==> Inv(r.value.0) && r.value.0.wfsOnMemory == h.wfsOnMemory
    ensures r.Ok? ==> r.value.0.dataLoaded == h.dataLoaded && r.value.0.df == h.df && r.value.0.names == h.names
    ensures r.Ok? ==> r.value.1.Keys == NameSet(h.names) && AllWellShaped(r.value.1)
  {
    assert h.names[0] in h.wfs;
    var release := !h.wfsOnMemory;
    var h1 :- if release then LoadWfs(h, disk) else Ok(h);
    var got := Contents(h1.wfs);
    if got.None? then Err(AttributeError)
    else
      var h2 := if release then Release(h1) else h1;
      Ok((h2, got.value))
  }

  /** Filling every slot and reading the slots back gives the waveforms. */
  lemma ContentsOfAllWfs(wfs: map<string, NdArray>)
    ensures Contents(AllWfs(wfs)) == Some(wfs)
  {
    assert Contents(AllWfs(wfs)).value == wfs;
  }

  /** What `getWfs` copies when the waveforms are in memory: those, with
      the handler unchanged. */
  lemma GetWfsInMemory(h: Handler, disk: Disk)
    requires Inv(h) && h.wfsOnMemory
    ensures GetWfs(h, disk).Ok? && GetWfs(h, disk).value.0 == h
    ensures forall n :: n in h.wfs ==> GetWfs(h, disk).value.1[n] == h.wfs[n].value
  {
  }

  /** What `getWfs` copies when the waveforms are not in memory: a fresh
      read of the file, released again afterwards. */
  lemma GetWfsFresh(h: Handler, disk: Disk)
    requires Inv(h) && !h.wfsOnMemory
    ensures GetWfs(h, disk).Ok? ==>
      && FreshWfs(disk, h.fpath, h.dig, h.names).Ok?
      && GetWfs(h, disk).value.1 == FreshWfs(disk, h.fpath, h.dig, h.names).value
      && !GetWfs(h, disk).value.0.wfsOnMemory
  {
    if GetWfs(h, disk).Ok? {
      assert LoadWfs(h, disk).Ok?;
      ContentsOfAllWfs(FreshWfs(disk, h.fpath, h.dig, h.names).value);
    }
  }

  /** The flags move only along `new -> loaded -> in memory <-> released`:
      once loaded, a handler stays loaded through every operation. */
  lemma LoadedStaysLoaded(h: Handler, disk: Disk, keepWf: bool)
    requires Inv(h) && h.dataLoaded
    ensures Call(h, disk, keepWf).Ok? ==> Call(h, disk, keepWf).value.dataLoaded
    ensures LoadWfs(h, disk).Ok? ==> LoadWfs(h, disk).value.dataLoaded
    ensures Release(h).dataLoaded
    ensures GetWfs(h, disk).Ok? ==> GetWfs(h, disk).value.0.dataLoaded
  {
  }

  /** Reading the same file again gives the same waveforms: `getWfs` after a
      `__call__` that released them returns what the call read. */
  lemma GetWfsAfterReleasingCall(h: Handler, disk: Disk)
    requires Inv(h) && !h.wfsOnMemory
    ensures Call(h, disk, false).Ok? ==>
      && GetWfs(Call(h, disk, false).value, disk).Ok?
      && GetWfs(Call(h, disk, false).value, disk).value.1 == FreshWfs(disk, h.fpath, h.dig, h.names).value
      && !GetWfs(Call(h, disk, false).value, disk).value.0.wfsOnMemory
  {
    if Call(h, disk, false).Ok? {
      var h1 := Call(h, disk, false).value;
      assert LoadWfs(h1, disk).Ok?;
      GetWfsFresh(h1, disk);
    }
  }

  /** A kept load and a released load followed by `getWfs` give the same
      waveforms. */
  lemma KeepOrReleaseSameWfs(h: Handler, disk: Disk)
    requires Inv(h) && !h.wfsOnMemory
    ensures Call(h, disk, true).Ok? ==>
      && Call(h, disk, false).Ok?
      && GetWfs(Call(h, disk, true).value, disk).Ok?
      && GetWfs(Call(h, disk, true).value, disk).value.1 == GetWfs(Call(h, disk, false).value, disk).value.1
  {
    if Call(h, disk, true).Ok? {
      GetWfsAfterReleasingCall(h, disk);
      var h1 := Call(h, disk, true).value;
      assert Contents(h1.wfs).Some?;
    }
  }
}

=== FILE: rawstages.dfy ===
/** The two processors that read the raw waveforms: `GatorRawWfsProc`, which
    writes the per-event extrema of every channel, and `GatorRawPurProc`,
    which flags events whose raw peak-to-peak spread exceeds a threshold. */
module RawStages {
  import opened Common
  import opened Series
  import opened NdArrays
  import opened Tables
  import opened WfsProc

  const MaxValSuffix := "_raw_max_val"
  const MaxPosSuffix := "_raw_max_pos"
  const MinValSuffix := "_raw_min_val"
  const MinPosSuffix := "_raw_min_pos"
  const PurSuffix := "_raw_pur"

  /** Equally long suffixes on different channels give different names. */
  lemma ChannelsDiffer(c1: string, c2: string, s1: string, s2: string)
    requires c1 != c2 && |s1| == |s2|
    ensures c1 + s1 != c2 + s2
  {
    assert (c1 + s1)[..|c1|] == c1;
    assert (c2 + s2)[..|c2|] == c2;
  }

  // ---------------------------------------------------------------------
  // GatorRawWfsProc

  /** The four extrema columns of a channel, in the order the source writes
      them. */
  function RawColNames(ch: string): (names: seq<string>)
    ensures |names| == 4 && Distinct(names)
  {
    SuffixesDiffer(ch, MaxValSuffix, MaxPosSuffix);
    SuffixesDiffer(ch, MaxValSuffix, MinValSuffix);
    SuffixesDiffer(ch, MaxValSuffix, MinPosSuffix);
    SuffixesDiffer(ch, MaxPosSuffix, MinValSuffix);
    SuffixesDiffer(ch, MaxPosSuffix, MinPosSuffix);
    SuffixesDiffer(ch, MinValSuffix, MinPosSuffix);
    [ch + MaxValSuffix, ch + MaxPosSuffix, ch + MinValSuffix, ch + MinPosSuffix]
  }

  function RawNames(ch: string): set<string> {
    NameSet(RawColNames(ch))
  }

  function RawNamesAll(chs: seq<string>): set<string>
    decreases |chs|
  {
    if |chs| == 0 then {} else RawNames(chs[0]) + RawNamesAll(chs[1..])
  }

  /** The four columns the source computes from `rows`: row maximum,
      its first position, row minimum, its first position. */
  function RawColValues(rows: seq<seq<real>>): (cols: seq<Column>)
    requires forall i :: 0 <= i < |rows| ==> |rows[i]| > 0
    ensures |cols| == 4 && forall k :: 0 <= k < 4 ==> |cols[k].vals| == |rows|
  {
    [MaxVals(rows), MaxPositions(rows), MinVals(rows), MinPositions(rows)]
  }

  /** The table holds the extrema columns of `ch` computed from `rows`. */
  ghost predicate RawColumnsHold(t: Table, ch: string, rows: seq<seq<real>>) {
    && (forall i :: 0 <= i < |rows| ==> |rows[i]| > 0)
    && RawNames(ch) <= t.data.Keys
    && ch + MaxValSuffix in t.data && t.data[ch + MaxValSuffix] == MaxVals(rows)
    && ch + MaxPosSuffix in t.data && t.data[ch + MaxPosSuffix] == MaxPositions(rows)
    && ch + MinValSuffix in t.data && t.data[ch + MinValSuffix] == MinVals(rows)
    && ch + MinPosSuffix in t.data && t.data[ch + MinPosSuffix] == MinPositions(rows)
  }

  /** `val` is the maximum (or minimum) of `row` and `pos` the first index
      where it occurs. */
  ghost predicate ExtremumAt(row: seq<real>, val: Value, pos: Value, isMax: bool) {
    && val.Real? && pos.Int? && 0 <= pos.i < |row| && row[pos.i] == val.r
    && (forall j :: 0 <= j < |row| ==> if isMax then row[j] <= val.r else val.r <= row[j])
    && (forall j :: 0 <= j < pos.i ==> if isMax then row[j] < val.r else val.r < row[j])
  }

  function MaxVals(rows: seq<seq<real>>): (col: Column)
    requires forall i :: 0 <= i < |rows| ==> |rows[i]| > 0
    ensures |col.vals| == |rows|
  {
    Column(Float32, seq(|rows|, i requires 0 <= i < |rows| && |rows[i]| > 0 => Real(Max(rows[i]))))
  }

  function MaxPositions(rows: seq<seq<real>>): (col: Column)
    requires forall i :: 0 <= i < |rows| ==> |rows[i]| > 0
    ensures |col.vals| == |rows|
  {
    Column(Int64, seq(|rows|, i requires 0 <= i < |rows| && |rows[i]| > 0 => Int(ArgMax(rows[i]))))
  }

  function MinVals(rows: seq<seq<real>>): (col: Column)
    requires forall i :: 0 <= i < |rows| ==> |rows[i]| > 0
    ensures |col.vals| == |rows|
  {
    Column(Float32, seq(|rows|, i requires 0 <= i < |rows| && |rows[i]| > 0 => Real(Min(rows[i]))))
  }

  function MinPositions(rows: seq<seq<real>>): (col: Column)
    requires forall i :: 0 <= i < |rows| ==> |rows[i]| > 0
    ensures |col.vals| == |rows|
  {
    Column(Int64, seq(|rows|, i requires 0 <= i < |rows| && |rows[i]| > 0 => Int(ArgMin(rows[i]))))
  }

  /** What the extrema columns say: for every event, `raw_max_val` is at
      least every sample of its row and `raw_max_pos` is the first index
      holding it; `raw_min_val` and `raw_min_pos` likewise for the minimum. */
  lemma RawColumnsMeaning(t: Table, ch: string, rows: seq<seq<real>>)
    requires RawColumnsHold(t, ch, rows)
    ensures forall i :: 0 <= i < |rows| ==>
      ExtremumAt(rows[i], t.data[ch + MaxValSuffix].vals[i], t.data[ch + MaxPosSuffix].vals[i], true)
    ensures forall i :: 0 <= i < |rows| ==>
      ExtremumAt(rows[i], t.data[ch + MinValSuffix].vals[i], t.data[ch + MinPosSuffix].vals[i], false)
  {
  }

  /** One channel of `GatorRawWfsProc.doProc`: a 1-D array is first made a
      single row; a rank above two, rows without samples (numpy refuses the
      reduction) or a number of rows other than the table's (pandas refuses
      the column) raise ValueError. Otherwise the four extrema columns are
      written and nothing else changes. */
  function RawChannel(df: Table, ch: string, a: NdArray): (r: Result<Table>)
    requires Valid(df) && WellShaped(a)
    ensures r.Err? <==> a.Higher? || AsRows(a).ncols == 0 || |AsRows(a).rows| != df.nrows
    ensures r.Err? ==> r.error == ValueError
    ensures r.Ok? ==> UpdatedOnly(df, r.value, RawNames(ch)) && r.value.data.Keys == df.data.Keys + RawNames(ch)
    ensures r.Ok? ==> RawColumnsHold(r.value, ch, AsRows(a).rows)
  {
    if a.Higher? then Err(ValueError)
    else
      var m := AsRows(a);
      if m.ncols == 0 || |m.rows| != df.nrows then Err(ValueError)
      else Ok(SetExtrema(df, ch, m.rows))
  }

  /** Writes the four extrema columns of `ch`. */
  function SetExtrema(df: Table, ch: string, rows: seq<seq<real>>): (t: Table)
    requires Valid(df) && |rows| == df.nrows && forall i :: 0 <= i < |rows| ==> |rows[i]| > 0
    ensures UpdatedOnly(df, t, RawNames(ch)) && t.data.Keys == df.data.Keys + RawNames(ch)
    ensures RawColumnsHold(t, ch, rows)
  {
    var names, cols := RawColNames(ch), RawColValues(rows);
    var t := SetCols(df, names, cols);
    ExtremaWritten(t, ch, rows);
    t
  }

  /** The four columns `SetCols` wrote are the extrema columns. */
  lemma ExtremaWritten(t: Table, ch: string, rows: seq<seq<real>>)
    requires forall i :: 0 <= i < |rows| ==> |rows[i]| > 0
    requires RawNames(ch) <= t.data.Keys
    requires forall i :: 0 <= i < 4 ==> t.data[RawColNames(ch)[i]] == RawColValues(rows)[i]
    ensures RawColumnsHold(t, ch, rows)
  {
    var names, cols := RawColNames(ch), RawColValues(rows);
    assert t.data[names[0]] == cols[0] && t.data[names[1]] == cols[1];
    assert t.data[names[2]] == cols[2] && t.data[names[3]] == cols[3];
  }

  /** The channel loop of `doProc`, over `chs` in order: a channel missing
      from the waveforms raises KeyError and the first failing channel ends
      the loop. */
  function RawWfsLoop(chs: seq<string>, raw: map<string, NdArray>, df: Table): (r: Result<Table>)
    requires Valid(df) && AllWellShaped(raw)
    ensures r.Ok? ==> forall c :: c in chs ==> c in raw && !raw[c].Higher?
    ensures (exists c :: c in chs && c !in raw) ==> r.Err?
    ensures r.Ok? ==> UpdatedOnly(df, r.value, RawNamesAll(chs))
    ensures r.Ok? ==> r.value.data.Keys == df.data.Keys + RawNamesAll(chs)
    ensures r.Ok? && Distinct(chs) ==> forall c :: c in chs ==> RawColumnsHold(r.value, c, AsRows(raw[c]).rows)
    decreases |chs|
  {
    if |chs| == 0 then
      UpdatedOnlyRefl(df);
      Ok(df)
    else
      var ch := chs[0];
      if ch !in raw then Err(KeyError)
      else
        var t1 :- RawChannel(df, ch, raw[ch]);
        var t2 :- RawWfsLoop(chs[1..], raw, t1);
        UpdatedExactlyTrans(df, t1, t2, RawNames(ch), RawNamesAll(chs[1..]));
        RawLoopHolds(chs, raw, t1, t2);
        Ok(t2)
  }

  /** One step of the loop keeps the extrema columns of every channel: the
      first channel's are not overwritten by the later ones when the
      channels are distinct. */
  lemma RawLoopHolds(chs: seq<string>, raw: map<string, NdArray>, t1: Table, t2: Table)
    requires |chs| > 0 && chs[0] in raw && AllWellShaped(raw) && !raw[chs[0]].Higher?
    requires forall c :: c in chs[1..] ==> c in raw && !raw[c].Higher?
    requires RawColumnsHold(t1, chs[0], AsRows(raw[chs[0]]).rows)
    requires UpdatedOnly(t1, t2, RawNamesAll(chs[1..]))
    requires Distinct(chs[1..]) ==> forall c :: c in chs[1..] ==> RawColumnsHold(t2, c, AsRows(raw[c]).rows)
    ensures forall c :: c in chs ==> c in raw && !raw[c].Higher?
    ensures Distinct(chs) ==> forall c :: c in chs ==> RawColumnsHold(t2, c, AsRows(raw[c]).rows)
  {
    assert forall c :: c in chs ==> c == chs[0] || c in chs[1..];
    if Distinct(chs) {
      assert Distinct(chs[1..]);
      RawColumnsSurviveDistinct(t1, t2, chs);
    }
  }

  /** The waveform map after `doProc`: every processed channel's array is
      replaced by its 2-D form, as the source does to the caller's dict. */
  function Reshaped(raw: map<string, NdArray>, chs: seq<string>): (r: map<string, NdArray>)
    requires AllWellShaped(raw) && forall c :: c in chs ==> c in raw && !raw[c].Higher?
    ensures r.Keys == raw.Keys && AllWellShaped(r)
    ensures forall c :: c in chs ==> r[c].Mat? && r[c].rows == AsRows(raw[c]).rows
    ensures forall c :: c in raw && c !in chs ==> r[c] == raw[c]
  {
    map c | c in raw :: if c in chs then AsRows(raw[c]) else raw[c]
  }

  /** The first channel's columns are untouched by the channels after it. */
  lemma RawColumnsSurvive(t1: Table, t2: Table, chs: seq<string>)
    requires |chs| > 0
    requires UpdatedOnly(t1, t2, RawNamesAll(chs[1..]))
    requires RawNames(chs[0]) <= t1.data.Keys
    ensures Distinct(chs) ==> forall n :: n in RawNames(chs[0]) ==> n in t2.data && t2.data[n] == t1.data[n]
  {
    if Distinct(chs) {
      RawColumnsSurviveDistinct(t1, t2, chs);
    }
  }

  lemma RawColumnsSurviveDistinct(t1: Table, t2: Table, chs: seq<string>)
    requires |chs| > 0 && Distinct(chs)
    requires UpdatedOnly(t1, t2, RawNamesAll(chs[1..]))
    requires RawNames(chs[0]) <= t1.data.Keys
    ensures forall n :: n in RawNames(chs[0]) ==> n in t2.data && t2.data[n] == t1.data[n]
  {
    assert chs[0] !in chs[1..];
    RawNamesDisjoint(chs[0], chs[1..]);
  }

  /** Every extrema column name of `ch` is `ch` followed by twelve
      characters. */
  lemma RawNameShape(ch: string, x: string)
    requires x in RawNames(ch)
    ensures |x| == |ch| + 12 && x[..|ch|] == ch
  {
  }

  /** A channel's extrema columns are not named by any other channel. */
  lemma {:induction false} RawNamesDisjoint(ch: string, chs: seq<string>)
    requires ch !in chs
    ensures RawNames(ch) !! RawNamesAll(chs)
    decreases |chs|
  {
    if |chs| > 0 {
      RawNamesDisjoint(ch, chs[1..]);
      forall x, y | x in RawNames(ch) && y in RawNames(chs[0])
        ensures x != y
      {
        RawNameShape(ch, x);
        RawNameShape(chs[0], y);
      }
    }
  }

  /** The state `GatorRawWfsProc` keeps between calls: the waveform map of
      its last `doProc`, empty after construction. */
  datatype RawWfsState = RawWfsState(rawWfs: map<string, NdArray>)

  function RawWfsInit(): (st: RawWfsState)
    ensures st.rawWfs == map[]
  {
    RawWfsState(map[])
  }

  /** `GatorRawWfsProc.doProc`: every channel of the map gets its four
      extrema columns, no configuration needed; the (reshaped) waveform map
      is both stored and returned. */
  function RawWfsDoProc(m: ChsMap, df: Table, raw: map<string, NdArray>)
    : (r: Result<(RawWfsState, Table, map<string, NdArray>)>)
    requires ValidChsMap(m) && Valid(df) && AllWellShaped(raw)
    ensures (exists c :: c in m.chs && c !in raw) ==> r.Err?
    ensures r.Ok? ==> r.value.0.rawWfs == r.value.2 && r.value.2.Keys == raw.Keys
    ensures r.Ok? ==> UpdatedOnly(df, r.value.1, RawNamesAll(m.chs))
    ensures r.Ok? ==> forall c :: c in m.chs ==> c in raw && !raw[c].Higher? && RawColumnsHold(r.value.1, c, AsRows(raw[c]).rows)
    ensures r.Ok? ==> forall c :: c in m.chs ==> r.value.2[c] == AsRows(raw[c])
  {
    var t :- RawWfsLoop(m.chs, raw, df);
    var raw2 := Reshaped(raw, m.chs);
    Ok((RawWfsState(raw2), t, raw2))
  }

  /** `GatorRawWfsProc.procSingleEvent` returns the stored map whatever it is
      given. */
  function RawWfsSingleEvent(st: RawWfsState, bsln: map<string, NdArray>, raw: map<string, NdArray>)
    : (r: map<string, NdArray>)
    ensures r == st.rawWfs
  {
    st.rawWfs
  }

  /** After a successful `doProc`, `procSingleEvent` returns the arrays that
      `doProc` produced, not the ones it is passed. */
  lemma SingleEventReturnsLastDoProc(m: ChsMap, df: Table, raw: map<string, NdArray>,
                                     bsln: map<string, NdArray>, other: map<string, NdArray>)
    requires ValidChsMap(m) && Valid(df) && AllWellShaped(raw)
    requires RawWfsDoProc(m, df, raw).Ok?
    ensures RawWfsSingleEvent(RawWfsDoProc(m, df, raw).value.0, bsln, other) == RawWfsDoProc(m, df, raw).value.2
    ensures forall c :: c in m.chs ==> RawWfsSingleEvent(RawWfsDoProc(m, df, raw).value.0, bsln, other)[c].Mat?
  {
  }

  // ---------------------------------------------------------------------
  // GatorRawPurProc

  /** `processors.rawpur.threshold` of a channel, when every key is there. */
  function RawPurThreshold(conf: ChannelConf): Option<real> {
    if conf.processors.Some? && "rawpur" in conf.processors.value
    then conf.processors.value["rawpur"].threshold
    else None
  }

  /** The number a numeric table cell holds; None for a string or a
      non-finite value, which the comparison is not modelled for. */
  function Numeric(v: Value): (x: Option<real>)
    ensures v.Real? ==> x == Some(v.r)
  {
    match v
    case Real(r) => Some(r)
    case Int(i) => Some(i as real)
    case Bool(b) => Some(if b then 1.0 else 0.0)
    case _ => None
  }

  predicate AllNumeric(vals: seq<Value>) {
    forall i :: 0 <= i < |vals| ==> Numeric(vals[i]).Some?
  }

  /** Per event, whether the maximum exceeds the minimum by strictly more
      than `thr`. */
  function SpreadFlags(hi: seq<Value>, lo: seq<Value>, thr: real): (flags: seq<Value>)
    requires AllNumeric(hi) && AllNumeric(lo) && |hi| == |lo|
    ensures |flags| == |hi|
    ensures forall i :: 0 <= i < |hi| ==> flags[i] == Bool(Numeric(hi[i]).value - Numeric(lo[i]).value > thr)
  {
    seq(|hi|, i requires 0 <= i < |hi| == |lo| && AllNumeric(hi) && AllNumeric(lo) =>
      Bool(Numeric(hi[i]).value - Numeric(lo[i]).value > thr))
  }

  /** One channel of `GatorRawPurProc.doProc`: the flag is set exactly for
      the events whose raw maximum exceeds the raw minimum by strictly more
      than the threshold. A missing extrema column raises KeyError. */
  function RawPurChannel(df: Table, ch: string, thr: real): (r: Result<Table>)
    requires Valid(df)
    ensures (ch + MaxValSuffix !in df.data || ch + MinValSuffix !in df.data) ==> r == Err(KeyError)
    ensures r.Ok? ==> UpdatedOnly(df, r.value, {ch + PurSuffix}) && ch + PurSuffix in r.value.data
    ensures r.Ok? ==> r.value.data.Keys == df.data.Keys + {ch + PurSuffix}
    ensures r.Ok? ==> var hi := df.data[ch + MaxValSuffix].vals; var lo := df.data[ch + MinValSuffix].vals;
      && AllNumeric(hi) && AllNumeric(lo)
      && r.value.data[ch + PurSuffix].dtype == BoolT
      && forall i :: 0 <= i < df.nrows ==>
           r.value.data[ch + PurSuffix].vals[i] == Bool(Numeric(hi[i]).value - Numeric(lo[i]).value > thr)
  {
    if ch + MaxValSuffix !in df.data || ch + MinValSuffix !in df.data then Err(KeyError)
    else
      var hi := df.data[ch + MaxValSuffix].vals;
      var lo := df.data[ch + MinValSuffix].vals;
      if !AllNumeric(hi) || !AllNumeric(lo) then Err(TypeError)
      else
        Ok(SetCol(df, ch + PurSuffix, Column(BoolT, SpreadFlags(hi, lo, thr))))
  }

  /** The flag columns the loop writes: one per channel with a threshold. */
  function PurNamesAll(m: ChsMap, chs: seq<string>): set<string>
    decreases |chs|
  {
    if |chs| == 0 then {}
    else
      (if chs[0] in m.conf && RawPurThreshold(m.conf[chs[0]]).Some? then {chs[0] + PurSuffix} else {})
      + PurNamesAll(m, chs[1..])
  }

  /** The flag column of `ch` in `t` holds, for every event, whether the
      raw maximum in `df` exceeds the raw minimum in `df` by strictly more
      than `thr`. */
  ghost predicate PurFlagsHold(df: Table, t: Table, ch: string, thr: real) {
    && ch + MaxValSuffix in df.data && ch + MinValSuffix in df.data && ch + PurSuffix in t.data
    && var hi := df.data[ch + MaxValSuffix].vals;
    && var lo := df.data[ch + MinValSuffix].vals;
    && var flags := t.data[ch + PurSuffix];
    && AllNumeric(hi) && AllNumeric(lo) && |hi| == |lo| == |flags.vals| == df.nrows
    && flags.dtype == BoolT
    && forall i :: 0 <= i < df.nrows ==> flags.vals[i] == Bool(Numeric(hi[i]).value - Numeric(lo[i]).value > thr)
  }

  /** What the loop over `chs` promises of its table `t`: when the channels
      are distinct, every channel with a threshold has its flags computed
      from the extrema columns of the loop's input `df`. */
  ghost predicate PurLoopOut(m: ChsMap, chs: seq<string>, df: Table, t: Table)
    requires forall c :: c in chs ==> c in m.conf
  {
    Distinct(chs) ==> forall c :: c in chs && RawPurThreshold(m.conf[c]).Some? ==>
      PurFlagsHold(df, t, c, RawPurThreshold(m.conf[c]).value)
  }

  /** The channel loop of `GatorRawPurProc.doProc`: channels without a
      threshold are skipped and get no column; only the flag columns of the
      others are written, and no other column changes. */
  function RawPurLoop(m: ChsMap, chs: seq<string>, df: Table): (r: Result<Table>)
    requires Valid(df) && forall c :: c in chs ==> c in m.conf
    ensures r.Ok? ==> UpdatedOnly(df, r.value, PurNamesAll(m, chs))
    ensures r.Ok? ==> r.value.data.Keys == df.data.Keys + PurNamesAll(m, chs)
    ensures r.Ok? ==> PurLoopOut(m, chs, df, r.value)
    decreases |chs|
  {
    if |chs| == 0 then
      UpdatedOnlyRefl(df);
      Ok(df)
    else
      var ch := chs[0];
      var thr := RawPurThreshold(m.conf[ch]);
      var names1: set<string> := if thr.Some? then {ch + PurSuffix} else {};
      var t1 :- PurStep(df, ch, thr);
      var t2 :- RawPurLoop(m, chs[1..], t1);
      UpdatedExactlyTrans(df, t1, t2, names1, PurNamesAll(m, chs[1..]));
      PurLoopStep(m, chs, df, t1, t2);
      Ok(t2)
  }

  /** One channel of the loop: no threshold, no change. */
  function PurStep(df: Table, ch: string, thr: Option<real>): (r: Result<Table>)
    requires Valid(df)
    ensures thr.None? ==> r == Ok(df)
    ensures r.Ok? ==> var names: set<string> := if thr.Some? then {ch + PurSuffix} else {};
      UpdatedOnly(df, r.value, names) && r.value.data.Keys == df.data.Keys + names
    ensures r.Ok? && thr.Some? ==> PurFlagsHold(df, r.value, ch, thr.value)
  {
    if thr.None? then
      UpdatedOnlyRefl(df);
      Ok(df)
    else RawPurChannel(df, ch, thr.value)
  }

  /** One step of the loop: the first channel's flags survive the later
      channels, and theirs, computed from the table after the first
      channel, are those of the loop's input, whose extrema it kept. */
  lemma PurLoopStep(m: ChsMap, chs: seq<string>, df: Table, t1: Table, t2: Table)
    requires |chs| > 0 && forall c :: c in chs ==> c in m.conf
    requires var thr := RawPurThreshold(m.conf[chs[0]]);
      && UpdatedOnly(df, t1, if thr.Some? then {chs[0] + PurSuffix} else {})
      && (thr.Some? ==> PurFlagsHold(df, t1, chs[0], thr.value))
    requires UpdatedOnly(t1, t2, PurNamesAll(m, chs[1..])) && PurLoopOut(m, chs[1..], t1, t2)
    ensures PurLoopOut(m, chs, df, t2)
  {
    if Distinct(chs) {
      var ch := chs[0];
      assert Distinct(chs[1..]) && ch !in chs[1..];
      var thr := RawPurThreshold(m.conf[ch]);
      if thr.Some? {
        PurNameNotIn(m, ch, chs[1..]);
        PurFlagsKept(df, t1, t2, ch, thr.value, PurNamesAll(m, chs[1..]));
      }
      forall c | c in chs[1..] && RawPurThreshold(m.conf[c]).Some?
        ensures PurFlagsHold(df, t2, c, RawPurThreshold(m.conf[c]).value)
      {
        PurNotExtrema(ch, c);
        PurFlagsRebased(df, t1, t2, c, RawPurThreshold(m.conf[c]).value, ch);
      }
    }
  }

  /** A flag column is never named like an extrema value column. */
  lemma PurNotExtrema(a: string, b: string)
    ensures a + PurSuffix != b + MaxValSuffix && a + PurSuffix != b + MinValSuffix
  {
    var x := a + PurSuffix;
    assert x[|x| - 1] == 'r';
    assert (b + MaxValSuffix)[|b + MaxValSuffix| - 1] == 'l';
    assert (b + MinValSuffix)[|b + MinValSuffix| - 1] == 'l';
  }

  /** A channel's flag column is not named by the channels after it. */
  lemma {:induction false} PurNameNotIn(m: ChsMap, ch: string, chs: seq<string>)
    requires ch !in chs
    ensures ch + PurSuffix !in PurNamesAll(m, chs)
    decreases |chs|
  {
    if |chs| > 0 {
      PurNameNotIn(m, ch, chs[1..]);
      NamesDiffer(ch, PurSuffix, chs[0], PurSuffix, 0);
    }
  }

  /** Columns written under other names leave a channel's flags as they
      were. */
  lemma PurFlagsKept(df: Table, t1: Table, t2: Table, ch: string, thr: real, names: set<string>)
    requires PurFlagsHold(df, t1, ch, thr) && UpdatedOnly(t1, t2, names) && ch + PurSuffix !in names
    ensures PurFlagsHold(df, t2, ch, thr)
  {
  }

  /** Flags computed from a table that differs from `df` only in the flag
      column of `other` are flags computed from `df`. */
  lemma PurFlagsRebased(df: Table, t1: Table, t2: Table, ch: string, thr: real, other: string)
    requires UpdatedOnly(df, t1, {other + PurSuffix}) || t1 == df
    requires PurFlagsHold(t1, t2, ch, thr)
    requires other + PurSuffix != ch + MaxValSuffix && other + PurSuffix != ch + MinValSuffix
    ensures PurFlagsHold(df, t2, ch, thr)
  {
  }

  /** `GatorRawPurProc.doProc` returns an empty waveform map; so does its
      `procSingleEvent`. */
  function RawPurDoProc(m: ChsMap, df: Table): (r: Result<(Table, map<string, NdArray>)>)
    requires ValidChsMap(m) && Valid(df)
    ensures r.Ok? ==> r.value.1 == map[]
    ensures r.Ok? ==> UpdatedOnly(df, r.value.0, PurNamesAll(m, m.chs))
    ensures r.Ok? ==> forall c :: c in m.chs && RawPurThreshold(m.conf[c]).Some? ==>
      PurFlagsHold(df, r.value.0, c, RawPurThreshold(m.conf[c]).value)
  {
    var t :- RawPurLoop(m, m.chs, df);
    Ok((t, map[]))
  }

  function RawPurSingleEvent(bsln: map<string, NdArray>, raw: map<string, NdArray>): (r: map<string, NdArray>)
    ensures r == map[]
  {
    map[]
  }

  /** Run after the extrema stage, the pile-up flag of an event is set
      exactly when its raw samples spread by more than the threshold. */
  lemma PurFlagsSpread(df: Table, ch: string, a: NdArray, thr: real)
    requires Valid(df) && WellShaped(a)
    ensures RawChannel(df, ch, a).Ok? ==>
      var t := RawChannel(df, ch, a).value;
      var rows := AsRows(a).rows;
      && RawPurChannel(t, ch, thr).Ok?
      && forall i :: 0 <= i < |rows| ==>
           RawPurChannel(t, ch, thr).value.data[ch + PurSuffix].vals[i] == Bool(Max(rows[i]) - Min(rows[i]) > thr)
  {
    if RawChannel(df, ch, a).Ok? {
      var t := RawChannel(df, ch, a).value;
      PurFlagsFromColumns(t, ch, AsRows(a).rows, thr);
    }
  }

  /** The flags computed from extrema columns that hold the rows' extrema. */
  lemma PurFlagsFromColumns(t: Table, ch: string, rows: seq<seq<real>>, thr: real)
    requires Valid(t) && t.nrows == |rows| && RawColumnsHold(t, ch, rows)
    ensures RawPurChannel(t, ch, thr).Ok?
    ensures forall i :: 0 <= i < |rows| ==>
      RawPurChannel(t, ch, thr).value.data[ch + PurSuffix].vals[i] == Bool(Max(rows[i]) - Min(rows[i]) > thr)
  {
    var hi := t.data[ch + MaxValSuffix].vals;
    var lo := t.data[ch + MinValSuffix].vals;
    forall i | 0 <= i < |rows|
      ensures hi[i] == Real(Max(rows[i])) && lo[i] == Real(Min(rows[i]))
    {
      ExtremaColumnsAt(t, ch, rows, i);
    }
    assert AllNumeric(hi) && AllNumeric(lo);
  }

  /** Row `i` of the value columns holds that row's maximum and minimum. */
  lemma ExtremaColumnsAt(t: Table, ch: string, rows: seq<seq<real>>, i: int)
    requires RawColumnsHold(t, ch, rows) && 0 <= i < |rows|
    ensures t.data[ch + MaxValSuffix].vals[i] == Real(Max(rows[i]))
    ensures t.data[ch + MinValSuffix].vals[i] == Real(Min(rows[i]))
  {
    RawColumnsMeaning(t, ch, rows);
    var hi := t.data[ch + MaxValSuffix].vals[i];
    var lo := t.data[ch + MinValSuffix].vals[i];
    assert ExtremumAt(rows[i], hi, t.data[ch + MaxPosSuffix].vals[i], true);
    assert ExtremumAt(rows[i], lo, t.data[ch + MinPosSuffix].vals[i], false);
    MaxIsUnique(rows[i], hi.r);
    MinIsUnique(rows[i], lo.r);
  }

  /** An upper bound attained in the sequence is its maximum. */
  lemma MaxIsUnique(s: seq<real>, v: real)
    requires |s| > 0 && (forall j :: 0 <= j < |s| ==> s[j] <= v) && v in s
    ensures Max(s) == v
  {
    var k :| 0 <= k < |s| && s[k] == v;
    assert s[k] <= Max(s);
  }

  /** A lower bound attained in the sequence is its minimum. */
  lemma MinIsUnique(s: seq<real>, v: real)
    requires |s| > 0 && (forall j :: 0 <= j < |s| ==> v <= s[j]) && v in s
    ensures Min(s) == v
  {
    var k :| 0 <= k < |s| && s[k] == v;
    assert Min(s) <= s[k];
  }
}

=== FILE: series.dfy ===
/** Reductions over one waveform (a `seq<real>`), with the numpy semantics the
    stages rely on: `np.sum`, `np.mean`, `np.max`/`np.argmax` (first
    occurrence), `np.min`/`np.argmin`, population variance and `np.median`. */
module Series {

  function Sum(s: seq<real>): real
    decreases |s|
  {
    if |s| == 0 then 0.0 else Sum(s[..|s| - 1]) + s[|s| - 1]
  }

  function Mean(s: seq<real>): real
    requires |s| > 0
  {
    Sum(s) / (|s| as real)
  }

  /** Element-wise `s - c`. */
  function Shift(s: seq<real>, c: real): (r: seq<real>)
    ensures |r| == |s|
    ensures forall i :: 0 <= i < |s| ==> r[i] == s[i] - c
  {
    seq(|s|, i requires 0 <= i < |s| => s[i] - c)
  }

  /** Element-wise `s / c`. */
  function Divide(s: seq<real>, c: real): (r: seq<real>)
    requires c != 0.0
    ensures |r| == |s|
    ensures forall i :: 0 <= i < |s| ==> r[i] == s[i] / c
  {
    seq(|s|, i requires 0 <= i < |s| => s[i] / c)
  }

  /** Element-wise `c * s`. */
  function Scale(s: seq<real>, c: real): (r: seq<real>)
    ensures |r| == |s|
    ensures forall i :: 0 <= i < |s| ==> r[i] == c * s[i]
  {
    seq(|s|, i requires 0 <= i < |s| => c * s[i])
  }

  /** Element-wise `-s`. */
  function Negate(s: seq<real>): (r: seq<real>)
    ensures |r| == |s|
    ensures forall i :: 0 <= i < |s| ==> r[i] == -s[i]
  {
    seq(|s|, i requires 0 <= i < |s| => -s[i])
  }

  function Abs(x: real): real { if x < 0.0 then -x else x }

  /** Element-wise `|s - c|`. */
  function AbsDev(s: seq<real>, c: real): (r: seq<real>)
    ensures |r| == |s|
    ensures forall i :: 0 <= i < |s| ==> r[i] == Abs(s[i] - c)
  {
    seq(|s|, i requires 0 <= i < |s| => Abs(s[i] - c))
  }

  /** Element-wise `(s - c)^2`. */
  function SqDev(s: seq<real>, c: real): (r: seq<real>)
    ensures |r| == |s|
    ensures forall i :: 0 <= i < |s| ==> r[i] == (s[i] - c) * (s[i] - c)
  {
    seq(|s|, i requires 0 <= i < |s| => (s[i] - c) * (s[i] - c))
  }

  /** Population variance (`np.std` with `ddof=0` is its square root). */
  function Variance(s: seq<real>): real
    requires |s| > 0
  {
    Mean(SqDev(s, Mean(s)))
  }

  /** `np.argmax`: index of the first maximal element. */
  function ArgMax(s: seq<real>): (k: nat)
    requires |s| > 0
    ensures k < |s|
    ensures forall j :: 0 <= j < |s| ==> s[j] <= s[k]
    ensures forall j :: 0 <= j < k ==> s[j] < s[k]
    decreases |s|
  {
    if |s| == 1 then 0
    else
      var k := ArgMax(s[..|s| - 1]);
      if s[|s| - 1] > s[k] then |s| - 1 else k
  }

  /** `np.argmin`: index of the first minimal element. */
  function ArgMin(s: seq<real>): (k: nat)
    requires |s| > 0
    ensures k < |s|
    ensures forall j :: 0 <= j < |s| ==> s[k] <= s[j]
    ensures forall j :: 0 <= j < k ==> s[k] < s[j]
    decreases |s|
  {
    if |s| == 1 then 0
    else
      var k := ArgMin(s[..|s| - 1]);
      if s[|s| - 1] < s[k] then |s| - 1 else k
  }

  /** `np.max`: the largest element. */
  function Max(s: seq<real>): (m: real)
    requires |s| > 0
    ensures forall j :: 0 <= j < |s| ==> s[j] <= m
    ensures exists j :: 0 <= j < |s| && s[j] == m
  {
    s[ArgMax(s)]
  }

  /** `np.min`: the smallest element. */
  function Min(s: seq<real>): (m: real)
    requires |s| > 0
    ensures forall j :: 0 <= j < |s| ==> m <= s[j]
    ensures exists j :: 0 <= j < |s| && s[j] == m
  {
    s[ArgMin(s)]
  }

  ghost predicate Sorted(s: seq<real>) {
    forall i, j :: 0 <= i < j < |s| ==> s[i] <= s[j]
  }

  /** Insertion of `x` into a sorted sequence. */
  function Insert(x: real, s: seq<real>): (r: seq<real>)
    requires Sorted(s)
    ensures Sorted(r)
    ensures multiset(r) == multiset(s) + multiset{x}
    decreases |s|
  {
    if |s| == 0 then [x]
    else if x <= s[0] then [x] + s
    else
      var t := Insert(x, s[1..]);
      assert s == [s[0]] + s[1..];
      InsertLowerBound(x, s, t);
      [s[0]] + t
  }

  /** Everything `Insert` puts after the head of `s` is at least that head. */
  lemma InsertLowerBound(x: real, s: seq<real>, t: seq<real>)
    requires Sorted(s) && |s| > 0 && s[0] < x
    requires multiset(t) == multiset(s[1..]) + multiset{x}
    ensures forall i :: 0 <= i < |t| ==> s[0] <= t[i]
  {
    forall i | 0 <= i < |t|
      ensures s[0] <= t[i]
    {
      assert t[i] in multiset(t);
      if t[i] != x {
        assert t[i] in multiset(s[1..]);
        assert t[i] in s[1..];
      }
    }
  }

  /** The ascending rearrangement `np.sort` computes before taking a median. */
  function SortSeq(s: seq<real>): (r: seq<real>)
    ensures Sorted(r)
    ensures multiset(r) == multiset(s)
    ensures |r| == |s|
    decreases |s|
  {
    if |s| == 0 then []
    else
      assert s == s[..|s| - 1] + [s[|s| - 1]];
      var r := Insert(s[|s| - 1], SortSeq(s[..|s| - 1]));
      assert |r| == |multiset(r)|;
      r
  }

  /** `np.median`: the middle element of the sorted sequence, or the mean of
      the two middle elements when the length is even. */
  function Median(s: seq<real>): real
    requires |s| > 0
  {
    Middle(SortSeq(s))
  }

  /** The middle element of `t`, or the mean of its two middle elements. */
  function Middle(t: seq<real>): real
    requires |t| > 0
  {
    var n := |t|;
    if n % 2 == 1 then t[n / 2] else (t[n / 2 - 1] + t[n / 2]) / 2.0
  }

  lemma {:induction false} SumAppend(s: seq<real>, x: real)
    ensures Sum(s + [x]) == Sum(s) + x
  {
    assert (s + [x])[..|s + [x]| - 1] == s;
  }

  /** Summing after a shift by `c` subtracts `|s| * c`. */
  lemma {:induction false} SumShift(s: seq<real>, c: real)
    ensures Sum(Shift(s, c)) == Sum(s) - (|s| as real) * c
    decreases |s|
  {
    if |s| > 0 {
      var p := s[..|s| - 1];
      SumShift(p, c);
      assert Shift(s, c)[..|s| - 1] == Shift(p, c);
    }
  }

  /** Dividing every element by `c` divides the sum by `c`. */
  lemma {:induction false} SumDivide(s: seq<real>, c: real)
    requires c != 0.0
    ensures Sum(Divide(s, c)) == Sum(s) / c
    decreases |s|
  {
    if |s| > 0 {
      var p := s[..|s| - 1];
      SumDivide(p, c);
      assert Divide(s, c)[..|s| - 1] == Divide(p, c);
      calc {
        Sum(Divide(s, c));
        Sum(p) / c + s[|s| - 1] / c;
        { DivideAdd(Sum(p), s[|s| - 1], c); }
        (Sum(p) + s[|s| - 1]) / c;
      }
    }
  }

  /** Scaling every element by `c` scales the sum by `c`. */
  lemma {:induction false} SumScale(s: seq<real>, c: real)
    ensures Sum(Scale(s, c)) == c * Sum(s)
    decreases |s|
  {
    if |s| > 0 {
      var p := s[..|s| - 1];
      SumScale(p, c);
      var t, tp := Scale(s, c), Scale(p, c);
      forall i | 0 <= i < |p|
        ensures t[..|s| - 1][i] == tp[i]
      {
        assert t[i] == c * s[i] && tp[i] == c * p[i] && p[i] == s[i];
      }
      assert t[..|s| - 1] == tp;
      assert Sum(t) == c * Sum(p) + c * s[|s| - 1];
    }
  }

  /** `c * x` as a named term, so that facts about scaled sums and maxima
      meet in one place. */
  function Times(c: real, x: real): real
  {
    c * x
  }

  /** Scaling by a positive factor scales the maximum by that factor. */
  lemma MaxScale(s: seq<real>, c: real)
    requires |s| > 0 && c > 0.0
    ensures Max(Scale(s, c)) == Times(c, Max(s))
  {
    var t := Scale(s, c);
    var j, k := ArgMax(s), ArgMax(t);
    ScaleAt(s, c, j);
    ScaleAt(s, c, k);
    ScaledMax(c, s[j], s[k], t[j], t[k]);
  }

  lemma ScaleAt(s: seq<real>, c: real, i: nat)
    requires i < |s|
    ensures Scale(s, c)[i] == Times(c, s[i])
  {
  }

  /** If `a` is the larger value and `c * a` the smaller product, both
      products are equal. */
  lemma ScaledMax(c: real, a: real, b: real, ta: real, tb: real)
    requires c > 0.0 && b <= a && ta <= tb && ta == Times(c, a) && tb == Times(c, b)
    ensures tb == Times(c, a)
  {
    MulMonotone(c, b, a);
  }

  lemma MulMonotone(c: real, a: real, b: real)
    requires c > 0.0 && a <= b
    ensures c * a <= c * b
  {
  }

  lemma DivideAdd(a: real, b: real, c: real)
    requires c != 0.0
    ensures a / c + b / c == (a + b) / c
  {
  }

  /** Centring on the mean leaves a sequence whose sum is exactly zero. */
  lemma CenteredSumZero(s: seq<real>)
    requires |s| > 0
    ensures Sum(Shift(s, Mean(s))) == 0.0
  {
    SumShift(s, Mean(s));
  }

  /** The sum of a sequence of zeros is zero. */
  lemma {:induction false} SumZeros(s: seq<real>)
    requires forall i :: 0 <= i < |s| ==> s[i] == 0.0
    ensures Sum(s) == 0.0
    decreases |s|
  {
    if |s| > 0 {
      SumZeros(s[..|s| - 1]);
    }
  }

  /** A sum of terms bounded by `m` is bounded by `|s| * m`. */
  lemma {:induction false} SumAtMost(s: seq<real>, m: real)
    requires forall i :: 0 <= i < |s| ==> s[i] <= m
    ensures Sum(s) <= (|s| as real) * m
    decreases |s|
  {
    if |s| > 0 {
      SumAtMost(s[..|s| - 1], m);
    }
  }

  /** The mean of terms bounded by `m` is bounded by `m`. */
  lemma MeanAtMost(s: seq<real>, m: real)
    requires |s| > 0 && forall i :: 0 <= i < |s| ==> s[i] <= m
    ensures Mean(s) <= m
  {
    SumAtMost(s, m);
    var n := |s| as real;
    assert Sum(s) / n <= (n * m) / n;
  }

  /** Every element of a sorted rearrangement is an element of the original. */
  lemma SortedElementsComeFromInput(s: seq<real>, i: nat)
    requires i < |s|
    ensures exists j :: 0 <= j < |s| && s[j] == SortSeq(s)[i]
  {
    var t := SortSeq(s);
    assert t[i] in multiset(t);
    assert t[i] in multiset(s);
    assert t[i] in s;
  }

  /** The median lies between the smallest and the largest sample. */
  lemma MedianBetweenMinAndMax(s: seq<real>)
    requires |s| > 0
    ensures Min(s) <= Median(s) <= Max(s)
  {
    var t := SortSeq(s);
    forall i | 0 <= i < |t|
      ensures Min(s) <= t[i] <= Max(s)
    {
      SortedWithinRange(s, i);
    }
    MiddleWithin(t, Min(s), Max(s));
  }

  /** The middle of values within a range is within it. */
  lemma MiddleWithin(t: seq<real>, lo: real, hi: real)
    requires |t| > 0 && forall i :: 0 <= i < |t| ==> lo <= t[i] <= hi
    ensures lo <= Middle(t) <= hi
  {
    var n := |t|;
    var h := n / 2;
    HalfIndex(n);
    if n % 2 != 1 {
      var g: nat := h - 1;
      MidpointBetween(t[g], t[h], lo, hi);
    }
  }

  /** The middle index of a non-empty sequence, and the one before it when
      the length is even, are indices of it. */
  lemma HalfIndex(n: nat)
    requires n > 0
    ensures n / 2 < n && (n % 2 != 1 ==> n / 2 >= 1)
  {
  }

  /** The midpoint of two values in a range is in that range. */
  lemma MidpointBetween(a: real, b: real, lo: real, hi: real)
    requires lo <= a <= hi && lo <= b <= hi
    ensures lo <= (a + b) / 2.0 <= hi
  {
  }

  /** Every element of the sorted rearrangement lies within the range. */
  lemma SortedWithinRange(s: seq<real>, i: nat)
    requires i < |s|
    ensures Min(s) <= SortSeq(s)[i] <= Max(s)
  {
    SortedElementsComeFromInput(s, i);
    var j :| 0 <= j < |s| && s[j] == SortSeq(s)[i];
    assert Min(s) <= s[j] <= Max(s);
  }
}

=== FILE: storage.dfy ===
/** `GatorDatasetsStorage`: every raw file of a list of dataset directories
    loaded into one handler and one table each, the tables carrying the
    file's name, its number within its dataset and each event's number
    within its file. */
module Storage {
  import opened Common
  import opened NdArrays
  import opened Tables
  import opened WfsProc
  import opened RawFile
  import Walk
  import FileProc

  const FileIdCol := "fileId"
  const WfIdCol := "wfId"
  const DatasetCol := "dataset"
  const DatasetIdCol := "datasetId"

  /** The `chs_map` argument: a channel map or any other object. */
  datatype ChsMapArg = AChsMap(m: ChsMap) | NotAChsMap

  /** The `datasets` argument: one name, a list of names or anything else. */
  datatype DatasetsArg = OneDataset(name: string) | DatasetList(names: seq<string>) | OtherDatasets

  /** The file names of each directory, by path (the result of listing it). */
  type Listing = map<string, seq<string>>

  datatype Storage = Storage(
    m: ChsMap,
    datadir: string,
    datasets: seq<string>,
    files: seq<Loaded>)

  /** A single name becomes a one-element list; a list is kept; anything
      else raises TypeError. */
  function DatasetNames(arg: DatasetsArg): (r: Result<seq<string>>)
    ensures r.Err? <==> arg.OtherDatasets?
    ensures r.Err? ==> r.error == TypeError
    ensures arg.OneDataset? ==> r == Ok([arg.name])
    ensures arg.DatasetList? ==> r == Ok(arg.names)
  {
    match arg
    case OneDataset(n) => Ok([n])
    case DatasetList(ns) => Ok(ns)
    case OtherDatasets => Err(TypeError)
  }

  // ---------------------------------------------------------------------
  // The files of a dataset

  /** The names `*.root` matches: a name ending in `.root` with at least one
      character before it, hidden names excluded. */
  predicate GlobRoot(name: string) {
    |name| > 5 && name[0] != '.' && name[|name| - 5..] == ".root"
  }

  /** `glob(path.join(dir, '*.root'))` on a listing, in listing order. */
  function RootFiles(names: seq<string>): (r: seq<string>)
    ensures forall n :: n in r <==> n in names && GlobRoot(n)
    ensures |r| <= |names|
    decreases |names|
  {
    if |names| == 0 then []
    else (if GlobRoot(names[0]) then [names[0]] else []) + RootFiles(names[1..])
  }

  /** The paths of the raw files of dataset `ds`; a directory that does not
      exist has none. */
  function DatasetPaths(ls: Listing, datadir: string, ds: string): (ps: seq<string>)
    ensures Walk.Join(datadir, ds) !in ls ==> ps == []
    ensures var dir := Walk.Join(datadir, ds);
      dir in ls ==> |ps| == |RootFiles(ls[dir])| && forall i :: 0 <= i < |ps| ==> ps[i] == Walk.Join(dir, RootFiles(ls[dir])[i])
  {
    var dir := Walk.Join(datadir, ds);
    if dir !in ls then []
    else
      var names := RootFiles(ls[dir]);
      seq(|names|, i requires 0 <= i < |names| => Walk.Join(dir, names[i]))
  }

  // ---------------------------------------------------------------------
  // One file

  /** The five labels the storage assigns to a handler's table, in order. */
  const LabelNames: seq<string> := [DatasetCol, DatasetIdCol, FileProc.FilenameCol, FileIdCol, WfIdCol]

  /** The identifying columns a stored table starts with. */
  const IdNames: seq<string> := [FileProc.FilenameCol, FileIdCol, WfIdCol]

  /** The columns of a stored table, in order. */
  const StoredCols: seq<string> := [FileProc.FilenameCol, FileIdCol, WfIdCol, RunTimeCol, EvCounterCol, TimeTrigTagCol]

  /** The columns of the copy of a handler's table once it is labelled. */
  const LabelledCols: seq<string> :=
    [RunTimeCol, EvCounterCol, TimeTrigTagCol, DatasetCol, DatasetIdCol, FileProc.FilenameCol, FileIdCol, WfIdCol]

  /** An int64 column repeating one number. */
  function ConstIntCol(n: nat, k: nat): (c: Column)
    ensures c.dtype == Int64 && |c.vals| == n && forall i :: 0 <= i < n ==> c.vals[i] == Int(k)
  {
    Column(Int64, Repeat(Int(k), n))
  }

  /** `df.index` of a freshly built table: the row numbers. */
  function Positions(n: nat): (c: Column)
    ensures c.dtype == Int64 && |c.vals| == n && forall i :: 0 <= i < n ==> c.vals[i] == Int(i)
  {
    Column(Int64, Counting(n))
  }

  /** The values of the identifying columns of a file's `n` events: its
      name, its number within its dataset and the event numbers. */
  function IdValues(n: nat, name: string, iFile: nat): (cols: seq<Column>)
    ensures |cols| == |IdNames| && forall i :: 0 <= i < |cols| ==> |cols[i].vals| == n
  {
    [FileProc.ConstStrCol(n, name), ConstIntCol(n, iFile), Positions(n)]
  }

  /** The values of the five labels, in the order of `LabelNames`. */
  function LabelValues(n: nat, ds: string, ids: nat, name: string, iFile: nat): (cols: seq<Column>)
    ensures |cols| == |LabelNames| && cols[2..] == IdValues(n, name, iFile)
    ensures forall i :: 0 <= i < |cols| ==> |cols[i].vals| == n
  {
    [FileProc.ConstStrCol(n, ds), ConstIntCol(n, ids)] + IdValues(n, name, iFile)
  }

  /** The labels and the identifying columns are new columns, and no two of
      them share a name. */
  lemma LabelNamesDiffer()
    ensures Distinct(LabelNames) && Distinct(IdNames)
    ensures forall c :: c in RawDfCols() ==> c !in LabelNames && c !in IdNames
    ensures RawDfCols() + LabelNames == LabelledCols && IdNames + RawDfCols() == StoredCols
  {
  }

  /** The five assignments on the copy `getDf` hands out (`_df['dataset'] =
      ds` and so on): each label appended at the end, the raw columns kept. */
  function Labelled(df: Table, ds: string, ids: nat, name: string, iFile: nat): (r: Table)
    requires Valid(df) && df.cols == RawDfCols()
    ensures Valid(r) && r.nrows == df.nrows && r.cols == LabelledCols
    ensures forall i :: 0 <= i < |LabelNames| ==> r.data[LabelNames[i]] == LabelValues(df.nrows, ds, ids, name, iFile)[i]
    ensures forall c :: c in df.data ==> r.data[c] == df.data[c]
  {
    LabelNamesDiffer();
    AppendCols(df, LabelNames, LabelValues(df.nrows, ds, ids, name, iFile))
  }

  /** The dataset number a labelled table carries on every row. */
  lemma LabelledDatasetId(df: Table, ds: string, ids: nat, name: string, iFile: nat)
    requires Valid(df) && df.cols == RawDfCols()
    ensures Labelled(df, ds, ids, name, iFile).data[DatasetIdCol] == ConstIntCol(df.nrows, ids)
  {
    assert LabelNames[1] == DatasetIdCol;
  }

  /** `_df[['filename', 'fileId', 'wfId'] + cols]` on the labelled table:
      the identifying columns in front of the raw ones. Selecting them from
      the labelled table gives the same columns as putting them in front of
      the raw table, which is how it is written here. */
  function Stored(raw: Table, name: string, iFile: nat): (r: Table)
    requires Valid(raw) && raw.cols == RawDfCols()
    ensures Valid(r) && r.nrows == raw.nrows && r.cols == StoredCols
    ensures forall i :: 0 <= i < |IdNames| ==> r.data[IdNames[i]] == IdValues(raw.nrows, name, iFile)[i]
    ensures forall c :: c in raw.data ==> r.data[c] == raw.data[c]
  {
    LabelNamesDiffer();
    PrependCols(raw, IdNames, IdValues(raw.nrows, name, iFile))
  }

  /** The selection keeps, from the labelled copy, exactly the identifying
      and the raw columns: the stored table agrees with the labelled one on
      each of them, and `dataset` and `datasetId` are dropped. */
  lemma StoredSelectsLabelled(raw: Table, ds: string, ids: nat, name: string, iFile: nat)
    requires Valid(raw) && raw.cols == RawDfCols()
    ensures forall c :: c in Stored(raw, name, iFile).data ==>
      c in Labelled(raw, ds, ids, name, iFile).data && Stored(raw, name, iFile).data[c] == Labelled(raw, ds, ids, name, iFile).data[c]
    ensures DatasetCol !in Stored(raw, name, iFile).data && DatasetIdCol !in Stored(raw, name, iFile).data
  {
    var t := Stored(raw, name, iFile);
    var l := Labelled(raw, ds, ids, name, iFile);
    IdColsAgree(raw, ds, ids, name, iFile);
    SelectedNames();
    forall c | c in t.data ensures c in l.data && t.data[c] == l.data[c] {
      assert c in t.cols;
      if c !in raw.data {
        var i :| 0 <= i < |IdNames| && IdNames[i] == c;
      }
    }
  }

  /** The stored columns are the identifying and the raw ones; the labels
      the selection drops are not among them. */
  lemma SelectedNames()
    ensures forall c :: c in StoredCols ==> c in IdNames || c in RawDfCols()
    ensures forall i :: 0 <= i < |IdNames| ==> LabelNames[i + 2] == IdNames[i]
    ensures DatasetCol !in StoredCols && DatasetIdCol !in StoredCols
  {
    assert StoredCols == IdNames + RawDfCols();
  }

  /** The identifying columns of the stored table are the labelled copy's. */
  lemma IdColsAgree(raw: Table, ds: string, ids: nat, name: string, iFile: nat)
    requires Valid(raw) && raw.cols == RawDfCols()
    ensures forall i :: 0 <= i < |IdNames| ==>
      Stored(raw, name, iFile).data[IdNames[i]] == Labelled(raw, ds, ids, name, iFile).data[LabelNames[i + 2]]
  {
    var lv := LabelValues(raw.nrows, ds, ids, name, iFile);
    assert lv[2..] == IdValues(raw.nrows, name, iFile);
    forall i | 0 <= i < |IdNames|
      ensures Stored(raw, name, iFile).data[IdNames[i]] == Labelled(raw, ds, ids, name, iFile).data[LabelNames[i + 2]]
    {
      assert lv[i + 2] == lv[2..][i];
    }
  }

  /** Every row of a stored table names its file, its file's number within
      the dataset and its own number within the file. */
  lemma StoredIds(raw: Table, name: string, iFile: nat)
    requires Valid(raw) && raw.cols == RawDfCols()
    ensures var t := Stored(raw, name, iFile);
      && t.data[FileProc.FilenameCol] == FileProc.ConstStrCol(raw.nrows, name)
      && t.data[FileIdCol] == ConstIntCol(raw.nrows, iFile)
      && t.data[WfIdCol] == Positions(raw.nrows)
  {
    assert IdNames[0] == FileProc.FilenameCol && IdNames[1] == FileIdCol && IdNames[2] == WfIdCol;
  }

  /** A stored table's columns and their dtypes: the name a Python
      object, the two numbers int64, the raw columns as read. */
  ghost predicate StoredLayout(t: Table) {
    && Valid(t) && t.cols == StoredCols
    && t.data[FileProc.FilenameCol].dtype == ObjectT
    && t.data[FileIdCol].dtype == Int64 && t.data[WfIdCol].dtype == Int64
    && t.data[RunTimeCol].dtype == Float32
    && t.data[EvCounterCol].dtype == UInt32 && t.data[TimeTrigTagCol].dtype == UInt32
  }

  /** A stored table has the stored layout whenever the raw table had the
      raw one. */
  lemma {:induction false} StoredIsLaidOut(raw: Table, name: string, iFile: nat)
    requires RawLayout(raw)
    ensures StoredLayout(Stored(raw, name, iFile))
  {
    var t := Stored(raw, name, iFile);
    StoredIds(raw, name, iFile);
    assert t.data[RunTimeCol] == raw.data[RunTimeCol];
    assert t.data[EvCounterCol] == raw.data[EvCounterCol];
    assert t.data[TimeTrigTagCol] == raw.data[TimeTrigTagCol];
  }

  /** What one file contributes to the storage: its handler and its stored
      table (the two lists of the storage, taken pairwise). */
  datatype Loaded = Loaded(handler: Handler, df: Table)

  /** What loading `fpath` as file `iFile` of dataset `ds` (number `ids`)
      gives: the handler, holding the file's raw table unchanged and its
      waveforms only when `keepwfs`, and the stored table of the file. */
  ghost predicate FileEntry(disk: Disk, m: ChsMap, keepwfs: bool, fpath: string, ds: string, ids: nat, iFile: nat, e: Loaded) {
    && FreshDf(disk, fpath, 0).Ok?
    && var raw := FreshDf(disk, fpath, 0).value;
    && var name := Walk.Basename(fpath);
    && e.df == Stored(raw, name, iFile)
    && Inv(e.handler) && e.handler.fpath == fpath && e.handler.dataLoaded && e.handler.wfsOnMemory == keepwfs
    && NameSet(e.handler.names) == NameSet(m.chs)
    && e.handler.df == Some(raw)
  }

  /** One iteration of the file loop: a handler is built and called with
      the waveforms kept, a copy of its table labelled, the stored table
      selected from the copy, and the waveforms released unless `keepwfs`. */
  function LoadFile(disk: Disk, m: ChsMap, keepwfs: bool, fpath: string, ds: string, ids: nat, iFile: nat): (r: Result<Loaded>)
    ensures |m.chs| == 0 ==> r == Err(ValueError)
    ensures |m.chs| > 0 && fpath !in disk ==> r == Err(FileNotFound)
    ensures r.Ok? ==> FileEntry(disk, m, keepwfs, fpath, ds, ids, iFile, r.value)
  {
    var h :- NewHandler(fpath, m.chs, 0);
    var h1 :- Call(h, disk, true);
    var df := GetDf(h1).value;  // a loaded handler always has its table
    var name := Walk.Basename(fpath);
    var h2 := if keepwfs then h1 else Release(h1);
    Ok(Loaded(h2, Stored(df, name, iFile)))
  }

  /** The handler and table of a loaded file keep the storage's invariant. */
  lemma LoadFileGood(disk: Disk, m: ChsMap, keepwfs: bool, fpath: string, ds: string, ids: nat, iFile: nat, e: Loaded)
    ensures LoadFile(disk, m, keepwfs, fpath, ds, ids, iFile) == Ok(e) ==> Good(e)
  {
    if LoadFile(disk, m, keepwfs, fpath, ds, ids, iFile) == Ok(e) {
      assert FileEntry(disk, m, keepwfs, fpath, ds, ids, iFile, e);
      StoredIsLaidOut(FreshDf(disk, fpath, 0).value, Walk.Basename(fpath), iFile);
    }
  }

  /** The handler reads `fpath`, and the stored table carries `iFile` as
      `fileId` on every row. */
  ghost predicate Numbered(e: Loaded, fpath: string, iFile: nat) {
    && e.handler.fpath == fpath
    && FileIdCol in e.df.data && e.df.data[FileIdCol] == ConstIntCol(e.df.nrows, iFile)
  }

  /** A loaded file is numbered by its position within its dataset. */
  lemma LoadFileIds(disk: Disk, m: ChsMap, keepwfs: bool, fpath: string, ds: string, ids: nat, iFile: nat, e: Loaded)
    ensures LoadFile(disk, m, keepwfs, fpath, ds, ids, iFile) == Ok(e) ==> Numbered(e, fpath, iFile)
  {
    if LoadFile(disk, m, keepwfs, fpath, ds, ids, iFile) == Ok(e) {
      assert FileEntry(disk, m, keepwfs, fpath, ds, ids, iFile, e);
      StoredIds(FreshDf(disk, fpath, 0).value, Walk.Basename(fpath), iFile);
    }
  }

  // ---------------------------------------------------------------------
  // The two loops

  /** Item `i` is the first one on which `f` fails. */
  ghost predicate FirstFailure<T, E>(f: (T, nat) -> Result<E>, xs: seq<T>, i: nat) {
    && i < |xs| && f(xs[i], i).Err?
    && forall k :: 0 <= k < i ==> f(xs[k], k).Ok?
  }

  /** A loop applying `f` to every item and its position, in order, and
      collecting the results; the first failure stops it. */
  function Collect<T, E>(f: (T, nat) -> Result<E>, xs: seq<T>): (r: Result<seq<E>>)
    ensures r.Ok? <==> forall i :: 0 <= i < |xs| ==> f(xs[i], i).Ok?
    ensures r.Ok? ==> |r.value| == |xs| && forall i :: 0 <= i < |xs| ==> f(xs[i], i) == Ok(r.value[i])
    decreases |xs|
  {
    if |xs| == 0 then Ok([])
    else
      var n := |xs| - 1;
      var init := Collect(f, xs[..n]);
      assert forall i :: 0 <= i < n ==> xs[..n][i] == xs[i];
      if init.Err? then Err(init.error)
      else
        match f(xs[n], n)
        case Err(e) => Err(e)
        case Ok(v) => Ok(init.value + [v])
  }

  /** A failed `Collect` reports the error of its first failure. */
  lemma {:induction false} CollectFails<T, E>(f: (T, nat) -> Result<E>, xs: seq<T>)
    requires Collect(f, xs).Err?
    ensures exists i: nat :: FirstFailure(f, xs, i) && Collect(f, xs).error == f(xs[i], i).error
    decreases |xs|
  {
    var n := |xs| - 1;
    assert forall i :: 0 <= i < n ==> xs[..n][i] == xs[i];
    if Collect(f, xs[..n]).Err? {
      CollectFails(f, xs[..n]);
      var i: nat :| FirstFailure(f, xs[..n], i) && Collect(f, xs[..n]).error == f(xs[..n][i], i).error;
      assert FirstFailure(f, xs, i);
    } else {
      assert FirstFailure(f, xs, n);
    }
  }

  /** A loop applying `g` to every item and its position, in order, and
      concatenating the lists it gives; the first failure stops it. */
  function CollectConcat<T, E>(g: (T, nat) -> Result<seq<E>>, xs: seq<T>): (r: Result<seq<E>>)
    ensures r.Ok? <==> forall d :: 0 <= d < |xs| ==> g(xs[d], d).Ok?
    decreases |xs|
  {
    if |xs| == 0 then Ok([])
    else
      var n := |xs| - 1;
      var init := CollectConcat(g, xs[..n]);
      assert forall d :: 0 <= d < n ==> xs[..n][d] == xs[d];
      if init.Err? then Err(init.error)
      else
        match g(xs[n], n)
        case Err(e) => Err(e)
        case Ok(block) => Ok(init.value + block)
  }

  /** A failed `CollectConcat` reports the error of its first failure. */
  lemma {:induction false} CollectConcatFails<T, E>(g: (T, nat) -> Result<seq<E>>, xs: seq<T>)
    requires CollectConcat(g, xs).Err?
    ensures exists d: nat :: FirstFailure(g, xs, d) && CollectConcat(g, xs).error == g(xs[d], d).error
    decreases |xs|
  {
    var n := |xs| - 1;
    assert forall i :: 0 <= i < n ==> xs[..n][i] == xs[i];
    if CollectConcat(g, xs[..n]).Err? {
      CollectConcatFails(g, xs[..n]);
      var d: nat :| FirstFailure(g, xs[..n], d) && CollectConcat(g, xs[..n]).error == g(xs[..n][d], d).error;
      assert FirstFailure(g, xs, d);
    } else {
      assert FirstFailure(g, xs, n);
    }
  }

  /** The list item `d` gives sits in the whole list right after those of
      the items before it. */
  lemma {:induction false} CollectConcatAt<T, E>(g: (T, nat) -> Result<seq<E>>, xs: seq<T>, r: seq<E>, d: nat)
    requires CollectConcat(g, xs) == Ok(r) && d < |xs|
    ensures CollectConcat(g, xs[..d]).Ok? && g(xs[d], d).Ok?
    ensures var before := |CollectConcat(g, xs[..d]).value|;
      var block := g(xs[d], d).value;
      && before + |block| <= |r|
      && forall j :: 0 <= j < |block| ==> r[before + j] == block[j]
    decreases |xs|
  {
    var n := |xs| - 1;
    var init := CollectConcat(g, xs[..n]).value;
    assert r == init + g(xs[n], n).value;
    if d < n {
      CollectConcatAt(g, xs[..n], init, d);
      assert xs[..n][..d] == xs[..d] && xs[..n][d] == xs[d];
    } else {
      assert xs[..d] == xs[..n];
    }
  }

  /** Every element of the whole list comes from some item's list. */
  lemma {:induction false} CollectConcatFrom<T, E>(g: (T, nat) -> Result<seq<E>>, xs: seq<T>, r: seq<E>, p: nat)
    requires CollectConcat(g, xs) == Ok(r) && p < |r|
    ensures exists d, j :: 0 <= d < |xs| && g(xs[d], d).Ok? && 0 <= j < |g(xs[d], d).value| && r[p] == g(xs[d], d).value[j]
    decreases |xs|
  {
    var n := |xs| - 1;
    var init := CollectConcat(g, xs[..n]).value;
    var block := g(xs[n], n).value;
    assert r == init + block;
    if p < |init| {
      CollectConcatFrom(g, xs[..n], init, p);
      var d, j :| 0 <= d < n && g(xs[..n][d], d).Ok? && 0 <= j < |g(xs[..n][d], d).value| && init[p] == g(xs[..n][d], d).value[j];
      assert xs[..n][d] == xs[d];
    } else {
      assert r[p] == block[p - |init|];
    }
  }

  /** The body of the file loop: what loading a path as file `iFile` of
      dataset `ds` (number `ids`) gives. */
  type FileStep = (string, string, nat, nat) -> Result<Loaded>

  /** The file step of the storage. */
  function StorageStep(disk: Disk, m: ChsMap, keepwfs: bool): FileStep {
    (fpath: string, ds: string, ids: nat, iFile: nat) => LoadFile(disk, m, keepwfs, fpath, ds, ids, iFile)
  }

  /** Every pair the step gives is good and numbered by the file's
      position within its dataset. */
  ghost predicate SoundStep(step: FileStep) {
    forall fpath: string, ds: string, ids: nat, iFile: nat :: step(fpath, ds, ids, iFile).Ok? ==>
      Good(step(fpath, ds, ids, iFile).value) && Numbered(step(fpath, ds, ids, iFile).value, fpath, iFile)
  }

  /** The pair the step gives for one file, if any, is numbered by the
      file's position within its dataset. */
  ghost predicate NumberedAt(step: FileStep, fpath: string, ds: string, ids: nat, iFile: nat) {
    step(fpath, ds, ids, iFile).Ok? ==> Numbered(step(fpath, ds, ids, iFile).value, fpath, iFile)
  }

  /** Every pair the step gives is numbered (the half of `SoundStep` that
      is about numbering). */
  ghost predicate NumberingStep(step: FileStep) {
    forall fpath: string, ds: string, ids: nat, iFile: nat :: NumberedAt(step, fpath, ds, ids, iFile)
  }

  lemma SoundStepNumbers(step: FileStep)
    requires SoundStep(step)
    ensures NumberingStep(step)
  {
    forall fpath: string, ds: string, ids: nat, iFile: nat ensures NumberedAt(step, fpath, ds, ids, iFile) {
    }
  }

  /** The storage's file step is sound. */
  lemma StorageStepSound(disk: Disk, m: ChsMap, keepwfs: bool)
    ensures SoundStep(StorageStep(disk, m, keepwfs))
  {
    var step := StorageStep(disk, m, keepwfs);
    forall fpath: string, ds: string, ids: nat, iFile: nat | step(fpath, ds, ids, iFile).Ok?
      ensures Good(step(fpath, ds, ids, iFile).value) && Numbered(step(fpath, ds, ids, iFile).value, fpath, iFile)
    {
      var e := LoadFile(disk, m, keepwfs, fpath, ds, ids, iFile).value;
      LoadFileGood(disk, m, keepwfs, fpath, ds, ids, iFile, e);
      LoadFileIds(disk, m, keepwfs, fpath, ds, ids, iFile, e);
    }
  }

  /** The step of dataset `ds` (number `ids`), as a function of the path and
      of the file's number. */
  function FileLoop(step: FileStep, ds: string, ids: nat): (string, nat) -> Result<Loaded> {
    (fpath: string, iFile: nat) => step(fpath, ds, ids, iFile)
  }

  /** The file loop of one dataset: one pair per path, in order, the files
      numbered from 0; the first failure stops it. */
  function LoadDataset(step: FileStep, paths: seq<string>, ds: string, ids: nat): (r: Result<seq<Loaded>>)
    ensures r.Ok? ==> |r.value| == |paths|
  {
    Collect(FileLoop(step, ds, ids), paths)
  }

  /** The file loop succeeds exactly when every file loads, and then holds
      what loading file `i` gives at position `i`. */
  lemma LoadDatasetFiles(step: FileStep, paths: seq<string>, ds: string, ids: nat)
    ensures var r := LoadDataset(step, paths, ds, ids);
      && (r.Ok? <==> forall i :: 0 <= i < |paths| ==> step(paths[i], ds, ids, i).Ok?)
      && (r.Ok? ==> forall i :: 0 <= i < |paths| ==> step(paths[i], ds, ids, i) == Ok(r.value[i]))
  {
    var f := FileLoop(step, ds, ids);
    assert forall i :: 0 <= i < |paths| ==> f(paths[i], i) == step(paths[i], ds, ids, i);
  }

  /** `LoadDatasetFiles` at the one file `i`. */
  lemma LoadDatasetFile(step: FileStep, paths: seq<string>, ds: string, ids: nat, i: nat)
    requires LoadDataset(step, paths, ds, ids).Ok? && i < |paths|
    ensures step(paths[i], ds, ids, i) == Ok(LoadDataset(step, paths, ds, ids).value[i])
  {
    LoadDatasetFiles(step, paths, ds, ids);
  }

  /** With a sound step, every pair of a dataset is good, and file `i` is
      numbered `i`. */
  lemma LoadDatasetFacts(step: FileStep, paths: seq<string>, ds: string, ids: nat, r: seq<Loaded>)
    requires SoundStep(step) && LoadDataset(step, paths, ds, ids) == Ok(r)
    ensures forall i :: 0 <= i < |paths| ==> Good(r[i]) && Numbered(r[i], paths[i], i)
  {
    LoadDatasetFiles(step, paths, ds, ids);
    forall i | 0 <= i < |paths| ensures Good(r[i]) && Numbered(r[i], paths[i], i) {
      assert step(paths[i], ds, ids, i).Ok?;
    }
  }

  /** The file loop of dataset `ds` (number `ids`), as a function of the
      name and of the number. */
  function DatasetLoop(step: FileStep, ls: Listing, datadir: string): (string, nat) -> Result<seq<Loaded>> {
    (ds: string, ids: nat) => LoadDataset(step, DatasetPaths(ls, datadir, ds), ds, ids)
  }

  /** The dataset loop: the pairs of every dataset, one dataset after the
      other, the datasets numbered from 0; the first failure stops it. */
  function LoadAll(step: FileStep, ls: Listing, datadir: string, dss: seq<string>): Result<seq<Loaded>> {
    CollectConcat(DatasetLoop(step, ls, datadir), dss)
  }

  /** The dataset loop succeeds exactly when every dataset's file loop does. */
  lemma LoadAllOk(step: FileStep, ls: Listing, datadir: string, dss: seq<string>)
    ensures LoadAll(step, ls, datadir, dss).Ok?
        <==> forall d :: 0 <= d < |dss| ==> LoadDataset(step, DatasetPaths(ls, datadir, dss[d]), dss[d], d).Ok?
  {
    var g := DatasetLoop(step, ls, datadir);
    assert forall d :: 0 <= d < |dss| ==> g(dss[d], d) == LoadDataset(step, DatasetPaths(ls, datadir, dss[d]), dss[d], d);
  }

  /** How many raw files the datasets `dss` hold together. */
  function FilesIn(ls: Listing, datadir: string, dss: seq<string>): nat
    decreases |dss|
  {
    if |dss| == 0 then 0
    else FilesIn(ls, datadir, dss[..|dss| - 1]) + |DatasetPaths(ls, datadir, dss[|dss| - 1])|
  }

  /** The dataset loop builds one pair per raw file. */
  lemma {:induction false} LoadAllSize(step: FileStep, ls: Listing, datadir: string, dss: seq<string>)
    requires LoadAll(step, ls, datadir, dss).Ok?
    ensures |LoadAll(step, ls, datadir, dss).value| == FilesIn(ls, datadir, dss)
    decreases |dss|
  {
    if |dss| > 0 {
      var n := |dss| - 1;
      var g := DatasetLoop(step, ls, datadir);
      assert CollectConcat(g, dss).value == CollectConcat(g, dss[..n]).value + g(dss[n], n).value;
      LoadAllSize(step, ls, datadir, dss[..n]);
    }
  }

  /** `CollectConcatAt` at one position `j` of item `d`'s list, with the
      earlier items' length and the item's own result named. */
  lemma CollectConcatAtOne<T, E>(g: (T, nat) -> Result<seq<E>>, xs: seq<T>, r: seq<E>, d: nat, before: nat,
                                 block: Result<seq<E>>, j: nat)
    requires CollectConcat(g, xs) == Ok(r) && d < |xs|
    requires CollectConcat(g, xs[..d]).Ok? && |CollectConcat(g, xs[..d]).value| == before
    requires g(xs[d], d) == block && block.Ok? && j < |block.value|
    ensures before + j < |r| && r[before + j] == block.value[j]
  {
    CollectConcatAt(g, xs, r, d);
  }

  /** File `j` of dataset `d` is the pair at position `FilesIn(dss[..d]) + j`
      of the whole list. */
  lemma LoadAllAt(step: FileStep, ls: Listing, datadir: string, dss: seq<string>, r: seq<Loaded>, d: nat, j: nat)
    requires LoadAll(step, ls, datadir, dss) == Ok(r)
    requires d < |dss| && j < |DatasetPaths(ls, datadir, dss[d])|
    ensures FilesIn(ls, datadir, dss[..d]) + j < |r|
    ensures step(DatasetPaths(ls, datadir, dss[d])[j], dss[d], d, j) == Ok(r[FilesIn(ls, datadir, dss[..d]) + j])
  {
    var g := DatasetLoop(step, ls, datadir);
    var paths := DatasetPaths(ls, datadir, dss[d]);
    var block := LoadDataset(step, paths, dss[d], d);
    var before := FilesIn(ls, datadir, dss[..d]);
    assert CollectConcat(g, dss[..d]).Ok? && g(dss[d], d).Ok? by {
      CollectConcatAt(g, dss, r, d);
    }
    assert |CollectConcat(g, dss[..d]).value| == before by {
      LoadAllSize(step, ls, datadir, dss[..d]);
    }
    assert g(dss[d], d) == block;
    assert before + j < |r| && r[before + j] == block.value[j] by {
      CollectConcatAtOne(g, dss, r, d, before, block, j);
    }
    assert step(paths[j], dss[d], d, j) == Ok(block.value[j]) by {
      LoadDatasetFile(step, paths, dss[d], d, j);
    }
  }

  /** A failed dataset loop reports the error of one of the files. */
  lemma LoadAllFails(step: FileStep, ls: Listing, datadir: string, dss: seq<string>)
    ensures LoadAll(step, ls, datadir, dss).Err? ==>
      exists d, j ::
        && 0 <= d < |dss| && 0 <= j < |DatasetPaths(ls, datadir, dss[d])|
        && step(DatasetPaths(ls, datadir, dss[d])[j], dss[d], d, j) == Err(LoadAll(step, ls, datadir, dss).error)
  {
    if LoadAll(step, ls, datadir, dss).Err? {
      var g := DatasetLoop(step, ls, datadir);
      CollectConcatFails(g, dss);
      var d: nat :| FirstFailure(g, dss, d) && CollectConcat(g, dss).error == g(dss[d], d).error;
      var paths := DatasetPaths(ls, datadir, dss[d]);
      var f := FileLoop(step, dss[d], d);
      CollectFails(f, paths);
      var j: nat :| FirstFailure(f, paths, j) && Collect(f, paths).error == f(paths[j], j).error;
    }
  }

  /** A handler and table the storage may hold: the handler consistent and
      loaded, the table laid out as a stored table. */
  ghost predicate Good(e: Loaded) {
    Inv(e.handler) && e.handler.dataLoaded && StoredLayout(e.df)
  }

  /** The storage's invariant: every pair it holds is good. */
  ghost predicate StorageInv(s: Storage) {
    forall i :: 0 <= i < |s.files| ==> Good(s.files[i])
  }

  /** With a sound step, every pair the dataset loop builds is good. */
  lemma LoadAllGood(step: FileStep, ls: Listing, datadir: string, dss: seq<string>, r: seq<Loaded>)
    requires SoundStep(step) && LoadAll(step, ls, datadir, dss) == Ok(r)
    ensures forall p :: 0 <= p < |r| ==> Good(r[p])
  {
    var g := DatasetLoop(step, ls, datadir);
    forall p | 0 <= p < |r| ensures Good(r[p]) {
      CollectConcatFrom(g, dss, r, p);
      var d, j :| 0 <= d < |dss| && g(dss[d], d).Ok? && 0 <= j < |g(dss[d], d).value| && r[p] == g(dss[d], d).value[j];
      LoadDatasetFacts(step, DatasetPaths(ls, datadir, dss[d]), dss[d], d, g(dss[d], d).value);
    }
  }

  /** `GatorDatasetsStorage(chs_map, datadir, datasets, keepwfs)`. */
  function NewStorage(disk: Disk, ls: Listing, chs: ChsMapArg, datadir: string, datasets: DatasetsArg, keepwfs: bool)
    : (r: Result<Storage>)
    ensures chs.NotAChsMap? ==> r == Err(TypeError)
    ensures datasets.OtherDatasets? ==> r == Err(TypeError)
    ensures r.Ok? ==> StorageInv(r.value) && r.value.datasets == DatasetNames(datasets).value
    ensures r.Ok? ==> LoadAll(StorageStep(disk, chs.m, keepwfs), ls, datadir, r.value.datasets) == Ok(r.value.files)
  {
    if chs.NotAChsMap? then Err(TypeError)
    else
      var dss :- DatasetNames(datasets);
      var step := StorageStep(disk, chs.m, keepwfs);
      var all :- LoadAll(step, ls, datadir, dss);
      StorageStepSound(disk, chs.m, keepwfs);
      LoadAllGood(step, ls, datadir, dss, all);
      Ok(Storage(chs.m, datadir, dss, all))
  }

  // ---------------------------------------------------------------------
  // Queries

  /** The list of stored tables (`dfs_lst`). */
  function Dfs(s: Storage): (r: seq<Table>)
    ensures |r| == |s.files| && forall i :: 0 <= i < |r| ==> r[i] == s.files[i].df
  {
    seq(|s.files|, i requires 0 <= i < |s.files| => s.files[i].df)
  }

  /** Every stored table has the same layout. */
  lemma StoredTablesOneLayout(s: Storage)
    requires StorageInv(s)
    ensures OneLayout(Dfs(s))
  {
    var dfs := Dfs(s);
    forall i | 0 <= i < |dfs| ensures Valid(dfs[i]) && SameLayout(dfs[i], dfs[0]) {
      assert Good(s.files[i]) && Good(s.files[0]);
      StoredSameLayout(dfs[i], dfs[0]);
    }
  }

  /** Two stored tables share their layout. */
  lemma StoredSameLayout(a: Table, b: Table)
    requires StoredLayout(a) && StoredLayout(b)
    ensures SameLayout(a, b)
  {
    forall c | c in a.data ensures c in b.data && a.data[c].dtype == b.data[c].dtype {
      assert c in StoredCols;
      assert c == StoredCols[0] || c == StoredCols[1] || c == StoredCols[2]
          || c == StoredCols[3] || c == StoredCols[4] || c == StoredCols[5];
    }
  }

  /** `getMergedDf`: the tables one after the other, renumbered. */
  function MergedDf(s: Storage): (r: Result<Table>)
    requires StorageInv(s)
    ensures r.Err? <==> |s.files| == 0
    ensures r.Ok? ==> Valid(r.value) && r.value.cols == StoredCols && r.value.nrows == TotalRows(Dfs(s))
  {
    StoredTablesOneLayout(s);
    assert |s.files| > 0 ==> Good(s.files[0]);
    Concat(Dfs(s))
  }

  /** The merged table is the concatenation of the stored tables. */
  lemma MergedIsConcat(s: Storage)
    requires StorageInv(s)
    ensures OneLayout(Dfs(s)) && MergedDf(s) == Concat(Dfs(s))
  {
    StoredTablesOneLayout(s);
  }

  /** Event `k` of the `g`-th file is row `TotalRows(Dfs(s)[..g]) + k` of
      the merged table. */
  lemma MergedRow(s: Storage, g: nat, k: nat)
    requires StorageInv(s) && g < |s.files| && k < s.files[g].df.nrows
    ensures MergedDf(s).Ok? && TotalRows(Dfs(s)[..g]) + k < MergedDf(s).value.nrows
    ensures Row(MergedDf(s).value, TotalRows(Dfs(s)[..g]) + k) == Row(s.files[g].df, k)
  {
    MergedIsConcat(s);
    ConcatRowOf(s, g, k);
  }

  /** `ConcatRow` on the stored tables, out of the storage's invariant. */
  lemma ConcatRowOf(s: Storage, g: nat, k: nat)
    requires OneLayout(Dfs(s)) && g < |s.files| && k < s.files[g].df.nrows
    ensures TotalRows(Dfs(s)[..g]) + k < Concat(Dfs(s)).value.nrows
    ensures Row(Concat(Dfs(s)).value, TotalRows(Dfs(s)[..g]) + k) == Row(s.files[g].df, k)
  {
    ConcatRow(Dfs(s), g, k);
  }

  /** What `wf[wfId]` gives: a row of a 2-D array or a number of a 1-D one. */
  datatype Picked = PickedRow(row: seq<real>) | PickedSample(x: real)

  /** `wf[wfId]`, with Python's negative indices; IndexError out of range. */
  function Pick(a: NdArray, w: int): (r: Result<Picked>)
    ensures a.Mat? ==> (r.Ok? <==> PyIndex(|a.rows|, w).Some?)
    ensures a.Mat? && r.Ok? ==> r.value == PickedRow(a.rows[PyIndex(|a.rows|, w).value])
    ensures a.Vec? ==> (r.Ok? <==> PyIndex(|a.v|, w).Some?)
    ensures a.Vec? && r.Ok? ==> r.value == PickedSample(a.v[PyIndex(|a.v|, w).value])
    ensures r.Err? && !a.Higher? ==> r.error == IndexError
  {
    match a
    case Vec(v) =>
      var i := PyIndex(|v|, w);
      if i.None? then Err(IndexError) else Ok(PickedSample(v[i.value]))
    case Mat(_, rows) =>
      var i := PyIndex(|rows|, w);
      if i.None? then Err(IndexError) else Ok(PickedRow(rows[i.value]))
    case Higher => Err(NotImplemented)
  }
  /** The dictionary comprehension of `getSelWf`: event `w` of every channel;
      it fails as soon as one channel lacks the event. */
  function PickAll(wfs: map<string, NdArray>, w: int): (r: Result<map<string, Picked>>)
    ensures r.Ok? <==> forall c :: c in wfs ==> Pick(wfs[c], w).Ok?
    ensures r.Ok? ==> r.value.Keys == wfs.Keys && forall c :: c in wfs ==> r.value[c] == Pick(wfs[c], w).value
  {
    if forall c :: c in wfs ==> Pick(wfs[c], w).Ok? then Ok(map c | c in wfs :: Pick(wfs[c], w).value)
    else Err(IndexError)
  }

  /** `getSelWf(fileId, wfId)`: the `fileId`-th handler of the whole storage
      (Python indexing, IndexError out of range) hands out its waveforms,
      loading them for the occasion if they were released, and event
      `wfId` of each channel is picked. */
  function GetSelWf(s: Storage, disk: Disk, fileId: int, wfId: int): (r: Result<(Storage, map<string, Picked>)>)
    requires StorageInv(s)
    ensures PyIndex(|s.files|, fileId).None? ==> r == Err(IndexError)
    ensures r.Ok? ==> PyIndex(|s.files|, fileId).Some?
    ensures r.Ok? ==> var g := PyIndex(|s.files|, fileId).value;
      && GetWfs(s.files[g].handler, disk).Ok?
      && PickAll(GetWfs(s.files[g].handler, disk).value.1, wfId) == Ok(r.value.1)
      && r.value.0 == s.(files := s.files[g := s.files[g].(handler := GetWfs(s.files[g].handler, disk).value.0)])
    ensures r.Ok? ==> StorageInv(r.value.0)
  {
    var g := PyIndex(|s.files|, fileId);
    if g.None? then Err(IndexError)
    else
      var (h, wfs) :- GetWfs(s.files[g.value].handler, disk);
      var picked :- PickAll(wfs, wfId);
      Ok((s.(files := s.files[g.value := s.files[g.value].(handler := h)]), picked))
  }

  /** Pair `before + j` of the list `r`, file `j` of its dataset, says
      `fileId` `j` and comes from `fpath`, while `getSelWf(j, ...)` reads
      pair `j`, which is another one as soon as `before > 0`. */
  ghost predicate FileIdsDiverge(r: seq<Loaded>, before: nat, j: nat, fpath: string) {
    && before + j < |r|
    && FileIdCol in r[before + j].df.data && r[before + j].df.data[FileIdCol] == ConstIntCol(r[before + j].df.nrows, j)
    && r[before + j].handler.fpath == fpath
    && PyIndex(|r|, j) == Some(j)
    && (before > 0 ==> before + j != j)
  }

  lemma NumberedDiverges(r: seq<Loaded>, before: nat, j: nat, fpath: string)
    requires before + j < |r| && Numbered(r[before + j], fpath, j)
    ensures FileIdsDiverge(r, before, j, fpath)
  {
  }

  /** The `fileId` column counts files within a dataset, while `getSelWf`
      counts them over the whole storage: the rows of file `j` of dataset
      `d` say `fileId` `j`, but `getSelWf(j, ...)` reads the handler at
      position `j` of the storage, which is another file's as soon as an
      earlier dataset holds a file. */
  lemma FileIdIsLocal(step: FileStep, ls: Listing, datadir: string, dss: seq<string>, r: seq<Loaded>, d: nat, j: nat)
    requires NumberingStep(step)
    requires d < |dss| && j < |DatasetPaths(ls, datadir, dss[d])|
    ensures LoadAll(step, ls, datadir, dss) == Ok(r) ==>
      FileIdsDiverge(r, FilesIn(ls, datadir, dss[..d]), j, DatasetPaths(ls, datadir, dss[d])[j])
  {
    if LoadAll(step, ls, datadir, dss) == Ok(r) {
      LoadAllAt(step, ls, datadir, dss, r, d, j);
      assert NumberedAt(step, DatasetPaths(ls, datadir, dss[d])[j], dss[d], d, j);
      NumberedDiverges(r, FilesIn(ls, datadir, dss[..d]), j, DatasetPaths(ls, datadir, dss[d])[j]);
    }
  }
}

=== FILE: sync.dfy ===
/** The synchronisation daemon (`GatorDaqSync`): it walks the local DAQ
    tree, decides for every data file whether the remote copy is out of
    date, uploads through a `.part` file that is renamed into place, and
    keeps a per-directory `.sync_state` of what was uploaded. The remote
    host is a snapshot value with the failures the daemon handles marked
    on it; the SFTP session, the local `stat` and the clock come in as
    parameters. */
module Sync {
  import opened Common
  import Walk

  // ---------------------------------------------------------------------
  // The remote host

  /** A remote regular file: its integer modification time and size. */
  datatype RFile = RFile(mtime: int, size: nat)

  /** Files and directories of the remote host, with the paths where
      `mkdir`, `listdir` or `stat` raise IOError. */
  datatype Remote = Remote(files: map<string, RFile>, dirs: set<string>,
                           mkdirFails: set<string>, listFails: set<string>, statFails: set<string>)

  /** One component of a remote path: an empty component is skipped, and
      `.` names the directory it is in. */
  function StepInto(path: string, part: string): string {
    if part == "" || part == "." then path else path + "/" + part
  }

  /** The directory a sequence of components leads to from `path`. */
  function Target(path: string, parts: seq<string>): string
    decreases |parts|
  {
    if |parts| == 0 then path else Target(StepInto(path, parts[0]), parts[1..])
  }

  /** `_ensure_remote_dirs`, walking the components of the path relative to
      the remote base from the base down: an existing directory is entered;
      a missing one is an error when only checking and is created otherwise
      (a failing `mkdir` is an error). `path/.` is `path` itself. A
      component that exists but is not a directory reaches a logging call
      with a keyword the logger does not accept. When the logger lets ERROR
      records through (`errorLogged`) that call raises TypeError, which
      nothing catches; at a higher level it returns without effect, and the
      walk answers False. */
  function EnsureRemoteDirs(r: Remote, path: string, parts: seq<string>, checkOnly: bool, errorLogged: bool)
    : (res: Result<(bool, Remote)>)
    ensures res.Ok? ==> res.value.1.files == r.files && res.value.1.mkdirFails == r.mkdirFails
    ensures res.Ok? ==> res.value.1.listFails == r.listFails && res.value.1.statFails == r.statFails
    ensures res.Ok? ==> r.dirs <= res.value.1.dirs
    ensures res.Ok? && checkOnly ==> res.value.1 == r
    ensures res.Ok? && res.value.0 && path in r.dirs ==> Target(path, parts) in res.value.1.dirs
    ensures res.Err? ==> res.error == TypeError && errorLogged
    decreases |parts|
  {
    if |parts| == 0 then Ok((true, r))
    else if parts[0] == "" then EnsureRemoteDirs(r, path, parts[1..], checkOnly, errorLogged)
    else if parts[0] == "." then
      if path in r.dirs then EnsureRemoteDirs(r, path, parts[1..], checkOnly, errorLogged) else Ok((false, r))
    else
      var p := path + "/" + parts[0];
      if p in r.dirs then EnsureRemoteDirs(r, p, parts[1..], checkOnly, errorLogged)
      else if p in r.files then (if errorLogged then Err(TypeError) else Ok((false, r)))
      else if checkOnly || p in r.mkdirFails then Ok((false, r))
      else EnsureRemoteDirs(r.(dirs := r.dirs + {p}), p, parts[1..], checkOnly, errorLogged)
  }

  /** The walk raises only because one of the directories it passes
      through exists as a file. */
  lemma {:induction false} EnsureRemoteDirsRaisesOnFile(r: Remote, path: string, parts: seq<string>, checkOnly: bool,
                                                        errorLogged: bool)
    ensures EnsureRemoteDirs(r, path, parts, checkOnly, errorLogged).Err? ==>
      exists j :: 1 <= j <= |parts| && Target(path, parts[..j]) in r.files
    decreases |parts|
  {
    if |parts| > 0 && EnsureRemoteDirs(r, path, parts, checkOnly, errorLogged).Err? {
      var p := path + "/" + parts[0];
      if parts[0] == "" || parts[0] == "." {
        EnsureRemoteDirsRaisesOnFile(r, path, parts[1..], checkOnly, errorLogged);
        var j :| 1 <= j <= |parts[1..]| && Target(path, parts[1..][..j]) in r.files;
        assert parts[..j + 1][1..] == parts[1..][..j];
        assert Target(path, parts[..j + 1]) in r.files;
      } else if p in r.files && p !in r.dirs {
        assert parts[..1][1..] == [];
        assert Target(path, parts[..1]) in r.files;
      } else {
        var r' := if p in r.dirs then r else r.(dirs := r.dirs + {p});
        EnsureRemoteDirsRaisesOnFile(r', p, parts[1..], checkOnly, errorLogged);
        var j :| 1 <= j <= |parts[1..]| && Target(p, parts[1..][..j]) in r'.files;
        assert parts[..j + 1][1..] == parts[1..][..j];
        assert Target(path, parts[..j + 1]) in r.files;
      }
    }
  }

  /** A directory on the way that exists as a file makes the walk raise,
      whether it only checks or creates, when ERROR records are logged;
      otherwise the walk answers False and changes nothing. */
  lemma FileInTheWayRaises(r: Remote, path: string, name: string, rest: seq<string>, checkOnly: bool, errorLogged: bool)
    requires name != "" && name != "."
    requires path + "/" + name in r.files && path + "/" + name !in r.dirs
    ensures EnsureRemoteDirs(r, path, [name] + rest, checkOnly, errorLogged) ==
      if errorLogged then Err(TypeError) else Ok((false, r))
  {
    assert ([name] + rest)[0] == name;
  }

  /** Once ensured, the directories stay ensured: on any remote that still
      has them (whatever files came and went), a second call succeeds and
      changes nothing, whether it only checks or not. */
  lemma {:induction false} EnsureRemoteDirsIdempotent(r: Remote, path: string, parts: seq<string>, checkOnly: bool,
                                                       el: bool, r2: Remote, again: bool, el2: bool)
    requires path in r.dirs && EnsureRemoteDirs(r, path, parts, checkOnly, el).Ok?
    requires EnsureRemoteDirs(r, path, parts, checkOnly, el).value.0
    requires EnsureRemoteDirs(r, path, parts, checkOnly, el).value.1.dirs <= r2.dirs
    ensures EnsureRemoteDirs(r2, path, parts, again, el2) == Ok((true, r2))
    decreases |parts|
  {
    if |parts| > 0 {
      if parts[0] == "" || parts[0] == "." {
        EnsureRemoteDirsIdempotent(r, path, parts[1..], checkOnly, el, r2, again, el2);
      } else {
        var p := path + "/" + parts[0];
        var r1 := if p in r.dirs then r else r.(dirs := r.dirs + {p});
        assert p in r1.dirs;
        EnsureRemoteDirsIdempotent(r1, p, parts[1..], checkOnly, el, r2, again, el2);
      }
    }
  }

  // ---------------------------------------------------------------------
  // Relative paths

  /** `relpath.split("/")`. */
  function SplitSlash(s: string): (parts: seq<string>)
    ensures |parts| > 0
    decreases |s|
  {
    match Walk.LastIndex(s, '/')
    case None => [s]
    case Some(i) => SplitSlash(s[..i]) + [s[i + 1..]]
  }

  lemma LastIndexOfJoin(d: string, n: string)
    requires '/' !in n
    ensures Walk.LastIndex(Walk.Join(d, n), '/') == Some(|d|)
  {
    var j := Walk.Join(d, n);
    assert j[|d|] == '/';
    assert forall k :: |d| < k < |j| ==> j[k] == n[k - |d| - 1];
  }

  /** Splitting the relative path of a directory the walk reaches gives
      back the names it was reached by (the top directory `.` splits to
      the single component `.`). */
  lemma {:induction false} SplitRelPath(names: seq<string>)
    requires forall i :: 0 <= i < |names| ==> Walk.ValidName(names[i])
    ensures SplitSlash(Walk.RelPath(names)) == if |names| == 0 then ["."] else names
    decreases |names|
  {
    if |names| == 1 {
      assert Walk.LastIndex(names[0], '/') == None;
    } else if |names| > 1 {
      var init := names[..|names| - 1];
      var last := names[|names| - 1];
      LastIndexOfJoin(Walk.RelPath(init), last);
      SplitRelPath(init);
      var j := Walk.Join(Walk.RelPath(init), last);
      assert j[..|Walk.RelPath(init)|] == Walk.RelPath(init);
      assert j[|Walk.RelPath(init)| + 1..] == last;
      assert init + [last] == names;
    }
  }

  lemma {:induction false} TargetSnoc(path: string, parts: seq<string>, x: string)
    ensures Target(path, parts + [x]) == StepInto(Target(path, parts), x)
    decreases |parts|
  {
    if |parts| > 0 {
      assert (parts + [x])[1..] == parts[1..] + [x];
      TargetSnoc(StepInto(path, parts[0]), parts[1..], x);
    }
  }

  /** The components of a walked directory's relative path lead from the
      remote base to `os.path.join(remote_base_dir, relpath)`. */
  lemma {:induction false} TargetOfRelPath(base: string, names: seq<string>)
    requires forall i :: 0 <= i < |names| ==> Walk.ValidName(names[i])
    ensures Target(base, SplitSlash(Walk.RelPath(names))) == Walk.DirPath(base, Walk.RelPath(names))
    decreases |names|
  {
    SplitRelPath(names);
    if |names| > 1 {
      var init := names[..|names| - 1];
      var last := names[|names| - 1];
      var ri := Walk.RelPath(init);
      assert Walk.RelPath(names) == Walk.Join(ri, last) && ri != "." && Walk.ValidName(last) by {
        assert init + [last] == names;
        Walk.DepthOfRelPath(init);
      }
      assert Target(base, names) == StepInto(Walk.Join(base, ri), last) by {
        TargetOfRelPath(base, init);
        SplitRelPath(init);
        TargetSnoc(base, init, last);
      }
      JoinAssoc(base, ri, last);
      assert Walk.Join(ri, last) != ".";
    }
  }

  /** Joining one name after another is joining their join. */
  lemma JoinAssoc(a: string, b: string, c: string)
    ensures Walk.Join(Walk.Join(a, b), c) == Walk.Join(a, Walk.Join(b, c))
  {
    assert (a + "/" + b) + "/" + c == a + "/" + (b + "/" + c);
  }

  // ---------------------------------------------------------------------
  // `_file_needs_upload`

  /** `os.stat` of a local file: size and floating-point mtime. */
  datatype LocalStat = LocalStat(size: nat, mtime: real)

  /** One `.sync_state` entry: when the upload started, and the integer
      mtime and size of the file uploaded. */
  datatype SyncEntry = SyncEntry(unixtime: int, mtime: int, size: nat)

  type SyncState = map<string, SyncEntry>

  /** `listdir(dir)` raises IOError: the directory is missing, or listing
      it fails. */
  predicate ListFails(r: Remote, dir: string) {
    dir !in r.dirs || dir in r.listFails
  }

  /** `_file_needs_upload` for the file `fname` of the remote directory
      `remoteDir` (the `dirname` of the remote file path). */
  function NeedsUpload(fname: string, local: LocalStat, state: SyncState, r: Remote, remoteDir: string): (up: bool)
    ensures fname !in state ==> up
    ensures fname in state && (local.size != state[fname].size || Trunc(local.mtime) > state[fname].mtime) ==> up
    ensures fname in state && local.size == state[fname].size && Trunc(local.mtime) <= state[fname].mtime ==>
      (up <==> && !ListFails(r, remoteDir) && Walk.Join(remoteDir, fname) in r.files
               && Walk.Join(remoteDir, fname) !in r.statFails
               && r.files[Walk.Join(remoteDir, fname)].mtime < Trunc(local.mtime))
  {
    var remotePath := Walk.Join(remoteDir, fname);
    if fname !in state then true
    else if local.size != state[fname].size then true
    else if Trunc(local.mtime) > state[fname].mtime then true
    else if ListFails(r, remoteDir) || remotePath !in r.files then false
    else if remotePath in r.statFails then false
    else r.files[remotePath].mtime < Trunc(local.mtime)
  }

  /** A recorded file that has not changed locally is never uploaded when
      the remote copy cannot be seen (it was archived), whatever else holds:
      only a remote copy older than the local file is replaced. */
  lemma ArchivedFileNotUploaded(fname: string, local: LocalStat, state: SyncState, r: Remote, remoteDir: string)
    requires fname in state && local.size == state[fname].size && Trunc(local.mtime) <= state[fname].mtime
    requires ListFails(r, remoteDir) || Walk.Join(remoteDir, fname) !in r.files
             || Walk.Join(remoteDir, fname) in r.statFails
    ensures !NeedsUpload(fname, local, state, r, remoteDir)
  {
  }

  // ---------------------------------------------------------------------
  // The upload and the file loop of `_sync_directory`

  /** What the outside world answers while one file is uploaded: whether
      `put` (or the `chmod`/`utime` after it) raises, whether the `.part`
      file vanishes before the rename, whether removing the outdated remote
      copy fails, and the clock reading at the start. */
  datatype UploadWorld = UploadWorld(putFails: bool, tmpVanishes: bool, removeFails: bool, now: real)

  /** Lines 240-266: `put` to `<file>.part` with the local mtime, then,
      unless the `.part` file vanished, remove an outdated remote copy and
      rename the `.part` file into place. The flag says whether the file
      reached its place (no `sync_fail`). The listing on line 258 and the
      `put` are not guarded: their errors end the pass. */
  function Upload(r: Remote, remoteDir: string, fname: string, local: LocalStat, w: UploadWorld)
    : (res: Result<(Remote, bool)>)
    ensures res.Ok? && res.value.1 ==>
      && Walk.Join(remoteDir, fname) in res.value.0.files
      && res.value.0.files[Walk.Join(remoteDir, fname)] == RFile(Trunc(local.mtime), local.size)
    ensures res.Ok? ==>
      && res.value.0.dirs == r.dirs && res.value.0.listFails == r.listFails
      && res.value.0.mkdirFails == r.mkdirFails && res.value.0.statFails == r.statFails
    ensures res.Ok? ==>
      forall p :: p in r.files && p != Walk.Join(remoteDir, fname) && p != Walk.Join(remoteDir, fname) + ".part" ==>
        p in res.value.0.files && res.value.0.files[p] == r.files[p]
  {
    var dst := Walk.Join(remoteDir, fname);
    var tmp := dst + ".part";
    assert |tmp| > |dst|;
    if w.putFails then Err(IOError)
    else
      var r2 := r.(files := r.files[tmp := RFile(Trunc(local.mtime), local.size)]);
      if w.tmpVanishes then Ok((r2.(files := r2.files - {tmp}), false))
      else if ListFails(r2, remoteDir) then Err(IOError)
      else if dst in r2.files && w.removeFails then Ok((r2, false))
      else
        var r3 := r2.(files := r2.files - {dst});
        Ok((r3.(files := (r3.files - {tmp})[dst := r3.files[tmp]]), true))
  }

  /** What one directory's loop works with. */
  datatype SyncCtx = SyncCtx(remoteBase: string, parts: seq<string>, remoteDir: string, errorLogged: bool,
                             local: string -> LocalStat, world: string -> UploadWorld)

  /** The loop's state: the remote host, the state map, and what the
      `.sync_state` file holds if the loop has written it. */
  datatype SyncLoop = SyncLoop(remote: Remote, state: SyncState, saved: Option<SyncState>)

  /** The remote files a loop over `fnames` may write into `remoteDir`:
      each file's destination and its `.part` file. */
  function OwnFiles(remoteDir: string, fnames: seq<string>): (own: set<string>)
    decreases |fnames|
  {
    if |fnames| == 0 then {}
    else {Walk.Join(remoteDir, fnames[0]), Walk.Join(remoteDir, fnames[0]) + ".part"} + OwnFiles(remoteDir, fnames[1..])
  }

  /** From `r` to `r2` directories were only added, the failure marks
      stayed, and every remote file outside `own` is unchanged. */
  ghost predicate RemoteKept(r: Remote, r2: Remote, own: set<string>) {
    && r.dirs <= r2.dirs
    && r2.mkdirFails == r.mkdirFails && r2.listFails == r.listFails && r2.statFails == r.statFails
    && forall p :: p in r.files && p !in own ==> p in r2.files && r2.files[p] == r.files[p]
  }

  lemma RemoteKeptTrans(r1: Remote, r2: Remote, r3: Remote, own1: set<string>, own2: set<string>)
    requires RemoteKept(r1, r2, own1) && RemoteKept(r2, r3, own2)
    ensures RemoteKept(r1, r3, own1 + own2)
  {
  }

  /** One iteration of the file loop of `_sync_directory`. A file already
      in the state map only checks that the remote directory exists (it is
      missing once the remote side archived it); a new one creates it. A
      successful upload records `{unixtime, mtime, size}` and saves the
      state file. */
  function SyncStep(c: SyncCtx, fname: string, s: SyncLoop): (r: Result<SyncLoop>)
    ensures r.Ok? ==> RemoteKept(s.remote, r.value.remote, OwnFiles(c.remoteDir, [fname]))
  {
    var (dirOk, r1) :- EnsureRemoteDirs(s.remote, c.remoteBase, c.parts, fname in s.state, c.errorLogged);
    var local := c.local(fname);
    if !dirOk || !NeedsUpload(fname, local, s.state, r1, c.remoteDir) then Ok(s.(remote := r1))
    else
      var (r2, done) :- Upload(r1, c.remoteDir, fname, local, c.world(fname));
      if !done then Ok(s.(remote := r2))
      else
        var state' := s.state[fname := SyncEntry(Trunc(c.world(fname).now), Trunc(local.mtime), local.size)];
        Ok(SyncLoop(r2, state', Some(state')))
  }

  /** A directory on the way to the remote directory that exists as a
      file ends the pass with TypeError, whether the file is recorded or
      new, when ERROR records are logged; otherwise the file is skipped and
      nothing changes. */
  lemma FileInTheWayEndsSync(c: SyncCtx, fname: string, s: SyncLoop, name: string, rest: seq<string>)
    requires c.parts == [name] + rest && name != "" && name != "."
    requires c.remoteBase + "/" + name in s.remote.files && c.remoteBase + "/" + name !in s.remote.dirs
    ensures SyncStep(c, fname, s) == if c.errorLogged then Err(TypeError) else Ok(s)
  {
    FileInTheWayRaises(s.remote, c.remoteBase, name, rest, fname in s.state, c.errorLogged);
  }

  /** A file already recorded whose remote directory is gone is skipped:
      nothing is created, uploaded or recorded. */
  lemma RecordedFileWithoutRemoteDirSkipped(c: SyncCtx, fname: string, s: SyncLoop)
    requires fname in s.state
    requires EnsureRemoteDirs(s.remote, c.remoteBase, c.parts, true, c.errorLogged).Ok?
    requires !EnsureRemoteDirs(s.remote, c.remoteBase, c.parts, true, c.errorLogged).value.0
    ensures SyncStep(c, fname, s) == Ok(s)
  {
  }

  /** The state changes only through a successful upload, which records
      the file's entry and saves exactly the new state; no other entry
      changes. */
  lemma SyncStepState(c: SyncCtx, fname: string, s: SyncLoop)
    requires SyncStep(c, fname, s).Ok?
    ensures var s' := SyncStep(c, fname, s).value;
      && ((s'.state == s.state && s'.saved == s.saved)
          || (s'.saved == Some(s'.state) && s'.state == s.state[fname := s'.state[fname]]
              && s'.state[fname].size == c.local(fname).size
              && s'.state[fname].mtime == Trunc(c.local(fname).mtime)))
  {
  }

  /** After a successful upload the file is settled: with the local file
      unchanged, the next decision is not to upload it again. */
  lemma UploadedFileSettled(c: SyncCtx, fname: string, s: SyncLoop)
    requires SyncStep(c, fname, s).Ok?
    requires SyncStep(c, fname, s).value.saved != s.saved
    ensures var s' := SyncStep(c, fname, s).value;
      !NeedsUpload(fname, c.local(fname), s'.state, s'.remote, c.remoteDir)
  {
  }

  /** Synchronising a file twice in a row does nothing the second time
      when the first time uploaded it. */
  lemma SyncStepIdempotent(c: SyncCtx, fname: string, s: SyncLoop)
    requires c.remoteBase in s.remote.dirs
    requires SyncStep(c, fname, s).Ok?
    requires SyncStep(c, fname, s).value.saved != s.saved
    ensures SyncStep(c, fname, SyncStep(c, fname, s).value) == SyncStep(c, fname, s)
  {
    var s' := SyncStep(c, fname, s).value;
    EnsureRemoteDirsIdempotent(s.remote, c.remoteBase, c.parts, fname in s.state, c.errorLogged, s'.remote, true, c.errorLogged);
    UploadedFileSettled(c, fname, s);
  }

  /** The file loop of `_sync_directory`; an unguarded error ends it. */
  function SyncFiles(c: SyncCtx, fnames: seq<string>, s: SyncLoop): (r: Result<SyncLoop>)
    ensures r.Ok? ==> RemoteKept(s.remote, r.value.remote, OwnFiles(c.remoteDir, fnames))
    decreases |fnames|
  {
    if |fnames| == 0 then Ok(s)
    else
      var s1 :- SyncStep(c, fnames[0], s);
      var r := SyncFiles(c, fnames[1..], s1);
      if r.Ok? then
        assert OwnFiles(c.remoteDir, fnames) == OwnFiles(c.remoteDir, [fnames[0]]) + OwnFiles(c.remoteDir, fnames[1..]);
        RemoteKeptTrans(s.remote, s1.remote, r.value.remote, OwnFiles(c.remoteDir, [fnames[0]]),
                        OwnFiles(c.remoteDir, fnames[1..]));
        r
      else r
  }

  /** What the state file holds after the loop is always the loop's state:
      it is written after every successful upload and only then, so a
      directory with no successful upload leaves the state file alone and
      the state as loaded. Entries of other files never change. */
  lemma {:induction false} SyncFilesState(c: SyncCtx, fnames: seq<string>, s: SyncLoop)
    requires s.saved.Some? ==> s.saved.value == s.state
    requires SyncFiles(c, fnames, s).Ok?
    ensures var s' := SyncFiles(c, fnames, s).value;
      && (s'.saved.Some? ==> s'.saved.value == s'.state)
      && (s'.saved == s.saved ==> s'.state == s.state)
      && (s.saved.Some? ==> s'.saved.Some?)
      && s.state.Keys <= s'.state.Keys
      && (forall g :: g in s'.state ==> g in s.state || g in fnames)
      && (forall g :: g in s.state && g !in fnames ==> s'.state[g] == s.state[g])
    decreases |fnames|
  {
    if |fnames| > 0 {
      SyncStepState(c, fnames[0], s);
      var s1 := SyncStep(c, fnames[0], s).value;
      SyncFilesState(c, fnames[1..], s1);
    }
  }

  // ---------------------------------------------------------------------
  // `_sync_directory` and `_sync_tree`

  /** `SYNC_STATE_FNAME` */
  const SyncStateName: string := ".sync_state"

  /** The two base directories (written without a trailing separator, see
      `Walk.Join`), and whether the logger's level lets ERROR
      records through: it does at the default INFO level and at any
      `log_level` up to ERROR, and does not at CRITICAL. */
  datatype SyncConf = SyncConf(localBase: string, remoteBase: string, errorLogged: bool)

  /** What one directory's synchronisation reads besides the remote host:
      the parsed state file (None when it is missing or unreadable, which
      reads as `{}`), the local `stat` and the upload outcomes per file. */
  datatype SyncEnv = SyncEnv(parsedState: Option<SyncState>, local: string -> LocalStat, world: string -> UploadWorld)

  function LoadSyncState(parsed: Option<SyncState>): (s: SyncState)
    ensures parsed.None? ==> s == map[]
    ensures parsed.Some? ==> s == parsed.value
  {
    match parsed
    case None => map[]
    case Some(s) => s
  }

  /** `_sync_directory`: the remote host afterwards, and what its state
      file holds if it was written. */
  function SyncDirectory(cfg: SyncConf, rel: string, fList: seq<string>, r: Remote, e: SyncEnv)
    : (res: Result<(Remote, Option<SyncState>)>)
    ensures res.Ok? ==> RemoteKept(r, res.value.0, OwnFiles(Walk.DirPath(cfg.remoteBase, rel), fList))
  {
    var c := SyncCtx(cfg.remoteBase, SplitSlash(rel), Walk.DirPath(cfg.remoteBase, rel), cfg.errorLogged, e.local, e.world);
    var s :- SyncFiles(c, fList, SyncLoop(r, LoadSyncState(e.parsedState), None));
    Ok((s.remote, s.saved))
  }

  /** A directory's state file, when written, holds the state it was
      loaded with plus entries for the directory's files only, every old
      entry of another file intact. */
  lemma SyncDirectorySaves(cfg: SyncConf, rel: string, fList: seq<string>, r: Remote, e: SyncEnv)
    requires SyncDirectory(cfg, rel, fList, r, e).Ok?
    requires SyncDirectory(cfg, rel, fList, r, e).value.1.Some?
    ensures var prev := LoadSyncState(e.parsedState);
      var saved := SyncDirectory(cfg, rel, fList, r, e).value.1.value;
      && prev.Keys <= saved.Keys
      && (forall g :: g in saved ==> g in prev || g in fList)
      && (forall g :: g in prev && g !in fList ==> saved[g] == prev[g])
  {
    var c := SyncCtx(cfg.remoteBase, SplitSlash(rel), Walk.DirPath(cfg.remoteBase, rel), cfg.errorLogged, e.local, e.world);
    SyncFilesState(c, fList, SyncLoop(r, LoadSyncState(e.parsedState), None));
  }

  /** What a pass over the tree leaves: the remote host and the state
      files written, by path, in order. */
  datatype TreeOutcome = TreeOutcome(remote: Remote, saves: seq<(string, SyncState)>)

  /** The directory loop of `_sync_tree`, over any per-directory step. */
  function SyncDirs(dirs: seq<Walk.Visit>, r: Remote,
                    step: (Walk.Visit, Remote) -> Result<(Remote, Option<SyncState>)>, path: Walk.Visit -> string)
    : (res: Result<TreeOutcome>)
    decreases |dirs|
  {
    if |dirs| == 0 then Ok(TreeOutcome(r, []))
    else
      var d :- step(dirs[0], r);
      var rest :- SyncDirs(dirs[1..], d.0, step, path);
      var here := SaveOf(dirs[0], d, path);
      Ok(TreeOutcome(rest.remote, here + rest.saves))
  }

  /** What directory `v` saves, as the loop records it. */
  function SaveOf(v: Walk.Visit, d: (Remote, Option<SyncState>), path: Walk.Visit -> string): seq<(string, SyncState)> {
    if d.1.Some? then [(path(v), d.1.value)] else []
  }

  /** The pass over `dirs + [v]` is the pass over `dirs` followed by the
      step for `v` on the remote that pass left behind: every directory is
      synchronised against its predecessors' uploads, and the outcome's
      remote is the last directory's. */
  lemma {:induction false} SyncDirsSnoc(dirs: seq<Walk.Visit>, v: Walk.Visit, r: Remote,
                                        step: (Walk.Visit, Remote) -> Result<(Remote, Option<SyncState>)>, path: Walk.Visit -> string)
    ensures SyncDirs(dirs + [v], r, step, path) ==
      match SyncDirs(dirs, r, step, path)
      case Err(e) => Err(e)
      case Ok(o) =>
        match step(v, o.remote)
        case Err(e) => Err(e)
        case Ok(d) => Ok(TreeOutcome(d.0, o.saves + SaveOf(v, d, path)))
    decreases |dirs|
  {
    if |dirs| == 0 {
      assert dirs + [v] == [v] && [v][1..] == [];
      var dv := step(v, r);
      if dv.Ok? {
        var here := SaveOf(v, dv.value, path);
        assert here + [] == [] + here;
      }
    } else {
      assert (dirs + [v])[0] == dirs[0];
      assert (dirs + [v])[1..] == dirs[1..] + [v];
      var d0 := step(dirs[0], r);
      if d0.Ok? {
        var d := d0.value;
        SyncDirsSnoc(dirs[1..], v, d.0, step, path);
        var rest := SyncDirs(dirs[1..], d.0, step, path);
        if rest.Ok? && step(v, rest.value.remote).Ok? {
          var here := SaveOf(dirs[0], d, path);
          var dv := step(v, rest.value.remote).value;
          assert here + (rest.value.saves + SaveOf(v, dv, path)) == (here + rest.value.saves) + SaveOf(v, dv, path);
        }
      }
    }
  }

  /** `path` of every directory, in order. */
  function PathsOf(dirs: seq<Walk.Visit>, path: Walk.Visit -> string): (p: seq<string>)
    ensures |p| == |dirs|
  {
    seq(|dirs|, i requires 0 <= i < |dirs| => path(dirs[i]))
  }

  /** Only the visited directories' state files are written. */
  lemma {:induction false} SyncDirsSaves(dirs: seq<Walk.Visit>, r: Remote,
                                         step: (Walk.Visit, Remote) -> Result<(Remote, Option<SyncState>)>, path: Walk.Visit -> string)
    requires SyncDirs(dirs, r, step, path).Ok?
    ensures var saves := SyncDirs(dirs, r, step, path).value.saves;
      && |saves| <= |dirs|
      && forall k :: 0 <= k < |saves| ==> saves[k].0 in PathsOf(dirs, path)
    decreases |dirs|
  {
    if |dirs| > 0 {
      var d := step(dirs[0], r).value;
      SyncDirsSaves(dirs[1..], d.0, step, path);
      var rest := SyncDirs(dirs[1..], d.0, step, path).value.saves;
      var here := SaveOf(dirs[0], d, path);
      var saves := SyncDirs(dirs, r, step, path).value.saves;
      assert saves == here + rest;
      var paths := PathsOf(dirs, path);
      assert PathsOf(dirs[1..], path) == paths[1..];
      forall k | 0 <= k < |saves|
        ensures saves[k].0 in paths
      {
        if k < |here| {
          assert saves[k].0 == paths[0];
        } else {
          assert saves[k] == rest[k - |here|];
        }
      }
    }
  }

  /** When no directory's step touches remote files outside its own, the
      pass touches none outside the union, and never removes a directory. */
  lemma {:induction false} SyncDirsKept(dirs: seq<Walk.Visit>, r: Remote,
                                        step: (Walk.Visit, Remote) -> Result<(Remote, Option<SyncState>)>,
                                        path: Walk.Visit -> string, own: Walk.Visit -> set<string>)
    requires forall v, r0 :: step(v, r0).Ok? ==> RemoteKept(r0, step(v, r0).value.0, own(v))
    ensures SyncDirs(dirs, r, step, path).Ok? ==> RemoteKept(r, SyncDirs(dirs, r, step, path).value.remote, Walk.OwnOf(dirs, own))
    decreases |dirs|
  {
    if |dirs| > 0 && SyncDirs(dirs, r, step, path).Ok? {
      var d := step(dirs[0], r).value;
      SyncDirsKept(dirs[1..], d.0, step, path, own);
      RemoteKeptTrans(r, d.0, SyncDirs(dirs, r, step, path).value.remote, own(dirs[0]), Walk.OwnOf(dirs[1..], own));
    }
  }

  /** The remote files the synchronisation of a local directory may write:
      its files' destinations under the remote base and their `.part`
      files. */
  function OwnOfDir(cfg: SyncConf): (own: Walk.Visit -> set<string>)
    ensures forall v :: own(v) == OwnFiles(Walk.DirPath(cfg.remoteBase, v.rel), v.files)
  {
    (v: Walk.Visit) => OwnFiles(Walk.DirPath(cfg.remoteBase, v.rel), v.files)
  }

  /** The state file of a local directory. */
  function StatePathOf(cfg: SyncConf): (path: Walk.Visit -> string)
    ensures forall v :: path(v) == Walk.Join(Walk.DirPath(cfg.localBase, v.rel), SyncStateName)
  {
    (v: Walk.Visit) => Walk.Join(Walk.DirPath(cfg.localBase, v.rel), SyncStateName)
  }

  /** `_sync_directory` on a selected local directory, with that
      directory's environment; it touches only its own remote files. */
  function DirStep(cfg: SyncConf, envOf: string -> SyncEnv): (step: (Walk.Visit, Remote) -> Result<(Remote, Option<SyncState>)>)
    ensures forall v, r0 :: step(v, r0) == SyncDirectory(cfg, v.rel, v.files, r0, envOf(v.rel))
    ensures forall v, r0 :: step(v, r0).Ok? ==> RemoteKept(r0, step(v, r0).value.0, OwnOfDir(cfg)(v))
  {
    (v: Walk.Visit, r0: Remote) => SyncDirectory(cfg, v.rel, v.files, r0, envOf(v.rel))
  }

  /** `_sync_tree`: the walk of the local tree, pruned below depth two,
      with the files whose extension is `.root`, `.json` or `.txt`, each
      directory handled by `_sync_directory`. */
  function SyncTree(cfg: SyncConf, root: Walk.Dir, r: Remote, envOf: string -> SyncEnv): (res: Result<TreeOutcome>)
    requires Walk.WellFormed(root)
    ensures res.Ok? ==> RemoteKept(r, res.value.remote, Walk.OwnOf(Walk.DirsToProcess(root, Walk.SyncExts), OwnOfDir(cfg)))
  {
    var dirs := Walk.DirsToProcess(root, Walk.SyncExts);
    var step := DirStep(cfg, envOf);
    SyncDirsKept(dirs, r, step, StatePathOf(cfg), OwnOfDir(cfg));
    SyncDirs(dirs, r, step, StatePathOf(cfg))
  }

  /** A pass writes at most one state file per selected directory, and
      only the selected directories' own. */
  lemma SyncTreeSaves(cfg: SyncConf, root: Walk.Dir, r: Remote, envOf: string -> SyncEnv)
    requires Walk.WellFormed(root)
    ensures SyncTree(cfg, root, r, envOf).Ok? ==>
      var dirs := Walk.DirsToProcess(root, Walk.SyncExts);
      var saves := SyncTree(cfg, root, r, envOf).value.saves;
      && |saves| <= |dirs|
      && forall k :: 0 <= k < |saves| ==> saves[k].0 in PathsOf(dirs, StatePathOf(cfg))
  {
    if SyncTree(cfg, root, r, envOf).Ok? {
      SyncDirsSaves(Walk.DirsToProcess(root, Walk.SyncExts), r, DirStep(cfg, envOf), StatePathOf(cfg));
    }
  }
}

=== FILE: table.dfy ===
/** The feature table (a pandas DataFrame) as an ordered list of column
    names over a map of typed columns, and its durable form: the
    (columns, per-column type name, row-major value matrix) triple that the
    processed file stores and `LoadDfFromProcessedFile` reads back. */
module Tables {
  import opened Common

  datatype Value = Real(r: real) | Int(i: int) | Bool(b: bool) | Str(s: string) | NonFinite

  datatype DType = Float64 | Float32 | Int64 | UInt32 | BoolT | ObjectT

  /** The numpy dtype name `str(df[col].dtype)` prints. */
  function DTypeName(d: DType): (name: string)
    ensures ParseDType(name) == Some(d)
  {
    match d
    case Float64 => "float64"
    case Float32 => "float32"
    case Int64 => "int64"
    case UInt32 => "uint32"
    case BoolT => "bool"
    case ObjectT => "object"
  }

  /** The dtype `astype(name)` converts to; None for a name numpy rejects. */
  function ParseDType(name: string): Option<DType> {
    if name == "float64" then Some(Float64)
    else if name == "float32" then Some(Float32)
    else if name == "int64" then Some(Int64)
    else if name == "uint32" then Some(UInt32)
    else if name == "bool" then Some(BoolT)
    else if name == "object" then Some(ObjectT)
    else None
  }

  /** A value a column of dtype `d` can hold as it is. */
  predicate Conforms(v: Value, d: DType) {
    match d
    case Float64 => v.Real? || v.NonFinite?
    case Float32 => v.Real? || v.NonFinite?
    case Int64 => v.Int?
    case UInt32 => v.Int? && 0 <= v.i < 0x1_0000_0000
    case BoolT => v.Bool?
    case ObjectT => true
  }

  /** `astype(d)` on one value of an object column; None where pandas raises
      (a string or NaN that has no integer or float reading). */
  function Cast(v: Value, d: DType): (r: Option<Value>)
    ensures r.Some? ==> Conforms(r.value, d)
    ensures Conforms(v, d) ==> r == Some(v)
  {
    match d
    case ObjectT => Some(v)
    case Float64 => CastFloat(v)
    case Float32 => CastFloat(v)
    case Int64 =>
      (match v
       case Int(i) => Some(v)
       case Real(x) => Some(Int(Trunc(x)))
       case Bool(b) => Some(Int(if b then 1 else 0))
       case _ => None)
    case UInt32 =>
      (match v
       case Int(i) => Some(Int(U32(i)))
       case Real(x) => Some(Int(U32(Trunc(x))))
       case Bool(b) => Some(Int(if b then 1 else 0))
       case _ => None)
    case BoolT =>
      (match v
       case Bool(_) => Some(v)
       case Int(i) => Some(Bool(i != 0))
       case Real(x) => Some(Bool(x != 0.0))
       case NonFinite => Some(Bool(true))
       case Str(s) => Some(Bool(|s| > 0)))
  }

  function CastFloat(v: Value): Option<Value> {
    match v
    case Real(_) => Some(v)
    case NonFinite => Some(v)
    case Int(i) => Some(Real(i as real))
    case Bool(b) => Some(Real(if b then 1.0 else 0.0))
    case Str(_) => None
  }

  datatype Column = Column(dtype: DType, vals: seq<Value>)

  ghost predicate ColumnTyped(c: Column) {
    forall i :: 0 <= i < |c.vals| ==> Conforms(c.vals[i], c.dtype)
  }

  datatype Table = Table(nrows: nat, cols: seq<string>, data: map<string, Column>)

  /** Column names are distinct, name exactly the columns held, and every
      column has one value per row. */
  ghost predicate Valid(t: Table) {
    && Distinct(t.cols)
    && (forall c :: c in t.data <==> c in t.cols)
    && (forall c :: c in t.data ==> |t.data[c].vals| == t.nrows)
  }

  /** Every column holds values of its own dtype. */
  ghost predicate Typed(t: Table) {
    forall c :: c in t.data ==> ColumnTyped(t.data[c])
  }

  /** A table with no columns and `n` rows. */
  function EmptyTable(n: nat): (t: Table)
    ensures Valid(t) && Typed(t) && t.nrows == n && t.cols == []
  {
    Table(n, [], map[])
  }

  /** A float64 column of the given numbers. */
  function RealCol(xs: seq<real>): (c: Column)
    ensures c.dtype == Float64 && |c.vals| == |xs|
    ensures forall i :: 0 <= i < |xs| ==> c.vals[i] == Real(xs[i])
  {
    Column(Float64, seq(|xs|, i requires 0 <= i < |xs| => Real(xs[i])))
  }

  /** A float32 column of the given numbers (the rounding to single
      precision is not modelled). */
  function Float32Col(xs: seq<real>): (c: Column)
    ensures c.dtype == Float32 && |c.vals| == |xs|
    ensures forall i :: 0 <= i < |xs| ==> c.vals[i] == Real(xs[i])
  {
    Column(Float32, seq(|xs|, i requires 0 <= i < |xs| => Real(xs[i])))
  }

  /** `n` copies of one value. */
  function Repeat(v: Value, n: nat): (s: seq<Value>)
    ensures |s| == n && forall i :: 0 <= i < n ==> s[i] == v
  {
    if n == 0 then [] else Repeat(v, n - 1) + [v]
  }

  /** The numbers `0, 1, ..., n - 1`. */
  function Counting(n: nat): (s: seq<Value>)
    ensures |s| == n && forall i :: 0 <= i < n ==> s[i] == Int(i)
  {
    if n == 0 then [] else Counting(n - 1) + [Int(n - 1)]
  }

  /** An int64 column of the given counts or positions. */
  function IntCol(xs: seq<nat>): (c: Column)
    ensures c.dtype == Int64 && |c.vals| == |xs|
    ensures forall i :: 0 <= i < |xs| ==> c.vals[i] == Int(xs[i])
  {
    Column(Int64, seq(|xs|, i requires 0 <= i < |xs| => Int(xs[i])))
  }

  /** `df[name] = values`: replaces an existing column in place, otherwise
      appends a new column at the end. */
  function SetCol(t: Table, name: string, col: Column): (r: Table)
    requires Valid(t) && |col.vals| == t.nrows
    ensures Valid(r) && r.nrows == t.nrows
    ensures IsPrefix(t.cols, r.cols)
    ensures name in r.data && r.data[name] == col
    ensures r.data.Keys == t.data.Keys + {name}
    ensures forall c :: c in t.data && c != name ==> r.data[c] == t.data[c]
    ensures name in t.data ==> r.cols == t.cols
    ensures Typed(t) && ColumnTyped(col) ==> Typed(r)
  {
    if name in t.data then Table(t.nrows, t.cols, t.data[name := col])
    else AppendCol(t, name, col)
  }

  /** The new-column case of `SetCol`. */
  function AppendCol(t: Table, name: string, col: Column): (r: Table)
    requires Valid(t) && |col.vals| == t.nrows && name !in t.data
    ensures Valid(r) && r.nrows == t.nrows && r.cols == t.cols + [name]
    ensures r.data == t.data[name := col]
  {
    DistinctAppend(t.cols, name);
    Table(t.nrows, t.cols + [name], t.data[name := col])
  }

  /** `df[name] = values` with pandas' length check: a column whose length
      differs from the number of rows raises ValueError. */
  function AssignCol(t: Table, name: string, col: Column): (r: Result<Table>)
    requires Valid(t)
    ensures r.Ok? <==> |col.vals| == t.nrows
    ensures r.Err? ==> r.error == ValueError
    ensures r.Ok? ==> UpdatedOnly(t, r.value, {name}) && r.value.data.Keys == t.data.Keys + {name}
    ensures r.Ok? ==> r.value.data[name] == col
  {
    if |col.vals| != t.nrows then Err(ValueError) else Ok(SetCol(t, name, col))
  }

  /** New columns appended after the existing ones, in order. */
  function AppendCols(t: Table, names: seq<string>, cols: seq<Column>): (r: Table)
    requires Valid(t) && |names| == |cols| && Distinct(names)
    requires forall i :: 0 <= i < |names| ==> names[i] !in t.data && |cols[i].vals| == t.nrows
    ensures Valid(r) && r.nrows == t.nrows && r.cols == t.cols + names
    ensures forall i :: 0 <= i < |names| ==> r.data[names[i]] == cols[i]
    ensures forall c :: c in t.data ==> r.data[c] == t.data[c]
  {
    DistinctConcat(t.cols, names);
    var data := map c | c in t.data.Keys + NameSet(names) :: if c in t.data then t.data[c] else cols[IndexOf(names, c)];
    forall i | 0 <= i < |names| ensures data[names[i]] == cols[i] {
      var k := IndexOf(names, names[i]);
      assert k == i;
    }
    Table(t.nrows, t.cols + names, data)
  }

  /** New columns put in front of the existing ones, in order. */
  function PrependCols(t: Table, names: seq<string>, cols: seq<Column>): (r: Table)
    requires Valid(t) && |names| == |cols| && Distinct(names)
    requires forall i :: 0 <= i < |names| ==> names[i] !in t.data && |cols[i].vals| == t.nrows
    ensures Valid(r) && r.nrows == t.nrows && r.cols == names + t.cols
    ensures forall i :: 0 <= i < |names| ==> r.data[names[i]] == cols[i]
    ensures forall c :: c in t.data ==> r.data[c] == t.data[c]
  {
    DistinctConcat(names, t.cols);
    var data := map c | c in t.data.Keys + NameSet(names) :: if c in t.data then t.data[c] else cols[IndexOf(names, c)];
    forall i | 0 <= i < |names| ensures data[names[i]] == cols[i] {
      var k := IndexOf(names, names[i]);
      assert k == i;
    }
    Table(t.nrows, names + t.cols, data)
  }

  /** One direction of `DistinctConcat`. */
  lemma DistinctJoin(a: seq<string>, b: seq<string>)
    requires Distinct(a) && Distinct(b) && forall x :: x in b ==> x !in a
    ensures Distinct(a + b)
  {
    var s := a + b;
    forall i, j | 0 <= i < j < |s| ensures s[i] != s[j] {
      if j >= |a| && i < |a| {
        assert s[j] == b[j - |a|] && s[i] == a[i];
        assert b[j - |a|] in b && a[i] in a;
      } else if i >= |a| {
        assert s[i] == b[i - |a|] && s[j] == b[j - |a|];
      }
    }
  }

  /** Two duplicate-free sequences with no element in common concatenate
      to a duplicate-free one. */
  lemma DistinctConcat(a: seq<string>, b: seq<string>)
    requires Distinct(a) && Distinct(b) && forall x :: x in b ==> x !in a
    ensures Distinct(a + b) && Distinct(b + a)
  {
    DistinctJoin(a, b);
    DistinctJoin(b, a);
  }

  /** The elements of a sequence of names, as a set. */
  function NameSet(names: seq<string>): (r: set<string>)
    ensures forall n :: n in r <==> n in names
  {
    set n | n in names
  }

  /** `df[names[0]] = cols[0]`, `df[names[1]] = cols[1]`, ... in order. */
  function SetCols(t: Table, names: seq<string>, cols: seq<Column>): (r: Table)
    requires Valid(t) && |names| == |cols|
    requires forall i :: 0 <= i < |cols| ==> |cols[i].vals| == t.nrows
    ensures UpdatedOnly(t, r, NameSet(names))
    ensures r.data.Keys == t.data.Keys + NameSet(names)
    ensures Distinct(names) ==> forall i :: 0 <= i < |names| ==> r.data[names[i]] == cols[i]
    decreases |names|
  {
    if |names| == 0 then
      UpdatedOnlyRefl(t);
      t
    else
      var t1 := SetCol(t, names[0], cols[0]);
      var r := SetCols(t1, names[1..], cols[1..]);
      SetColsStep(t, t1, r, names, cols);
      r
  }

  /** The step of `SetCols`: one column set, then the rest. */
  lemma SetColsStep(t: Table, t1: Table, r: Table, names: seq<string>, cols: seq<Column>)
    requires |names| == |cols| > 0
    requires UpdatedOnly(t, t1, {names[0]}) && t1.data.Keys == t.data.Keys + {names[0]}
    requires names[0] in t1.data && t1.data[names[0]] == cols[0]
    requires UpdatedOnly(t1, r, NameSet(names[1..])) && r.data.Keys == t1.data.Keys + NameSet(names[1..])
    requires Distinct(names[1..]) ==> forall i :: 0 <= i < |names| - 1 ==> r.data[names[1..][i]] == cols[1..][i]
    ensures UpdatedOnly(t, r, NameSet(names)) && r.data.Keys == t.data.Keys + NameSet(names)
    ensures Distinct(names) ==> forall i :: 0 <= i < |names| ==> r.data[names[i]] == cols[i]
  {
    UpdatedExactlyTrans(t, t1, r, {names[0]}, NameSet(names[1..]));
    assert NameSet(names) == {names[0]} + NameSet(names[1..]);
    SetColsValues(t1, r, names, cols);
  }

  lemma SetColsValues(t1: Table, r: Table, names: seq<string>, cols: seq<Column>)
    requires |names| == |cols| > 0 && names[0] in t1.data && t1.data[names[0]] == cols[0]
    requires UpdatedOnly(t1, r, NameSet(names[1..]))
    requires r.data.Keys == t1.data.Keys + NameSet(names[1..])
    requires Distinct(names[1..]) ==> forall i :: 0 <= i < |names| - 1 ==> r.data[names[1..][i]] == cols[1..][i]
    ensures Distinct(names) ==> forall i :: 0 <= i < |names| ==> r.data[names[i]] == cols[i]
  {
    if Distinct(names) {
      assert Distinct(names[1..]);
      assert names[0] !in names[1..];
      forall i | 0 <= i < |names|
        ensures r.data[names[i]] == cols[i]
      {
        if i > 0 {
          assert names[i] == names[1..][i - 1];
          assert cols[i] == cols[1..][i - 1];
        }
      }
    }
  }

  /** `r` is `t` with some of the columns in `names` added or replaced: the
      same rows, the old columns first and in their order, no column lost,
      no column outside `names` added, and every column outside `names`
      untouched. */
  ghost predicate UpdatedOnly(t: Table, r: Table, names: set<string>) {
    && Valid(r)
    && r.nrows == t.nrows
    && IsPrefix(t.cols, r.cols)
    && t.data.Keys <= r.data.Keys <= t.data.Keys + names
    && (forall c :: c in t.data && c !in names ==> r.data[c] == t.data[c])
  }

  lemma UpdatedOnlyRefl(t: Table)
    requires Valid(t)
    ensures UpdatedOnly(t, t, {})
  {
  }

  /** Two updates in a row update only the union of their names. */
  lemma UpdatedOnlyTrans(t: Table, u: Table, r: Table, a: set<string>, b: set<string>)
    requires UpdatedOnly(t, u, a) && UpdatedOnly(u, r, b)
    ensures UpdatedOnly(t, r, a + b)
  {
    assert r.cols[..|u.cols|] == u.cols;
    assert r.cols[..|t.cols|] == u.cols[..|t.cols|];
  }

  /** Two updates that each add exactly their names add exactly the union. */
  lemma UpdatedExactlyTrans(t: Table, u: Table, r: Table, a: set<string>, b: set<string>)
    requires UpdatedOnly(t, u, a) && u.data.Keys == t.data.Keys + a
    requires UpdatedOnly(u, r, b) && r.data.Keys == u.data.Keys + b
    ensures UpdatedOnly(t, r, a + b) && r.data.Keys == t.data.Keys + (a + b)
  {
    UpdatedOnlyTrans(t, u, r, a, b);
  }

  /** Updating `names` updates any larger set. */
  lemma UpdatedOnlyWiden(t: Table, r: Table, a: set<string>, b: set<string>)
    requires UpdatedOnly(t, r, a) && a <= b
    ensures UpdatedOnly(t, r, b)
  {
  }

  /** `df[name]`: KeyError for a missing column. */
  function GetCol(t: Table, name: string): (r: Result<Column>)
    ensures r.Ok? <==> name in t.data
    ensures r.Ok? ==> r.value == t.data[name]
    ensures r.Err? ==> r.error == KeyError
  {
    if name in t.data then Ok(t.data[name]) else Err(KeyError)
  }

  /** One row as a map from column name to value. */
  function Row(t: Table, i: nat): (row: map<string, Value>)
    requires Valid(t) && i < t.nrows
    ensures row.Keys == t.data.Keys
    ensures forall c :: c in row ==> row[c] == t.data[c].vals[i]
  {
    map c | c in t.data :: t.data[c].vals[i]
  }

  function Count(keep: seq<bool>): (n: nat)
    ensures n <= |keep|
  {
    if |keep| == 0 then 0 else Count(keep[..|keep| - 1]) + (if keep[|keep| - 1] then 1 else 0)
  }

  /** The elements of `s` whose mask entry is true, in order. */
  function Select<T>(s: seq<T>, keep: seq<bool>): (r: seq<T>)
    requires |keep| == |s|
    ensures |r| == Count(keep)
    ensures forall x :: x in r ==> x in s
  {
    if |s| == 0 then []
    else
      var p := Select(s[..|s| - 1], keep[..|keep| - 1]);
      if keep[|keep| - 1] then p + [s[|s| - 1]] else p
  }

  /** Boolean-mask row selection `df[mask]`: the same columns, the rows whose
      mask entry is true. */
  function FilterRows(t: Table, keep: seq<bool>): (r: Table)
    requires Valid(t) && |keep| == t.nrows
    ensures Valid(r)
    ensures r.cols == t.cols && r.data.Keys == t.data.Keys
    ensures r.nrows == Count(keep) <= t.nrows
    ensures forall c :: c in t.data ==> r.data[c].dtype == t.data[c].dtype
  {
    Table(Count(keep), t.cols,
          map c | c in t.data :: Column(t.data[c].dtype, Select(t.data[c].vals, keep)))
  }

  /** The positions `Select` keeps, in order. */
  function KeptAt(keep: seq<bool>): (ks: seq<nat>)
    ensures |ks| == Count(keep)
    ensures forall j :: 0 <= j < |ks| ==> ks[j] < |keep|
  {
    if |keep| == 0 then []
    else
      var p := KeptAt(keep[..|keep| - 1]);
      if keep[|keep| - 1] then p + [|keep| - 1] else p
  }

  /** Element `j` of a selection is the input's element at the `j`-th kept
      position. */
  lemma {:induction false} SelectAt<T>(s: seq<T>, keep: seq<bool>)
    requires |keep| == |s|
    ensures forall j :: 0 <= j < Count(keep) ==> Select(s, keep)[j] == s[KeptAt(keep)[j]]
    decreases |s|
  {
    if |s| > 0 {
      var n := |s| - 1;
      SelectAt(s[..n], keep[..n]);
      forall j | 0 <= j < Count(keep) ensures Select(s, keep)[j] == s[KeptAt(keep)[j]] {
        if j < Count(keep[..n]) {
          assert Select(s, keep)[j] == Select(s[..n], keep[..n])[j];
          assert KeptAt(keep)[j] == KeptAt(keep[..n])[j];
        }
      }
    }
  }

  /** The elements of `s` that satisfy `p`, in order. */
  function Where<T>(s: seq<T>, p: T -> bool): (r: seq<T>)
    ensures |r| <= |s|
    ensures forall x :: x in r ==> x in s && p(x)
  {
    if |s| == 0 then []
    else
      var w := Where(s[..|s| - 1], p);
      if p(s[|s| - 1]) then w + [s[|s| - 1]] else w
  }

  lemma WhereSnoc<T>(s: seq<T>, x: T, p: T -> bool)
    ensures Where(s + [x], p) == Where(s, p) + (if p(x) then [x] else [])
  {
    assert (s + [x])[..|s|] == s;
  }

  /** Selecting by the mask of a predicate keeps what satisfies it. */
  lemma {:induction false} SelectWhere<T>(s: seq<T>, keep: seq<bool>, p: T -> bool)
    requires |keep| == |s| && forall i :: 0 <= i < |s| ==> keep[i] == p(s[i])
    ensures Select(s, keep) == Where(s, p)
    decreases |s|
  {
    if |s| > 0 {
      SelectWhere(s[..|s| - 1], keep[..|s| - 1], p);
    }
  }

  /** The rows of a table, in order. */
  function Rows(t: Table): (rows: seq<map<string, Value>>)
    requires Valid(t)
    ensures |rows| == t.nrows && forall i :: 0 <= i < t.nrows ==> rows[i] == Row(t, i)
  {
    seq(t.nrows, i requires 0 <= i < t.nrows && Valid(t) => Row(t, i))
  }

  /** The rows of `df[mask]` are the kept rows of `df`, in order. */
  lemma RowsOfFilter(t: Table, keep: seq<bool>)
    requires Valid(t) && |keep| == t.nrows
    ensures Rows(FilterRows(t, keep)) == Select(Rows(t), keep)
  {
    var u := FilterRows(t, keep);
    var ks := KeptAt(keep);
    SelectAt(Rows(t), keep);
    forall c | c in t.data {
      SelectAt(t.data[c].vals, keep);
    }
    forall j | 0 <= j < u.nrows ensures Rows(u)[j] == Select(Rows(t), keep)[j] {
      assert Row(u, j) == Row(t, ks[j]);
    }
  }

  /** The mask of rows satisfying a row predicate (a pandas `query`). */
  function RowMask(t: Table, keep: map<string, Value> -> bool): (m: seq<bool>)
    requires Valid(t)
    ensures |m| == t.nrows
    ensures forall i :: 0 <= i < t.nrows ==> m[i] == keep(Row(t, i))
  {
    seq(t.nrows, i requires 0 <= i < t.nrows && Valid(t) => keep(Row(t, i)))
  }

  /** The rows a `query` leaves are the rows its predicate keeps. */
  lemma RowsOfQuery(t: Table, keep: map<string, Value> -> bool)
    requires Valid(t)
    ensures Rows(FilterRows(t, RowMask(t, keep))) == Where(Rows(t), keep)
  {
    RowsOfFilter(t, RowMask(t, keep));
    SelectWhere(Rows(t), RowMask(t, keep), keep);
  }

  /** The durable triple `Data: {Cols, Types, Arr}`. */
  /** The same columns, in the same order, with the same dtypes. */
  ghost predicate SameLayout(a: Table, b: Table) {
    && a.cols == b.cols
    && (forall c :: c in a.data ==> c in b.data && a.data[c].dtype == b.data[c].dtype)
  }

  /** The number of rows of all the tables together. */
  function TotalRows(ts: seq<Table>): (n: nat)
    decreases |ts|
  {
    if |ts| == 0 then 0 else TotalRows(ts[..|ts| - 1]) + ts[|ts| - 1].nrows
  }

  /** Every table of `ts` is valid and laid out like the first. */
  ghost predicate OneLayout(ts: seq<Table>) {
    forall i :: 0 <= i < |ts| ==> Valid(ts[i]) && SameLayout(ts[i], ts[0])
  }

  /** Column `c` of each table, one after the other. */
  function ConcatVals(ts: seq<Table>, c: string): (vs: seq<Value>)
    requires forall i :: 0 <= i < |ts| ==> c in ts[i].data
    decreases |ts|
  {
    if |ts| == 0 then []
    else
      var front := ts[..|ts| - 1];
      assert forall i :: 0 <= i < |front| ==> front[i] == ts[i];
      ConcatVals(front, c) + ts[|ts| - 1].data[c].vals
  }

  /** A column of valid tables is as long as the tables together. */
  lemma {:induction false} ConcatValsLength(ts: seq<Table>, c: string)
    requires forall i :: 0 <= i < |ts| ==> Valid(ts[i]) && c in ts[i].data
    ensures |ConcatVals(ts, c)| == TotalRows(ts)
    decreases |ts|
  {
    if |ts| > 0 {
      var front := ts[..|ts| - 1];
      assert forall i :: 0 <= i < |front| ==> front[i] == ts[i];
      ConcatValsLength(front, c);
    }
  }

  /** Value `k` of the `j`-th table sits after the values of the tables
      before it. */
  lemma {:induction false} ConcatValsIndex(ts: seq<Table>, c: string, j: nat, k: nat)
    requires forall i :: 0 <= i < |ts| ==> Valid(ts[i]) && c in ts[i].data
    requires j < |ts| && k < ts[j].nrows
    ensures k < |ts[j].data[c].vals| && TotalRows(ts[..j]) + k < |ConcatVals(ts, c)|
    ensures ConcatVals(ts, c)[TotalRows(ts[..j]) + k] == ts[j].data[c].vals[k]
    decreases |ts|
  {
    assert Valid(ts[j]);
    var front := ts[..|ts| - 1];
    assert forall i :: 0 <= i < |front| ==> front[i] == ts[i];
    ConcatValsLength(front, c);
    if j < |ts| - 1 {
      assert front[..j] == ts[..j];
      ConcatValsIndex(front, c, j, k);
    } else {
      assert ts[..j] == front;
    }
  }

  /** `pd.concat(ts, ignore_index=True)` for tables of one layout: the rows
      of each table in turn, renumbered; nothing to concatenate raises
      ValueError. */
  function Concat(ts: seq<Table>): (r: Result<Table>)
    requires OneLayout(ts)
    ensures r.Err? <==> |ts| == 0
    ensures r.Err? ==> r.error == ValueError
    ensures r.Ok? ==> Valid(r.value) && SameLayout(r.value, ts[0]) && r.value.nrows == TotalRows(ts)
    ensures r.Ok? ==> r.value.data.Keys == ts[0].data.Keys
    ensures r.Ok? ==> forall c :: c in r.value.data ==> r.value.data[c].vals == ConcatVals(ts, c)
  {
    if |ts| == 0 then Err(ValueError)
    else
      var t0 := ts[0];
      SameKeysAll(ts);
      var data := map c | c in t0.data :: Column(t0.data[c].dtype, ConcatVals(ts, c));
      assert forall c :: c in t0.data ==> |data[c].vals| == TotalRows(ts) by {
        forall c | c in t0.data ensures |data[c].vals| == TotalRows(ts) {
          ConcatValsLength(ts, c);
        }
      }
      assert data.Keys == t0.data.Keys;
      var r := Table(TotalRows(ts), t0.cols, data);
      assert Valid(r);
      Ok(r)
  }

  /** Valid tables with the same column list hold the same columns. */
  lemma SameKeys(a: Table, b: Table)
    requires Valid(a) && Valid(b) && a.cols == b.cols
    ensures a.data.Keys == b.data.Keys
  {
  }

  lemma SameKeysAll(ts: seq<Table>)
    requires OneLayout(ts) && |ts| > 0
    ensures forall i :: 0 <= i < |ts| ==> ts[i].data.Keys == ts[0].data.Keys
  {
    forall i | 0 <= i < |ts| ensures ts[i].data.Keys == ts[0].data.Keys {
      SameKeys(ts[i], ts[0]);
    }
  }

  /** Two rows are equal when the tables have the same columns and agree
      on each of them. */
  lemma RowsAgree(a: Table, i: nat, b: Table, j: nat)
    requires Valid(a) && Valid(b) && i < a.nrows && j < b.nrows && a.data.Keys == b.data.Keys
    requires forall c :: c in a.data ==> a.data[c].vals[i] == b.data[c].vals[j]
    ensures Row(a, i) == Row(b, j)
  {
  }

  /** The tables before the `j`-th hold fewer rows than all of them
      together, by at least the `j`-th table's rows. */
  lemma {:induction false} TotalRowsPrefix(ts: seq<Table>, j: nat)
    requires j < |ts|
    ensures TotalRows(ts[..j]) + ts[j].nrows <= TotalRows(ts)
    decreases |ts|
  {
    var front := ts[..|ts| - 1];
    if j < |ts| - 1 {
      assert front[..j] == ts[..j];
      TotalRowsPrefix(front, j);
    } else {
      assert ts[..j] == front;
    }
  }

  /** Row `k` of the `j`-th table is row `TotalRows(ts[..j]) + k` of the
      concatenation. */
  /** Column `c` of the concatenation holds value `k` of the `j`-th table
      after the rows of the tables before it. */
  lemma ConcatCellAt(ts: seq<Table>, c: string, j: nat, k: nat)
    requires OneLayout(ts) && j < |ts| && k < ts[j].nrows && c in ts[0].data
    ensures c in Concat(ts).value.data && c in ts[j].data
    ensures TotalRows(ts[..j]) + k < Concat(ts).value.nrows
    ensures Concat(ts).value.data[c].vals[TotalRows(ts[..j]) + k] == ts[j].data[c].vals[k]
  {
    SameKeysAll(ts);
    TotalRowsPrefix(ts, j);
    ConcatValsIndex(ts, c, j, k);
  }

  lemma ConcatRow(ts: seq<Table>, j: nat, k: nat)
    requires OneLayout(ts) && j < |ts| && k < ts[j].nrows
    ensures TotalRows(ts[..j]) + k < Concat(ts).value.nrows
    ensures Row(Concat(ts).value, TotalRows(ts[..j]) + k) == Row(ts[j], k)
  {
    SameKeysAll(ts);
    TotalRowsPrefix(ts, j);
    forall c | c in Concat(ts).value.data
      ensures Concat(ts).value.data[c].vals[TotalRows(ts[..j]) + k] == ts[j].data[c].vals[k]
    {
      ConcatCellAt(ts, c, j, k);
    }
    RowsAgree(Concat(ts).value, TotalRows(ts[..j]) + k, ts[j], k);
  }

  datatype Export = Export(cols: seq<string>, types: map<string, string>, arr: seq<seq<Value>>)

  /** `{"Cols": list(df.columns), "Types": {col: str(dtype)}, "Arr": df.to_numpy()}`. */
  function ExportTable(t: Table): (e: Export)
    requires Valid(t)
    ensures e.cols == t.cols && |e.arr| == t.nrows
    ensures e.types.Keys == t.data.Keys
    ensures forall i :: 0 <= i < |e.arr| ==> |e.arr[i]| == |t.cols|
  {
    Export(t.cols,
           map c | c in t.data :: DTypeName(t.data[c].dtype),
           seq(t.nrows, i requires 0 <= i < t.nrows =>
             seq(|t.cols|, j requires 0 <= j < |t.cols| && Valid(t) && i < t.nrows =>
               t.data[t.cols[j]].vals[i])))
  }

  function IndexOf(s: seq<string>, x: string): (k: nat)
    requires x in s
    ensures k < |s| && s[k] == x
  {
    if s[0] == x then 0 else 1 + IndexOf(s[1..], x)
  }

  /** Column `j` of a row-major matrix. */
  function ColumnOf(arr: seq<seq<Value>>, j: nat): (r: seq<Value>)
    requires forall i :: 0 <= i < |arr| ==> j < |arr[i]|
    ensures |r| == |arr|
    ensures forall i :: 0 <= i < |arr| ==> r[i] == arr[i][j]
  {
    seq(|arr|, i requires 0 <= i < |arr| && j < |arr[i]| => arr[i][j])
  }

  /** `astype` over a whole column; None as soon as one value cannot be cast. */
  function CastAll(vals: seq<Value>, d: DType): (r: Option<seq<Value>>)
    ensures r.Some? ==> |r.value| == |vals|
    ensures r.Some? ==> forall i :: 0 <= i < |vals| ==> Cast(vals[i], d) == Some(r.value[i])
    ensures (forall i :: 0 <= i < |vals| ==> Conforms(vals[i], d)) ==> r == Some(vals)
  {
    if |vals| == 0 then Some([])
    else
      match (CastAll(vals[..|vals| - 1], d), Cast(vals[|vals| - 1], d))
      case (Some(p), Some(v)) =>
        assert vals == vals[..|vals| - 1] + [vals[|vals| - 1]];
        Some(p + [v])
      case _ => None
  }

  /** Every row of the matrix has one value per column name. */
  predicate Rectangular(e: Export) {
    forall i | 0 <= i < |e.arr| :: |e.arr[i]| == |e.cols|
  }

  /** One reloaded column: the object column of the matrix, cast to the dtype
      recorded for it when there is one. */
  function LoadColumn(e: Export, c: string): (r: Result<Column>)
    requires Rectangular(e) && c in e.cols
    ensures r.Ok? ==> |r.value.vals| == |e.arr|
    ensures c !in e.types ==> r == Ok(Column(ObjectT, ColumnOf(e.arr, IndexOf(e.cols, c))))
  {
    var raw := ColumnOf(e.arr, IndexOf(e.cols, c));
    if c !in e.types then Ok(Column(ObjectT, raw))
    else
      match ParseDType(e.types[c])
      case None => Err(TypeError)
      case Some(d) =>
        match CastAll(raw, d)
        case None => Err(ValueError)
        case Some(vals) => Ok(Column(d, vals))
  }

  /** The columns named in `names`, loaded in that order; the first failing
      cast decides the error. */
  function LoadColumns(e: Export, names: seq<string>): (r: Result<map<string, Column>>)
    requires Rectangular(e) && forall c :: c in names ==> c in e.cols
    ensures r.Ok? ==> forall c :: c in r.value <==> c in names
    ensures r.Ok? ==> forall c :: c in r.value ==> LoadColumn(e, c) == Ok(r.value[c])
    decreases |names|
  {
    if |names| == 0 then Ok(map[])
    else
      var last := names[|names| - 1];
      var prev :- LoadColumns(e, names[..|names| - 1]);
      var col :- LoadColumn(e, last);
      Ok(prev[last := col])
  }

  /** `pd.DataFrame(arr, columns=cols)` followed by `astype` for every entry
      of `types`. A ragged matrix, a repeated column name, a type entry for a
      missing column or a cast pandas refuses is an error. */
  function Reload(e: Export): (r: Result<Table>)
    ensures r.Ok? ==> Valid(r.value) && r.value.cols == e.cols && r.value.nrows == |e.arr|
  {
    if !Rectangular(e) then Err(ValueError)
    else if exists i, j | 0 <= i < j < |e.cols| :: e.cols[i] == e.cols[j] then Err(ValueError)
    else if exists c | c in e.types :: c !in e.cols then Err(KeyError)
    else
      var data :- LoadColumns(e, e.cols);
      Ok(Table(|e.arr|, e.cols, data))
  }

  /** Reloading an exported table gives back the same columns, in the same
      order, with the same dtypes and values. */
  lemma ExportReloadRoundTrip(t: Table)
    requires Valid(t) && Typed(t)
    ensures Reload(ExportTable(t)) == Ok(t)
  {
    var e := ExportTable(t);
    ExportIsWellFormed(t);
    forall c | c in t.cols
      ensures c in t.data && LoadColumn(e, c) == Ok(t.data[c])
    {
      ExportedColumnReloads(t, c);
    }
    LoadAllColumns(e, t.data, t.cols);
    MapOverOwnKeys(t.data, t.cols);
    ReloadOfLoaded(e, t.data);
  }

  lemma MapOverOwnKeys(m: map<string, Column>, names: seq<string>)
    requires forall c :: c in m <==> c in names
    ensures (map c | c in names :: m[c]) == m
  {
  }

  lemma ReloadOfLoaded(e: Export, data: map<string, Column>)
    requires Rectangular(e)
    requires !exists i, j | 0 <= i < j < |e.cols| :: e.cols[i] == e.cols[j]
    requires !exists c | c in e.types :: c !in e.cols
    requires LoadColumns(e, e.cols) == Ok(data)
    ensures Reload(e) == Ok(Table(|e.arr|, e.cols, data))
  {
  }

  /** An exported table passes every shape check of `Reload`. */
  lemma ExportIsWellFormed(t: Table)
    requires Valid(t)
    ensures Rectangular(ExportTable(t))
    ensures !exists i, j | 0 <= i < j < |ExportTable(t).cols| :: ExportTable(t).cols[i] == ExportTable(t).cols[j]
    ensures !exists c | c in ExportTable(t).types :: c !in ExportTable(t).cols
  {
  }

  /** One column of an exported table reloads to itself. */
  lemma ExportedColumnReloads(t: Table, c: string)
    requires Valid(t) && Typed(t) && c in t.cols
    ensures Rectangular(ExportTable(t))
    ensures c in t.data && LoadColumn(ExportTable(t), c) == Ok(t.data[c])
  {
    var e := ExportTable(t);
    var j := IndexOf(e.cols, c);
    assert ColumnOf(e.arr, j) == t.data[c].vals;
    assert ColumnTyped(t.data[c]);
    assert e.types[c] == DTypeName(t.data[c].dtype);
  }

  lemma {:induction false} LoadAllColumns(e: Export, m: map<string, Column>, names: seq<string>)
    requires Rectangular(e) && forall c :: c in names ==> c in e.cols
    requires forall c :: c in names ==> c in m && LoadColumn(e, c) == Ok(m[c])
    ensures LoadColumns(e, names) == Ok(map c | c in names :: m[c])
    decreases |names|
  {
    if |names| > 0 {
      var p := names[..|names| - 1];
      var last := names[|names| - 1];
      assert forall c :: c in p ==> c in names;
      LoadAllColumns(e, m, p);
      var prev := map c | c in p :: m[c];
      assert LoadColumns(e, names) == Ok(prev[last := m[last]]);
      MapExtendLast(m, names);
    }
  }

  lemma MapExtendLast(m: map<string, Column>, names: seq<string>)
    requires |names| > 0 && forall c :: c in names ==> c in m
    ensures (map c | c in names[..|names| - 1] :: m[c])[names[|names| - 1] := m[names[|names| - 1]]]
         == map c | c in names :: m[c]
  {
    assert names == names[..|names| - 1] + [names[|names| - 1]];
  }
}

=== FILE: trapstage.dfy ===
/** `TrapezoidProc` (registered as "trapezoid"): the trapezoidal filter of
    every baseline-subtracted batch whose channel has the three filter
    settings, with the trapezoid maximum as energy and the trapezoid area
    over its maximum as pile-up indicator. */
module TrapStage {
  import opened Common
  import opened Series
  import opened NdArrays
  import opened Tables
  import opened WfsProc
  import opened WfsLibs

  const EnergySuffix := "_energy_trap"
  const TrapPurSuffix := "_trap_pur"

  /** The three `processors.trapezoid` settings of a channel. */
  datatype TrapSettings = TrapSettings(shapeTime: int, tau: real, flatTop: int)

  /** The settings, when the `processors` object, its `trapezoid` entry and
      all three keys are present; otherwise the channel is skipped. */
  function Settings(conf: ChannelConf): (r: Option<TrapSettings>)
    ensures r.Some? <==> (&& conf.processors.Some? && "trapezoid" in conf.processors.value
                          && conf.processors.value["trapezoid"].shapeTime.Some?
                          && conf.processors.value["trapezoid"].tau.Some?
                          && conf.processors.value["trapezoid"].flatTop.Some?)
  {
    if conf.processors.None? || "trapezoid" !in conf.processors.value then None
    else
      var pp := conf.processors.value["trapezoid"];
      if pp.shapeTime.None? || pp.tau.None? || pp.flatTop.None? then None
      else Some(TrapSettings(pp.shapeTime.value, pp.tau.value, pp.flatTop.value))
  }

  /** The filter parameters built from the settings, `a = exp(1/tau) - 1`. */
  function ParamsOf(st: TrapSettings, exp: real -> real): TrapParams
    requires st.shapeTime >= 0 && st.tau != 0.0
  {
    TrapParams(st.shapeTime, st.flatTop, st.tau, exp(1.0 / st.tau) - 1.0)
  }

  /** `trap_pur` of one event: the trapezoid's sum over its maximum; a zero
      maximum gives NaN or inf. */
  function PurValue(trap: seq<real>): Value
    requires |trap| > 0
  {
    Ratio(Sum(trap), Max(trap))
  }

  /** `sm / mx` as numpy stores it: NaN or inf when `mx` is zero. */
  function Ratio(sm: real, mx: real): Value
  {
    if mx == 0.0 then NonFinite else Real(sm / mx)
  }

  function EnergyCol(rows: seq<seq<real>>): (c: Column)
    requires forall i :: 0 <= i < |rows| ==> |rows[i]| > 0
    ensures |c.vals| == |rows|
    ensures c.dtype == Float32
  {
    Column(Float32, seq(|rows|, i requires 0 <= i < |rows| && |rows[i]| > 0 => Real(Max(rows[i]))))
  }

  function PurCol(rows: seq<seq<real>>): (c: Column)
    requires forall i :: 0 <= i < |rows| ==> |rows[i]| > 0
    ensures |c.vals| == |rows|
    ensures c.dtype == Float32
  {
    Column(Float32, seq(|rows|, i requires 0 <= i < |rows| && |rows[i]| > 0 => PurValue(rows[i])))
  }

  function TrapColNames(ch: string): (names: seq<string>)
    ensures |names| == 2 && Distinct(names)
  {
    SuffixesDiffer(ch, EnergySuffix, TrapPurSuffix);
    [ch + EnergySuffix, ch + TrapPurSuffix]
  }

  function TrapNames(ch: string): set<string> {
    NameSet(TrapColNames(ch))
  }

  /** No column of one channel is named like a column of another: the two
      suffixes end differently. */
  lemma TrapNamesApart(ch1: string, ch2: string)
    requires ch1 != ch2
    ensures TrapNames(ch1) !! TrapNames(ch2)
  {
    var sufs := [EnergySuffix, TrapPurSuffix];
    forall i, j | 0 <= i < 2 && 0 <= j < 2
      ensures ch1 + sufs[i] != ch2 + sufs[j]
    {
      NamesDiffer(ch1, sufs[i], ch2, sufs[j], 1);
    }
    assert TrapColNames(ch1) == [ch1 + sufs[0], ch1 + sufs[1]];
    assert TrapColNames(ch2) == [ch2 + sufs[0], ch2 + sufs[1]];
  }

  /** The energy and pile-up columns of `ch` describe the trapezoids `rows`. */
  ghost predicate TrapColumnsHold(t: Table, ch: string, rows: seq<seq<real>>) {
    && (forall i :: 0 <= i < |rows| ==> |rows[i]| > 0)
    && ch + EnergySuffix in t.data && t.data[ch + EnergySuffix] == EnergyCol(rows)
    && ch + TrapPurSuffix in t.data && t.data[ch + TrapPurSuffix] == PurCol(rows)
  }

  /** `trap` is the trapezoid batch of the batch `a` under `st`; a batch
      without events has no shaping constraint and stays as it is. */
  ghost predicate IsTrapezoidOf(st: TrapSettings, a: NdArray, trap: NdArray, exp: real -> real) {
    && a.Mat? && WellShaped(a) && a.ncols > 0 && st.tau != 0.0
    && (|a.rows| > 0 ==> st.shapeTime > 0 && ValidTrap(ParamsOf(st, exp)))
    && IsBatch(trap, |a.rows|, a.ncols)
    && forall i :: 0 <= i < |a.rows| ==> trap.rows[i] == Trapezoid(a.rows[i], ParamsOf(st, exp))
  }

  /** One channel of `doProc`: the filter's own errors first; then
      `np.max(..., axis=1)` rejects a 1-D array (AxisError) and a batch
      without samples (ValueError); a batch whose number of events differs
      from the table's cannot become a column (ValueError). */
  function TrapChannel(df: Table, ch: string, st: TrapSettings, a: NdArray, exp: real -> real)
    : (r: Result<(Table, NdArray)>)
    requires Valid(df) && WellShaped(a)
    ensures r.Ok? ==> a.Mat? && |a.rows| == df.nrows && IsTrapezoidOf(st, a, r.value.1, exp)
    ensures r.Ok? ==> UpdatedOnly(df, r.value.0, TrapNames(ch)) && r.value.0.data.Keys == df.data.Keys + TrapNames(ch)
    ensures r.Ok? ==> TrapColumnsHold(r.value.0, ch, r.value.1.rows)
    ensures a.Mat? && a.ncols == 0 && !(st.tau == 0.0) ==> r == Err(ValueError)
    ensures a.Vec? && TrapFilter(a, st.shapeTime, st.tau, st.flatTop, exp).Ok? ==> r == Err(AxisError)
    ensures TrapFilter(a, st.shapeTime, st.tau, st.flatTop, exp).Err? ==>
      r == Err(TrapFilter(a, st.shapeTime, st.tau, st.flatTop, exp).error)
    ensures r.Ok? <==> && a.Mat? && a.ncols > 0 && |a.rows| == df.nrows && st.tau != 0.0
                       && st.shapeTime >= 0 && st.shapeTime + st.flatTop >= 0
                       && (|a.rows| > 0 ==> st.shapeTime > 0 && ValidTrap(ParamsOf(st, exp)))
  {
    var trap :- TrapFilter(a, st.shapeTime, st.tau, st.flatTop, exp);
    if trap.Vec? then Err(AxisError)
    else if trap.ncols == 0 then Err(ValueError)
    else if |trap.rows| != df.nrows then Err(ValueError)
    else
      assert forall i :: 0 <= i < |trap.rows| ==> |trap.rows[i]| > 0;
      var names, cols := TrapColNames(ch), [EnergyCol(trap.rows), PurCol(trap.rows)];
      var t := SetCols(df, names, cols);
      assert t.data[names[0]] == cols[0] && t.data[names[1]] == cols[1];
      Ok((t, trap))
  }

  /** The channels that take part: those with all three settings and a
      baseline-subtracted waveform. */
  predicate Takes(m: ChsMap, bsln: map<string, NdArray>, c: string)
    requires c in m.conf
  {
    Settings(m.conf[c]).Some? && c in bsln
  }

  /** The channels of `chs` that take part, in the sense of `ChannelsWhere`. */
  function TrapChannels(m: ChsMap, chs: seq<string>, bsln: map<string, NdArray>): set<string>
    requires forall c :: c in chs ==> c in m.conf
  {
    ChannelsWhere(chs, c => c in m.conf && Takes(m, bsln, c))
  }

  function TrapNamesAll(m: ChsMap, chs: seq<string>, bsln: map<string, NdArray>): set<string>
    requires forall c :: c in chs ==> c in m.conf
    decreases |chs|
  {
    if |chs| == 0 then {}
    else (if Takes(m, bsln, chs[0]) then TrapNames(chs[0]) else {}) + TrapNamesAll(m, chs[1..], bsln)
  }

  /** Every output entry is the trapezoid batch of its channel's waveforms. */
  ghost predicate TrapOutputs(m: ChsMap, bsln: map<string, NdArray>, out: map<string, NdArray>, exp: real -> real) {
    forall c :: c in out ==>
      c in m.conf && c in bsln && Settings(m.conf[c]).Some?
      && IsTrapezoidOf(Settings(m.conf[c]).value, bsln[c], out[c], exp)
  }

  /** Every output entry's energy and pile-up columns are in `t`. */
  ghost predicate TrapColumnsAll(t: Table, out: map<string, NdArray>) {
    forall c :: c in out ==> out[c].Mat? && TrapColumnsHold(t, c, out[c].rows)
  }

  /** What the loop over `chs` promises of its output map `out` and its
      table `t`: one entry per channel that takes part, each the trapezoid
      batch of that channel's waveforms, and, when the channels are
      distinct, each channel's energy and pile-up columns computed from
      that trapezoid. */
  ghost predicate TrapLoopOut(m: ChsMap, chs: seq<string>, bsln: map<string, NdArray>, t: Table,
                              out: map<string, NdArray>, exp: real -> real)
    requires forall c :: c in chs ==> c in m.conf
  {
    && out.Keys == TrapChannels(m, chs, bsln)
    && TrapOutputs(m, bsln, out, exp)
    && (Distinct(chs) ==> TrapColumnsAll(t, out))
  }

  /** The channel loop of `doProc`: a channel missing a setting or a
      baseline-subtracted waveform is skipped without columns or output;
      every other channel gets its trapezoid under "trapezoid". */
  function TrapLoop(m: ChsMap, chs: seq<string>, bsln: map<string, NdArray>, df: Table, exp: real -> real)
    : (r: Result<(Table, map<string, NdArray>)>)
    requires Valid(df) && AllWellShaped(bsln) && forall c :: c in chs ==> c in m.conf
    ensures r.Ok? ==> UpdatedOnly(df, r.value.0, TrapNamesAll(m, chs, bsln))
    ensures r.Ok? ==> r.value.0.data.Keys == df.data.Keys + TrapNamesAll(m, chs, bsln)
    ensures r.Ok? ==> TrapLoopOut(m, chs, bsln, r.value.0, r.value.1, exp)
    decreases |chs|
  {
    if |chs| == 0 then
      UpdatedOnlyRefl(df);
      Ok((df, map[]))
    else
      var ch := chs[0];
      if !Takes(m, bsln, ch) then
        var r := TrapLoop(m, chs[1..], bsln, df, exp);
        if r.Ok? then
          TrapLoopSkip(m, chs, bsln, r.value.0, r.value.1, exp);
          r
        else r
      else
        var (t1, trap) :- TrapChannel(df, ch, Settings(m.conf[ch]).value, bsln[ch], exp);
        var (t2, out) :- TrapLoop(m, chs[1..], bsln, t1, exp);
        UpdatedExactlyTrans(df, t1, t2, TrapNames(ch), TrapNamesAll(m, chs[1..], bsln));
        TrapLoopStep(m, chs, bsln, t1, t2, trap, out, exp);
        Ok((t2, PutIfAbsent(out, ch, trap)))
  }

  /** One step of the loop: the output map grows by the first channel's
      trapezoid, and its columns survive the later channels when the
      channels are distinct. */
  lemma TrapLoopStep(m: ChsMap, chs: seq<string>, bsln: map<string, NdArray>, t1: Table, t2: Table,
                     trap: NdArray, out: map<string, NdArray>, exp: real -> real)
    requires |chs| > 0 && (forall c :: c in chs ==> c in m.conf) && Takes(m, bsln, chs[0])
    requires IsTrapezoidOf(Settings(m.conf[chs[0]]).value, bsln[chs[0]], trap, exp)
    requires TrapColumnsHold(t1, chs[0], trap.rows)
    requires UpdatedOnly(t1, t2, TrapNamesAll(m, chs[1..], bsln))
    requires TrapLoopOut(m, chs[1..], bsln, t2, out, exp)
    ensures TrapLoopOut(m, chs, bsln, t2, PutIfAbsent(out, chs[0], trap), exp)
  {
    TrapOutputsStep(m, chs, bsln, trap, out, exp);
    if Distinct(chs) {
      assert Distinct(chs[1..]);
      assert chs[0] !in chs[1..];
      TrapNamesDisjoint(m, chs[0], chs[1..], bsln);
      TrapColumnsKept(t1, t2, chs[0], trap, out, TrapNamesAll(m, chs[1..], bsln));
    }
  }

  /** A channel that does not take part changes nothing the loop promises. */
  lemma TrapLoopSkip(m: ChsMap, chs: seq<string>, bsln: map<string, NdArray>, t: Table,
                     out: map<string, NdArray>, exp: real -> real)
    requires |chs| > 0 && (forall c :: c in chs ==> c in m.conf) && !Takes(m, bsln, chs[0])
    requires TrapLoopOut(m, chs[1..], bsln, t, out, exp)
    ensures TrapLoopOut(m, chs, bsln, t, out, exp)
  {
    assert Distinct(chs) ==> Distinct(chs[1..]);
  }

  /** The output map grows by the first channel's trapezoid. */
  lemma TrapOutputsStep(m: ChsMap, chs: seq<string>, bsln: map<string, NdArray>, trap: NdArray,
                        out: map<string, NdArray>, exp: real -> real)
    requires |chs| > 0 && (forall c :: c in chs ==> c in m.conf) && Takes(m, bsln, chs[0])
    requires IsTrapezoidOf(Settings(m.conf[chs[0]]).value, bsln[chs[0]], trap, exp)
    requires out.Keys == TrapChannels(m, chs[1..], bsln) && TrapOutputs(m, bsln, out, exp)
    ensures PutIfAbsent(out, chs[0], trap).Keys == TrapChannels(m, chs, bsln)
    ensures TrapOutputs(m, bsln, PutIfAbsent(out, chs[0], trap), exp)
  {
  }

  /** Columns written under other names leave the first channel's columns
      as they were. */
  lemma TrapColumnsKept(t1: Table, t2: Table, ch: string, trap: NdArray, out: map<string, NdArray>,
                        names: set<string>)
    requires trap.Mat? && TrapColumnsHold(t1, ch, trap.rows) && TrapColumnsAll(t2, out)
    requires UpdatedOnly(t1, t2, names) && TrapNames(ch) !! names
    ensures TrapColumnsAll(t2, PutIfAbsent(out, ch, trap))
  {
    var ns := TrapColNames(ch);
    assert ns[0] in TrapNames(ch) && ns[1] in TrapNames(ch);
    assert TrapColumnsHold(t2, ch, trap.rows);
  }

  /** A channel's columns are not named by any other channel. */
  lemma {:induction false} TrapNamesDisjoint(m: ChsMap, ch: string, chs: seq<string>, bsln: map<string, NdArray>)
    requires ch !in chs && forall c :: c in chs ==> c in m.conf
    ensures TrapNames(ch) !! TrapNamesAll(m, chs, bsln)
    decreases |chs|
  {
    if |chs| > 0 {
      TrapNamesDisjoint(m, ch, chs[1..], bsln);
      TrapNamesApart(ch, chs[0]);
    }
  }

  /** `TrapezoidProc.doProc`. */
  function TrapDoProc(m: ChsMap, df: Table, bsln: map<string, NdArray>, exp: real -> real)
    : (r: Result<(Table, map<string, NdArray>)>)
    requires ValidChsMap(m) && Valid(df) && AllWellShaped(bsln)
    ensures r.Ok? ==> UpdatedOnly(df, r.value.0, TrapNamesAll(m, m.chs, bsln))
    ensures r.Ok? ==> r.value.1.Keys == TrapChannels(m, m.chs, bsln)
    ensures r.Ok? ==> forall c :: c in r.value.1 ==>
      c in bsln && Settings(m.conf[c]).Some? && IsTrapezoidOf(Settings(m.conf[c]).value, bsln[c], r.value.1[c], exp)
    ensures r.Ok? ==> forall c :: c in r.value.1 ==> r.value.1[c].Mat? && TrapColumnsHold(r.value.0, c, r.value.1[c].rows)
  {
    TrapLoop(m, m.chs, bsln, df, exp)
  }

  // ---------------------------------------------------------------------
  // procSingleEvent

  /** One channel of `procSingleEvent`: the single-event check (TypeError),
      then the trapezoid of the flattened copy, of the same length. */
  function TrapSingleChannel(st: TrapSettings, a: NdArray, exp: real -> real): (r: Result<seq<real>>)
    requires WellShaped(a)
    ensures SingleEvent(a).Err? ==> r == Err(TypeError)
    ensures r.Ok? ==> SingleEvent(a).Ok? && |r.value| == |SingleEvent(a).value|
    ensures r.Ok? && |r.value| > 0 ==>
      st.shapeTime > 0 && st.tau != 0.0 && ValidTrap(ParamsOf(st, exp))
      && r.value == Trapezoid(SingleEvent(a).value, ParamsOf(st, exp))
  {
    var wf :- SingleEvent(a);
    var trap :- TrapFilter(Vec(wf), st.shapeTime, st.tau, st.flatTop, exp);
    Ok(trap.v)
  }

  function TrapSingleLoop(m: ChsMap, chs: seq<string>, bsln: map<string, NdArray>, exp: real -> real)
    : (r: Result<map<string, NdArray>>)
    requires AllWellShaped(bsln) && forall c :: c in chs ==> c in m.conf
    ensures r.Ok? ==> r.value.Keys == TrapChannels(m, chs, bsln)
    ensures r.Ok? ==> forall c :: c in r.value ==>
      r.value[c].Vec? && c in bsln && Settings(m.conf[c]).Some?
      && TrapSingleChannel(Settings(m.conf[c]).value, bsln[c], exp) == Ok(r.value[c].v)
    decreases |chs|
  {
    if |chs| == 0 then Ok(map[])
    else
      var ch := chs[0];
      if !Takes(m, bsln, ch) then TrapSingleLoop(m, chs[1..], bsln, exp)
      else
        var wf :- TrapSingleChannel(Settings(m.conf[ch]).value, bsln[ch], exp);
        var out :- TrapSingleLoop(m, chs[1..], bsln, exp);
        Ok(PutIfAbsent(out, ch, Vec(wf)))
  }

  /** `TrapezoidProc.procSingleEvent`. */
  function TrapSingleEvent(m: ChsMap, bsln: map<string, NdArray>, exp: real -> real)
    : (r: Result<map<string, NdArray>>)
    requires ValidChsMap(m) && AllWellShaped(bsln)
    ensures r.Ok? ==> r.value.Keys == TrapChannels(m, m.chs, bsln)
    ensures r.Ok? ==> forall c :: c in r.value ==> r.value[c].Vec?
  {
    TrapSingleLoop(m, m.chs, bsln, exp)
  }

  // ---------------------------------------------------------------------
  // Properties

  /** `trap_pur` measures the trapezoid's shape, not its height: scaling a
      trapezoid by a positive factor scales its energy by that factor and
      leaves its pile-up ratio unchanged. */
  lemma PurIgnoresAmplitude(trap: seq<real>, c: real)
    requires |trap| > 0 && c > 0.0
    ensures Max(Scale(trap, c)) == c * Max(trap)
    ensures PurValue(Scale(trap, c)) == PurValue(trap)
  {
    MaxScale(trap, c);
    ScaledStats(trap, c);
    RatioScales(c, Sum(trap), Max(trap));
  }


  lemma ScaledStats(trap: seq<real>, c: real)
    requires |trap| > 0 && c > 0.0
    ensures Max(Scale(trap, c)) == Times(c, Max(trap))
    ensures Sum(Scale(trap, c)) == Times(c, Sum(trap))
  {
    MaxScale(trap, c);
    SumTimes(trap, c);
  }

  lemma SumTimes(trap: seq<real>, c: real)
    ensures Sum(Scale(trap, c)) == Times(c, Sum(trap))
  {
    SumScale(trap, c);
  }

  /** A positive factor on both sides of a ratio cancels, and keeps a zero
      divisor zero. */
  lemma RatioScales(c: real, sm: real, mx: real)
    requires c > 0.0
    ensures Ratio(Times(c, sm), Times(c, mx)) == Ratio(sm, mx)
  {
    if mx != 0.0 {
      var q := sm / mx;
      assert sm == q * mx;
      assert c * sm == q * (c * mx);
    }
  }

  /** `k` identical pulses stacked on one waveform give `k` times the energy
      of one pulse and the same `trap_pur`. */
  lemma StackedPulsesKeepPur(x: seq<real>, k: nat, p: TrapParams)
    requires ValidTrap(p) && |x| > 0 && k > 0
    ensures Max(Trapezoid(Scale(x, k as real), p)) == Times(k as real, Max(Trapezoid(x, p)))
    ensures PurValue(Trapezoid(Scale(x, k as real), p)) == PurValue(Trapezoid(x, p))
  {
    var t := Trapezoid(x, p);
    TrapezoidRepeats(x, k, p);
    ScaledStats(t, k as real);
    PurIgnoresAmplitude(t, k as real);
  }

  /** An event with no signal (every baseline-subtracted sample zero) has
      zero energy and an undefined pile-up ratio. */
  lemma SilentEventHasNoEnergy(x: seq<real>, p: TrapParams)
    requires ValidTrap(p) && |x| > 0
    requires forall i :: 0 <= i < |x| ==> x[i] == 0.0
    ensures Max(Trapezoid(x, p)) == 0.0 && PurValue(Trapezoid(x, p)) == NonFinite
  {
    ZeroInputZeroTrapezoid(x, p);
    var t := Trapezoid(x, p);
    assert t[0] == 0.0;
  }

  /** The energy of a pile-up of two pulses is at most the sum of their
      energies, because the filter is linear. */
  lemma PileUpEnergyAtMostSum(x: seq<real>, z: seq<real>, p: TrapParams)
    requires ValidTrap(p) && |x| == |z| > 0
    ensures Max(Trapezoid(Add(x, z), p)) <= Max(Trapezoid(x, p)) + Max(Trapezoid(z, p))
  {
    TrapezoidAdds(x, z, p);
    var t := Trapezoid(Add(x, z), p);
    var j :| 0 <= j < |t| && t[j] == Max(t);
    assert t[j] == Trapezoid(x, p)[j] + Trapezoid(z, p)[j];
  }

  /** For a single event, `procSingleEvent` gives the trapezoid `doProc`
      gives for a one-event batch. */
  lemma SingleEventMatchesDoProc(st: TrapSettings, a: NdArray, trap: NdArray, exp: real -> real)
    requires IsTrapezoidOf(st, a, trap, exp) && |a.rows| == 1
    ensures TrapSingleChannel(st, a, exp) == Ok(trap.rows[0])
  {
    assert SingleEvent(a) == Ok(a.rows[0]);
  }
}

=== FILE: trigrate.dfy ===
/** The trigger-rate calculation of the processing daemon: an energy window
    on the trapezoid energy of channel `wf1`, a chain of user queries, and
    the rate over the run time left after removing the dead time of the
    events the queries dropped. */
module TrigRate {
  import opened Common
  import opened Tables
  import RawStages

  /** The column the energy window is applied to. */
  const EnergyCol: string := "wf1_energy_trap"

  /** A pandas `query` string, seen from outside: either pandas refuses it
      (a syntax error, an unknown column), or it keeps the rows satisfying a
      row predicate. */
  datatype Query = Query(valid: bool, keep: map<string, Value> -> bool)

  /** The `TrigRate` block of the configuration. */
  datatype TrigRateConf = TrigRateConf(minEnergy: real, maxEnergy: real, queries: seq<Query>)

  /** What the raw file's `metadata` tree gives, with the waveform length
      taken from the DAQ configuration. */
  datatype Meta = Meta(start: int, stop: int, runTime: real, sampFreq: real)

  /** The record stored for a run file; `rateErr` is the field the
      processing result calls `trig_rate_err`. */
  datatype RateRecord = RateRecord(procTs: int, trigTs: int, rate: real, rateErr: real)

  /** `MinTrapEnergy <= v <= MaxTrapEnergy`; a value that is not a number
      (NaN) fails both comparisons. */
  predicate InWindow(v: Value, lo: real, hi: real) {
    match RawStages.Numeric(v)
    case Some(x) => lo <= x && x <= hi
    case None => false
  }

  /** The row mask of the energy window. */
  function EnergyMask(t: Table, lo: real, hi: real): (m: seq<bool>)
    requires Valid(t) && EnergyCol in t.data
    ensures |m| == t.nrows
    ensures forall i :: 0 <= i < t.nrows ==> (m[i] <==> InWindow(t.data[EnergyCol].vals[i], lo, hi))
  {
    seq(t.nrows, i requires 0 <= i < t.nrows && Valid(t) && EnergyCol in t.data =>
      InWindow(t.data[EnergyCol].vals[i], lo, hi))
  }

  /** The query loop: each query filters what the previous ones left, and
      the first query pandas refuses ends the calculation. */
  function ApplyQueries(t: Table, qs: seq<Query>): (r: Option<Table>)
    requires Valid(t)
    ensures r.None? <==> exists i :: 0 <= i < |qs| && !qs[i].valid
    ensures r.Some? ==> Valid(r.value) && r.value.nrows <= t.nrows && r.value.cols == t.cols
    decreases |qs|
  {
    if |qs| == 0 then Some(t)
    else if !qs[0].valid then None
    else
      var r := ApplyQueries(FilterRows(t, RowMask(t, qs[0].keep)), qs[1..]);
      assert forall i :: 1 <= i < |qs| ==> qs[i] == qs[1..][i - 1];
      r
  }

  /** The event counts before and after the queries, for a table that has
      the energy column. */
  function Counts(c: TrigRateConf, df: Table): (r: Option<(nat, nat)>)
    requires Valid(df) && EnergyCol in df.data
    ensures r.None? <==> exists i :: 0 <= i < |c.queries| && !c.queries[i].valid
    ensures r.Some? ==> r.value.1 <= r.value.0 <= df.nrows
    ensures r.Some? ==> r.value.0 == Count(EnergyMask(df, c.minEnergy, c.maxEnergy))
  {
    var cut := FilterRows(df, EnergyMask(df, c.minEnergy, c.maxEnergy));
    match ApplyQueries(cut, c.queries)
    case None => None
    case Some(t) => Some((cut.nrows, t.nrows))
  }

  /** `FileRunTime - (n_before - n) / SampFreq * WfsLength`: every event the
      queries drop takes one waveform length of dead time off the run. */
  function RuntimeEff(m: Meta, wfsLen: int, nBefore: nat, n: nat): real
    requires m.sampFreq != 0.0
  {
    m.runTime - ((nBefore - n) as real / m.sampFreq) * (wfsLen as real)
  }

  /** `ProcTrigRate`. No `TrigRate` block: nothing. A table without the
      energy column raises KeyError; a refused query ends the calculation
      with no record; a zero sampling frequency or a zero effective run time
      raises ZeroDivisionError. Otherwise the record of the rate at the
      middle of the run, stamped with the clock reading `now`. */
  function ProcTrigRate(conf: Option<TrigRateConf>, df: Table, m: Meta, wfsLen: int, now: real, sqrt: real -> real)
    : (r: Result<Option<RateRecord>>)
    requires Valid(df)
    ensures conf.None? ==> r == Ok(None)
    ensures conf.Some? && EnergyCol !in df.data ==> r == Err(KeyError)
    ensures conf.Some? && EnergyCol in df.data && Counts(conf.value, df).None? ==> r == Ok(None)
    ensures conf.Some? && EnergyCol in df.data && Counts(conf.value, df).Some?
            && (m.sampFreq == 0.0
                || RuntimeEff(m, wfsLen, Counts(conf.value, df).value.0, Counts(conf.value, df).value.1) == 0.0)
            ==> r == Err(ZeroDivision)
    ensures r.Ok? && r.value.Some? <==>
      && conf.Some? && EnergyCol in df.data && Counts(conf.value, df).Some? && m.sampFreq != 0.0
      && RuntimeEff(m, wfsLen, Counts(conf.value, df).value.0, Counts(conf.value, df).value.1) != 0.0
    ensures r.Ok? && r.value.Some? ==>
      r.value.value == Record(m, Counts(conf.value, df).value.1,
                                 RuntimeEff(m, wfsLen, Counts(conf.value, df).value.0, Counts(conf.value, df).value.1),
                                 now, sqrt)
  {
    if conf.None? then Ok(None)
    else if EnergyCol !in df.data then Err(KeyError)
    else
      match Counts(conf.value, df)
      case None => Ok(None)
      case Some((nBefore, n)) =>
        if m.sampFreq == 0.0 then Err(ZeroDivision)
        else
          var eff := RuntimeEff(m, wfsLen, nBefore, n);
          if eff == 0.0 then Err(ZeroDivision)
          else
            Ok(Some(Record(m, n, eff, now, sqrt)))
  }

  /** The record for `n` events over the effective run time `eff`. */
  function Record(m: Meta, n: nat, eff: real, now: real, sqrt: real -> real): (rec: RateRecord)
    requires eff != 0.0
    ensures rec.procTs == Trunc(now + 0.5)
    ensures rec.trigTs == Trunc((m.start + m.stop) as real / 2.0 + 0.5)
  {
    RateRecord(Trunc(now + 0.5), Trunc((m.start + m.stop) as real / 2.0 + 0.5),
               n as real / eff, sqrt(n as real) / eff)
  }

  // ---------------------------------------------------------------------
  // The events the rate counts

  /** An event counts towards the rate when its energy lies in the window
      and every query keeps its row. */
  predicate Survives(c: TrigRateConf, row: map<string, Value>) {
    && EnergyCol in row && InWindow(row[EnergyCol], c.minEnergy, c.maxEnergy)
    && forall k :: 0 <= k < |c.queries| ==> c.queries[k].keep(row)
  }

  /** The number of events of `df` that count towards the rate. */
  function SurvivorCount(c: TrigRateConf, df: Table): nat
    requires Valid(df)
  {
    Count(seq(df.nrows, i requires 0 <= i < df.nrows && Valid(df) => Survives(c, Row(df, i))))
  }

  /** The energy window as a row predicate. */
  function InWindowRow(lo: real, hi: real): map<string, Value> -> bool {
    row => EnergyCol in row && InWindow(row[EnergyCol], lo, hi)
  }

  /** `Survives` as a row predicate. */
  function SurvivesRow(c: TrigRateConf): map<string, Value> -> bool {
    row => Survives(c, row)
  }

  /** Every query keeps the row. */
  predicate AllKeep(qs: seq<Query>, row: map<string, Value>) {
    forall k :: 0 <= k < |qs| ==> qs[k].keep(row)
  }

  /** The rows left by the query chain. */
  function FilterAll(rows: seq<map<string, Value>>, qs: seq<Query>): seq<map<string, Value>>
    decreases |qs|
  {
    if |qs| == 0 then rows else FilterAll(Where(rows, qs[0].keep), qs[1..])
  }

  /** The query loop leaves the rows every query keeps. */
  lemma {:induction false} ApplyQueriesRows(t: Table, qs: seq<Query>)
    requires Valid(t) && ApplyQueries(t, qs).Some?
    ensures Rows(ApplyQueries(t, qs).value) == FilterAll(Rows(t), qs)
    decreases |qs|
  {
    if |qs| > 0 {
      RowsOfQuery(t, qs[0].keep);
      ApplyQueriesRows(FilterRows(t, RowMask(t, qs[0].keep)), qs[1..]);
    }
  }

  lemma {:induction false} FilterAllSnoc(rows: seq<map<string, Value>>, x: map<string, Value>, qs: seq<Query>)
    ensures FilterAll(rows + [x], qs) == FilterAll(rows, qs) + (if AllKeep(qs, x) then [x] else [])
    decreases |qs|
  {
    if |qs| > 0 {
      WhereSnoc(rows, x, qs[0].keep);
      var w := Where(rows, qs[0].keep);
      if qs[0].keep(x) {
        FilterAllSnoc(w, x, qs[1..]);
        assert AllKeep(qs, x) <==> AllKeep(qs[1..], x) by {
          if AllKeep(qs[1..], x) {
            forall k | 0 <= k < |qs| ensures qs[k].keep(x) {
              if k > 0 { assert qs[k] == qs[1..][k - 1]; }
            }
          }
        }
      } else {
        assert !AllKeep(qs, x);
        assert w + [] == w;
      }
    }
  }

  /** The energy window followed by the query chain keeps exactly the
      surviving rows. */
  lemma {:induction false} WindowThenQueries(rows: seq<map<string, Value>>, c: TrigRateConf)
    ensures FilterAll(Where(rows, InWindowRow(c.minEnergy, c.maxEnergy)), c.queries)
         == Where(rows, SurvivesRow(c))
    decreases |rows|
  {
    if |rows| > 0 {
      var n := |rows| - 1;
      var e, sv := InWindowRow(c.minEnergy, c.maxEnergy), SurvivesRow(c);
      var front, x := rows[..n], rows[n];
      WindowThenQueries(front, c);
      assert rows == front + [x];
      WhereSnoc(front, x, e);
      WhereSnoc(front, x, sv);
      assert sv(x) <==> e(x) && AllKeep(c.queries, x);
      if e(x) {
        FilterAllSnoc(Where(front, e), x, c.queries);
        assert Where(rows, e) == Where(front, e) + [x];
      } else {
        assert Where(rows, e) == Where(front, e);
        assert Where(rows, sv) == Where(front, sv);
      }
    } else {
      FilterAllEmpty(c.queries);
    }
  }

  lemma {:induction false} FilterAllEmpty(qs: seq<Query>)
    ensures FilterAll([], qs) == []
    decreases |qs|
  {
    if |qs| > 0 {
      FilterAllEmpty(qs[1..]);
    }
  }

  /** A record that counts `n` events over the run time `eff`: a non-zero
      run time, which the rate times gives back `n` and the error times
      gives back the Poisson error `sqrt(n)`. */
  ghost predicate CountedOver(rec: RateRecord, n: nat, eff: real, sqrt: real -> real) {
    && eff != 0.0
    && rec.rate * eff == n as real
    && rec.rateErr * eff == sqrt(n as real)
  }

  /** The count after the queries is the number of surviving events. */
  lemma CountsSurvivors(c: TrigRateConf, df: Table)
    requires Valid(df) && EnergyCol in df.data && Counts(c, df).Some?
    ensures Counts(c, df).value.1 == SurvivorCount(c, df)
  {
    QueriedRows(c, df);
    SurvivorRows(c, df);
  }

  /** The rows left after the window and the queries are the surviving rows. */
  lemma QueriedRows(c: TrigRateConf, df: Table)
    requires Valid(df) && EnergyCol in df.data && Counts(c, df).Some?
    ensures Counts(c, df).value.1 == |Where(Rows(df), SurvivesRow(c))|
  {
    var e := InWindowRow(c.minEnergy, c.maxEnergy);
    var mask := EnergyMask(df, c.minEnergy, c.maxEnergy);
    WindowIsQuery(df, c.minEnergy, c.maxEnergy);
    var cut := FilterRows(df, mask);
    var u := ApplyQueries(cut, c.queries).value;
    assert Counts(c, df).value.1 == u.nrows;
    RowsOfQuery(df, e);
    ApplyQueriesRows(cut, c.queries);
    WindowThenQueries(Rows(df), c);
  }

  /** The energy window is the row mask of `InWindowRow`. */
  lemma WindowIsQuery(df: Table, lo: real, hi: real)
    requires Valid(df) && EnergyCol in df.data
    ensures EnergyMask(df, lo, hi) == RowMask(df, InWindowRow(lo, hi))
  {
  }

  lemma SurvivorRows(c: TrigRateConf, df: Table)
    requires Valid(df)
    ensures SurvivorCount(c, df) == |Where(Rows(df), SurvivesRow(c))|
  {
    var sv := seq(df.nrows, i requires 0 <= i < df.nrows && Valid(df) => Survives(c, Row(df, i)));
    SelectWhere(Rows(df), sv, SurvivesRow(c));
  }

  /** The rate counts exactly the events whose energy lies in the window and
      that every query keeps: rate times the effective run time (the run
      time less one waveform length per event the queries dropped) gives
      back their number, and the error times it gives `sqrt` of it. */
  lemma RateCountsSurvivors(c: TrigRateConf, df: Table, m: Meta, wfsLen: int, now: real, sqrt: real -> real,
                            rec: RateRecord)
    requires Valid(df)
    requires ProcTrigRate(Some(c), df, m, wfsLen, now, sqrt) == Ok(Some(rec))
    ensures m.sampFreq != 0.0
    ensures CountedOver(rec, SurvivorCount(c, df),
                        RuntimeEff(m, wfsLen, Count(EnergyMask(df, c.minEnergy, c.maxEnergy)), SurvivorCount(c, df)), sqrt)
  {
    assert EnergyCol in df.data && Counts(c, df).Some?;
    CountsSurvivors(c, df);
    var n := SurvivorCount(c, df);
    var eff := RuntimeEff(m, wfsLen, Count(EnergyMask(df, c.minEnergy, c.maxEnergy)), n);
    assert Counts(c, df).value == (Count(EnergyMask(df, c.minEnergy, c.maxEnergy)), n);
    RecordOver(rec, m, n, eff, now, sqrt);
  }

  /** The record's rate and error times the run time they were divided by. */
  lemma RecordOver(rec: RateRecord, m: Meta, n: nat, eff: real, now: real, sqrt: real -> real)
    requires eff != 0.0 && rec == Record(m, n, eff, now, sqrt)
    ensures CountedOver(rec, n, eff, sqrt)
  {
  }

  /** Every dropped event removes the same dead time, so the effective run
      time shrinks (for a positive frequency and waveform length) as the
      queries drop more events. */
  lemma DeadTimeGrows(m: Meta, wfsLen: int, nBefore: nat, n1: nat, n2: nat)
    requires m.sampFreq > 0.0 && wfsLen > 0 && n2 <= n1 <= nBefore
    ensures RuntimeEff(m, wfsLen, nBefore, n2) <= RuntimeEff(m, wfsLen, nBefore, n1)
  {
    var a := (nBefore - n1) as real / m.sampFreq;
    var b := (nBefore - n2) as real / m.sampFreq;
    assert a <= b;
    assert a * (wfsLen as real) <= b * (wfsLen as real);
  }

  /** The trigger timestamp is the middle of the run rounded half up, so it
      lies within the run. */
  lemma TrigTimestampWithinRun(m: Meta)
    requires 0 <= m.start <= m.stop
    ensures m.start <= Trunc((m.start + m.stop) as real / 2.0 + 0.5) <= m.stop
  {
  }
}

=== FILE: walk.dfy ===
/** The directory walk shared by the processing and the sync daemons: path
    strings as `os.path` builds and splits them, a snapshot of a directory
    tree, the top-down `os.walk` that stops descending at depth two, and the
    extension filter that turns each visited directory into the list of files
    the daemon works on. */
module Walk {
  import opened Common

  // ---------------------------------------------------------------------
  // Path strings

  /** Occurrences of `c` in `s`. */
  function CountChar(s: string, c: char): (n: nat)
    ensures n <= |s|
    decreases |s|
  {
    if |s| == 0 then 0 else CountChar(s[..|s| - 1], c) + (if s[|s| - 1] == c then 1 else 0)
  }

  /** The last position of `c` in `s`, if any. */
  function LastIndex(s: string, c: char): (r: Option<nat>)
    ensures r.None? ==> forall k :: 0 <= k < |s| ==> s[k] != c
    ensures r.Some? ==> r.value < |s| && s[r.value] == c
    ensures r.Some? ==> forall k :: r.value < k < |s| ==> s[k] != c
    decreases |s|
  {
    if |s| == 0 then None
    else if s[|s| - 1] == c then Some(|s| - 1)
    else LastIndex(s[..|s| - 1], c)
  }

  /** `os.path.basename`: what follows the last separator. */
  function Basename(p: string): (r: string)
    ensures '/' !in r && |r| <= |p| && r == p[|p| - |r|..]
  {
    var i := LastIndex(p, '/');
    if i.None? then p else p[i.value + 1..]
  }

  /** A directory or file name as a listing returns it: not empty, not `.`
      and free of separators. */
  predicate ValidName(n: string) {
    n != "" && n != "." && '/' !in n
  }

  /** `os.path.join(d, n)` for a name without separators and a directory
      that does not end in a separator; `os.path.join` adds no second
      separator after one that does, a case the model leaves out (every
      base directory is taken without a trailing separator). */
  function Join(d: string, n: string): string {
    d + "/" + n
  }

  /** `base` joined with a path relative to it; the walk's top directory
      `.` resolves to the base itself. */
  function DirPath(base: string, rel: string): string {
    if rel == "." then base else Join(base, rel)
  }

  /** The base name of a joined path is the name joined. */
  lemma BasenameOfJoin(d: string, n: string)
    requires '/' !in n
    ensures Basename(Join(d, n)) == n
  {
    var p := Join(d, n);
    assert p[|d|] == '/';
    assert forall k :: |d| < k < |p| ==> p[k] == n[k - |d| - 1];
    assert p[|d| + 1..] == n;
  }

  /** `os.path.splitext(name)[1]` for a name without separators: from the
      last dot on, unless everything before that dot is dots (a hidden name
      such as `.root` has no extension). */
  function Ext(name: string): (r: string)
    ensures r == "" || (0 < |r| <= |name| && r[0] == '.' && '.' !in r[1..] && r == name[|name| - |r|..])
  {
    var i := LastIndex(name, '.');
    if i.None? then ""
    else if forall j :: 0 <= j < i.value ==> name[j] == '.' then ""
    else name[i.value..]
  }

  /** A name made of a stem with some non-dot character and a dotted
      extension has exactly that extension. */
  lemma ExtOfStem(stem: string, e: string)
    requires '.' !in e && exists j :: 0 <= j < |stem| && stem[j] != '.'
    ensures Ext(stem + "." + e) == "." + e
  {
    var name := stem + "." + e;
    assert name[|stem|] == '.';
    assert forall k :: |stem| < k < |name| ==> name[k] == e[k - |stem| - 1];
    assert name[|stem|..] == "." + e;
    var j :| 0 <= j < |stem| && stem[j] != '.';
    assert name[j] == stem[j];
  }

  /** A name consisting of dots and one extension, like `.root`, has none. */
  lemma HiddenNameHasNoExt(e: string)
    requires '.' !in e
    ensures Ext("." + e) == ""
  {
    var name := "." + e;
    assert forall k :: 0 < k < |name| ==> name[k] == e[k - 1];
  }

  /** The `'/'`-joined names, `.` for the top directory: the `relpath` the
      walk reports. */
  function RelPath(names: seq<string>): (r: string)
    decreases |names|
  {
    if |names| == 0 then "."
    else if |names| == 1 then names[0]
    else Join(RelPath(names[..|names| - 1]), names[|names| - 1])
  }

  /** `0 if relpath == "." else relpath.count(os.sep) + 1`. */
  function Depth(rel: string): (d: nat) {
    if rel == "." then 0 else CountChar(rel, '/') + 1
  }

  lemma CountCharAppend(a: string, b: string, c: char)
    ensures CountChar(a + b, c) == CountChar(a, c) + CountChar(b, c)
    decreases |b|
  {
    if |b| == 0 {
      assert a + b == a;
    } else {
      assert (a + b)[..|a + b| - 1] == a + b[..|b| - 1];
      CountCharAppend(a, b[..|b| - 1], c);
    }
  }

  lemma CountCharAbsent(s: string, c: char)
    requires c !in s
    ensures CountChar(s, c) == 0
    decreases |s|
  {
    if |s| > 0 {
      assert s[..|s| - 1] <= s;
      CountCharAbsent(s[..|s| - 1], c);
    }
  }

  /** The depth of a directory reached by `names` is the number of names. */
  lemma {:induction false} DepthOfRelPath(names: seq<string>)
    requires forall i :: 0 <= i < |names| ==> ValidName(names[i])
    ensures Depth(RelPath(names)) == |names|
    ensures |names| > 0 ==> RelPath(names) != "." && CountChar(RelPath(names), '/') == |names| - 1
    decreases |names|
  {
    if |names| == 1 {
      CountCharAbsent(names[0], '/');
    } else if |names| > 1 {
      var init, last := names[..|names| - 1], names[|names| - 1];
      DepthOfRelPath(init);
      CountCharAppend(RelPath(init) + "/", last, '/');
      CountCharAppend(RelPath(init), "/", '/');
      CountCharAbsent(last, '/');
      assert CountChar("/", '/') == 1;
      assert RelPath(names) != "." by {
        assert |RelPath(names)| > 1 || CountChar(RelPath(names), '/') > 0;
        assert CountChar(".", '/') == 0;
      }
    }
  }

  // ---------------------------------------------------------------------
  // The walk

  /** A snapshot of a directory: its file names and its subdirectories,
      in listing order. */
  datatype Dir = Dir(files: seq<string>, subnames: seq<string>, subs: seq<Dir>)

  /** Every directory has one name per subdirectory, the names are valid and
      no two siblings share a name. */
  ghost predicate WellFormed(d: Dir) {
    && |d.subnames| == |d.subs|
    && Distinct(d.subnames)
    && (forall i :: 0 <= i < |d.subnames| ==> ValidName(d.subnames[i]))
    && (forall i :: 0 <= i < |d.subs| ==> WellFormed(d.subs[i]))
  }

  /** One directory as `os.walk` yields it: its relative path and its files. */
  datatype Visit = Visit(rel: string, files: seq<string>)

  /** `os.walk` from `d`, reached by `path`: the directory itself, then, unless
      it lies two or more levels down (`dirnames[:] = []`), each subdirectory's
      walk in listing order. */
  function WalkFrom(d: Dir, path: seq<string>): (vs: seq<Visit>)
    ensures |vs| > 0 && vs[0] == Visit(RelPath(path), d.files)
    decreases d, |d.subs| + 1
  {
    [Visit(RelPath(path), d.files)]
    + (if Depth(RelPath(path)) >= 2 then [] else WalkChildren(d, path, 0))
  }

  /** The walks of the subdirectories of `d` from the `i`-th on. */
  function WalkChildren(d: Dir, path: seq<string>, i: nat): (vs: seq<Visit>)
    requires i <= |d.subs|
    decreases d, |d.subs| - i
  {
    if i == |d.subs| then []
    else if i >= |d.subnames| then WalkChildren(d, path, i + 1)
    else WalkFrom(d.subs[i], path + [d.subnames[i]]) + WalkChildren(d, path, i + 1)
  }

  /** The walk of the whole tree. */
  function Walk(root: Dir): (vs: seq<Visit>)
    requires WellFormed(root)
  {
    WalkFrom(root, [])
  }

  /** The directory reached from `d` by following `names`. */
  function Reach(d: Dir, names: seq<string>): (r: Option<Dir>)
    decreases |names|
  {
    if |names| == 0 then Some(d)
    else if names[0] !in d.subnames || |d.subnames| != |d.subs| then None
    else
      var i := FirstIndex(d.subnames, names[0]);
      Reach(d.subs[i], names[1..])
  }

  function FirstIndex(s: seq<string>, x: string): (i: nat)
    requires x in s
    ensures i < |s| && s[i] == x && x !in s[..i]
  {
    if s[0] == x then 0 else FirstIndex(s[1..], x) + 1
  }

  /** No visited directory lies deeper than two levels. */
  lemma {:induction false} WalkFromDepth(d: Dir, path: seq<string>)
    requires WellFormed(d) && |path| <= 2
    requires forall i :: 0 <= i < |path| ==> ValidName(path[i])
    ensures forall v :: v in WalkFrom(d, path) ==> Depth(v.rel) <= 2
    decreases d, |d.subs| + 1
  {
    DepthOfRelPath(path);
    if Depth(RelPath(path)) < 2 {
      WalkChildrenDepth(d, path, 0);
    }
  }

  lemma {:induction false} WalkChildrenDepth(d: Dir, path: seq<string>, i: nat)
    requires WellFormed(d) && |path| < 2 && i <= |d.subs|
    requires forall k :: 0 <= k < |path| ==> ValidName(path[k])
    ensures forall v :: v in WalkChildren(d, path, i) ==> Depth(v.rel) <= 2
    decreases d, |d.subs| - i
  {
    if i < |d.subs| {
      var p := path + [d.subnames[i]];
      assert forall k :: 0 <= k < |p| ==> ValidName(p[k]) by {
        forall k | 0 <= k < |p| ensures ValidName(p[k]) {
          if k < |path| { assert p[k] == path[k]; }
        }
      }
      WalkFromDepth(d.subs[i], p);
      WalkChildrenDepth(d, path, i + 1);
    }
  }

  /** The walk never goes below depth two. */
  lemma WalkDepthBound(root: Dir)
    requires WellFormed(root)
    ensures forall v :: v in Walk(root) ==> Depth(v.rel) <= 2
  {
    WalkFromDepth(root, []);
  }

  /** Every directory at most two levels down is visited, with its files. */
  lemma {:induction false} WalkFromComplete(d: Dir, path: seq<string>, names: seq<string>)
    requires WellFormed(d) && |path| + |names| <= 2 && Reach(d, names).Some?
    requires forall i :: 0 <= i < |path| ==> ValidName(path[i])
    ensures Visit(RelPath(path + names), Reach(d, names).value.files) in WalkFrom(d, path)
    decreases |names|
  {
    if |names| == 0 {
      assert path + names == path;
    } else {
      DepthOfRelPath(path);
      assert Depth(RelPath(path)) < 2;
      var i := FirstIndex(d.subnames, names[0]);
      var sub := d.subs[i];
      assert Reach(d, names) == Reach(sub, names[1..]);
      var p := path + [names[0]];
      assert forall k :: 0 <= k < |p| ==> ValidName(p[k]) by {
        forall k | 0 <= k < |p| ensures ValidName(p[k]) {
          if k < |path| { assert p[k] == path[k]; }
        }
      }
      WalkFromComplete(sub, p, names[1..]);
      MoveFirst(path, names);
      var v := Visit(RelPath(path + names), Reach(d, names).value.files);
      assert v in WalkFrom(sub, p);
      assert v in WalkFrom(d, path) by {
        ChildWalkIncluded(d, path, 0, i);
        assert WalkFrom(d, path) == [Visit(RelPath(path), d.files)] + WalkChildren(d, path, 0);
      }
    }
  }

  /** Moving the first name of `names` to the end of `path` keeps the
      concatenation. */
  lemma MoveFirst(path: seq<string>, names: seq<string>)
    requires |names| > 0
    ensures (path + [names[0]]) + names[1..] == path + names
  {
    assert names == [names[0]] + names[1..];
  }

  /** The walk of the `i`-th subdirectory is part of the children's walk. */
  lemma {:induction false} ChildWalkIncluded(d: Dir, path: seq<string>, j: nat, i: nat)
    requires WellFormed(d) && j <= i < |d.subs|
    ensures forall v :: v in WalkFrom(d.subs[i], path + [d.subnames[i]]) ==> v in WalkChildren(d, path, j)
    decreases i - j
  {
    if j < i {
      ChildWalkIncluded(d, path, j + 1, i);
    }
  }

  /** Completeness: each directory at most two levels below the top appears
      in the walk under its relative path. */
  lemma WalkComplete(root: Dir, names: seq<string>)
    requires WellFormed(root) && |names| <= 2 && Reach(root, names).Some?
    ensures Visit(RelPath(names), Reach(root, names).value.files) in Walk(root)
  {
    WalkFromComplete(root, [], names);
    assert [] + names == names;
  }

  // ---------------------------------------------------------------------
  // Candidate files

  /** The files of a directory whose extension is in `exts`, in listing order. */
  function Candidates(files: seq<string>, exts: set<string>): (r: seq<string>)
    ensures forall f :: f in r <==> f in files && Ext(f) in exts
    ensures |r| <= |files|
    decreases |files|
  {
    if |files| == 0 then []
    else (if Ext(files[0]) in exts then [files[0]] else []) + Candidates(files[1..], exts)
  }

  /** `w` is the candidate list of some directory of `vs`. */
  ghost predicate SelectedFrom(vs: seq<Visit>, exts: set<string>, w: Visit) {
    exists v :: v in vs && w == Visit(v.rel, Candidates(v.files, exts))
  }

  /** The directories handed on by the tree loop: each visited directory
      with its candidate files, directories without candidates skipped. */
  function Selected(vs: seq<Visit>, exts: set<string>): (r: seq<Visit>)
    ensures forall v :: v in r ==> |v.files| > 0 && forall f :: f in v.files ==> Ext(f) in exts
    ensures forall v :: v in vs && |Candidates(v.files, exts)| > 0 ==> Visit(v.rel, Candidates(v.files, exts)) in r
    ensures forall w :: w in r ==> SelectedFrom(vs, exts, w)
    decreases |vs|
  {
    if |vs| == 0 then []
    else
      var c := Candidates(vs[0].files, exts);
      var rest := Selected(vs[1..], exts);
      SelectedFromTail(vs, exts, rest);
      (if |c| > 0 then [Visit(vs[0].rel, c)] else []) + rest
  }

  lemma SelectedFromTail(vs: seq<Visit>, exts: set<string>, rest: seq<Visit>)
    requires |vs| > 0 && forall w :: w in rest ==> SelectedFrom(vs[1..], exts, w)
    ensures forall w :: w in rest ==> SelectedFrom(vs, exts, w)
  {
    forall w | w in rest ensures SelectedFrom(vs, exts, w) {
      var v :| v in vs[1..] && w == Visit(v.rel, Candidates(v.files, exts));
      assert v in vs;
    }
  }

  /** `ProcTree` / `_sync_tree` before the per-directory work. */
  function DirsToProcess(root: Dir, exts: set<string>): (r: seq<Visit>)
    requires WellFormed(root)
    ensures forall v :: v in r ==> Depth(v.rel) <= 2 && |v.files| > 0
  {
    WalkDepthBound(root);
    Selected(Walk(root), exts)
  }

  /** Every directory at most two levels down that holds a file with one of
      the extensions is visited, with exactly those files. */
  lemma DirsToProcessComplete(root: Dir, exts: set<string>, names: seq<string>)
    requires WellFormed(root) && |names| <= 2 && Reach(root, names).Some?
    requires |Candidates(Reach(root, names).value.files, exts)| > 0
    ensures Visit(RelPath(names), Candidates(Reach(root, names).value.files, exts)) in DirsToProcess(root, exts)
  {
    WalkComplete(root, names);
  }

  /** The extensions the processing daemon takes. */
  const ProcExts: set<string> := {".root"}
  /** The extensions the sync daemon takes. */
  const SyncExts: set<string> := {".root", ".json", ".txt"}

  /** The union of `own(v)` over the directories `dirs`: what a pass over
      them may write when each directory writes only within `own(v)`. */
  function OwnOf(dirs: seq<Visit>, own: Visit -> set<string>): set<string>
    decreases |dirs|
  {
    if |dirs| == 0 then {} else own(dirs[0]) + OwnOf(dirs[1..], own)
  }
}

=== FILE: wfslibs.dfy ===
/** The numeric kernels of the waveform library: the recursive trapezoidal
    (pole-zero) filter, Gaussian smoothing and derivative-of-Gaussian kernels
    with a "same"-mode convolution, and the connected-segment pulse counter
    `find_rel_maxima`. Everything is over `real`; `exp` enters only through
    the parameters `a = e^(1/tau) - 1` and the Gaussian weights. */
module WfsLibs {
  import opened Common
  import opened Series
  import opened NdArrays

  // ---------------------------------------------------------------------
  // Trapezoidal filter

  /** Parameters of one filter: rise time `w`, flat top `g`, decay constant
      `tau` and the pole-zero constant `a = exp(1/tau) - 1`. */
  datatype TrapParams = TrapParams(w: nat, g: int, tau: real, a: real)

  /** Parameters for which every tap lies at or before the current sample
      and the output is finite. */
  ghost predicate ValidTrap(p: TrapParams) {
    p.w > 0 && p.w + p.g >= 0 && p.tau != 0.0 && p.a != 0.0
  }

  /** `x[k]`, or nothing (zero) when `k` is negative. */
  function Tap(x: seq<real>, k: int): real
    requires k < |x|
  {
    if k >= 0 then x[k] else 0.0
  }

  /** The four-tap difference `d[n] = x[n] - x[n-w] - x[n-w-g] + x[n-2w-g]`. */
  function D(x: seq<real>, p: TrapParams, n: nat): real
    requires ValidTrap(p) && n < |x|
  {
    x[n] - Tap(x, n - p.w) - Tap(x, n - p.w - p.g) + Tap(x, n - 2 * p.w - p.g)
  }

  /** The accumulator `p[n] = p[n-1] + d[n]`. */
  function P(x: seq<real>, p: TrapParams, n: nat): real
    requires ValidTrap(p) && n < |x|
  {
    if n == 0 then D(x, p, 0) else P(x, p, n - 1) + D(x, p, n)
  }

  /** The running sum `s[n] = s[n-1] + p[n] + d[n]/a`. */
  function S(x: seq<real>, p: TrapParams, n: nat): real
    requires ValidTrap(p) && n < |x|
  {
    if n == 0 then P(x, p, 0) + D(x, p, 0) / p.a
    else S(x, p, n - 1) + P(x, p, n) + D(x, p, n) / p.a
  }

  /** The trapezoid of one waveform: `out[n] = s[n] / tau / w`. */
  function Trapezoid(x: seq<real>, p: TrapParams): (out: seq<real>)
    requires ValidTrap(p)
    ensures |out| == |x|
    ensures forall n :: 0 <= n < |x| ==> out[n] == S(x, p, n) / p.tau / (p.w as real)
  {
    seq(|x|, n requires 0 <= n < |x| && ValidTrap(p) => S(x, p, n) / p.tau / (p.w as real))
  }

  /** The sample loop of `trapezoidalFilt` for one waveform, carrying `pn` and
      `sn` from one sample to the next as the source does. */
  method TrapezoidalFiltRow(x: seq<real>, p: TrapParams) returns (out: seq<real>)
    requires ValidTrap(p)
    ensures |out| == |x|
    ensures forall n :: 0 <= n < |x| ==> out[n] == S(x, p, n) / p.tau / (p.w as real)
  {
    out := [];
    var pn := 0.0;
    var sn := 0.0;
    var w := p.w;
    for n := 0 to |x|
      invariant |out| == n
      invariant forall k :: 0 <= k < n ==> out[k] == S(x, p, k) / p.tau / (w as real)
      invariant n > 0 ==> pn == P(x, p, n - 1) && sn == S(x, p, n - 1)
    {
      var dlk := FourTap(x, p, n);
      if n == 0 {
        pn := dlk;
        sn := pn + dlk / p.a;
      } else {
        pn := pn + dlk;
        sn := sn + pn + dlk / p.a;
      }
      assert pn == P(x, p, n) && sn == S(x, p, n);
      out := out + [sn / p.tau / (w as real)];
    }
  }

  /** The four taps of sample `n`, skipping those before the start. */
  method FourTap(x: seq<real>, p: TrapParams, n: nat) returns (dlk: real)
    requires ValidTrap(p) && n < |x|
    ensures dlk == D(x, p, n)
  {
    var w, g := p.w, p.g;
    dlk := x[n];
    if n - w >= 0 {
      dlk := dlk - x[n - w];
    }
    assert dlk == x[n] - Tap(x, n - w);
    if n - w - g >= 0 {
      dlk := dlk - x[n - w - g];
    }
    assert dlk == x[n] - Tap(x, n - w) - Tap(x, n - w - g);
    if n - 2 * w - g >= 0 {
      dlk := dlk + x[n - 2 * w - g];
    }
  }

  /** `trapezoidalFilt` on an array: a 1-D waveform gives a 1-D trapezoid of
      the same length, a batch gives a batch of the same shape, and an array
      of higher rank fails to unpack its shape (ValueError). */
  function TrapezoidalFilt(arr: NdArray, p: TrapParams): (r: Result<NdArray>)
    requires ValidTrap(p) && WellShaped(arr)
    ensures r.Err? <==> arr.Higher?
    ensures r.Err? ==> r.error == ValueError
    ensures arr.Vec? ==> r == Ok(Vec(Trapezoid(arr.v, p)))
    ensures arr.Mat? ==> r.Ok? && IsBatch(r.value, |arr.rows|, arr.ncols)
    ensures arr.Mat? ==> forall i :: 0 <= i < |arr.rows| ==> r.value.rows[i] == Trapezoid(arr.rows[i], p)
  {
    match arr
    case Higher => Err(ValueError)
    case Vec(v) => Ok(Vec(Trapezoid(v, p)))
    case Mat(m, rows) =>
      Ok(Mat(m, seq(|rows|, i requires 0 <= i < |rows| => Trapezoid(rows[i], p))))
  }

  /** The number of samples per waveform of an array of rank one or two. */
  function Samples(arr: NdArray): nat
    requires !arr.Higher?
  {
    if arr.Vec? then |arr.v| else arr.ncols
  }

  /** `trapezoidalFilt(arr, shape_time, tau, flat_top)` with the source's
      failure modes in the order they occur: a rank above two fails to unpack
      its shape (ValueError); `1./tau` raises ZeroDivisionError for `tau ==
      0`; with no samples the loop never runs and the zeros come back; a
      negative `shape_time` or `shape_time + flat_top` makes the last sample
      index past the end (IndexError); a batch without events divides
      nothing and comes back as it is; otherwise a zero `shape_time` or `a`
      divides by zero and fills the output with NaN or inf (NotFinite). */
  function TrapFilter(arr: NdArray, shapeTime: int, tau: real, flatTop: int, exp: real -> real)
    : (r: Result<NdArray>)
    requires WellShaped(arr)
    ensures arr.Higher? ==> r == Err(ValueError)
    ensures !arr.Higher? && tau == 0.0 ==> r == Err(ZeroDivision)
    ensures !arr.Higher? && tau != 0.0 && Samples(arr) == 0 ==> r == Ok(arr)
    ensures !arr.Higher? && tau != 0.0 && Samples(arr) > 0 && (shapeTime < 0 || shapeTime + flatTop < 0)
            ==> r == Err(IndexError)
    ensures arr.Mat? && |arr.rows| == 0 && tau != 0.0 && shapeTime >= 0 && shapeTime + flatTop >= 0 ==> r == Ok(arr)
    ensures r.Ok? && Samples(arr) > 0 && (arr.Vec? || |arr.rows| > 0) ==> shapeTime > 0 && ValidTrap(TrapParams(shapeTime, flatTop, tau, exp(1.0 / tau) - 1.0))
    ensures r.Ok? && Samples(arr) > 0 && (arr.Vec? || |arr.rows| > 0) ==>
      r == TrapezoidalFilt(arr, TrapParams(shapeTime, flatTop, tau, exp(1.0 / tau) - 1.0))
    ensures r.Ok? <==> && !arr.Higher? && tau != 0.0
                       && (|| Samples(arr) == 0
                           || (arr.Mat? && |arr.rows| == 0 && shapeTime >= 0 && shapeTime + flatTop >= 0)
                           || (shapeTime > 0 && ValidTrap(TrapParams(shapeTime, flatTop, tau, exp(1.0 / tau) - 1.0))))
  {
    if arr.Higher? then Err(ValueError)
    else if tau == 0.0 then Err(ZeroDivision)
    else if Samples(arr) == 0 then Ok(arr)
    else if shapeTime < 0 || shapeTime + flatTop < 0 then Err(IndexError)
    else if arr.Mat? && |arr.rows| == 0 then Ok(arr)
    else
      var p := TrapParams(shapeTime, flatTop, tau, exp(1.0 / tau) - 1.0);
      if shapeTime == 0 || p.a == 0.0 then Err(NotFinite)
      else TrapezoidalFilt(arr, p)
  }

  /** A waveform of zeros has a trapezoid of zeros. */
  lemma {:induction false} ZeroInputZeroTrapezoid(x: seq<real>, p: TrapParams)
    requires ValidTrap(p)
    requires forall i :: 0 <= i < |x| ==> x[i] == 0.0
    ensures forall n :: 0 <= n < |x| ==> Trapezoid(x, p)[n] == 0.0
  {
    forall n | 0 <= n < |x|
      ensures Trapezoid(x, p)[n] == 0.0
    {
      ZeroInputZeroSum(x, p, n);
    }
  }

  lemma {:induction false} ZeroInputZeroSum(x: seq<real>, p: TrapParams, n: nat)
    requires ValidTrap(p) && n < |x|
    requires forall i :: 0 <= i < |x| ==> x[i] == 0.0
    ensures D(x, p, n) == 0.0 && P(x, p, n) == 0.0 && S(x, p, n) == 0.0
  {
    if n > 0 {
      ZeroInputZeroSum(x, p, n - 1);
    }
  }

  /** The filter is linear: the trapezoid of two superposed waveforms (a
      pile-up) is the sum of their trapezoids. */
  lemma {:induction false} TrapezoidAdds(x: seq<real>, z: seq<real>, p: TrapParams)
    requires ValidTrap(p) && |x| == |z|
    ensures Trapezoid(Add(x, z), p) == Add(Trapezoid(x, p), Trapezoid(z, p))
  {
    var y := Add(x, z);
    forall n | 0 <= n < |x|
      ensures Trapezoid(y, p)[n] == Add(Trapezoid(x, p), Trapezoid(z, p))[n]
    {
      SumAdds(x, z, p, n);
      var sx := S(x, p, n);
      var sz := S(z, p, n);
      DivideAdd(sx, sz, p.tau);
      DivideAdd(sx / p.tau, sz / p.tau, p.w as real);
    }
  }

  /** Element-wise `x + z`. */
  function Add(x: seq<real>, z: seq<real>): (r: seq<real>)
    requires |x| == |z|
    ensures |r| == |x|
    ensures forall i :: 0 <= i < |x| ==> r[i] == x[i] + z[i]
  {
    seq(|x|, i requires 0 <= i < |x| && |z| == |x| => x[i] + z[i])
  }

  lemma {:induction false} PAdds(x: seq<real>, z: seq<real>, p: TrapParams, n: nat)
    requires ValidTrap(p) && |x| == |z| && n < |x|
    ensures D(Add(x, z), p, n) == D(x, p, n) + D(z, p, n)
    ensures P(Add(x, z), p, n) == P(x, p, n) + P(z, p, n)
  {
    if n > 0 {
      PAdds(x, z, p, n - 1);
    }
  }

  lemma {:induction false} SumAdds(x: seq<real>, z: seq<real>, p: TrapParams, n: nat)
    requires ValidTrap(p) && |x| == |z| && n < |x|
    ensures S(Add(x, z), p, n) == S(x, p, n) + S(z, p, n)
  {
    PAdds(x, z, p, n);
    DivideAdd(D(x, p, n), D(z, p, n), p.a);
    if n > 0 {
      SumAdds(x, z, p, n - 1);
    }
  }

  /** Stacking `k` copies of a waveform stacks `k` copies of its trapezoid:
      the filter is homogeneous over whole-number factors, by additivity. */
  lemma {:induction false} TrapezoidRepeats(x: seq<real>, k: nat, p: TrapParams)
    requires ValidTrap(p)
    ensures Trapezoid(Scale(x, k as real), p) == Scale(Trapezoid(x, p), k as real)
    decreases k
  {
    var t := Trapezoid(x, p);
    if k == 0 {
      var z := Scale(x, 0.0);
      assert forall i :: 0 <= i < |z| ==> z[i] == 0.0;
      ZeroInputZeroTrapezoid(z, p);
      assert Trapezoid(z, p) == Scale(t, 0.0);
    } else {
      var j: nat := k - 1;
      TrapezoidRepeats(x, j, p);
      ScaleSucc(x, j);
      TrapezoidAdds(Scale(x, j as real), x, p);
      ScaleSucc(t, j);
    }
  }

  /** `(j + 1) * s` is `j * s + s`, element by element. */
  lemma ScaleSucc(s: seq<real>, j: nat)
    ensures Scale(s, (j + 1) as real) == Add(Scale(s, j as real), s)
  {
    var l, r := Scale(s, (j + 1) as real), Add(Scale(s, j as real), s);
    forall i | 0 <= i < |s|
      ensures l[i] == r[i]
    {
      assert l[i] == (j as real + 1.0) * s[i];
    }
  }

  /** The four-tap difference rejects a constant baseline: once all four
      taps are inside the waveform, `d[n]` of a constant input is zero. */
  lemma ConstantInputDifferenceVanishes(x: seq<real>, v: real, p: TrapParams, n: nat)
    requires ValidTrap(p) && n < |x|
    requires forall i :: 0 <= i < |x| ==> x[i] == v
    requires n >= 2 * p.w + p.g
    ensures D(x, p, n) == 0.0
  {
  }

  // ---------------------------------------------------------------------
  // Gaussian kernels and "same"-mode convolution

  /** `exp(-x^2 / (2 sigma^2))` for `x` in `-h .. h`. */
  function GaussWeights(exp: real -> real, sigma: real, h: nat): (gw: seq<real>)
    requires sigma != 0.0
    ensures |gw| == 2 * h + 1
  {
    seq(2 * h + 1, i requires 0 <= i < 2 * h + 1 =>
      exp(-(((i - h) * (i - h)) as real) / (2.0 * sigma * sigma)))
  }

  /** The smoothing kernel `gaussian / gaussian.sum()`: the weights scaled so
      that they sum to exactly one. */
  function SmoothingKernel(gw: seq<real>): (k: seq<real>)
    requires Sum(gw) != 0.0
    ensures |k| == |gw|
    ensures Sum(k) == 1.0
    ensures forall i :: 0 <= i < |gw| ==> k[i] * Sum(gw) == gw[i]
  {
    SumDivide(gw, Sum(gw));
    assert Sum(gw) / Sum(gw) == 1.0;
    Divide(gw, Sum(gw))
  }

  /** The derivative kernel `-x * gaussian / sigma^2`, centred by subtracting
      its own mean: it has the weights' length and mean exactly zero. */
  function DerivativeKernel(gw: seq<real>, h: nat, sigma: real): (k: seq<real>)
    requires |gw| == 2 * h + 1 && sigma != 0.0
    ensures |k| == 2 * h + 1
    ensures Sum(k) == 0.0 && Mean(k) == 0.0
  {
    var raw := seq(2 * h + 1, i requires 0 <= i < 2 * h + 1 && |gw| == 2 * h + 1 =>
      -((i - h) as real) * gw[i] / (sigma * sigma));
    CenteredSumZero(raw);
    Shift(raw, Mean(raw))
  }

  /** `x[i]` inside the waveform, zero padding outside it. */
  function XAt(x: seq<real>, i: int): real {
    if 0 <= i < |x| then x[i] else 0.0
  }

  /** `sum_{j < m} k[j] * x[n - j]`: the first `m` products of the full
      convolution at output index `n`. */
  function ConvSum(x: seq<real>, k: seq<real>, n: int, m: nat): real
    requires m <= |k|
  {
    if m == 0 then 0.0 else ConvSum(x, k, n, m - 1) + k[m - 1] * XAt(x, n - (m - 1))
  }

  /** The full convolution, of length `|x| + |k| - 1`. */
  function ConvolveFull(x: seq<real>, k: seq<real>): (r: seq<real>)
    requires |x| > 0 && |k| > 0
    ensures |r| == |x| + |k| - 1
  {
    seq(|x| + |k| - 1, n requires 0 <= n < |x| + |k| - 1 => ConvSum(x, k, n, |k|))
  }

  /** `scipy.signal.convolve(x, k, mode='same')`: the centre `|x|` samples of
      the full convolution, starting at `(|k| - 1) / 2`. */
  function ConvolveSame(x: seq<real>, k: seq<real>): (r: seq<real>)
    requires |k| > 0
    ensures |r| == |x|
    ensures |x| > 0 ==> r == ConvolveFull(x, k)[(|k| - 1) / 2 .. (|k| - 1) / 2 + |x|]
  {
    seq(|x|, n requires 0 <= n < |x| => ConvSum(x, k, n + (|k| - 1) / 2, |k|))
  }

  /** The centred unit impulse of half width `h`. */
  function Impulse(h: nat): (k: seq<real>)
    ensures |k| == 2 * h + 1
  {
    seq(2 * h + 1, i requires 0 <= i < 2 * h + 1 => if i == h then 1.0 else 0.0)
  }

  /** Convolving with the centred unit impulse returns the waveform: the
      "same" window is aligned with the input. */
  lemma ConvolveImpulseIsIdentity(x: seq<real>, h: nat)
    ensures ConvolveSame(x, Impulse(h)) == x
  {
    var k := Impulse(h);
    forall n | 0 <= n < |x|
      ensures ConvolveSame(x, k)[n] == x[n]
    {
      ImpulseSum(x, h, n + h, |k|);
    }
  }

  lemma {:induction false} ImpulseSum(x: seq<real>, h: nat, n: int, m: nat)
    requires m <= 2 * h + 1
    ensures ConvSum(x, Impulse(h), n, m) == if m > h then XAt(x, n - h) else 0.0
  {
    if m > 0 {
      ImpulseSum(x, h, n, m - 1);
    }
  }

  /** Over a window where the waveform is flat at `c`, the first `m`
      products sum to `c` times the first `m` kernel weights. */
  lemma {:induction false} ConvSumOfFlat(x: seq<real>, k: seq<real>, n: int, m: nat, c: real)
    requires m <= |k| && n < |x| && n - m + 1 >= 0
    requires forall i :: 0 <= i < |x| ==> x[i] == c
    ensures ConvSum(x, k, n, m) == c * Sum(k[..m])
  {
    if m > 0 {
      ConvSumOfFlat(x, k, n, m - 1, c);
      assert k[..m][..m - 1] == k[..m - 1];
      assert XAt(x, n - (m - 1)) == c;
      assert c * Sum(k[..m]) == c * Sum(k[..m - 1]) + c * k[m - 1];
    }
  }

  /** Away from the edges (`h` samples from either end), a flat waveform at
      level `c` filtered with a kernel of half width `h` gives `c` times the
      kernel's sum `s`. */
  lemma FlatInterior(x: seq<real>, k: seq<real>, h: nat, c: real, n: int, s: real)
    requires |k| == 2 * h + 1 && h <= n < |x| - h && s == Sum(k)
    requires forall i :: 0 <= i < |x| ==> x[i] == c
    ensures ConvolveSame(x, k)[n] == c * s
  {
    SameAt(x, k, h, n);
    assert Sum(k[..|k|]) == s by {
      assert k[..|k|] == k;
    }
    ConvSumOfFlat(x, k, n + h, |k|, c);
  }

  /** Output `n` of the "same" convolution with a kernel of half width `h`
      is the full sum centred `h` samples later. */
  lemma SameAt(x: seq<real>, k: seq<real>, h: nat, n: int)
    requires |k| == 2 * h + 1 && 0 <= n < |x|
    ensures ConvolveSame(x, k)[n] == ConvSum(x, k, n + h, |k|)
  {
    assert (|k| - 1) / 2 == h;
  }

  /** `gaussian_filter` applied with a given kernel: 1-D in gives 1-D out of
      the same length; a batch is filtered row by row; an empty batch comes
      back as the empty 1-D array `np.array([])`; rank above two makes
      `convolve` reject mismatched dimensions (ValueError). */
  function FilterArray(arr: NdArray, k: seq<real>): (r: Result<NdArray>)
    requires |k| > 0 && WellShaped(arr)
    ensures r.Err? <==> arr.Higher?
    ensures r.Err? ==> r.error == ValueError
    ensures arr.Vec? ==> r == Ok(Vec(ConvolveSame(arr.v, k)))
    ensures arr.Mat? && |arr.rows| == 0 ==> r == Ok(Vec([]))
    ensures arr.Mat? && |arr.rows| > 0 ==> r.Ok? && IsBatch(r.value, |arr.rows|, arr.ncols)
    ensures arr.Mat? && |arr.rows| > 0 ==>
      forall i :: 0 <= i < |arr.rows| ==> r.value.rows[i] == ConvolveSame(arr.rows[i], k)
  {
    match arr
    case Higher => Err(ValueError)
    case Vec(v) => Ok(Vec(ConvolveSame(v, k)))
    case Mat(m, rows) =>
      if |rows| == 0 then Ok(Vec([]))
      else Ok(Mat(m, seq(|rows|, i requires 0 <= i < |rows| => ConvolveSame(rows[i], k))))
  }

  /** `gaussian_filter(wfs, sigma, kernel_half_width, derivative)`. */
  function GaussianFilter(arr: NdArray, exp: real -> real, sigma: real, h: nat, derivative: bool)
    : (r: Result<NdArray>)
    requires WellShaped(arr) && sigma != 0.0
    requires !derivative ==> Sum(GaussWeights(exp, sigma, h)) != 0.0
    ensures r.Err? <==> arr.Higher?
    ensures !derivative ==> r == FilterArray(arr, SmoothingKernel(GaussWeights(exp, sigma, h)))
    ensures derivative ==> r == FilterArray(arr, DerivativeKernel(GaussWeights(exp, sigma, h), h, sigma))
  {
    var gw := GaussWeights(exp, sigma, h);
    if derivative then FilterArray(arr, DerivativeKernel(gw, h, sigma))
    else FilterArray(arr, SmoothingKernel(gw))
  }

  /** `gauss_filters`: the derivative and the smoothed waveforms of the
      same input, both of the input's shape. */
  function GaussFilters(arr: NdArray, exp: real -> real, sigma: real, h: nat): (r: Result<(NdArray, NdArray)>)
    requires WellShaped(arr) && sigma != 0.0 && Sum(GaussWeights(exp, sigma, h)) != 0.0
    ensures r.Err? <==> arr.Higher?
    ensures r.Ok? && arr.Vec? ==> r.value.0.Vec? && r.value.1.Vec? && |r.value.0.v| == |r.value.1.v| == |arr.v|
    ensures r.Ok? && arr.Mat? && |arr.rows| > 0 ==>
      IsBatch(r.value.0, |arr.rows|, arr.ncols) && IsBatch(r.value.1, |arr.rows|, arr.ncols)
    ensures r.Ok? ==> r.value.0 == GaussianFilter(arr, exp, sigma, h, false).value
    ensures r.Ok? ==> r.value.1 == GaussianFilter(arr, exp, sigma, h, true).value
  {
    if arr.Higher? then Err(ValueError)
    else Ok((GaussianFilter(arr, exp, sigma, h, false).value, GaussianFilter(arr, exp, sigma, h, true).value))
  }

  // ---------------------------------------------------------------------
  // find_rel_maxima

  function Sign(x: real): int {
    if x > 0.0 then 1 else if x < 0.0 then -1 else 0
  }

  /** The derivative changes sign from strictly positive at `i` to strictly
      negative at `i + 1`. */
  predicate PosToNeg(d: seq<real>, i: nat)
    requires i + 1 < |d|
  {
    Sign(d[i]) > 0 && Sign(d[i + 1]) < 0
  }

  /** The transition mask: both samples of every positive-to-negative sign
      change are marked. */
  function TransitionMask(d: seq<real>): (m: seq<bool>)
    ensures |m| == |d|
    ensures forall i :: 0 <= i < |d| ==>
      (m[i] <==> (i + 1 < |d| && PosToNeg(d, i)) || (i >= 1 && PosToNeg(d, i - 1)))
  {
    seq(|d|, i requires 0 <= i < |d| =>
      (i + 1 < |d| && PosToNeg(d, i)) || (i >= 1 && PosToNeg(d, i - 1)))
  }

  /** Samples above the threshold that lie on a transition. */
  function PileMask(d: seq<real>, wf: seq<real>, thr: real): (m: seq<bool>)
    requires |d| == |wf|
    ensures |m| == |d|
    ensures forall i :: 0 <= i < |d| ==> (m[i] <==> wf[i] > thr && TransitionMask(d)[i])
  {
    var t := TransitionMask(d);
    seq(|d|, i requires 0 <= i < |d| && |t| == |d| && |wf| == |d| => wf[i] > thr && t[i])
  }

  /** `scipy.ndimage.label` of a 1-D mask, scanning left to right: a set cell
      that continues a run takes the run's label, a set cell that starts a
      run takes the next label, and a clear cell takes 0. */
  function Label(m: seq<bool>): (r: (seq<nat>, nat))
    ensures |r.0| == |m|
    decreases |m|
  {
    if |m| == 0 then ([], 0)
    else
      var q := m[..|m| - 1];
      var prev := Label(q);
      if !m[|m| - 1] then (prev.0 + [0], prev.1)
      else if |q| > 0 && q[|q| - 1] then (prev.0 + [prev.1], prev.1)
      else (prev.0 + [prev.1 + 1], prev.1 + 1)
  }

  /** Some cell carries label `v`. */
  ghost predicate Used(l: seq<nat>, v: nat) {
    exists i :: 0 <= i < |l| && l[i] == v
  }

  /** `l` labels the maximal runs of `m` with `1..n`: clear cells get 0,
      neighbouring set cells share a label, set cells with a clear cell
      between them get increasing labels, and every label up to `n` is used.
      Hence `n` is the number of maximal runs. */
  ghost predicate SegmentLabelling(m: seq<bool>, l: seq<nat>, n: nat) {
    && |l| == |m|
    && (forall i :: 0 <= i < |m| ==> (l[i] == 0 <==> !m[i]))
    && (forall i :: 0 <= i < |m| ==> l[i] <= n)
    && (forall i :: 0 < i < |m| && m[i - 1] && m[i] ==> l[i] == l[i - 1])
    && (forall i, j, k :: 0 <= i < k < j < |m| && m[i] && !m[k] && m[j] ==> l[i] < l[j])
    && (forall v :: 1 <= v <= n ==> Used(l, v))
  }

  /** The last cell, when set, carries the largest label. */
  ghost predicate LastIsTop(m: seq<bool>, l: seq<nat>, n: nat)
    requires |l| == |m|
  {
    |m| > 0 && m[|m| - 1] ==> l[|m| - 1] == n
  }

  /** `Label` is a segment labelling of its mask. */
  lemma {:induction false} LabelIsSegmentLabelling(m: seq<bool>)
    ensures SegmentLabelling(m, Label(m).0, Label(m).1)
    ensures LastIsTop(m, Label(m).0, Label(m).1)
    decreases |m|
  {
    if |m| > 0 {
      var q := m[..|m| - 1];
      LabelIsSegmentLabelling(q);
      var l := Label(q).0;
      var n := Label(q).1;
      if !m[|m| - 1] {
        ExtendClear(m, l, n);
      } else if |q| > 0 && q[|q| - 1] {
        ExtendContinue(m, l, n);
      } else {
        ExtendStart(m, l, n);
      }
    }
  }

  lemma ExtendClear(m: seq<bool>, l: seq<nat>, n: nat)
    requires |m| > 0 && !m[|m| - 1]
    requires SegmentLabelling(m[..|m| - 1], l, n)
    ensures SegmentLabelling(m, l + [0], n) && LastIsTop(m, l + [0], n)
  {
    var q := m[..|m| - 1];
    var l' := l + [0];
    LabelsStayUsed(l, 0, n);
    forall i | 0 <= i < |m|
      ensures (l'[i] == 0 <==> !m[i]) && l'[i] <= n
    {
      if i < |m| - 1 {
        assert q[i] == m[i] && l'[i] == l[i];
      }
    }
    forall i | 0 < i < |m| && m[i - 1] && m[i]
      ensures l'[i] == l'[i - 1]
    {
      assert q[i - 1] == m[i - 1] && q[i] == m[i];
      assert l'[i - 1] == l[i - 1] && l'[i] == l[i];
    }
    forall i, j, k | 0 <= i < k < j < |m| && m[i] && !m[k] && m[j]
      ensures l'[i] < l'[j]
    {
      assert q[i] && !q[k] && q[j];
      assert l'[i] == l[i] && l'[j] == l[j];
    }
  }

  lemma ExtendContinue(m: seq<bool>, l: seq<nat>, n: nat)
    requires |m| > 1 && m[|m| - 1] && m[|m| - 2]
    requires SegmentLabelling(m[..|m| - 1], l, n) && LastIsTop(m[..|m| - 1], l, n)
    ensures SegmentLabelling(m, l + [n], n) && LastIsTop(m, l + [n], n)
  {
    var q := m[..|m| - 1];
    var l' := l + [n];
    LabelsStayUsed(l, n, n);
    forall i | 0 <= i < |m|
      ensures (l'[i] == 0 <==> !m[i]) && l'[i] <= n
    {
      if i < |m| - 1 {
        assert q[i] == m[i] && l'[i] == l[i];
      }
    }
    forall i | 0 < i < |m| && m[i - 1] && m[i]
      ensures l'[i] == l'[i - 1]
    {
      assert q[i - 1] == m[i - 1] && l'[i - 1] == l[i - 1];
      if i < |m| - 1 {
        assert q[i] == m[i] && l'[i] == l[i];
      }
    }
    forall i, j, k | 0 <= i < k < j < |m| && m[i] && !m[k] && m[j]
      ensures l'[i] < l'[j]
    {
      assert l'[i] == l[i];
      if j == |m| - 1 {
        assert q[i] && !q[k] && q[j - 1];
        assert l[i] < l[j - 1];
      } else {
        assert q[i] && !q[k] && q[j] && l'[j] == l[j];
      }
    }
  }

  lemma ExtendStart(m: seq<bool>, l: seq<nat>, n: nat)
    requires |m| > 0 && m[|m| - 1] && (|m| == 1 || !m[|m| - 2])
    requires SegmentLabelling(m[..|m| - 1], l, n)
    ensures SegmentLabelling(m, l + [n + 1], n + 1) && LastIsTop(m, l + [n + 1], n + 1)
  {
    var q := m[..|m| - 1];
    var l' := l + [n + 1];
    LabelsStayUsed(l, n + 1, n);
    assert l'[|l|] == n + 1;
    assert Used(l', n + 1);
    forall i | 0 <= i < |m|
      ensures (l'[i] == 0 <==> !m[i]) && l'[i] <= n + 1
    {
      if i < |m| - 1 {
        assert q[i] == m[i] && l'[i] == l[i];
      }
    }
    forall i | 0 < i < |m| && m[i - 1] && m[i]
      ensures l'[i] == l'[i - 1]
    {
      assert q[i - 1] == m[i - 1] && q[i] == m[i];
      assert l'[i - 1] == l[i - 1] && l'[i] == l[i];
    }
    forall i, j, k | 0 <= i < k < j < |m| && m[i] && !m[k] && m[j]
      ensures l'[i] < l'[j]
    {
      assert l'[i] == l[i] && l[i] <= n;
    }
  }

  /** Appending a label keeps every label `1..n` in use. */
  lemma LabelsStayUsed(l: seq<nat>, x: nat, n: nat)
    requires forall v :: 1 <= v <= n ==> Used(l, v)
    ensures forall v :: 1 <= v <= n ==> Used(l + [x], v)
  {
    forall v | 1 <= v <= n
      ensures Used(l + [x], v)
    {
      assert Used(l, v);
      var i :| 0 <= i < |l| && l[i] == v;
      assert (l + [x])[i] == v;
    }
  }

  /** `find_rel_maxima(dwf, wf, thr)`: a threshold that is not positive
      raises ValueError, and so does the `max()` of the labels of an empty
      waveform; otherwise the number of connected segments of the pile mask,
      and the segment labels. */
  function FindRelMaxima(dwf: seq<real>, wf: seq<real>, thr: real): (r: Result<(nat, seq<nat>)>)
    requires |dwf| == |wf|
    ensures r.Err? <==> thr <= 0.0 || |wf| == 0
    ensures r.Err? ==> r.error == ValueError
    ensures r.Ok? ==> SegmentLabelling(PileMask(dwf, wf, thr), r.value.1, r.value.0)
  {
    if thr <= 0.0 || |wf| == 0 then Err(ValueError)
    else
      var m := PileMask(dwf, wf, thr);
      LabelIsSegmentLabelling(m);
      Ok((Label(m).1, Label(m).0))
  }

  /** Two pulses, each with a single positive-to-negative derivative crossing
      above threshold and separated by a quiet sample, count as two. */
  lemma TwoSeparatedPulsesCountTwo()
    ensures var r := FindRelMaxima([1.0, -1.0, 0.0, 1.0, -1.0], [5.0, 5.0, 0.0, 5.0, 5.0], 1.0);
      r.Ok? && r.value.0 == 2 && r.value.1 == [1, 1, 0, 2, 2]
  {
    var d := [1.0, -1.0, 0.0, 1.0, -1.0];
    var wf := [5.0, 5.0, 0.0, 5.0, 5.0];
    var m := PileMask(d, wf, 1.0);
    assert m == [true, true, false, true, true];
    var m4 := [true, true, false, true];
    var m3 := [true, true, false];
    var m2 := [true, true];
    var m1 := [true];
    assert m[..4] == m4 && m4[..3] == m3 && m3[..2] == m2 && m2[..1] == m1 && m1[..0] == [];
    assert Label([]) == ([], 0);
    var r1 := Label(m1);
    assert r1.0 == [1] && r1.1 == 1;
    var r2 := Label(m2);
    assert r2.0 == [1, 1] && r2.1 == 1;
    var r3 := Label(m3);
    assert r3.0 == [1, 1, 0] && r3.1 == 1;
    var r4 := Label(m4);
    assert r4.0 == [1, 1, 0, 2] && r4.1 == 2;
    var r5 := Label(m);
    assert r5.0 == [1, 1, 0, 2, 2] && r5.1 == 2;
  }
}

=== FILE: wfsproc.dfy ===
/** The interface every waveform processor shares: the channel map
    (`GatorChsMap`) read from a JSON object, the name-to-class registry the
    processors add themselves to, and the base class `GatorWfsProc`, whose
    hooks are left unimplemented. */
module WfsProc {
  import opened Common

  /** The `bslnsubtr` entry of a channel; a key absent from the JSON is None. */
  datatype BslnConf = BslnConf(bslnsamps: Option<int>, bslnMeth: Option<string>, negPulse: Option<bool>)

  /** One entry of a channel's `processors` object, with every setting any
      processor reads; a key absent from the JSON is None. */
  datatype ProcParams = ProcParams(
    threshold: Option<real>,
    shapeTime: Option<int>,
    tau: Option<real>,
    flatTop: Option<int>,
    sigma: Option<real>,
    kernelHalfWidth: Option<int>,
    findPulses: Option<bool>,
    amplMinThr: Option<real>,
    derivative: Option<bool>)

  /** The settings of one channel. */
  datatype ChannelConf = ChannelConf(bsln: Option<BslnConf>, processors: Option<map<string, ProcParams>>)

  /** A JSON object as parsed: its members in document order. */
  type Members = seq<(string, ChannelConf)>

  /** `GatorChsMap`: the channel settings and `chs_lst`, the channel names in
      the order the JSON object lists them. */
  datatype ChsMap = ChsMap(chs: seq<string>, conf: map<string, ChannelConf>)

  /** `chs_lst` names every channel of the map exactly once. */
  ghost predicate ValidChsMap(m: ChsMap) {
    Distinct(m.chs) && forall c :: c in m.conf <==> c in m.chs
  }

  /** The channels of `chs` a processor takes part in: those `takes`
      accepts. Each processor's channel loop skips every other channel. */
  function ChannelsWhere(chs: seq<string>, takes: string -> bool): (s: set<string>)
    ensures forall c :: c in s <==> c in chs && takes(c)
    decreases |chs|
  {
    if |chs| == 0 then {}
    else (if takes(chs[0]) then {chs[0]} else {}) + ChannelsWhere(chs[1..], takes)
  }

  /** Member `i` is the last member with its key. */
  ghost predicate LastWithKey(ms: Members, i: int) {
    0 <= i < |ms| && forall j :: i < j < |ms| ==> ms[j].0 != ms[i].0
  }

  /** Some member has key `c`. */
  ghost predicate HasKey(ms: Members, c: string) {
    exists i :: 0 <= i < |ms| && ms[i].0 == c
  }

  /** A Python dict built from the members: a key keeps the position of its
      first occurrence and takes the value of its last one. */
  function FromMembers(ms: Members): (m: ChsMap)
    ensures ValidChsMap(m)
    decreases |ms|
  {
    if |ms| == 0 then ChsMap([], map[])
    else
      var k := ms[|ms| - 1].0;
      var prev := FromMembers(ms[..|ms| - 1]);
      if k in prev.conf then ChsMap(prev.chs, prev.conf[k := ms[|ms| - 1].1])
      else ChsMap(prev.chs + [k], prev.conf[k := ms[|ms| - 1].1])
  }

  /** The dict holds exactly the keys of the members. */
  lemma {:induction false} FromMembersKeys(ms: Members)
    ensures forall c :: c in FromMembers(ms).conf <==> HasKey(ms, c)
    decreases |ms|
  {
    if |ms| > 0 {
      var p := ms[..|ms| - 1];
      FromMembersKeys(p);
      forall c | HasKey(ms, c)
        ensures c in FromMembers(ms).conf
      {
        var i :| 0 <= i < |ms| && ms[i].0 == c;
        if i < |p| {
          assert p[i].0 == c;
        }
      }
      forall c | c in FromMembers(ms).conf
        ensures HasKey(ms, c)
      {
        if c != ms[|ms| - 1].0 {
          var i :| 0 <= i < |p| && p[i].0 == c;
          assert ms[i].0 == c;
        }
      }
    }
  }

  /** Every key holds the value of the last member carrying it. */
  lemma {:induction false} FromMembersLastValue(ms: Members)
    ensures forall c :: c in FromMembers(ms).conf ==>
      exists i :: LastWithKey(ms, i) && ms[i] == (c, FromMembers(ms).conf[c])
    decreases |ms|
  {
    if |ms| > 0 {
      var p := ms[..|ms| - 1];
      var k := ms[|ms| - 1].0;
      FromMembersLastValue(p);
      var prev := FromMembers(p);
      var m := FromMembers(ms);
      forall c | c in m.conf
        ensures exists i :: LastWithKey(ms, i) && ms[i] == (c, m.conf[c])
      {
        if c == k {
          assert LastWithKey(ms, |ms| - 1) && ms[|ms| - 1] == (c, m.conf[c]);
        } else {
          var i :| LastWithKey(p, i) && p[i] == (c, prev.conf[c]);
          assert m.conf[c] == prev.conf[c];
          LastWithKeyExtends(ms, i);
        }
      }
    }
  }

  /** A last member of the prefix stays last when the final member has a
      different key. */
  lemma LastWithKeyExtends(ms: Members, i: int)
    requires |ms| > 0 && LastWithKey(ms[..|ms| - 1], i) && ms[|ms| - 1].0 != ms[i].0
    ensures LastWithKey(ms, i) && ms[i] == ms[..|ms| - 1][i]
  {
  }

  /** The key order is the order of first occurrence: `chs_lst` lists the
      channels as the JSON text first names them. */
  lemma {:induction false} FromMembersFirstOccurrenceOrder(ms: Members, i: nat, j: nat)
    requires i < j < |FromMembers(ms).chs|
    ensures exists a :: 0 <= a < |ms| && ms[a].0 == FromMembers(ms).chs[i] &&
                        (forall b :: 0 <= b <= a ==> ms[b].0 != FromMembers(ms).chs[j])
    decreases |ms|
  {
    var p := ms[..|ms| - 1];
    var k := ms[|ms| - 1].0;
    var prev := FromMembers(p);
    var m := FromMembers(ms);
    FromMembersKeys(p);
    if j < |prev.chs| {
      FromMembersFirstOccurrenceOrder(p, i, j);
      var a :| 0 <= a < |p| && p[a].0 == prev.chs[i] && forall b :: 0 <= b <= a ==> p[b].0 != prev.chs[j];
      assert ms[a].0 == m.chs[i];
      assert forall b :: 0 <= b <= a ==> ms[b].0 != m.chs[j] by {
        forall b | 0 <= b <= a
          ensures ms[b].0 != m.chs[j]
        {
          assert ms[b] == p[b];
        }
      }
    } else {
      // chs[j] is the key `k` first seen in the last member
      assert m.chs[j] == k && k !in prev.conf;
      assert prev.chs[i] in prev.conf;
      assert HasKey(p, prev.chs[i]);
      var a :| 0 <= a < |p| && p[a].0 == prev.chs[i];
      assert ms[a].0 == m.chs[i];
      assert forall b :: 0 <= b <= a ==> ms[b].0 != m.chs[j] by {
        forall b | 0 <= b <= a
          ensures ms[b].0 != m.chs[j]
        {
          assert ms[b] == p[b];
        }
      }
    }
  }

  /** `jsonstr.replace("'", '"')`. */
  function ReplaceQuotes(s: string): (r: string)
    ensures |r| == |s|
    ensures forall i :: 0 <= i < |s| ==> r[i] == if s[i] == '\'' then '"' else s[i]
  {
    seq(|s|, i requires 0 <= i < |s| => if s[i] == '\'' then '"' else s[i])
  }

  /** After the replacement no single quote is left, and replacing again
      changes nothing. */
  lemma ReplaceQuotesNormalises(s: string)
    ensures '\'' !in ReplaceQuotes(s)
    ensures ReplaceQuotes(ReplaceQuotes(s)) == ReplaceQuotes(s)
  {
  }

  /** A Python string is truthy when it is given and not empty. */
  predicate Truthy(s: Option<string>) {
    s.Some? && |s.value| > 0
  }

  /** The channel map a JSON text parses to; a text that is not valid JSON
      raises `json.JSONDecodeError`, a ValueError. */
  function Parsed(text: string, parse: string -> Option<Members>): (r: Result<ChsMap>)
    ensures r.Ok? <==> parse(text).Some?
    ensures r.Ok? ==> r.value == FromMembers(parse(text).value)
    ensures r.Err? ==> r.error == ValueError
  {
    match parse(text)
    case None => Err(ValueError)
    case Some(ms) => Ok(FromMembers(ms))
  }

  /** `GatorChsMap(jsonfile=..., jsonstr=...)`. `files` maps the existing
      paths to their contents. */
  function LoadChsMap(jsonstr: Option<string>, jsonfile: Option<string>, files: map<string, string>,
                      parse: string -> Option<Members>): (r: Result<ChsMap>)
    ensures r.Ok? ==> ValidChsMap(r.value)
    ensures Truthy(jsonstr) ==> r == Parsed(ReplaceQuotes(jsonstr.value), parse)
    ensures !Truthy(jsonstr) && Truthy(jsonfile) && jsonfile.value in files ==>
      r == Parsed(files[jsonfile.value], parse)
    ensures !Truthy(jsonstr) && Truthy(jsonfile) && jsonfile.value !in files ==> r == Err(FileNotFound)
    ensures !Truthy(jsonstr) && !Truthy(jsonfile) ==> r == Err(ValueError)
  {
    if Truthy(jsonstr) then Parsed(ReplaceQuotes(jsonstr.value), parse)
    else if Truthy(jsonfile) then
      if jsonfile.value !in files then Err(FileNotFound)
      else Parsed(files[jsonfile.value], parse)
    else Err(ValueError)
  }

  /** A string given on the command line wins over a file, whatever the
      file holds or whether it exists. */
  lemma JsonStrWins(s: string, f1: Option<string>, f2: Option<string>, files1: map<string, string>,
                    files2: map<string, string>, parse: string -> Option<Members>)
    requires |s| > 0
    ensures LoadChsMap(Some(s), f1, files1, parse) == LoadChsMap(Some(s), f2, files2, parse)
  {
  }

  // ---------------------------------------------------------------------
  // Processor classes and their registry

  datatype StageKind =
    | BaseProc          // GatorWfsProc itself
    | RawWfsProc        // GatorRawWfsProc
    | BslnSubtraction   // GatorBslnSubtraction
    | TrapezoidProc     // TrapezoidProc, registered as "trapezoid"
    | GaussFilters      // WfsGaussianFilters, registered as "gaussfilter"
    | RawPurProc        // GatorRawPurProc, registered as "rawpur"

  type Registry = map<string, StageKind>

  /** `register_wfs_processor(name)(cls)`: a name already taken raises
      RuntimeError and leaves the registry as it was; otherwise the name maps
      to the class and the class itself is returned. */
  function Register(reg: Registry, name: string, cls: StageKind): (r: (Registry, Result<StageKind>))
    ensures name in reg ==> r.0 == reg && r.1 == Err(RuntimeError)
    ensures name !in reg ==> r.1 == Ok(cls)
    ensures name !in reg ==> r.0.Keys == reg.Keys + {name} && r.0[name] == cls
    ensures name !in reg ==> forall n :: n in reg ==> r.0[n] == reg[n]
  {
    if name in reg then (reg, Err(RuntimeError)) else (reg[name := cls], Ok(cls))
  }

  /** A second registration under a taken name fails, whichever class it
      brings, and the first class stays registered. */
  lemma RegisterTwiceKeepsFirst(reg: Registry, name: string, c1: StageKind, c2: StageKind)
    requires name !in reg
    ensures Register(Register(reg, name, c1).0, name, c2).1 == Err(RuntimeError)
    ensures Register(Register(reg, name, c1).0, name, c2).0[name] == c1
  {
  }

  /** The registry after the processor modules are imported, each
      registering itself once. */
  function DefaultRegistry(): (r: Result<Registry>)
    ensures r.Ok?
    ensures r.value.Keys == {"gaussfilter", "rawpur", "trapezoid"}
    ensures r.value["rawpur"] == RawPurProc
    ensures r.value["trapezoid"] == TrapezoidProc
    ensures r.value["gaussfilter"] == GaussFilters
  {
    var (r1, a) := Register(map[], "rawpur", RawPurProc);
    var (r2, b) := Register(r1, "trapezoid", TrapezoidProc);
    var (r3, c) := Register(r2, "gaussfilter", GaussFilters);
    if a.Err? || b.Err? || c.Err? then Err(RuntimeError) else Ok(r3)
  }

  /** `GatorWfsProc.__init__(chs_map, dataprocessor)`: the instance is
      appended to the data processor's callbacks, when one is given, before
      `_post_init` runs; the base class's `_post_init` raises
      NotImplementedError, so the base class cannot be instantiated even
      though it has already been appended. */
  function Construct(kind: StageKind, callbacks: Option<seq<StageKind>>)
    : (r: (Option<seq<StageKind>>, Result<StageKind>))
    ensures callbacks.Some? ==> r.0 == Some(callbacks.value + [kind])
    ensures callbacks.None? ==> r.0 == None
    ensures r.1.Err? <==> kind == BaseProc
    ensures r.1.Err? ==> r.1.error == NotImplemented
    ensures r.1.Ok? ==> r.1.value == kind
  {
    var cbs := if callbacks.Some? then Some(callbacks.value + [kind]) else None;
    if kind == BaseProc then (cbs, Err(NotImplemented)) else (cbs, Ok(kind))
  }

  /** Only the base class fails to construct, and its failed instance is left
      behind in the callback list. */
  lemma BaseProcFailsAfterAppending(cbs: seq<StageKind>)
    ensures Construct(BaseProc, Some(cbs)).1 == Err(NotImplemented)
    ensures Construct(BaseProc, Some(cbs)).0 == Some(cbs + [BaseProc])
    ensures forall k :: k != BaseProc ==> Construct(k, None).1 == Ok(k)
  {
  }
}
